=== FILE: README.md ===
# Astrocore core, modelled in Dafny

Astrocore is a 2D scene-graph game engine built on raylib and Box2D. This
project models the parts of it that are plain bookkeeping:

- the `Entity2D` tree: IDs, child lists, parent links, visibility, paths, summed draw layers and transform flags;
- the newer `Node` tree;
- the `Scene` indices: registration, path lookup, the resource locator, the hooks each frame reaches, and the draw list with its two comparators;
- the physics bridge: the collision tracker, contact dispatch, collider filters, fixture buffering, triggers and ray casts;
- the small registries: textures, input actions, shapes, animated sprites, sprite flips and stacked-sprite perspective;
- the integer arithmetic of tilemaps: layers, the atlas and grid cells;
- the `Debug` flags, log and line queue.

Each component is one module in `model/`. Operations are pure functions
from the old state to the new state. A `Result` is either the value, a
C++ exception (`Throw`) or undefined behaviour (`Crash`). Undefined
behaviour covers a null dereference, an out-of-range read, a division by
zero and a failed `assert` in a debug build.

Box2D bodies and fixtures are plain records. Float vectors use `real`. The
raylib queries (keys, gamepads, the camera, whether a rectangle is on
screen) and the trigonometric formulas are parameters of the functions
that need them.

The mutually recursive `AddChild`, `RemoveChild` and `SetParent` of
`Entity2D` and `Node` are written as they are in the code. They run as an
interpreter with a step budget ("fuel"), so a call that never returns is
one that runs out of fuel whatever the budget.

`std::map` is walked in key order. The model defines that order for string
keys (`Strings.SortedKeys`) and for integer keys (`TileAtlas.AscendingKeys`).

A few places in the code behave differently from what their names or
comments suggest, and the model follows the code in each:

- `Transform2D::Rotate` adds to the rotation without reducing it modulo 2π.
- `SortByLayerIndex` orders by ascending draw layer, although its comment says "larger".
- The Y tie-break reads the local y position.
- `UnRegisterEntity` does not cascade to children.

## Model

| member | source | states |
|---|---|---|
| Structs.MoveGlobal | AstroCore/data/structs.h:133-136 | `MoveGlobal(m)` shifts the position by exactly `m` and keeps rotation and scale |
| Structs.Rotate | AstroCore/data/structs.h:138-141 | `Rotate(d)` adds exactly `d` to the rotation, with no normalisation, and keeps position and scale |
| Structs.Scale | AstroCore/data/structs.h:148-151 | `Scale(s)` multiplies the scale componentwise by `s` and changes neither position nor rotation |
| Structs.MoveGlobalComposes | AstroCore/data/structs.h:133-136 | two moves equal one move by the sum of the vectors; a move followed by its opposite restores the transform |
| Structs.RotateComposes | AstroCore/data/structs.h:138-141 | two rotations equal one rotation by the sum; a rotation followed by its opposite restores the transform |
| Structs.ScaleComposes | AstroCore/data/structs.h:148-151 | scaling by (1, 1) is the identity, and two scalings equal one by the componentwise product |
| Structs.ScaleInverse | AstroCore/data/structs.h:148-151 | scaling by a vector with no zero component is undone by scaling by its reciprocals |
| Structs.NewInputEvent | AstroCore/data/structs.h:12-16 | `InputEvent(i, c)` stores `i` as the positive input and `c` as the controller |
| Structs.PhysicsEntityDataGetters | AstroCore/data/structs.h:191-201 | the id and name getters return the constructor's arguments |
| Structs.NewSpriteAnimation | AstroCore/data/structs.h:67-77 | the parameterised constructor stores the texture, frame count, fps, frames per row, origin and frame size, and starts at frame 0 at the sheet's top left |
| Structs.AnimationStartFrames | AstroCore/data/structs.h:57-77 | the default constructor starts at frame 1 while the parameterised one starts at frame 0 |
| Strings.NatToString | AstroCore/entities/baseEntities/entity.cpp:20 | `std::to_string` of an id is a non-empty string of decimal digits |
| Strings.ParseNatToString | AstroCore/entities/baseEntities/entity.cpp:20 | reading the digits of `std::to_string(n)` back gives `n` |
| Strings.NatToStringInjective | AstroCore/entities/baseEntities/entity.cpp:18-20 | distinct ids render as distinct digit strings |
| Strings.SplitPath | AstroCore/engine/scene.cpp:171-218 | every segment of a split path is non-empty and holds no '/' |
| Strings.SplitJoin | AstroCore/engine/scene.cpp:171-218 | splitting names joined by '/' gives the names back |
| Strings.SplitFromNonEmpty | AstroCore/engine/scene.cpp:171-218 | a path holding a character other than '/' splits into at least one segment |
| Strings.StrLtIrreflexive | AstroCore/engine/texturemanager.cpp:71-87 | the key order of a `std::map<std::string, …>` is irreflexive |
| Strings.StrLtTransitive | AstroCore/engine/texturemanager.cpp:71-87 | the key order is transitive |
| Strings.StrLtTotal | AstroCore/engine/texturemanager.cpp:71-87 | any two distinct keys are ordered one way or the other |
| Strings.SortedKeys | AstroCore/engine/texturemanager.cpp:71-87 | the iteration order of a string-keyed map lists every key once, in strictly ascending order |
| CppInts.ToSizeT | AstroCore/entities/baseEntities/tilemap.cpp:123-128 | an `int` compared with a `size()` keeps its value when non-negative and becomes larger than any `int` when negative |
| CppInts.DivModSpec | AstroCore/entities/baseEntities/tilemapLayer.cpp:62-63 | C++ `/` and `%` satisfy the division identity with a remainder smaller than the divisor and of the dividend's sign |
| CppInts.DivModNonNegative | AstroCore/entities/baseEntities/tilemapLayer.cpp:62-63 | on a non-negative dividend and a positive divisor C++ `/` and `%` agree with floor division |
| BitFlags.SetFlag | AstroCore/entities/baseEntities/entity.h:59 | `flags |= f` adds the bits of `f` and keeps every other bit |
| BitFlags.UnsetFlag | AstroCore/entities/baseEntities/entity.h:60 | `flags &= ~f` clears the bits of `f` and keeps every other bit |
| BitFlags.IsFlagSetIffBits | AstroCore/entities/baseEntities/entity.h:61 | `(flags & f) == f` holds exactly when every bit of `f` is set in `flags` |
| BitFlags.SetThenIsSet | AstroCore/entities/baseEntities/entity.h:59-61 | after setting a flag it tests as set |
| BitFlags.UnsetThenNotSet | AstroCore/entities/baseEntities/entity.h:60-61 | after clearing a non-zero flag it tests as unset |
| BitFlags.SetLeavesDisjointFlag | AstroCore/entities/baseEntities/entity.h:59-61 | setting a flag does not change the test of a flag that shares no bit with it |
| Topology.Erase | AstroCore/entities/baseEntities/entity.cpp:268-276 | erasing the found child removes one occurrence: the list's multiset loses exactly that entity, and a list without it is unchanged |
| Topology.EraseAppended | AstroCore/entities/baseEntities/entity.cpp:228-232 | erasing a child that was just appended to a list not holding it gives the list back |
| Topology.EraseFacts | AstroCore/entities/baseEntities/entity.cpp:270-273 | erasing keeps every other child, and in a list without duplicates removes the child entirely |
| Topology.AddRootValid | AstroCore/entities/baseEntities/entity.cpp:12-21 | a new entity with no parent and no children joins a valid tree as a root and changes no other entity's depth |
| Topology.Lineage | AstroCore/entities/baseEntities/entity.cpp:139-152 | the chain `GetPath` walks has one entity per level, ends at the entity itself, and stays inside the tree |
| Topology.Reparent | AstroCore/entities/baseEntities/entity.cpp:218-232 | the intended `AddChild`: the set of entities is unchanged, the child's parent becomes the new one, and every entity's link is the relinked one |
| Topology.ReparentEffect | AstroCore/entities/baseEntities/entity.cpp:218-232 | entity by entity: bystanders keep their link, the old parent loses the child, the new parent gets it once at the end of its list |
| Topology.ReparentLinked | AstroCore/entities/baseEntities/entity.cpp:218-232 | the intended re-parenting keeps parent pointers and child lists in agreement, without duplicates |
| Entities.Construct | AstroCore/entities/baseEntities/entity.cpp:12-21 | a new entity takes the counter as its id and bumps it; it is named "Entity2D" + id, of type BASE, at draw layer 0, visible, with no flags, the identity transform, no parent and no children; every other entity is unchanged |
| Entities.ConstructNamed | AstroCore/entities/baseEntities/entity.cpp:24-27 | the named constructor is the default one with the name replaced |
| Entities.ConstructPlaced | AstroCore/entities/baseEntities/entity.cpp:29-33 | the placed constructor is the named one with the given position, rotation and scale |
| Entities.ConstructFresh | AstroCore/entities/baseEntities/entity.cpp:18 | while the counter is ahead of every id in use, a new entity's id is unused, the tree stays well formed and the counter stays ahead |
| Entities.ConstructIdsIncrease | AstroCore/entities/baseEntities/entity.cpp:18-20 | two constructions in a row give strictly increasing ids and different default names |
| Entities.SetTransformFlag | AstroCore/entities/baseEntities/entity.h:59 | after setting a flag it tests as set, the other flags test as before, and no other field changes |
| Entities.UnsetTransformFlag | AstroCore/entities/baseEntities/entity.h:60 | after clearing a flag it tests as unset, the other flags test as before, and no other field changes |
| Entities.TransformFlagIsOneBit | AstroCore/entities/baseEntities/entity.h:25-30 | the flags are 1, 2 and 4, each a single bit, so a flag tests as set exactly when its bit is set |
| Entities.DrawLayerIsLineageSum | AstroCore/entities/baseEntities/entity.h:101-108 | `GetDrawLayer()` is the sum of `drawLayer` over the entity and all its ancestors |
| Entities.GetGlobalRotation | AstroCore/entities/baseEntities/entity.cpp:95-106 | without a parent, or with the rotation flag set, the global rotation is the local one |
| Entities.GetGlobalPosition | AstroCore/entities/baseEntities/entity.cpp:62-84 | without a parent, or with the position flag set, the global position is the local one; under a parent that overrides the virtual call (a dynamic-body PhysicsEntity), it is that parent's body position plus the local position turned by the parent's global rotation |
| Entities.VirtualGlobalPosition | AstroCore/entities/physicsEntities/physicsEntity.cpp:147-158 | the virtual call answers with the override where the entity has one, and with Entity2D's formula otherwise |
| Entities.ChildOfDynamicBodyFollowsBody | AstroCore/entities/baseEntities/entity.cpp:62-84 | a child at local (0,0) under a dynamic-body parent sits at the parent's body position, whatever the parent's transform says |
| Entities.GlobalPositionTranslates | AstroCore/entities/baseEntities/entity.cpp:62-106 | along a chain with no rotation, no unique flags and no dynamic-body PhysicsEntity above the entity, the global position is the sum of the local positions and the global rotation is 0 |
| Entities.GetBoundRect | AstroCore/entities/baseEntities/entity.h:112-116 | the default bounding rectangle has zero width and height and sits at the position the virtual `GetGlobalPosition()` gives |
| Entities.GetPath | AstroCore/entities/baseEntities/entity.cpp:139-152 | the path is the names from the topmost ancestor down to the entity, joined by '/' |
| Entities.SetName | AstroCore/entities/baseEntities/entity.h:127 | `SetName` changes only the entity's name; the tree and every other entity are unchanged |
| Entities.SetNameThenGetName | AstroCore/entities/baseEntities/entity.h:127-128 | `GetName` after `SetName(n)` gives `n` |
| Entities.GetChild | AstroCore/entities/baseEntities/entity.cpp:164-175 | the result is the first child in list order with that name, and there is none exactly when no child has it |
| Entities.GetChildAtIndexAsWritten | AstroCore/entities/baseEntities/entity.cpp:180-189 | the inverted guard never returns a child |
| Entities.GetChildAtIndexAsWrittenNeverReturns | AstroCore/entities/baseEntities/entity.cpp:180-189 | as written, every index from 0 to the child count throws "Child index out of bounds", a negative index reads out of bounds, and index 0 never gives the first child |
| Entities.GetChildAtIndex | AstroCore/entities/baseEntities/entity.cpp:180-189 | as intended, an index in `[0, count)` gives that child and every other index throws "Child index out of bounds" |
| Entities.SetVisible | AstroCore/entities/baseEntities/entity.cpp:241-249 | `SetVisible` changes neither the tree links nor the set of entities |
| Entities.SetVisibleSubtree | AstroCore/entities/baseEntities/entity.cpp:241-249 | after `SetVisible(b)` exactly the entity and its descendants have visibility `b`, and every other entity is unchanged |
| Entities.SetVisibleAllSubtree | AstroCore/entities/baseEntities/entity.cpp:245-248 | the loop over a child list changes exactly the subtrees of the listed children |
| Entities.SetVisibleAll | AstroCore/entities/baseEntities/entity.cpp:245-248 | the loop over the children changes neither the links nor the set of entities |
| Entities.GetChildren | AstroCore/entities/baseEntities/entity.cpp:235-238 | in a well-formed tree the returned children are distinct and each points back at the parent |
| Entities.GetChildCount | AstroCore/entities/baseEntities/entity.cpp:156-159 | the count is the length of the child list `GetChildren()` returns |
| Entities.HasChild | AstroCore/entities/baseEntities/entity.cpp:255-264 | in a well-formed tree, an entity is a child exactly when its parent pointer names this entity; null is never a child |
| EntityReparent.RemoveChild | AstroCore/entities/baseEntities/entity.cpp:268-276 | `RemoveChild` as written, run with a fuel bound, never adds or drops entities |
| EntityReparent.SetParent | AstroCore/entities/baseEntities/entity.cpp:193-206 | `SetParent` as written, run with a fuel bound, never adds or drops entities |
| EntityReparent.AddChild | AstroCore/entities/baseEntities/entity.cpp:210-233 | `AddChild` as written, run with a fuel bound, never adds or drops entities |
| EntityReparent.RemoveChildAbsent | AstroCore/entities/baseEntities/entity.cpp:270-271 | removing an entity that is not a child changes nothing |
| EntityReparent.RemoveChildListed | AstroCore/entities/baseEntities/entity.cpp:268-276 | removing a listed child erases it and clears its parent; the nested `SetParent(nullptr)` needs three levels of calls |
| EntityReparent.AttachListed | AstroCore/entities/baseEntities/entity.cpp:193-232 | when the parent already lists the child, `SetParent(p)` only sets the back-pointer |
| EntityReparent.AddChildNull | AstroCore/entities/baseEntities/entity.cpp:212-215 | `AddChild(nullptr)` changes nothing |
| EntityReparent.AddChildExisting | AstroCore/entities/baseEntities/entity.cpp:218-228 | adding a child that is already listed and points back changes nothing |
| EntityReparent.AddChildMoves | AstroCore/entities/baseEntities/entity.cpp:218-276 | `p.AddChild(c)` for a `c` under another parent or none terminates with the intended re-parenting, which keeps the tree linked |
| EntityReparent.RemoveChildDetaches | AstroCore/entities/baseEntities/entity.cpp:268-276 | removing a listed child is the intended detach |
| EntityReparent.SetParentNullDetaches | AstroCore/entities/baseEntities/entity.cpp:193-206 | `SetParent(nullptr)` terminates with the intended detach |
| EntityReparent.AddChildLoops | AstroCore/entities/baseEntities/entity.cpp:193-232 | when the child points at the parent but is not listed, each round of `AddChild` → `SetParent` → `RemoveChild` returns to the same state, so no fuel suffices |
| EntityReparent.SetParentDiverges | AstroCore/entities/baseEntities/entity.cpp:193-232 | a direct `SetParent(p)` with a non-null `p` never terminates, for every fuel bound |
| Nodes.NewNode | src/nodes/node.cpp:8-47 | a new node takes the counter as its id and bumps it; it has the given name, no parent, no children, and every other node is unchanged |
| Nodes.NodeIdsIncrease | src/nodes/node.cpp:42-47 | two constructions in a row give strictly increasing, unused ids and keep the tree valid |
| Nodes.RemoveChild | src/nodes/node.cpp:71-80 | `RemoveChild` never adds or drops nodes |
| Nodes.SetParent | src/nodes/node.cpp:87-98 | `SetParent` as written never adds or drops nodes |
| Nodes.AddChild | src/nodes/node.cpp:58-69 | `AddChild` as written never adds or drops nodes |
| Nodes.AddChildPresent | src/nodes/node.cpp:60-66 | adding a child that is already listed changes nothing |
| Nodes.AddChildMoves | src/nodes/node.cpp:58-98 | `p.AddChild(c)` for a `c` under another parent or none ends with the intended re-parenting |
| Nodes.AddChildToPointing | src/nodes/node.cpp:58-98 | when the child already points at the parent, `AddChild` appends it, then the nested `SetParent` removes it again, so the tree ends as it began |
| Nodes.RemoveChildKeepsParent | src/nodes/node.cpp:71-80 | `RemoveChild` erases the child but leaves its parent field pointing at the old parent, so the tree is no longer linked |
| Nodes.SetParentLeavesUnlisted | src/nodes/node.cpp:67-98 | a direct `SetParent(p)` to a new parent ends with the child pointing at `p` but missing from `p`'s list |
| Nodes.SetParentSameDropsChild | src/nodes/node.cpp:89-93 | `SetParent` to the current parent removes the child from its list and keeps the parent field |
| Nodes.SetParentNullFaults | src/nodes/node.cpp:87-97 | `SetParent(nullptr)` on a node with a parent calls `AddChild` through a null pointer |
| Nodes.GetChildAtIndexAsWritten | src/nodes/node.cpp:100-108 | a child returned as written is the one at that index |
| Nodes.GetChildAtIndexAsWrittenCases | src/nodes/node.cpp:100-108 | as written, an index in range gives the child, the index equal to the size throws from `at`, and every negative or larger index gives null |
| Nodes.GetChildAtIndex | src/nodes/node.cpp:100-108 | as intended, an index in range gives the child and every other index gives null |
| Nodes.GetChildAtIndexAgrees | src/nodes/node.cpp:100-108 | the written and the intended versions agree on every index except the one equal to the size |
| Scenes.NewScene | AstroCore/engine/scene.cpp:5-21 | a new scene has empty indices, no camera, y-sorting on and not paused, and a new root entity named "_root" (empty scene name + "_root") |
| Scenes.InsertIfAbsent | AstroCore/engine/scene.cpp:82-83 | `map::insert` adds the key when absent and never replaces an existing value |
| Scenes.Insert | AstroCore/engine/scene.cpp:76-106 | the insertion step adds the id to the id index and the name to the name index if absent; SPRITE and TILEMAP go to the drawables, LIGHT to the lights, PHYSICAL to the tracker, CAMERA (not PIXELCAMERA) to the resize observers; the scene watches the entity; nothing registered is lost |
| Scenes.RegisterEntity | AstroCore/engine/scene.cpp:45-111 | an entity already in the id index gives false and no change; otherwise the entity ends up registered, and a true result means it was not registered before |
| Scenes.RegisterExtends | AstroCore/engine/scene.cpp:45-111 | registration only ever adds to the scene's indices |
| Scenes.RegisterSubtree | AstroCore/engine/scene.cpp:61-106 | registering an entity none of whose subtree is registered returns true, adds exactly its subtree to the id index, and calls `OnRegister` in pre-order: parent first, then each child's subtree in child-list order |
| Scenes.RegisterChildrenSubtrees | AstroCore/engine/scene.cpp:66-74 | the loop over the child-list snapshot registers exactly the subtrees of the listed children, in order |
| Scenes.NameCollisionKeepsEarlier | AstroCore/engine/scene.cpp:82-83 | registering an entity whose name is taken leaves the name index on the earlier entity, while the id index gains the new one |
| Scenes.ChildTakesSharedName | AstroCore/engine/scene.cpp:66-83 | children are inserted before their parent, so a child sharing its parent's name takes the name index entry |
| Scenes.UnRegisterEntity | AstroCore/engine/scene.cpp:149-169 | succeeds exactly when the name is in the name index; then the name leaves the name and drawable indices and its entity's id leaves the id index; lights, tracker and resources never change; a miss changes nothing |
| Scenes.UnRegisterDoesNotCascade | AstroCore/engine/scene.cpp:149-169 | unregistering an entity leaves every other name, children included, findable by name, with its id and drawable entries kept |
| Scenes.OnNotify | AstroCore/engine/scene.cpp:28-43 | the event name is compared as a string: "entityDeleted" unregisters the sender's name, "windowResized" notifies the resize observers, any other name does nothing; only the deletion branch needs the sender to be an entity |
| Scenes.DeleteUnregistersNamesake | AstroCore/engine/scene.cpp:149-169 | deleting an entity whose name is indexed under another entity unregisters that other entity and leaves the deleted one's id registered |
| Scenes.GetEntityById | AstroCore/engine/scene.cpp:220-229 | found exactly when the id is in the id index, and then it is that entity |
| Scenes.FindEntityByName | AstroCore/engine/scene.cpp:231-238 | found exactly when the name is in the name index, and then it is the indexed entity |
| Scenes.Walk | AstroCore/engine/scene.cpp:208-215 | following names by first-match `GetChild` ends at an entity named by the last segment |
| Scenes.GetEntity | AstroCore/engine/scene.cpp:171-218 | a path of only '/' reads `split[0]` of an empty vector; otherwise a first segment missing from the name index gives null, and a found entity is named by the last segment |
| Scenes.GetEntityFindsPath | AstroCore/engine/scene.cpp:171-218 | `GetEntity(GetPath())` finds the entity, when its top ancestor is indexed under its own name and each name on the way is the first of its siblings |
| Scenes.RegisterResourceAsWritten | AstroCore/engine/scene.cpp:240-251 | as written, registration inserts only when the name is absent and never fails |
| Scenes.ReRegisterIsSilent | AstroCore/engine/scene.cpp:247-250 | as written, registering a taken name again is silently ignored, because the assert checks a condition that always holds there |
| Scenes.RegisterResource | AstroCore/engine/scene.cpp:240-251 | as intended, a new name is inserted and a taken name fails the assert |
| Scenes.RegisterThenGet | AstroCore/engine/scene.cpp:240-296 | after registering a new resource it is present and `GetResource` returns it, and registering the name again fails |
| Scenes.GetResource | AstroCore/engine/scene.cpp:276-283 | the resource is returned exactly when the name is present, else null |
| Scenes.SetCurrentCamera | AstroCore/engine/scene.cpp:285-291 | the camera is registered if needed and becomes the current camera; earlier registrations are kept, and a camera already registered changes only the current-camera pointer |
| Scenes.ByName | AstroCore/engine/scene.cpp:322-325 | iterating the name index visits each indexed entity once |
| Scenes.HooksFollowNameIndex | AstroCore/engine/scene.cpp:313-344 | the per-frame hooks reach exactly the entities of the name index, `Update` only when not paused |
| Scenes.KeyOf | AstroCore/engine/scene.h:103-117 | the draw order looks at the draw layer over all ancestors and the local y position |
| Scenes.CollectMembers | AstroCore/engine/scene.cpp:354-378 | an entity is collected exactly when some listed drawable contributes it: a visible non-tilemap on screen contributes itself, a visible tilemap contributes all its layers |
| Scenes.DrawList | AstroCore/engine/scene.cpp:346-390 | without a current camera the draw dereferences null; otherwise the draw list comes out sorted by the comparator `ySortEnabled` selects |
| Scenes.DrawListMembers | AstroCore/engine/scene.cpp:354-390 | with a camera, the draw list holds exactly what the drawable index contributes |
| Scenes.CollectAllMembers | AstroCore/engine/scene.cpp:354-378 | iterating the whole drawable index collects exactly what some drawable contributes |
| DrawOrder.YSortIsLexicographic | AstroCore/engine/scene.h:108-117 | `SortByLayerIndexWithYSort` orders by layer, then by y within a layer |
| DrawOrder.LayerOnlyIgnoresY | AstroCore/engine/scene.h:103-106 | `SortByLayerIndex` orders neither way within a layer, so it compares by less-than and not by "larger" as its comment says |
| DrawOrder.YSortRefinesLayerOrder | AstroCore/engine/scene.h:103-117 | the y-sorting comparator agrees with the layer comparator wherever that one decides |
| DrawOrder.StrictWeakOrder | AstroCore/engine/scene.h:103-117 | both comparators are irreflexive, transitive and asymmetric, and incomparability is transitive, as `std::sort` needs |
| DrawOrder.InsertSorted | AstroCore/engine/scene.cpp:381-390 | inserting into a sorted list adds exactly one element and keeps it sorted |
| DrawOrder.Sort | AstroCore/engine/scene.cpp:381-390 | `std::sort` yields a permutation of its input sorted by the comparator |
| DrawOrder.SortMembers | AstroCore/engine/scene.cpp:381-390 | sorting keeps exactly the same members |
| DrawOrder.SortKeepsStrictlyOrdered | AstroCore/engine/scene.cpp:381-390 | a list already strictly ordered comes out of the sort unchanged |
| Collision.AddTrackedEntity | AstroCore/engine/collisionTracker.cpp:5-11 | afterwards the ID is tracked; an ID that was already tracked keeps its old entity, and a new one maps to the given entity |
| Collision.RemoveTrackedEntity | AstroCore/engine/collisionTracker.cpp:13-19 | afterwards the ID is untracked; every other entry is kept, and the entity argument plays no part |
| Collision.TrackAddRemove | AstroCore/engine/collisionTracker.cpp:5-24 | `IsTrackingEntity` holds after adding and fails after removing; removing an ID just added restores the tracker; adding a tracked ID changes nothing |
| Collision.DispatchAsWritten | AstroCore/engine/collisionTracker.cpp:26-79 | a contact with a null body reaches nobody; otherwise the sides with user data are called A before B through `operator[]`, which is undefined exactly when a side's ID is not tracked |
| Collision.DispatchUntrackedCrashes | AstroCore/engine/collisionTracker.cpp:42-45 | a contact whose body A carries an untracked ID calls through a null entity |
| Collision.Dispatch | AstroCore/engine/collisionTracker.cpp:26-79 | the intended dispatch: at most two entities, none for a contact with a null body, and an untracked side skipped |
| Collision.DispatchAgrees | AstroCore/engine/collisionTracker.cpp:26-79 | when every side is tracked, the corrected dispatch calls exactly the entities the original calls, in the same order |
| Collision.Targets | AstroCore/engine/collisionTracker.cpp:38-50 | as written, the entities called are the tracked ones for each side's ID, in order, and an untracked ID is undefined |
| Collision.TrackedTargets | AstroCore/engine/collisionTracker.cpp:38-50 | as intended, each tracked side's entity is called, in order, and untracked sides are skipped |
| Collision.NewCollider | AstroCore/entities/physicsEntities/collisionEntity.h:52-83 | a collision entity starts with no body, not added to the physics world, an empty fixture cache and Box2D's default filter |
| Collision.UpdateCollisionFiltersAsWritten | AstroCore/entities/physicsEntities/collisionEntity.h:85-105 | as written: nothing happens before the body is in the physics world; after that, a body without fixtures fails the debug assert, and a body with fixtures always ends in undefined behaviour, because `fixtures++` steps past the fixture instead of calling `GetNext()` |
| Collision.FilterLoopRunsOffFixture | AstroCore/entities/physicsEntities/collisionEntity.h:100-104 | the two versions agree except on an added body with fixtures, where the written loop runs off its fixture and the intended one gives the fixtures the entity's filter |
| Collision.UpdateCollisionFilters | AstroCore/entities/physicsEntities/collisionEntity.h:85-105 | the intended update: nothing before the body is in the physics world; after that, no fixtures fails the debug assert, and otherwise every fixture, in order, carries the entity's filter; the filter itself is unchanged |
| Collision.SetCollisionLayers | AstroCore/entities/physicsEntities/collisionEntity.h:35-39 | the category bits become the given bits; before registration nothing else changes; on a registered body the written fixture walk always fails, and the intended one succeeds exactly when the body has fixtures and gives each of them the new filter |
| Collision.SetCollisionMask | AstroCore/entities/physicsEntities/collisionEntity.h:40-44 | the mask bits become the given bits, with the same outcome per version and registration state as `SetCollisionLayers` |
| Collision.SetCollisionGroupIndex | AstroCore/entities/physicsEntities/collisionEntity.h:45-49 | the group index becomes the given signed 16-bit index (`Collision.Int16`), with the same outcome per version and registration state as `SetCollisionLayers` |
| Collision.FilterSettersTouchOnePart | AstroCore/entities/physicsEntities/collisionEntity.h:35-104 | each setter changes only its own part of the filter; the written and the intended setters agree exactly when the body is not in the physics world or has no fixture |
| Physics.BodyKindOf | AstroCore/entities/physicsEntities/physicsEntity.cpp:11-22 | STATIC, DYNAMIC and KINEMATIC map one-to-one onto Box2D's static, dynamic and kinematic bodies |
| Physics.NewPhysicsEntity | AstroCore/entities/physicsEntities/physicsEntity.cpp:5-28 | a fresh PHYSICAL entity at the start position, whose body definition has the matching kind and the same position; there is no body yet, the fixture buffer is empty and the filter is the default |
| Physics.NewNamedPhysicsEntityAsWritten | AstroCore/entities/physicsEntities/physicsEntity.cpp:62-67 | as written, every call dereferences the null body pointer |
| Physics.SetTransform | AstroCore/entities/physicsEntities/physicsEntity.cpp:66 | moving the body works exactly when there is a body, and then sets exactly its position and angle |
| Physics.NamedConstructorDereferencesNull | AstroCore/entities/physicsEntities/physicsEntity.cpp:62-67 | the named constructor always crashes, because the delegated constructor never creates a body |
| Physics.NewNamedPhysicsEntity | AstroCore/entities/physicsEntities/physicsEntity.cpp:62-67 | as intended, the entity carries the name, and the body definition carries the type's body kind, the position and the rotation |
| Physics.NamedBodyStartsAtPose | AstroCore/entities/physicsEntities/physicsEntity.cpp:30-67 | once registered, the body from the intended named constructor starts at the requested position, angle and kind, with the entity's ID and name as user data |
| Physics.AddFixtureToBody | AstroCore/entities/physicsEntities/physicsEntity.cpp:221-234 | with a body, the fixture is created at once with the entity's filter; without one, it is buffered; either way the fixture is appended to the collider's fixture definitions |
| Physics.FlushFixtures | AstroCore/entities/physicsEntities/physicsEntity.cpp:44-56 | the flush loop appends the buffered definitions to the body in order, each carrying the entity's filter, and keeps the existing fixtures |
| Physics.OnRegister | AstroCore/entities/physicsEntities/physicsEntity.cpp:30-60 | the body is created from the definition with the user data {entityID, name} and the definition's kind and pose; it is marked added; every buffered fixture is on it in order with the entity's filter; the buffer is empty |
| Physics.OnRegisterKeepsDefs | AstroCore/entities/physicsEntities/physicsEntity.cpp:30-60 | registration keeps every fixture definition made before it, in order |
| Physics.BufferedFixtureCommutes | AstroCore/entities/physicsEntities/physicsEntity.cpp:221-234 | adding a fixture before registration gives the same entity as adding it just after |
| Physics.RectangleFixture | AstroCore/entities/physicsEntities/physicsEntity.cpp:127-145 | the fixture is a box of half the size about the center with the given rotation, density, friction and restitution, and it is not a sensor |
| Physics.CreateRectangleCollider | AstroCore/entities/physicsEntities/physicsEntity.cpp:127-145 | appends exactly that box fixture |
| Physics.CreateRectangleColliderDefault | AstroCore/entities/physicsEntities/physicsEntity.cpp:85-88 | appends one unrotated box with density 0.1, friction 0.1 and restitution 0.5, and keeps the earlier fixtures |
| Physics.CreateRectangleColliderRotated | AstroCore/entities/physicsEntities/physicsEntity.cpp:95-98 | appends one rotated box with density 1, friction 0.1 and restitution 0.5, and keeps the earlier fixtures |
| Physics.FlipY | AstroCore/entities/physicsEntities/physicsEntity.cpp:201-207 | points convert to Box2D coordinates in order, with y negated and x kept |
| Physics.FlipYInvolution | AstroCore/entities/physicsEntities/physicsEntity.cpp:201-207 | converting twice gives the points back, so no point is lost or moved |
| Physics.CreateConvexPolyCollider | AstroCore/entities/physicsEntities/physicsEntity.cpp:196-219 | appends one polygon over the converted points with the given density, friction and restitution |
| Physics.CreateConvexPolyColliderDefault | AstroCore/entities/physicsEntities/physicsEntity.cpp:191-194 | appends one polygon with density 1, friction 0.2 and restitution 0 |
| Physics.ConvexPolyIgnoresRotation | AstroCore/entities/physicsEntities/physicsEntity.cpp:196-219 | the rotation argument makes no difference to the result |
| Physics.CreateConcavePolyCollider | AstroCore/entities/physicsEntities/physicsEntity.h:63-66 | always fails the debug assert with "ERROR: Not yet implemented" |
| Physics.PhysicsGlobalPosition | AstroCore/entities/physicsEntities/physicsEntity.cpp:147-158 | a static or kinematic body answers with Entity2D's formula along its parent chain (ancestors asked through the virtual call), a dynamic one with the body's position, and no body is undefined |
| Physics.BodyOverrides | AstroCore/entities/physicsEntities/physicsEntity.cpp:147-158 | a physics entity with a dynamic body overrides the position call with its body position, and every other entity does not |
| Physics.VirtualCallDispatches | AstroCore/entities/physicsEntities/physicsEntity.cpp:147-158 | for a physics entity with a body, the virtual call gives what `PhysicsEntity::GetGlobalPosition()` computes, for every body kind |
| Physics.FixedUpdate | AstroCore/entities/physicsEntities/physicsEntity.cpp:100-118 | a static or kinematic body moves to the entity's global position (dynamic-body ancestors answering with their bodies) with the negated rotation, and the tree is unchanged; a dynamic body's pose goes into the entity's transform with scale (1,1), and the body is unchanged; no body is undefined |
| Physics.FixedUpdateAgrees | AstroCore/entities/physicsEntities/physicsEntity.cpp:100-158 | after a fixed update, the entity's global position equals its body's position |
| Physics.FixedUpdateIdempotent | AstroCore/entities/physicsEntities/physicsEntity.cpp:100-118 | a second fixed update with no simulation step in between changes nothing |
| Physics.Pushed | AstroCore/entities/physicsEntities/physicsEntity.cpp:242-276 | a push reaches the body exactly when there is one, and is appended to its pushes with nothing else changed |
| Physics.AddForce | AstroCore/entities/physicsEntities/physicsEntity.cpp:242-245 | applies exactly one push, and only when there is a body |
| Physics.AddForceAtPoint | AstroCore/entities/physicsEntities/physicsEntity.cpp:247-250 | applies exactly one push, and only when there is a body |
| Physics.ApplyTorque | AstroCore/entities/physicsEntities/physicsEntity.cpp:252-255 | applies exactly one push, and only when there is a body |
| Physics.ApplyImpulse | AstroCore/entities/physicsEntities/physicsEntity.cpp:268-271 | applies exactly one push, and only when there is a body |
| Physics.ApplyImpulseAtPoint | AstroCore/entities/physicsEntities/physicsEntity.cpp:273-276 | applies exactly one push, and only when there is a body |
| Physics.PushesAreNegated | AstroCore/entities/physicsEntities/physicsEntity.cpp:242-276 | each manipulation reaches Box2D as the caller's force, torque or impulse negated; the application point is not negated |
| Triggers.InitBody | AstroCore/entities/physicsEntities/trigger2D.cpp:63-69 | a trigger's body definition is kinematic, at the given position, with no user data |
| Triggers.SensorFixture | AstroCore/entities/physicsEntities/trigger2D.cpp:35-37 | a trigger fixture is a sensor on the given shape |
| Triggers.AddFixtureToBody | AstroCore/entities/physicsEntities/trigger2D.cpp:71-81 | with a body, the fixture is created at once with Box2D's default filter and not the entity's; without one, it is buffered |
| Triggers.NewRectTrigger | AstroCore/entities/physicsEntities/trigger2D.cpp:26-39 | a new trigger holds one buffered box sensor of half the size about the origin, and nothing in its area |
| Triggers.NewCircleTrigger | AstroCore/entities/physicsEntities/trigger2D.cpp:41-55 | a new trigger holds one buffered circle sensor, and nothing in its area |
| Triggers.NewCustomTrigger | AstroCore/entities/physicsEntities/trigger2D.cpp:57-61 | the custom-shape constructor buffers no fixture: the shape is never used |
| Triggers.FlushFixtures | AstroCore/entities/physicsEntities/trigger2D.cpp:98-110 | the flush loop appends the buffered definitions in order, each with the default filter |
| Triggers.OnRegister | AstroCore/entities/physicsEntities/trigger2D.cpp:83-114 | the body is created with the user data {entityID, name}; every buffered fixture is on it in order; the buffer is emptied; the area is untouched |
| Triggers.RegisteredSensors | AstroCore/entities/physicsEntities/trigger2D.cpp:26-114 | once registered, the box and circle triggers have exactly one sensor fixture on a kinematic body, and the custom trigger has none |
| Triggers.TriggerFixturesUnfiltered | AstroCore/entities/physicsEntities/trigger2D.cpp:71-81 | every fixture a registration creates carries Box2D's default filter |
| Triggers.BeginContact | AstroCore/entities/physicsEntities/trigger2D.cpp:123-148 | a contact without the trigger's body changes nothing and sends nothing; otherwise "bodyEntered" is sent, and the other body joins the area under its entity name only if it has user data and the name is new; existing entries are kept; a null other body is undefined |
| Triggers.EndContact | AstroCore/entities/physicsEntities/trigger2D.cpp:150-170 | whether or not the trigger takes part, the other body's entity name leaves the area when it has user data, and "bodyExited" is sent; a null other body is undefined |
| Triggers.EnterThenExit | AstroCore/entities/physicsEntities/trigger2D.cpp:116-170 | a body with user data is in the area after its contact begins and is out of it after the contact ends |
| Triggers.EndContactIgnoresParticipation | AstroCore/entities/physicsEntities/trigger2D.cpp:150-170 | a contact between two other bodies is ignored on begin, but on end it still removes its A side's name from the area |
| Triggers.CollisionStart | AstroCore/entities/physicsEntities/collisionEntity.h:21-25 | contact starts reach a trigger's `BeginContact`; a physics entity ignores them |
| Triggers.CollisionEnd | AstroCore/entities/physicsEntities/collisionEntity.h:29-33 | contact ends reach a trigger's `EndContact`; a physics entity ignores them |
| Triggers.DeliverStart | AstroCore/engine/collisionTracker.cpp:42-50 | delivering a contact start to the dispatched entities keeps the listener set, and leaves every entity that was not dispatched to as it was |
| Triggers.DeliverStartSkipsPhysics | AstroCore/engine/collisionTracker.cpp:42-50 | a physics entity stays the same whoever else the contact is delivered to |
| Raycast.InfoOf | AstroCore/engine/raycast.h:21-27 | a result records the hit's point and normal and its body's entity ID and name |
| Raycast.ReportFixtureAsWritten | AstroCore/engine/raycast.h:39-62 | as written: a fixture outside the mask gives -1 and no change; an accepted one without user data is undefined; otherwise exactly one result is appended |
| Raycast.ReportFixture | AstroCore/engine/raycast.h:39-62 | as intended: the same filtering and appending, but the query stops once the result count reaches `maxCollisions` |
| Raycast.ReportStops | AstroCore/engine/raycast.h:55-61 | an accepted hit ends the query as written exactly when the limit converted to `size_t` is at least the new count, and as intended exactly when the new count reaches the limit; otherwise the report is the hit's fraction |
| Raycast.Query | AstroCore/engine/raycast.h:74 | the query keeps the mask and the limit, and only ever appends to the results |
| Raycast.FireRayCast | AstroCore/engine/raycast.h:64-77 | the cast stores the mask and keeps the limit; every result comes from an accepted hit of this cast with user data (earlier results are cleared); as intended the results stay within the limit, as written at most one is kept; mask 0 leaves the results empty |
| Raycast.QueryResultsAccepted | AstroCore/engine/raycast.h:39-77 | every result a query adds comes from a hit the mask accepts whose body has user data |
| Raycast.DefaultMaskFindsNothing | AstroCore/engine/raycast.h:44-79 | with the default mask 0x0000 every fixture is filtered out, and the query adds nothing |
| Raycast.QueryWithinLimit | AstroCore/engine/raycast.h:55-80 | as intended, a query never keeps more results than `maxCollisions` (at least one) |
| Raycast.AsWrittenKeepsOne | AstroCore/engine/raycast.h:55-59 | as written, any nonzero limit ends a fresh query at its first accepted hit, so at most one result is kept |
| Raycast.TwoHitsWithLimitTwo | AstroCore/engine/raycast.h:55-59 | with limit two and two accepted hits, the written query stops after one result, while the intended one keeps both |
| Textures.NewTextureManager | AstroCore/engine/texturemanager.cpp:6-10 | a new manager holds no textures, its counts agree with them, and its asset root is the working directory |
| Textures.GetTexture | AstroCore/engine/texturemanager.cpp:50-68 | a path not yet loaded is loaded once, from the asset root followed by the path; a loaded path returns the same texture; either way the path's count rises by one and every other path and count is unchanged |
| Textures.GetTextureAbsolute | AstroCore/engine/texturemanager.cpp:44-48 | the texture is fetched and stored under the working directory, a slash and the given path |
| Textures.UnloadTexture | AstroCore/engine/texturemanager.cpp:97-115 | an unloaded path changes nothing; otherwise the path's count drops by one, and at zero the texture and its count are both forgotten; other paths are untouched |
| Textures.GetTimesCounts | AstroCore/engine/texturemanager.cpp:61-66 | n further gets of a loaded path raise its count by n and keep the same texture |
| Textures.UnloadTimesCounts | AstroCore/engine/texturemanager.cpp:97-115 | j unloads of a path counted k >= j times leave k - j references, and forget the texture when j = k |
| Textures.BalancedGetAndUnload | AstroCore/engine/texturemanager.cpp:50-115 | after n gets of a new path, n unloads forget the texture, while n - 1 unloads leave it loaded with one reference |
| Textures.GetTexturePath | AstroCore/engine/texturemanager.cpp:71-87 | the path found is the first in the map's key order whose texture has the same id, or "" when no path holds it |
| Textures.FirstHolderFound | AstroCore/engine/texturemanager.cpp:78-85 | scanning the keys in ascending order stops at the least path holding the id |
| Textures.SetBaseAssetDir | AstroCore/engine/texturemanager.cpp:89-95 | the root becomes the directory with a trailing slash added only if missing; an empty directory throws from `at`; nothing else changes |
| Textures.SetBaseAssetDirIdempotent | AstroCore/engine/texturemanager.cpp:89-95 | setting the root to its current value changes nothing |
| Textures.UnloadTextureHandle | AstroCore/engine/texturemanager.cpp:118-127 | unloading a texture no path holds changes nothing; otherwise the least path holding it, in key order, is unloaded, unless that path is the empty string, which the code treats as "not found" |
| Textures.UnloadHandleUndoesGet | AstroCore/engine/texturemanager.cpp:97-127 | loading a new path whose texture id no other path shares and unloading that texture by handle gives back the manager as it was |
| Input.NewInputAction | AstroCore/engine/input.h:25-29 | a new action carries its name and no events |
| Input.NewInputActionWithTrigger | AstroCore/engine/input.h:32-36 | the action carries exactly one event with the given key and controller |
| Input.NewInputActionWithEvents | AstroCore/engine/input.h:39-42 | the action carries exactly the given events |
| Input.AddInputEvent | AstroCore/engine/input.h:47-50 | the new event goes after every event already bound, and the name is kept |
| Input.AddInputAction | AstroCore/engine/input.cpp:154-164 | throws exactly when the name is taken; otherwise the action is stored under its own name, and the map keeps every action under its own name |
| Input.RemoveInputAction | AstroCore/engine/input.cpp:140-150 | throws exactly when there is no such action; otherwise only that action is gone |
| Input.GetAction | AstroCore/engine/input.cpp:169-177 | throws exactly when there is no such action, and otherwise returns the stored action |
| Input.AddThenRemove | AstroCore/engine/input.cpp:140-164 | adding a new action and then removing it restores the map |
| Input.AddActionEvent | AstroCore/engine/input.cpp:93-114 | afterwards the action exists, and every other action is as before |
| Input.AddActionEventAppends | AstroCore/engine/input.cpp:93-114 | the action's events are its earlier events, if it had any, then the new one; the shared action in the map sees the event |
| Input.AnyEventActive | AstroCore/engine/input.cpp:15-39 | the loop answers true exactly when some bound event is active: a keyboard event (controller -1) whose key qualifies, or a gamepad event whose gamepad is available and whose button qualifies |
| Input.IsActionDown | AstroCore/engine/input.cpp:50-87 | true exactly when the action exists and one of its events is held |
| Input.IsActionPressed | AstroCore/engine/input.cpp:6-44 | true exactly when the action exists and one of its events was pressed this frame |
| Input.AddActionEventKeepsDown | AstroCore/engine/input.cpp:50-114 | binding another event never releases an action that was down |
| Input.GetInputAxis | AstroCore/engine/input.cpp:122-128 | the debug asserts hold exactly when both actions exist, and the axis is then always (0, 0) |
| Shapes.NewShapeEntity | AstroCore/entities/baseEntities/shapeEntity.cpp:5-10 | a new shape entity is a fresh SPRITE entity, so a scene draws it, and it has no shapes and a count of 0 |
| Shapes.AddShape | AstroCore/entities/baseEntities/shapeEntity.cpp:24-48 | the shape gets the current count as its id and the count goes up by one; the id is new, so the three maps gain exactly the shape's type, its data and a visible flag, and stay consistent |
| Shapes.AddLine | AstroCore/entities/baseEntities/shapeEntity.cpp:24-35 | the new id is the old count; the shape is visible, and `GetLine` on it returns exactly the line added |
| Shapes.AddCircle | AstroCore/entities/baseEntities/shapeEntity.cpp:38-48 | the new id is the old count; the shape is visible, and `GetCircle` on it returns exactly the circle added |
| Shapes.AddedIdsAreFresh | AstroCore/entities/baseEntities/shapeEntity.cpp:26-72 | shapes added one after another get consecutive ids, and a delete in between never makes an id reused |
| Shapes.DeleteShape | AstroCore/entities/baseEntities/shapeEntity.cpp:64-72 | the id leaves all three maps; an unknown id changes nothing; other shapes and the count are kept |
| Shapes.AddThenDelete | AstroCore/entities/baseEntities/shapeEntity.cpp:24-72 | deleting a shape just added restores the store, except that the count has moved on |
| Shapes.SetShapeVisibility | AstroCore/entities/baseEntities/shapeEntity.cpp:110-121 | an unknown id changes nothing; otherwise only that shape's flag becomes the given value |
| Shapes.GetShape | AstroCore/entities/baseEntities/shapeEntity.cpp:51-62 | the shape's data exactly when the id exists, otherwise a failed debug assert |
| Shapes.AddRoundedRectOutline | AstroCore/entities/baseEntities/shapeEntity.cpp:12-16 | always fails the debug assert "Not yet Implemented" |
| Shapes.GetLine | AstroCore/entities/baseEntities/shapeEntity.cpp:75-90 | none for an unknown id; the shape's line exactly when it is a line; otherwise a failed debug assert |
| Shapes.GetCircleAsWritten | AstroCore/entities/baseEntities/shapeEntity.cpp:93-108 | as written: none for an unknown id, and a circle only when the shape is one |
| Shapes.GetCircleOnLineIsSilent | AstroCore/entities/baseEntities/shapeEntity.cpp:83-104 | as written, asking for a circle under a line's id passes the assert and quietly gives none, while asking for a line under a circle's id fails `GetLine`'s assert |
| Shapes.GetCircle | AstroCore/entities/baseEntities/shapeEntity.cpp:93-108 | as intended: none for an unknown id; the shape's circle exactly when it is a circle; otherwise a failed assert |
| Shapes.TypedGettersAgree | AstroCore/entities/baseEntities/shapeEntity.cpp:75-108 | for an existing id, exactly one of the two typed getters succeeds, and it returns the stored shape |
| Shapes.DrawnFrom | AstroCore/entities/baseEntities/shapeEntity.cpp:124-133 | the shapes `Draw` visits are existing ids in strictly ascending order |
| Shapes.DrawnShapes | AstroCore/entities/baseEntities/shapeEntity.cpp:124-133 | `Draw` visits shapes in strictly ascending id order |
| Shapes.DrawnFromMembers | AstroCore/entities/baseEntities/shapeEntity.cpp:124-133 | a shape is drawn exactly when it exists and its flag is set |
| Shapes.HiddenShapeIsNotDrawn | AstroCore/entities/baseEntities/shapeEntity.cpp:110-133 | hiding a shape removes it from the drawn shapes and leaves every other shape as it was |
| AnimatedSprites.WithAnimation | AstroCore/entities/baseEntities/animatedSpriteEntity.cpp:36-60 | the constructors leave exactly one animation, under the given name; it is current and it is the one given |
| AnimatedSprites.NewSpriteEntityNamed | AstroCore/entities/baseEntities/animatedSpriteEntity.cpp:9-56 | the entity is a fresh SPRITE, named "AnimatedSpriteEntity" and its id unless a non-empty name is given |
| AnimatedSprites.NewAnimatedSprite | AstroCore/entities/baseEntities/animatedSpriteEntity.cpp:19-39 | the current animation, under the given name, is a default animation on the given texture, origin, frame size and start position; the sprite is playing |
| AnimatedSprites.NewAnimatedSpriteSheet | AstroCore/entities/baseEntities/animatedSpriteEntity.cpp:41-48 | the "default" animation takes the given width in frames, fps and frame count, and keeps the default's frame counter of 1 |
| AnimatedSprites.NewAnimatedSpriteFrom | AstroCore/entities/baseEntities/animatedSpriteEntity.cpp:50-61 | the given animation is current under the given name, and the entity takes the name unless it is empty |
| AnimatedSprites.AddAnimation | AstroCore/entities/baseEntities/animatedSpriteEntity.cpp:68-75 | a taken name changes nothing; a new name gets the animation; every existing name, animation and the current one are kept |
| AnimatedSprites.RemoveAnimation | AstroCore/entities/baseEntities/animatedSpriteEntity.cpp:79-90 | an unknown name changes nothing; otherwise the name is forgotten and its animation deleted, and the current animation pointer is left as it is |
| AnimatedSprites.AddThenRemoveAnimation | AstroCore/entities/baseEntities/animatedSpriteEntity.cpp:68-90 | adding under a new name and removing it again restores the names and the live animations |
| AnimatedSprites.ChangeAnimation | AstroCore/entities/baseEntities/animatedSpriteEntity.cpp:94-106 | an unknown or current name changes nothing; otherwise that animation becomes current, rewound to frame 0, and the accumulator is cleared |
| AnimatedSprites.SetPlaying | AstroCore/entities/baseEntities/animatedSpriteEntity.h:32-33 | pausing and playing change only the playing flag |
| AnimatedSprites.SetSpriteFlip | AstroCore/entities/baseEntities/animatedSpriteEntity.h:39-48 | the flip setters change only the flip |
| AnimatedSprites.StepFrame | AstroCore/entities/baseEntities/animatedSpriteEntity.cpp:150-156 | once the accumulator reaches `1/fps` (never, at 0 fps) the frame advances by one, or wraps to 0 at `frameMax`, and the accumulator restarts at 0; before that both stay; a frame in range stays in range; nothing else in the animation changes |
| AnimatedSprites.DrawStep | AstroCore/entities/baseEntities/animatedSpriteEntity.cpp:142-159 | drawing from a deleted animation is undefined, and so is a sheet 0 frames wide; otherwise the frame step runs on the accumulator grown by `deltaTime` while playing and unchanged while paused, only the current animation's frame and the accumulator change, and the source cell is the frame's column and row, using truncating division |
| AnimatedSprites.FramesStayInRange | AstroCore/entities/baseEntities/animatedSpriteEntity.cpp:150-156 | over any sequence of draws, a frame counter in [0, frameMax) stays in it |
| AnimatedSprites.PausedDrawKeepsTime | AstroCore/entities/baseEntities/animatedSpriteEntity.cpp:147-156 | while paused, a draw whose frame is not yet due changes nothing |
| AnimatedSprites.PlayingDrawAdvances | AstroCore/entities/baseEntities/animatedSpriteEntity.cpp:147-156 | while playing, a draw adds exactly the time step to the accumulator; once that reaches a frame's duration the frame moves on (to 0 after the last) and the accumulator restarts at 0 |
| AnimatedSprites.CellRoundTrip | AstroCore/entities/baseEntities/animatedSpriteEntity.cpp:158-159 | on a sheet of positive width, a frame is recovered from its column and row, and the column fits the width |
| AnimatedSprites.RemovingCurrentDangles | AstroCore/entities/baseEntities/animatedSpriteEntity.cpp:79-159 | removing the current animation leaves the sprite drawing from a deleted object |
| Sprites.SetFlipped | AstroCore/entities/baseEntities/spriteEntity.h:40-47 | the flip queries then answer exactly the requested flags, and each factor is 1 or -1 |
| Sprites.FlipH | AstroCore/entities/baseEntities/spriteEntity.h:50 | horizontal flipping toggles the horizontal query and keeps the vertical factor |
| Sprites.FlipV | AstroCore/entities/baseEntities/spriteEntity.h:53 | vertical flipping toggles the vertical query and keeps the horizontal factor |
| Sprites.FlipsAreInvolutions | AstroCore/entities/baseEntities/spriteEntity.h:40-53 | flipping twice on an axis is the identity, the two flips commute, and each leaves the other axis's query alone |
| Sprites.NewSpriteEntity | AstroCore/entities/baseEntities/spriteEntity.h:15-56 | the default sprite entity is a fresh SPRITE named "SpriteEntity" and its id, drawn unflipped |
| Sprites.IsUsingPerspectiveShift | AstroCore/entities/baseEntities/stackedSpriteEntity.h:25 | a sprite that overrides uses its own value; otherwise it uses the shared one |
| Sprites.SetUsePerspectiveShiftOverride | AstroCore/entities/baseEntities/stackedSpriteEntity.h:19-23 | once overriding, the sprite's answer is its own value whatever the shared setting |
| Sprites.GlobalShiftReachesNonOverriding | AstroCore/entities/baseEntities/stackedSpriteEntity.h:17-56 | changing the shared setting changes the answer of exactly the sprites that do not override it, and a default sprite starts without the shift |
| TileAtlas.LeastIntExists | AstroCore/entities/baseEntities/tilemap.cpp:224 | every non-empty finite set of ids has a least one, so a `std::map<int, …>` can be walked in ascending order |
| TileAtlas.AscendingKeys | AstroCore/entities/baseEntities/tilemap.cpp:99 | the walk order of a `std::map<int, …>`: every key exactly once, in strictly ascending order |
| TileAtlas.Range | AstroCore/entities/baseEntities/tilemap.cpp:157-172 | the layer numbers 0 to n-1: exactly n of them |
| TileAtlas.AscendingFills | AstroCore/entities/baseEntities/tilemap.cpp:157-172 | n strictly ascending numbers in [0, n) are 0, 1, …, n-1 |
| TileAtlas.AscendingRange | AstroCore/entities/baseEntities/tilemap.cpp:99-172 | walking the layer numbers 0 to n-1 in map order gives 0, 1, …, n-1 |
| TileAtlas.TileLayersOf | AstroCore/entities/baseEntities/tilemap.cpp:158-173 | the tile layers of the file, in file order; other layers are skipped |
| TileAtlas.LoadLayersNumbered | AstroCore/entities/baseEntities/tilemap.cpp:157-173 | the layer loop stores the k-th tile layer's ids, in order, under the running counter plus k; it adds no other key and keeps every other earlier entry |
| TileAtlas.Globalise | AstroCore/entities/baseEntities/tilemap.cpp:194-196 | each tile of a tileset is keyed by its local id plus the set's first global id |
| TileAtlas.CollectTiles | AstroCore/entities/baseEntities/tilemap.cpp:182-210 | the running maxima never shrink and bound the width and height of every tile listed, duplicates included |
| TileAtlas.CollectedTiles | AstroCore/entities/baseEntities/tilemap.cpp:192-198 | the tile map gains exactly the new global ids; an id already present keeps its tile; a new id holds the first tile listed with it |
| TileAtlas.CollectedSizesBounded | AstroCore/entities/baseEntities/tilemap.cpp:199-200 | every collected tile is no wider and no taller than the collected maxima |
| TileAtlas.FirstTileListed | AstroCore/entities/baseEntities/tilemap.cpp:194-196 | the tile kept for an id is one that was listed with that id |
| TileAtlas.PackKeeps | AstroCore/entities/baseEntities/tilemap.cpp:224-268 | the atlas loop adds exactly the tiles walked, and keeps every entry already in the atlas |
| TileAtlas.PackLayout | AstroCore/entities/baseEntities/tilemap.cpp:221-268 | packing new tiles puts each at the cursor plus the widths and 3-pixel gaps of the tiles before it, in the top row, and leaves the cursor past them all |
| TileAtlas.LaidAtCons | AstroCore/entities/baseEntities/tilemap.cpp:259-267 | a tile placed at the cursor, followed by the rest laid out from past it and the gap, is a layout from the cursor |
| TileAtlas.FreshTail | AstroCore/entities/baseEntities/tilemap.cpp:229-232 | once a tile is placed, the rest of a list of distinct new ids is still new |
| TileAtlas.StartGrows | AstroCore/entities/baseEntities/tilemap.cpp:267 | a later tile starts at or past the end of an earlier one plus the gap |
| TileAtlas.StartNonNegative | AstroCore/entities/baseEntities/tilemap.cpp:221-267 | no tile starts left of the cursor |
| TileAtlas.StartBound | AstroCore/entities/baseEntities/tilemap.cpp:217-267 | the i-th tile starts at most i times the widest tile plus the gap past the cursor |
| TileAtlas.PackedEntryFits | AstroCore/entities/baseEntities/tilemap.cpp:217-267 | each new tile packed from the origin keeps its own size and lies inside the atlas width `maxTileWidth * n + 3 * n` |
| TileAtlas.PackedEntriesApart | AstroCore/entities/baseEntities/tilemap.cpp:259-267 | of two new tiles packed from the origin, the earlier one ends at least a gap before the later one starts |
| TileAtlas.AtlasEntryFits | AstroCore/entities/baseEntities/tilemap.cpp:217-268 | with the ids walked in ascending order, each tile of the atlas keeps its own size and lies inside the atlas width |
| TileAtlas.AtlasPairApart | AstroCore/entities/baseEntities/tilemap.cpp:224-268 | with the ids walked in ascending order, the tile with the smaller id ends at least a gap before the other starts |
| TileAtlas.AtlasLayout | AstroCore/entities/baseEntities/tilemap.cpp:217-268 | packing into an empty atlas places every tile of the map, each with its own size and inside the atlas width, and no two tiles overlap |
| TileAtlas.AtlasLayoutFor | AstroCore/entities/baseEntities/tilemap.cpp:217-268 | the same layout holds for any list of the ids in ascending order |
| Tilemaps.NewTileMap | AstroCore/entities/baseEntities/tilemap.cpp:6-19 | a new map is a fresh root entity of type TILEMAP on the base draw layer, named as given or "TileMap" and its id when the name is empty, with nothing loaded and every other entity untouched |
| Tilemaps.AddLayers | AstroCore/entities/baseEntities/tilemap.cpp:99-110 | the layer loop appends one layer per key, in key order, after the layers already there, each on the next free id and holding that key's tile ids |
| Tilemaps.AddLayersEntities | AstroCore/entities/baseEntities/tilemap.cpp:101-109 | every layer entity made is a new, parentless, childless entity |
| Tilemaps.AddLayersKeeps | AstroCore/entities/baseEntities/tilemap.cpp:99-110 | making the layers leaves every entity that existed before unchanged |
| Tilemaps.SetupLayersLayout | AstroCore/entities/baseEntities/tilemap.cpp:96-112 | after setting up a map with no layer entities, layer `i` is a fresh root entity with the `i`-th free id, holding the `i`-th layer in ascending layer number |
| Tilemaps.AddLayersLayout | AstroCore/entities/baseEntities/tilemap.cpp:99-110 | from no layer entities, the layers of the keys are laid out in key order |
| Tilemaps.LaidOutLayerLive | AstroCore/entities/baseEntities/tilemap.cpp:101-109 | every laid-out layer's entity exists |
| Tilemaps.SetDrawLayerForMapLayer | AstroCore/entities/baseEntities/tilemap.cpp:123-128 | succeeds exactly when the index, taken as `size_t`, names an existing layer; a negative index fails the assertion; on success only that layer's draw layer changes |
| Tilemaps.LayerDrawLayerIsOwn | AstroCore/entities/baseEntities/tilemap.cpp:123-128 | a layer is not a child of its map, so the draw layer it is sorted by is exactly the one just set |
| Tilemaps.SetupLayersThenSetDrawLayer | AstroCore/entities/baseEntities/tilemap.cpp:96-128 | every layer that setting up made can be given a draw layer without failing the assertion |
| Tilemaps.LoadedLayerNumbers | AstroCore/entities/baseEntities/tilemap.cpp:157-173 | the tile layers of a file are numbered 0, 1, … in file order and nothing else is numbered |
| Tilemaps.NumberedFromZero | AstroCore/entities/baseEntities/tilemap.cpp:157-173 | layers numbered from 0 over no earlier layers have exactly the keys 0 to n-1, key `i` holding layer `i` |
| Tilemaps.LoadedLayersInOrder | AstroCore/entities/baseEntities/tilemap.cpp:99-173 | walked in map order, the loaded layer numbers are 0, 1, …, one per tile layer of the file, each holding its layer |
| Tilemaps.RangeInOrder | AstroCore/entities/baseEntities/tilemap.cpp:99-173 | layers keyed 0 to n-1 are walked in the order of the list they were numbered from |
| Tilemaps.LaidOutInOrder | AstroCore/entities/baseEntities/tilemap.cpp:99-173 | layer entities made in ascending key order from keys 0, 1, … hold the file's layers in file order |
| Tilemaps.LoadedMapLayers | AstroCore/entities/baseEntities/tilemap.cpp:144-287 | loading a file into a fresh map gives one new layer entity per tile layer of the file, in file order, each holding that layer's ids |
| Tilemaps.LoadedMapAtlas | AstroCore/entities/baseEntities/tilemap.cpp:182-268 | loading a file into a fresh map puts every tile of its tilesets in the atlas, each within the atlas width and height and each clear of the next by the gap |
| Tilemaps.CellDecodes | AstroCore/entities/baseEntities/tilemap.cpp:53-54 | truncating remainder and quotient of a position by a positive column count give a column in range and a row that read back to the position |
| Tilemaps.CellRoundTrip | AstroCore/entities/baseEntities/tilemap.cpp:53-54 | with the row computed from the column count, each position has its own cell in the grid and the cell gives the position back |
| Tilemaps.RowByRowsCollides | AstroCore/entities/baseEntities/tilemapLayer.cpp:62-63 | dividing by the row count puts positions 0 and 1 of a map one column wide and two rows tall in the same cell |
| Tilemaps.OnScreenIffOverlaps | AstroCore/entities/baseEntities/tilemapLayer.cpp:66-83 | for tiles and screens of positive size, the culling test keeps exactly the tiles that share a point with the screen |
| Tilemaps.DrawLayer | AstroCore/entities/baseEntities/tilemapLayer.cpp:30-112 | a layer draws without error exactly when no nonzero id is missing from the table and no divisor is zero; the first failing position decides between the throw of `at` and a division by zero; otherwise exactly the nonzero, on-screen tiles are drawn, each in its cell, in position order |
| Tilemaps.IntendedDrawKeepsCellsApart | AstroCore/entities/baseEntities/tilemapLayer.cpp:62-63 | with the row computed from the column count, each drawn tile sits in the cell its position names, and no two drawn positions share a cell |
| Tilemaps.UnitTileOnScreen | AstroCore/entities/baseEntities/tilemapLayer.cpp:79-83 | a one-pixel tile in row 0 or 1 under an identity camera passes the culling test |
| Tilemaps.TallMapDrawnAsWritten | AstroCore/entities/baseEntities/tilemapLayer.cpp:62-63 | as written, each of the two tiles of a one-column, two-row map is drawn in cell (0, 0) |
| Tilemaps.TallMapDrawsTwoTilesInOneCell | AstroCore/entities/baseEntities/tilemapLayer.cpp:62-63 | as written, both positions of that map are drawn on top of each other in cell (0, 0) |
| Tilemaps.TallMapDrawsIntendedCells | AstroCore/entities/baseEntities/tilemapLayer.cpp:62-63 | with the intended row, the second tile of that map is drawn in cell (0, 1) and not in (0, 0) |
| Tilemaps.RenderedTiles | AstroCore/entities/baseEntities/tilemap.cpp:32-81 | the map's own render succeeds exactly when every nonzero id is in the table with a nonzero column count, and then renders every nonzero tile once, in its own cell, in position order |
| Tilemaps.DrawnTilesAreRendered | AstroCore/entities/baseEntities/tilemap.cpp:32-81 | culling aside, every tile the layer draws with the intended row is one the map's render draws in the same cell |
| Debug.FlagBits | AstroCore/engine/debug.h:22-28 | every debug flag has at least one bit |
| Debug.FlagBitsAsWritten | AstroCore/engine/debug.h:22-28 | as written the world-grid flag is the sprite-bounds bit together with its own bit, while the other two flags are as intended |
| Debug.WorldGridOverlapsSpriteBounds | AstroCore/engine/debug.h:22-46 | as written, setting the world-grid flag makes the sprite-bounds flag read as set, and clearing the sprite-bounds flag makes the world-grid flag read as clear |
| Debug.SetDebugFlag | AstroCore/engine/debug.h:35-38 | as intended (a bit per flag): the flag set reads as set, and every other flag reads as before |
| Debug.SetDebugFlagAsWritten | AstroCore/engine/debug.h:22-38 | as written: the flag set reads as set, a flag sharing no bit with it reads as before, and setting the world grid also sets the sprite bounds |
| Debug.UnsetDebugFlag | AstroCore/engine/debug.h:39-42 | as intended (a bit per flag): the flag cleared reads as clear, and every other flag reads as before |
| Debug.UnsetDebugFlagAsWritten | AstroCore/engine/debug.h:22-42 | as written: the flag cleared reads as clear, a flag sharing no bit with it reads as before, and clearing either the world grid or the sprite bounds makes the other read as clear |
| Debug.DebugFlagsAgreeOffWorldGrid | AstroCore/engine/debug.h:22-46 | the as-written and intended flag operations agree on the physics and sprite-bounds flags, and setting the world grid as written is the intended set of both the world grid and the sprite bounds |
| Debug.FlagsIndependent | AstroCore/engine/debug.h:22-46 | with a bit per flag, two flags share no bit, setting or clearing one leaves the other's answer alone, and all flags start clear |
| Debug.GetLogPath | AstroCore/engine/debug.h:120-123 | the log path is the directory, then the file name, then ".txt" |
| Debug.DefaultLogPath | AstroCore/engine/debug.h:166-169 | before any change the log goes to "debug_log.txt" in the working directory |
| Debug.Open | AstroCore/engine/debug.h:161 | opening starts the file at the log path empty and leaves every other file alone |
| Debug.SetFileName | AstroCore/engine/debug.h:48-57 | changing the name opens an empty file at the new path and keeps every other file, the flags, the queued lines and the console |
| Debug.SetFileLocation | AstroCore/engine/debug.h:59-69 | changing the directory opens an empty file at the new path and keeps every other file, the flags, the queued lines and the console |
| Debug.Log | AstroCore/engine/debug.h:88-104 | the whole item goes to the console; the file at the log path, first opened empty if it was closed, gets `(item + '\n').c_str()` appended; other files are kept |
| Debug.LogLine | AstroCore/engine/debug.h:97-100 | a NUL-free item reaches the file whole with its newline; an item holding a `'\0'` reaches it only up to that character, without the newline |
| Debug.CStringFacts | AstroCore/engine/debug.h:100 | `c_str()` yields the longest NUL-free prefix: it stops at the first `'\0'` and keeps a NUL-free string whole |
| Debug.LogAccumulates | AstroCore/engine/debug.h:88-104 | an open log holds what it held before, then each item logged as `c_str()` cuts it, in order, and the console shows the same items whole; with no `'\0'` in any item that is one item per line |
| Debug.Assert | AstroCore/engine/debug.h:109-116 | a true condition changes nothing; a false one logs the message between the markers, and aborts exactly in a debug build |
| Debug.FailedAssertIsLogged | AstroCore/engine/debug.h:109-116 | a failed assertion's marked message is the last line of the console, and of the log after what it held before; a `'\0'` in the message cuts the log's copy there |
| Debug.DrawLine | AstroCore/engine/debug.h:135-138 | queuing a line appends it and changes nothing else |
| Debug.DrawDebugShapes | AstroCore/engine/debug.h:140-148 | exactly the queued lines are drawn, in queue order, and the queue is emptied, nothing else changing |
| Debug.DrawLinesQueues | AstroCore/engine/debug.h:135-138 | lines queued one by one are appended in order |
| Debug.LinesDrawnOnceInOrder | AstroCore/engine/debug.h:135-148 | lines queued during a frame are drawn once, in the order queued, and the next frame draws none of them |
| Debug.GridFirstLine | AstroCore/engine/debug.h:73-75 | the first grid line lies one step left of the screen's left edge |
| Debug.GridLineSpacing | AstroCore/engine/debug.h:75 | consecutive grid lines are one step apart |
| Debug.GridSpacing | AstroCore/engine/debug.h:73-76 | lines for `i = -1, 0, 1, …` are one step apart |
| Debug.GridReachesScreenEdge | AstroCore/engine/debug.h:73-75 | for a positive step the last line lies within one step left of the screen's right edge |
| Debug.GridLinesUpTo | AstroCore/engine/debug.h:73-76 | the loop gives one line for each `i` from -1 to the last, at that line's position |
| Debug.GridLines | AstroCore/engine/debug.h:71-84 | a zero step divides by zero; otherwise there is a line for each `i` from -1 to screen / step, starting one step left of the screen, one step apart, and for a positive step the last is within a step of the right edge |

## Left out

- Rendering through raylib is not modelled: texture uploads, `DrawTexturePro`, render textures, `BeginMode2D` and the camera entities. A draw is modelled only as the list of what it would draw, with the on-screen test as a parameter.
- Trigonometry and float rounding are left out. `MoveLocal`, `RotateAround`, `SetRotationDeg`, the rotated branch of `GetGlobalPosition` and the `fmod` in `GetGlobalRotation` and `DrawWorldGrid` are function parameters. Floats are exact reals with no NaN.
- Box2D's internals are left out: stepping, contact detection and the creation of bodies and fixtures. A body is a record, and a contact is the pair of bodies Box2D reports.
- `PhysicsEntity::CreateCircleCollider` is left out, because it dereferences an uninitialised pointer.
- `AddLocalForce` is left out, because it only rotates a force by the body angle.
- The declared but undefined members (`RemoveActionTrigger`, `AddLocalForceAtPoint` and the trigger's `AddCircleTrigger` family) have no body in the code and are left out.
- `InputManager::GetActionStrength` is left out, because it always returns 0 and touches no state.
- TMX parsing (tmxlite) is left out. `LoadDataTMX` starts from the parsed map, and its texture loads and render-texture drawing are left out.
- File I/O is left out. The debug log is a map from path to contents. A failure to open a file and the `Debug` destructor are not modelled.
- Destructors and memory management are left out: `Scene::~Scene`, the subtree `delete`, `TextureManager::UnloadAllTextures` and fixture-shape deletion in `FlushFixtures`.
- The default `AnimatedSpriteEntity()` constructor is left out, because it leaves the animation map uninitialised.
- `SpriteAnimation` values are copied in the model, where the engine shares them through pointers.
- Input.AddInputAction / Input.GetAction: actions are stored and returned as values, where the engine keeps `std::shared_ptr<InputAction>` handles (input.h:81). An event added later through the handle passed to `AddInputAction` or returned by `GetAction` reaches the map in the engine but not in the model; `Input.AddActionEvent` is the model's way to bind an event to a stored action.
- Integer overflow of the static ID counters and of `shapeCount` is not modelled: they are unbounded naturals. The same holds for the 32-bit wrap of `int` elsewhere, except where a value is converted to `size_t` in a comparison (`CppInts.ToSizeT`).
- The observer plumbing is modelled only as far as the scene sees it. Triggers record the names of the events they send (`Triggers.BeginContact`, `Triggers.EndContact`); delivery to observers and the `Debug::Log("Mixer …")` calls are not modelled.
- The `OnRegister` of plain entities, tilemaps and tilemap layers only records the scene. The model keeps one registration walk in `Scenes.RegisterEntity` and has no separate member for them.
- `TileMap::Draw`, `RenderAllLayers` and the drawing calls of `RenderLayer` are reduced to which tiles `RenderLayer` places and where (`Tilemaps.RenderedTiles`).
- `RenderLayer`'s null-tile branch is never taken, because the tile table holds no null entries. It is left out.
- Release builds are left out. Every member except `Debug.Assert` treats a failed `assert` or `Debug::Assert` as a debug build does: as a `Crash`. Without `DEBUG`, debug.h:11-15 defines `NDEBUG`. There the assertion only logs (`Debug::Assert`) or does nothing (`assert`), and the code carries on. In that build, `Shapes.GetShape` on an unknown id returns an empty variant, `Shapes.GetLine` and `Shapes.GetCircle` on the wrong type return null, `Shapes.AddRoundedRectOutline` returns 0, `Physics.CreateConcavePolyCollider` does nothing, `Input.GetInputAxis` returns (0,0), `Collision.UpdateCollisionFilters` on a body without fixtures skips its loop, `Tilemaps.SetDrawLayerForMapLayer` reads the layer vector out of range, and the intended `Scenes.RegisterResource` keeps the earlier resource.
- Entities.GetGlobalPosition: a physics ancestor that has no body yet would dereference null inside the virtual `GetGlobalPosition()`. The `overrides` parameter has no value for that case, so the model reads such an ancestor with Entity2D's formula.
- Sizes the engine leaves uninitialised (a `TileMap`'s grid and tile size before loading) read as zero.
- Tilemaps.SetDrawLayerForMapLayer: the outcome for a negative index is stated only for maps with at most `INT32_MAX` layers. With more, the `size_t` conversion of a negative index can land inside the vector.
- Re-parenting in both trees runs with a step budget. The model reports a run that uses up its budget, and it states nontermination as "out of fuel for every budget". How deep a terminating run may nest is not bounded beyond that.

## Findings

| source | as written | input that shows it | evidently intended | confidence | as-written member | corrected member |
|---|---|---|---|---|---|---|
| AstroCore/entities/baseEntities/entity.cpp:180-189 | the guard `children->size() < index` is inverted: every index from 0 to the child count throws "Child index out of bounds", and a negative one reads past the vector | an entity with one child, `GetChildAtIndex(0)` | return the child for `0 <= index < size` and throw otherwise | high, not executed | Entities.GetChildAtIndexAsWritten, Entities.GetChildAtIndexAsWrittenNeverReturns | Entities.GetChildAtIndex |
| AstroCore/entities/baseEntities/entity.cpp:193-206, 228-232 | a direct `c.SetParent(p)` with non-null `p` calls `p.AddChild(c)`, which calls `c.SetParent(p)` again after erasing and re-appending `c`, with the same state each round | any `c`, `p` with `p != c` | `c` detached from its old parent, appended once to `p`, pointing at `p` | high, not executed | EntityReparent.SetParent, EntityReparent.SetParentDiverges | Topology.Reparent, Topology.ReparentLinked |
| src/nodes/node.cpp:87-98 | a direct `c.SetParent(p)` to a new parent ends with `c.parent == p` while `p`'s child list does not hold `c` | a root `c` and a root `p`, `c.SetParent(p)` | `c` listed once in `p`'s children | high, not executed | Nodes.SetParent, Nodes.SetParentLeavesUnlisted | Topology.Reparent, Topology.ReparentLinked |
| src/nodes/node.cpp:100-108 | `index > size()` lets `index == size()` through to `at`, which throws | a node with no children, `GetChildAtIndex(0)` | null for every index outside `[0, size)` | medium, not executed | Nodes.GetChildAtIndexAsWritten, Nodes.GetChildAtIndexAsWrittenCases | Nodes.GetChildAtIndex, Nodes.GetChildAtIndexAgrees |
| AstroCore/engine/collisionTracker.cpp:44, 49, 72, 77 | `trackedEntities[id]` inserts a null entry for an untracked ID and then calls through it | a contact whose body A carries user data for an ID the tracker does not hold | skip sides whose ID is not tracked | medium, not executed | Collision.DispatchAsWritten, Collision.DispatchUntrackedCrashes | Collision.Dispatch, Collision.DispatchAgrees |
| AstroCore/entities/physicsEntities/collisionEntity.h:100-104 | the fixture walk advances with `fixtures++` instead of `GetNext()`, stepping off the first fixture | a registered collider whose body has one fixture | every fixture of the body gets the new filter | medium, not executed | Collision.UpdateCollisionFiltersAsWritten, Collision.FilterLoopRunsOffFixture, Collision.FilterSettersTouchOnePart | Collision.UpdateCollisionFilters |
| AstroCore/engine/scene.cpp:240-251 | the assertion in the `else` branch checks that the name is present, which it always is there, so re-registration is silent | `RegisterResource("a", r1)` then `RegisterResource("a", r2)` | a debug build stops with "Resource already exists in the scene!" | medium, not executed | Scenes.RegisterResourceAsWritten, Scenes.ReRegisterIsSilent | Scenes.RegisterResource, Scenes.RegisterThenGet |
| AstroCore/entities/physicsEntities/physicsEntity.cpp:62-67 | the named constructor calls `SetTransform` on the body before registration has created it | any `PhysicsEntity(name, type, position, rotation)` | keep the pose until registration creates the body | high, not executed | Physics.NewNamedPhysicsEntityAsWritten, Physics.NamedConstructorDereferencesNull | Physics.NewNamedPhysicsEntity, Physics.NamedBodyStartsAtPose |
| AstroCore/engine/raycast.h:56-61 | the query stops while `results.size() <= maxCollisions`, so it stops after the first accepted hit | `maxCollisions` 2 and two accepted hits | stop once the result count reaches `maxCollisions` | medium, not executed | Raycast.ReportFixtureAsWritten, Raycast.TwoHitsWithLimitTwo | Raycast.ReportFixture, Raycast.QueryWithinLimit |
| AstroCore/entities/baseEntities/shapeEntity.cpp:100-105 | for a shape that is not a CIRCLE, `GetCircle` asserts that it is a LINE, so a line passes silently and any other wrong type fails the assertion | `GetCircle` on the id of a line | the same type check as `GetLine`, for CIRCLE | medium, not executed | Shapes.GetCircleAsWritten, Shapes.GetCircleOnLineIsSilent | Shapes.GetCircle, Shapes.TypedGettersAgree |
| AstroCore/entities/baseEntities/tilemapLayer.cpp:62-63 | the row is the position divided by the number of rows | a map one column wide and two rows tall, tile 1 in both cells | row = position divided by the number of columns, as in `TileMap::RenderLayer` | high, not executed | Tilemaps.RowByRowsCollides, Tilemaps.TallMapDrawsTwoTilesInOneCell | Tilemaps.TallMapDrawsIntendedCells, Tilemaps.IntendedDrawKeepsCellsApart |
| AstroCore/engine/debug.h:22-28 | `DRAW_WORLD_GRID = 3 << 1` is 6, which holds the sprite-bounds bit | `SetDebugFlag(DRAW_WORLD_GRID)` then `IsDebugFlagSet(DRAW_SPRITE_BOUNDS)` | `1 << 2`, a bit of its own | high, not executed | Debug.FlagBitsAsWritten, Debug.WorldGridOverlapsSpriteBounds, Debug.SetDebugFlagAsWritten | Debug.FlagBits, Debug.FlagsIndependent, Debug.SetDebugFlag |

=== FILE: model/animated_sprites.dfy ===
/**
 * `AnimatedSpriteEntity`: named animations, the current one, and the
 * frame stepping its `Draw` performs. Animations are held through
 * pointers, so the model keeps them in a small heap of handles: removing
 * an animation deletes its object, and a pointer still aimed at it
 * dangles.
 */
module AnimatedSprites {
  import opened Wrappers
  import opened Structs
  import opened Strings
  import opened CppInts
  import opened Topology
  import opened Entities
  import opened Sprites

  /** The sprite's animation state. `currentAnim` is a pointer into `heap`. */
  datatype AnimatedSprite = AnimatedSprite(
    heap: map<nat, SpriteAnimation>,
    nextHandle: nat,
    animStates: map<string, nat>,
    currentAnimationName: string,
    currentAnim: nat,
    animAcc: real,
    isPlaying: bool,
    spriteFlip: Flip)

  /** Every named animation and the current one are live objects, and fresh handles are unused. */
  predicate Valid(s: AnimatedSprite)
  {
    (forall n :: n in s.animStates ==> s.animStates[n] in s.heap)
    && s.currentAnim in s.heap
    && (forall h :: h in s.heap ==> h < s.nextHandle)
  }

  /** The state the constructors share: one animation under `animName`, current, playing, unflipped. */
  function WithAnimation(animName: string, anim: SpriteAnimation): (s: AnimatedSprite)
    ensures Valid(s) && s.animStates.Keys == {animName} && s.currentAnimationName == animName
    ensures s.heap[s.currentAnim] == anim
  {
    AnimatedSprite(map[0 := anim], 1, map[animName := 0], animName, 0, 0.0, true, Unflipped)
  }

  /** The entity part: type SPRITE, named "AnimatedSpriteEntity" and its id unless a non-empty name is given. */
  function NewSpriteEntityNamed(w: World, name: string): (r: (World, Id))
    ensures r.1 == w.entityCount && r.0.entityCount == w.entityCount + 1 && r.1 in r.0.tree.ents
    ensures r.0.tree.ents[r.1].kind == SPRITE
    ensures r.0.tree.ents[r.1].name == if name == "" then "AnimatedSpriteEntity" + NatToString(r.1) else name
  {
    var (w1, id) := Construct(w);
    var e := w1.tree.ents[id].(kind := SPRITE, name := "AnimatedSpriteEntity" + NatToString(id));
    var e2 := if name != "" then e.(name := name) else e;
    (UpdateEntity(w1, id, e2), id)
  }

  /**
   * `AnimatedSpriteEntity(name, startPos, origin, frameSize, sprite, defaultAnimName = "default")`:
   * a default `SpriteAnimation` on `sprite`, one frame wide, starting at
   * `startPos` on the sheet, becomes the current animation.
   */
  function NewAnimatedSprite(w: World, name: string, startPos: Vec2, origin: Vec2, frameSize: Vec2,
                             sprite: TextureHandle, defaultAnimName: string := "default"): (r: (World, Id, AnimatedSprite))
    ensures r.1 == w.entityCount && r.1 in r.0.tree.ents && r.0.tree.ents[r.1].kind == SPRITE
    ensures Valid(r.2) && r.2.currentAnimationName == defaultAnimName && r.2.isPlaying
    ensures var a := r.2.heap[r.2.currentAnim];
      a == DefaultSpriteAnimation.(texture := Some(sprite), origin := origin, frameSize := frameSize, startPos := startPos)
  {
    var (w1, id) := NewSpriteEntityNamed(w, name);
    var anim := DefaultSpriteAnimation.(texture := Some(sprite), origin := origin, frameSize := frameSize,
                                        framesWide := 1, startPos := startPos);
    (w1, id, WithAnimation(defaultAnimName, anim))
  }

  /**
   * `AnimatedSpriteEntity(name, startPos, origin, frameSize, sprite, framesWide, frameCount, fps)`:
   * the constructor above with the sheet layout and speed filled in. The
   * frame counter keeps the default animation's starting value of 1.
   */
  function NewAnimatedSpriteSheet(w: World, name: string, startPos: Vec2, origin: Vec2, frameSize: Vec2,
                                  sprite: TextureHandle, framesWide: int, frameCount: int, animFps: int): (r: (World, Id, AnimatedSprite))
    ensures Valid(r.2) && r.2.currentAnimationName == "default"
    ensures var a := r.2.heap[r.2.currentAnim];
      a.framesWide == framesWide && a.animFPS == animFps && a.frameMax == frameCount && a.currentFrame == 1
      && a.startPos == startPos && a.texture == Some(sprite)
  {
    var (w1, id, s) := NewAnimatedSprite(w, name, startPos, origin, frameSize, sprite);
    var h := s.animStates[s.currentAnimationName];
    var a := s.heap[h].(framesWide := framesWide, animFPS := animFps, frameMax := frameCount);
    (w1, id, s.(heap := s.heap[h := a]))
  }

  /** `AnimatedSpriteEntity(name, animation, animationName)`: the given animation, current under that name. */
  function NewAnimatedSpriteFrom(w: World, name: string, defaultAnimation: SpriteAnimation, animationName: string): (r: (World, Id, AnimatedSprite))
    ensures Valid(r.2) && r.2.currentAnimationName == animationName && r.2.heap[r.2.currentAnim] == defaultAnimation
    ensures r.1 in r.0.tree.ents && r.0.tree.ents[r.1].name == if name == "" then "AnimatedSpriteEntity" + NatToString(r.1) else name
  {
    var (w1, id) := NewSpriteEntityNamed(w, name);
    (w1, id, WithAnimation(animationName, defaultAnimation))
  }

  /** `AddAnimation(name, anim)`: stored only under a name not yet taken. */
  function AddAnimation(s: AnimatedSprite, animationName: string, anim: SpriteAnimation): (r: AnimatedSprite)
    ensures animationName in s.animStates ==> r == s
    ensures animationName in r.animStates
    ensures Valid(s) ==> Valid(r)
    ensures Valid(s) && animationName !in s.animStates ==> r.heap[r.animStates[animationName]] == anim
    ensures forall n :: n in s.animStates ==> n in r.animStates && r.animStates[n] == s.animStates[n]
    ensures Valid(s) ==> forall h :: h in s.heap ==> h in r.heap && r.heap[h] == s.heap[h]
    ensures r.currentAnim == s.currentAnim && r.currentAnimationName == s.currentAnimationName
  {
    if animationName in s.animStates then s
    else
      var h := s.nextHandle;
      s.(heap := s.heap[h := anim], nextHandle := h + 1, animStates := s.animStates[animationName := h])
  }

  /** `RemoveAnimation(name)`: forget the name and delete its animation; an unknown name changes nothing. */
  function RemoveAnimation(s: AnimatedSprite, animationName: string): (r: AnimatedSprite)
    ensures animationName !in s.animStates ==> r == s
    ensures animationName !in r.animStates
    ensures animationName in s.animStates ==> s.animStates[animationName] !in r.heap
    ensures forall n :: n in r.animStates ==> n in s.animStates
    ensures r.currentAnim == s.currentAnim && r.currentAnimationName == s.currentAnimationName
  {
    if animationName !in s.animStates then s
    else s.(heap := s.heap - {s.animStates[animationName]}, animStates := s.animStates - {animationName})
  }

  /** Adding under a new name and removing it again leaves the names and the objects in use as they were. */
  lemma AddThenRemoveAnimation(s: AnimatedSprite, animationName: string, anim: SpriteAnimation)
    requires Valid(s) && animationName !in s.animStates
    ensures var r := RemoveAnimation(AddAnimation(s, animationName, anim), animationName);
      r.animStates == s.animStates && r.heap == s.heap && Valid(r)
  {
    var r1 := AddAnimation(s, animationName, anim);
    assert r1.animStates - {animationName} == s.animStates;
    assert r1.heap - {s.nextHandle} == s.heap;
  }

  const UseAfterFree: string := "use of a deleted SpriteAnimation"

  /**
   * `ChangeAnimation(name)`: only for an existing name other than the
   * current one; it makes that animation current, clears the accumulator
   * and rewinds the new animation to frame 0.
   */
  function ChangeAnimation(s: AnimatedSprite, animationName: string): (r: Result<AnimatedSprite>)
    ensures animationName !in s.animStates || animationName == s.currentAnimationName ==> r == Ok(s)
    ensures Valid(s) ==> r.Ok? && Valid(r.value)
    ensures Valid(s) && animationName in s.animStates && animationName != s.currentAnimationName ==>
      r.value.currentAnimationName == animationName && r.value.currentAnim == s.animStates[animationName]
      && r.value.animAcc == 0.0 && r.value.heap[r.value.currentAnim] == s.heap[s.animStates[animationName]].(currentFrame := 0)
      && r.value.animStates == s.animStates
  {
    if animationName in s.animStates && animationName != s.currentAnimationName then
      var h := s.animStates[animationName];
      if h !in s.heap then Crash(UseAfterFree)
      else Ok(s.(currentAnimationName := animationName, currentAnim := h, animAcc := 0.0,
                 heap := s.heap[h := s.heap[h].(currentFrame := 0)]))
    else Ok(s)
  }

  /** `PauseAnimation()` and `PlayAnimation()`. */
  function SetPlaying(s: AnimatedSprite, playing: bool): (r: AnimatedSprite)
    ensures r.isPlaying == playing && r == s.(isPlaying := playing)
  {
    s.(isPlaying := playing)
  }

  /** Flip state, as for a plain sprite. */
  function SetSpriteFlip(s: AnimatedSprite, f: Flip): (r: AnimatedSprite)
    ensures r.spriteFlip == f && r.(spriteFlip := s.spriteFlip) == s
  {
    s.(spriteFlip := f)
  }

  /** Where on the sheet the frame is drawn from, in frames: its column and row. */
  datatype Cell = Cell(column: int, row: int)

  /** Whether the accumulator has reached a frame's duration `1.0 / animFPS` (never, with 0 fps). */
  predicate FrameDue(a: SpriteAnimation, acc: real)
  {
    a.animFPS != 0 && acc >= 1.0 / (a.animFPS as real)
  }

  /**
   * Advance the counter, wrapping to 0 once it reaches `frameMax`, when
   * the accumulator has reached a frame's duration. The duration is
   * `1.0 / animFPS` in floating point: with 0 fps it is infinite and the
   * frame never advances; with negative fps it is negative and the frame
   * advances every time.
   */
  function StepFrame(a: SpriteAnimation, acc: real): (r: (SpriteAnimation, real))
    ensures a.frameMax > 0 && 0 <= a.currentFrame < a.frameMax ==> 0 <= r.0.currentFrame < a.frameMax
    ensures r.0 == a.(currentFrame := r.0.currentFrame)
    ensures !FrameDue(a, acc) ==> r == (a, acc)
    ensures FrameDue(a, acc) ==> r.1 == 0.0
    ensures FrameDue(a, acc) && a.currentFrame + 1 < a.frameMax ==> r.0.currentFrame == a.currentFrame + 1
    ensures FrameDue(a, acc) && a.currentFrame + 1 >= a.frameMax ==> r.0.currentFrame == 0
  {
    if FrameDue(a, acc) then
      var f := a.currentFrame + 1;
      (a.(currentFrame := if f >= a.frameMax then 0 else f), 0.0)
    else (a, acc)
  }

  /**
   * The animation part of `Draw(deltaTime)`: the accumulator grows only
   * while playing, the frame steps, and the source cell is the counter's
   * column and row on a sheet `framesWide` frames across (C++ integer
   * division; a zero width divides by zero).
   */
  function DrawStep(s: AnimatedSprite, deltaTime: real): (r: Result<(AnimatedSprite, Cell)>)
    ensures s.currentAnim !in s.heap ==> r.Crash?
    ensures r.Ok? <==> s.currentAnim in s.heap && s.heap[s.currentAnim].framesWide != 0
    ensures r.Ok? ==> s.currentAnim in s.heap && s.heap[s.currentAnim].framesWide != 0
    ensures r.Ok? ==> r.value.0 == s.(heap := r.value.0.heap, animAcc := r.value.0.animAcc)
    ensures r.Ok? ==> r.value.0.heap.Keys == s.heap.Keys
    ensures r.Ok? ==> (r.value.0.heap[s.currentAnim], r.value.0.animAcc)
                      == StepFrame(s.heap[s.currentAnim], if s.isPlaying then s.animAcc + deltaTime else s.animAcc)
    ensures r.Ok? ==> r.value.0.heap[s.currentAnim] == s.heap[s.currentAnim].(currentFrame := r.value.0.heap[s.currentAnim].currentFrame)
    ensures r.Ok? ==> var a := r.value.0.heap[s.currentAnim];
      r.value.1 == Cell(Mod(a.currentFrame, a.framesWide), Div(a.currentFrame, a.framesWide))
  {
    if s.currentAnim !in s.heap then Crash(UseAfterFree)
    else
      var acc := if s.isPlaying then s.animAcc + deltaTime else s.animAcc;
      var (a, acc2) := StepFrame(s.heap[s.currentAnim], acc);
      if a.framesWide == 0 then Crash(DivideByZero)
      else Ok((s.(heap := s.heap[s.currentAnim := a], animAcc := acc2), Cell(Mod(a.currentFrame, a.framesWide), Div(a.currentFrame, a.framesWide))))
  }

  /** A frame counter inside `[0, frameMax)` stays inside it, whatever the time step. */
  lemma {:induction false} FramesStayInRange(s: AnimatedSprite, deltas: seq<real>)
    requires s.currentAnim in s.heap
    requires var a := s.heap[s.currentAnim]; a.frameMax > 0 && 0 <= a.currentFrame < a.frameMax
    ensures DrawSteps(s, deltas).Ok? ==> var t := DrawSteps(s, deltas).value;
      t.currentAnim in t.heap && 0 <= t.heap[t.currentAnim].currentFrame < t.heap[t.currentAnim].frameMax
    decreases |deltas|
  {
    if |deltas| > 0 {
      var r := DrawStep(s, deltas[0]);
      if r.Ok? {
        FramesStayInRange(r.value.0, deltas[1..]);
      }
    }
  }

  /** Successive draws. */
  function DrawSteps(s: AnimatedSprite, deltas: seq<real>): Result<AnimatedSprite>
    decreases |deltas|
  {
    if |deltas| == 0 then Ok(s)
    else match DrawStep(s, deltas[0])
      case Ok((t, _)) => DrawSteps(t, deltas[1..])
      case Throw(m) => Throw(m)
      case Crash(m) => Crash(m)
  }

  /** While paused, a draw that is not yet due leaves the accumulator and the frame alone. */
  lemma PausedDrawKeepsTime(s: AnimatedSprite, deltaTime: real)
    requires !s.isPlaying && s.currentAnim in s.heap
    requires var a := s.heap[s.currentAnim]; a.framesWide != 0 && a.animFPS > 0 && s.animAcc < 1.0 / (a.animFPS as real)
    ensures DrawStep(s, deltaTime).Ok?
    ensures DrawStep(s, deltaTime).value.0 == s
  {
    var a := s.heap[s.currentAnim];
    assert StepFrame(a, s.animAcc) == (a, s.animAcc);
    assert s.heap[s.currentAnim := a] == s.heap;
  }

  /**
   * While playing, a draw adds exactly the time step to the accumulator;
   * once that reaches a frame's duration the frame moves on by one (back
   * to 0 after the last) and the accumulator restarts at 0, and before
   * that the frame stays.
   */
  lemma PlayingDrawAdvances(s: AnimatedSprite, deltaTime: real)
    requires s.isPlaying && s.currentAnim in s.heap && s.heap[s.currentAnim].framesWide != 0
    ensures var a := s.heap[s.currentAnim];
      var t := DrawStep(s, deltaTime).value.0;
      && (!FrameDue(a, s.animAcc + deltaTime) ==>
            t.animAcc == s.animAcc + deltaTime && t.heap[s.currentAnim] == a)
      && (FrameDue(a, s.animAcc + deltaTime) ==>
            t.animAcc == 0.0
            && t.heap[s.currentAnim].currentFrame == (if a.currentFrame + 1 >= a.frameMax then 0 else a.currentFrame + 1))
  {
  }

  /** On a sheet of positive width a non-negative frame number is recovered from its cell, and the column fits the width. */
  lemma CellRoundTrip(frame: int, framesWide: int)
    requires frame >= 0 && framesWide > 0
    ensures 0 <= Mod(frame, framesWide) < framesWide && Div(frame, framesWide) >= 0
    ensures Div(frame, framesWide) * framesWide + Mod(frame, framesWide) == frame
  {
    DivModSpec(frame, framesWide);
    DivModNonNegative(frame, framesWide);
  }

  /** Removing the current animation deletes the object the sprite still draws from, so the next draw reads freed memory. */
  lemma RemovingCurrentDangles(s: AnimatedSprite, deltaTime: real)
    requires Valid(s) && s.currentAnimationName in s.animStates
    requires s.animStates[s.currentAnimationName] == s.currentAnim
    ensures DrawStep(RemoveAnimation(s, s.currentAnimationName), deltaTime).Crash?
  {
  }
}

=== FILE: model/bit_flags.dfy ===
/**
 * Flag words held in a `uint8_t`: an entity's transform flags and the
 * debug-draw flags are both set with `|=`, cleared with `&= ~flag` and
 * tested with `(word & flag) == flag`.
 */
module BitFlags {

  /** The mask of bit `i` of a byte. */
  function Mask(i: nat): bv8
    requires i < 8
  {
    if i == 0 then 1 else if i == 1 then 2 else if i == 2 then 4 else if i == 3 then 8
    else if i == 4 then 16 else if i == 5 then 32 else if i == 6 then 64 else 128
  }

  predicate HasBit(w: bv8, i: nat)
    requires i < 8
  {
    w & Mask(i) != 0
  }

  /** `word |= flag`: the bits of `flag` are added, every other bit is kept. */
  function SetFlag(w: bv8, f: bv8): (r: bv8)
    ensures forall i :: 0 <= i < 8 ==> (HasBit(r, i) <==> HasBit(w, i) || HasBit(f, i))
  {
    w | f
  }

  /** `word &= ~flag`: the bits of `flag` are cleared, every other bit is kept. */
  function UnsetFlag(w: bv8, f: bv8): (r: bv8)
    ensures forall i :: 0 <= i < 8 ==> (HasBit(r, i) <==> HasBit(w, i) && !HasBit(f, i))
  {
    w & !f
  }

  /** `(word & flag) == flag`: every bit of `flag` is present. */
  predicate IsFlagSet(w: bv8, f: bv8)
  {
    w & f == f
  }

  /** A flag test holds exactly when each bit of the flag is a bit of the word. */
  lemma IsFlagSetIffBits(w: bv8, f: bv8)
    ensures IsFlagSet(w, f) <==> forall i :: 0 <= i < 8 && HasBit(f, i) ==> HasBit(w, i)
  {
    if forall i :: 0 <= i < 8 && HasBit(f, i) ==> HasBit(w, i) {
      forall i | 0 <= i < 8
        ensures HasBit(w & f, i) <==> HasBit(f, i)
      {
        AndBit(w, f, i);
      }
      BitsDetermine(w & f, f);
    } else {
      var i :| 0 <= i < 8 && HasBit(f, i) && !HasBit(w, i);
      AndBit(w, f, i);
    }
  }

  /** Bit `i` of `a & b` is set exactly when it is set in both. */
  lemma AndBit(a: bv8, b: bv8, i: nat)
    requires i < 8
    ensures HasBit(a & b, i) <==> HasBit(a, i) && HasBit(b, i)
  {
  }

  /** Two bytes with the same bits are equal. */
  lemma BitsDetermine(a: bv8, b: bv8)
    requires forall i :: 0 <= i < 8 ==> (HasBit(a, i) <==> HasBit(b, i))
    ensures a == b
  {
    assert HasBit(a, 0) == HasBit(b, 0) && HasBit(a, 1) == HasBit(b, 1);
    assert HasBit(a, 2) == HasBit(b, 2) && HasBit(a, 3) == HasBit(b, 3);
    assert HasBit(a, 4) == HasBit(b, 4) && HasBit(a, 5) == HasBit(b, 5);
    assert HasBit(a, 6) == HasBit(b, 6) && HasBit(a, 7) == HasBit(b, 7);
  }

  /** After setting a flag it tests as set, whatever the word held. */
  lemma SetThenIsSet(w: bv8, f: bv8)
    ensures IsFlagSet(SetFlag(w, f), f)
  {
  }

  /** After clearing a non-zero flag it no longer tests as set. */
  lemma UnsetThenNotSet(w: bv8, f: bv8)
    requires f != 0
    ensures !IsFlagSet(UnsetFlag(w, f), f)
  {
  }

  /** Setting one flag does not change the test of a flag sharing no bit with it. */
  lemma SetLeavesDisjointFlag(w: bv8, f: bv8, g: bv8)
    requires f & g == 0
    ensures IsFlagSet(SetFlag(w, f), g) <==> IsFlagSet(w, g)
    ensures IsFlagSet(UnsetFlag(w, f), g) <==> IsFlagSet(w, g)
  {
  }
}

=== FILE: model/collision.dfy ===
/**
 * The physics bridge as seen from the engine: Box2D bodies, fixtures and
 * contacts as plain records, the scene's collision tracker (a map from
 * entity ID to the tracked collision entity) with its contact dispatch,
 * and the collision-filter state every collision entity carries.
 */
module Collision {
  import opened Wrappers
  import opened Structs
  import opened Topology

  // ---------------------------------------------------------------------
  // Box2D records

  /** A signed 16-bit integer, Box2D's `int16`. */
  type Int16 = g: int | -0x8000 <= g < 0x8000

  /** `b2Filter`: category bits, mask bits and a group index. */
  datatype Filter = Filter(categoryBits: bv16, maskBits: bv16, groupIndex: Int16)

  /** Box2D's default filter: category 0x0001, every mask bit, group 0. */
  const DefaultFilter: Filter := Filter(0x0001, 0xFFFF, 0)

  /** The shapes the engine builds fixtures from; geometry stays uninterpreted. */
  datatype Shape =
    | Box(halfWidth: real, halfHeight: real, center: Vec2, angle: real)
    | Circle(center: Vec2, radius: real)
    | Polygon(points: seq<Vec2>)
    | CustomShape(shapeId: nat)

  /** `b2FixtureDef`. */
  datatype FixtureDef = FixtureDef(shape: Shape, density: real, friction: real, restitution: real, isSensor: bool)

  /** A fixture created on a body, with the filter it currently carries. */
  datatype Fixture = Fixture(def: FixtureDef, filter: Filter)

  datatype BodyKind = StaticBody | DynamicBody | KinematicBody

  /** `b2BodyDef`. */
  datatype BodyDef = BodyDef(kind: BodyKind, position: Vec2, angle: real, userData: Option<PhysicsEntityData>)

  /** A force, an impulse or a torque handed to a body, in Box2D's coordinates. */
  datatype Push =
    | Force(force: Vec2, at: Option<Vec2>)
    | Impulse(impulse: Vec2, at: Option<Vec2>)
    | Torque(torque: real)

  /**
   * A `b2Body`: its identity in the physics world, its kind and user data,
   * its pose, its fixtures in creation order, and the pushes applied to it.
   */
  datatype Body = Body(
    bodyId: nat,
    kind: BodyKind,
    userData: Option<PhysicsEntityData>,
    position: Vec2,
    angle: real,
    fixtures: seq<Fixture>,
    pushes: seq<Push>)

  /** A `b2Contact` reduced to the bodies of its two fixtures; a side may be null. */
  datatype Contact = Contact(bodyA: Option<Body>, bodyB: Option<Body>)

  // ---------------------------------------------------------------------
  // The collision tracker

  /** `CollisionTracker::collisionEntityMap`: entity ID to the tracked collision entity. */
  type Tracker = map<int, Id>

  /** `AddTrackedEntity(id, e)`: inserts only when `id` is not tracked yet; an existing entry is kept. */
  function AddTrackedEntity(tr: Tracker, entityId: int, e: Id): (r: Tracker)
    ensures r.Keys == tr.Keys + {entityId}
    ensures forall k :: k in tr ==> r[k] == tr[k]
    ensures entityId !in tr ==> r[entityId] == e
  {
    if entityId !in tr then tr[entityId := e] else tr
  }

  /** `RemoveTrackedEntity(id, e)`: erases `id` if tracked; the entity argument is ignored. */
  function RemoveTrackedEntity(tr: Tracker, entityId: int, e: Id): (r: Tracker)
    ensures r.Keys == tr.Keys - {entityId}
    ensures forall k :: k in r ==> r[k] == tr[k]
  {
    if entityId in tr then tr - {entityId} else tr
  }

  predicate IsTrackingEntity(tr: Tracker, entityId: int)
  {
    entityId in tr
  }

  /** Tracking holds after adding and fails after removing; removing a freshly added ID restores the map. */
  lemma TrackAddRemove(tr: Tracker, entityId: int, e: Id, e2: Id)
    ensures IsTrackingEntity(AddTrackedEntity(tr, entityId, e), entityId)
    ensures !IsTrackingEntity(RemoveTrackedEntity(tr, entityId, e2), entityId)
    ensures entityId !in tr ==> RemoveTrackedEntity(AddTrackedEntity(tr, entityId, e), entityId, e2) == tr
    ensures entityId in tr ==> AddTrackedEntity(tr, entityId, e) == tr
  {
    if entityId !in tr {
      var a := AddTrackedEntity(tr, entityId, e);
      var r := RemoveTrackedEntity(a, entityId, e2);
      assert r.Keys == tr.Keys;
    }
  }

  // ---------------------------------------------------------------------
  // Contact dispatch

  /** The user data of the two sides of a contact, A first. */
  function SideData(c: Contact): (r: seq<PhysicsEntityData>)
    requires c.bodyA.Some? && c.bodyB.Some?
    ensures |r| <= 2
  {
    (if c.bodyA.value.userData.Some? then [c.bodyA.value.userData.value] else [])
    + (if c.bodyB.value.userData.Some? then [c.bodyB.value.userData.value] else [])
  }

  /** Every side of the contact that carries user data names a tracked entity. */
  predicate SidesTracked(tr: Tracker, c: Contact)
  {
    c.bodyA.Some? && c.bodyB.Some? ==>
      forall i :: 0 <= i < |SideData(c)| ==> SideData(c)[i].entityID in tr
  }

  /**
   * The body of `BeginContact` and of `EndContact` as written: nothing when
   * either body is null; otherwise, A before B, each side with user data
   * looks its entity up with `operator[]` and calls it. An untracked ID
   * makes `operator[]` insert a null entry that is then called through.
   * The result is the entities called, in call order.
   */
  function DispatchAsWritten(tr: Tracker, c: Contact): (r: Result<seq<Id>>)
    ensures c.bodyA.None? || c.bodyB.None? ==> r == Ok([])
    ensures r.Ok? && c.bodyA.Some? && c.bodyB.Some? ==>
      |r.value| == |SideData(c)| && forall i :: 0 <= i < |r.value| ==>
        SideData(c)[i].entityID in tr && r.value[i] == tr[SideData(c)[i].entityID]
    ensures r.Crash? <==> !SidesTracked(tr, c)
    ensures !r.Throw?
  {
    if c.bodyA.None? || c.bodyB.None? then Ok([])
    else Targets(tr, SideData(c))
  }

  function Targets(tr: Tracker, ds: seq<PhysicsEntityData>): (r: Result<seq<Id>>)
    ensures r.Ok? ==> |r.value| == |ds| && forall i :: 0 <= i < |ds| ==> ds[i].entityID in tr && r.value[i] == tr[ds[i].entityID]
    ensures r.Crash? <==> exists i :: 0 <= i < |ds| && ds[i].entityID !in tr
    ensures !r.Throw?
  {
    if |ds| == 0 then Ok([])
    else if ds[0].entityID !in tr then Crash(Dangling)
    else match Targets(tr, ds[1..])
      case Ok(rest) => Ok([tr[ds[0].entityID]] + rest)
      case Throw(m) => Throw(m)
      case Crash(m) =>
        assert exists i :: 0 <= i < |ds| - 1 && ds[1..][i].entityID !in tr;
        var i :| 0 <= i < |ds| - 1 && ds[1..][i].entityID !in tr;
        assert ds[i + 1].entityID !in tr;
        Crash(m)
  }

  /** A contact whose body A carries user data for an untracked ID reaches a null entity. */
  lemma DispatchUntrackedCrashes(tr: Tracker, a: Body, b: Body)
    requires a.userData.Some? && a.userData.value.entityID !in tr
    ensures DispatchAsWritten(tr, Contact(Some(a), Some(b))).Crash?
  {
    assert SideData(Contact(Some(a), Some(b)))[0] == a.userData.value;
  }

  /**
   * The evidently intended dispatch: the same order, with a side whose ID
   * is not tracked skipped instead of called through a null entry.
   */
  function Dispatch(tr: Tracker, c: Contact): (r: seq<Id>)
    ensures c.bodyA.None? || c.bodyB.None? ==> r == []
    ensures |r| <= 2
  {
    if c.bodyA.None? || c.bodyB.None? then [] else TrackedTargets(tr, SideData(c))
  }

  /** The tracked entities named by `ds`, in order, untracked IDs left out. */
  function TrackedTargets(tr: Tracker, ds: seq<PhysicsEntityData>): (r: seq<Id>)
    ensures |r| <= |ds|
    ensures forall i :: 0 <= i < |r| ==> r[i] in tr.Values
    ensures forall i :: 0 <= i < |ds| && ds[i].entityID in tr ==> tr[ds[i].entityID] in r
    ensures (forall i :: 0 <= i < |ds| ==> ds[i].entityID in tr) ==>
              |r| == |ds| && forall i :: 0 <= i < |ds| ==> r[i] == tr[ds[i].entityID]
  {
    if |ds| == 0 then []
    else
      var rest := TrackedTargets(tr, ds[1..]);
      assert forall i :: 1 <= i < |ds| ==> ds[i] == ds[1..][i - 1];
      if ds[0].entityID in tr then [tr[ds[0].entityID]] + rest else rest
  }

  /** When every side is tracked the corrected dispatch calls exactly whom the original calls, in the same order. */
  lemma DispatchAgrees(tr: Tracker, c: Contact)
    requires SidesTracked(tr, c)
    ensures DispatchAsWritten(tr, c) == Ok(Dispatch(tr, c))
  {
    if c.bodyA.Some? && c.bodyB.Some? {
      var ds := SideData(c);
      var r := Targets(tr, ds);
      assert r.Ok?;
      var d := Dispatch(tr, c);
      assert |d| == |ds|;
      assert forall i :: 0 <= i < |ds| ==> d[i] == r.value[i];
      assert d == r.value;
      assert DispatchAsWritten(tr, c) == r;
    }
  }

  // ---------------------------------------------------------------------
  // Collision entities: the filter and the fixture buffer

  /**
   * The state `CollisionEntity` adds to an entity: the body definition,
   * the body once created, fixture definitions buffered before that, the
   * `addedToPhysicsWorld` flag and the entity's filter.
   */
  datatype Collider = Collider(
    bodyDef: BodyDef,
    body: Option<Body>,
    pending: seq<FixtureDef>,
    added: bool,
    filter: Filter)

  /** The `CollisionEntity` constructor: an empty fixture cache and a fresh default filter. */
  function NewCollider(def: BodyDef): (c: Collider)
    ensures c.pending == [] && c.filter == DefaultFilter && c.body.None? && !c.added
  {
    Collider(def, None, [], false, DefaultFilter)
  }

  /** Every fixture of a body carries filter `f`. */
  function Refiltered(fs: seq<Fixture>, f: Filter): (r: seq<Fixture>)
    ensures |r| == |fs|
    ensures forall i :: 0 <= i < |fs| ==> r[i] == fs[i].(filter := f)
  {
    seq(|fs|, i requires 0 <= i < |fs| => fs[i].(filter := f))
  }

  const NoFixturesMessage: string := "There are no fixtures on this body!"

  /**
   * `UpdateCollisionFilters()`: nothing before the body is in the physics
   * world; afterwards a body without fixtures fails the debug assert, and
   * otherwise every fixture takes the entity's filter.
   */
  function UpdateCollisionFilters(c: Collider): (r: Result<Collider>)
    ensures !c.added ==> r == Ok(c)
    ensures r.Ok? ==> r.value.filter == c.filter && r.value.added == c.added && r.value.pending == c.pending
    ensures r.Ok? && c.added ==> c.body.Some? && r.value.body.Some?
                                 && |r.value.body.value.fixtures| == |c.body.value.fixtures| > 0
                                 && forall i :: 0 <= i < |c.body.value.fixtures| ==>
                                      r.value.body.value.fixtures[i] == c.body.value.fixtures[i].(filter := c.filter)
    ensures c.added && c.body.Some? && c.body.value.fixtures == [] ==> r == Crash(NoFixturesMessage)
  {
    if !c.added then Ok(c)
    else match c.body
      case None => Crash(Dangling)
      case Some(b) =>
        if b.fixtures == [] then Crash(NoFixturesMessage)
        else Ok(c.(body := Some(b.(fixtures := Refiltered(b.fixtures, c.filter)))))
  }

  /**
   * `UpdateCollisionFilters()` as written: the loop steps to the next
   * fixture with `fixtures++`, pointer arithmetic past the one `b2Fixture`
   * it points at, instead of following `GetNext()`. Once the body is in the
   * physics world and has a fixture, the second iteration reads memory that
   * is not a fixture.
   */
  function UpdateCollisionFiltersAsWritten(c: Collider): (r: Result<Collider>)
    ensures !c.added ==> r == Ok(c)
    ensures c.added ==> r.Crash?
    ensures c.added && c.body.Some? && c.body.value.fixtures == [] ==> r == Crash(NoFixturesMessage)
  {
    if !c.added then Ok(c)
    else match c.body
      case None => Crash(Dangling)
      case Some(b) =>
        if b.fixtures == [] then Crash(NoFixturesMessage)
        else Crash(Dangling)
  }

  /**
   * The two versions agree until the body is in the physics world with at
   * least one fixture; there the written loop runs off its fixture, while
   * the intended one gives every fixture the entity's filter.
   */
  lemma FilterLoopRunsOffFixture(c: Collider)
    ensures !c.added || c.body.None? || c.body.value.fixtures == [] ==>
              UpdateCollisionFiltersAsWritten(c) == UpdateCollisionFilters(c)
    ensures c.added && c.body.Some? && c.body.value.fixtures != [] ==>
              UpdateCollisionFiltersAsWritten(c).Crash? && UpdateCollisionFilters(c).Ok?
              && UpdateCollisionFilters(c).value.body.value.fixtures[0].filter == c.filter
  {
  }

  /**
   * What a filter setter promises once it has stored filter `f`: nothing
   * else happens before the body is in the physics world; afterwards the
   * written fixture walk always fails, while the intended one succeeds
   * exactly when there is a body with fixtures and gives every fixture `f`.
   */
  predicate FilterApplied(c: Collider, f: Filter, intended: bool, r: Result<Collider>)
  {
    && (!c.added ==> r == Ok(c.(filter := f)))
    && (c.added && !intended ==> r.Crash?)
    && (c.added && intended ==> (r.Ok? <==> c.body.Some? && c.body.value.fixtures != []))
    && (r.Ok? ==> r.value.filter == f && r.value.added == c.added && r.value.pending == c.pending)
    && (r.Ok? && c.added ==>
          c.body.Some? && r.value.body.Some?
          && |r.value.body.value.fixtures| == |c.body.value.fixtures|
          && forall i :: 0 <= i < |c.body.value.fixtures| ==>
               r.value.body.value.fixtures[i] == c.body.value.fixtures[i].(filter := f))
  }

  /** The filter update a setter ends with: as written (`fixtures++`) or as intended (`GetNext()`). */
  function UpdateFilters(c: Collider, intended: bool): (r: Result<Collider>)
    ensures FilterApplied(c, c.filter, intended, r)
  {
    if intended then UpdateCollisionFilters(c) else UpdateCollisionFiltersAsWritten(c)
  }

  /** `SetCollisionLayers(bits)`: set the category bits, then update the fixtures. */
  function SetCollisionLayers(c: Collider, bits: bv16, intended: bool): (r: Result<Collider>)
    ensures FilterApplied(c, c.filter.(categoryBits := bits), intended, r)
  {
    UpdateFilters(c.(filter := c.filter.(categoryBits := bits)), intended)
  }

  /** `SetCollisionMask(bits)`: set the mask bits, then update the fixtures. */
  function SetCollisionMask(c: Collider, bits: bv16, intended: bool): (r: Result<Collider>)
    ensures FilterApplied(c, c.filter.(maskBits := bits), intended, r)
  {
    UpdateFilters(c.(filter := c.filter.(maskBits := bits)), intended)
  }

  /** `SetCollisionGroupIndex(g)`: set the group index, then update the fixtures. */
  function SetCollisionGroupIndex(c: Collider, g: Int16, intended: bool): (r: Result<Collider>)
    ensures FilterApplied(c, c.filter.(groupIndex := g), intended, r)
  {
    UpdateFilters(c.(filter := c.filter.(groupIndex := g)), intended)
  }

  /**
   * Each setter changes only its own part of the filter. The written and
   * the intended setters agree exactly when the body is not in the physics
   * world or has no fixture; on a registered body with a fixture the
   * written setter runs off the fixture, and the intended one refilters it.
   */
  lemma FilterSettersTouchOnePart(c: Collider, bits: bv16, g: Int16, intended: bool)
    ensures SetCollisionLayers(c, bits, intended).Ok? ==>
      var f := SetCollisionLayers(c, bits, intended).value.filter;
      f.maskBits == c.filter.maskBits && f.groupIndex == c.filter.groupIndex && f.categoryBits == bits
    ensures SetCollisionMask(c, bits, intended).Ok? ==>
      var f := SetCollisionMask(c, bits, intended).value.filter;
      f.categoryBits == c.filter.categoryBits && f.groupIndex == c.filter.groupIndex && f.maskBits == bits
    ensures SetCollisionGroupIndex(c, g, intended).Ok? ==>
      var f := SetCollisionGroupIndex(c, g, intended).value.filter;
      f.categoryBits == c.filter.categoryBits && f.maskBits == c.filter.maskBits && f.groupIndex == g
    ensures (SetCollisionLayers(c, bits, false) == SetCollisionLayers(c, bits, true))
            <==> !(c.added && c.body.Some? && c.body.value.fixtures != [])
    ensures (SetCollisionMask(c, bits, false) == SetCollisionMask(c, bits, true))
            <==> !(c.added && c.body.Some? && c.body.value.fixtures != [])
    ensures (SetCollisionGroupIndex(c, g, false) == SetCollisionGroupIndex(c, g, true))
            <==> !(c.added && c.body.Some? && c.body.value.fixtures != [])
  {
    FilterLoopRunsOffFixture(c.(filter := c.filter.(categoryBits := bits)));
    FilterLoopRunsOffFixture(c.(filter := c.filter.(maskBits := bits)));
    FilterLoopRunsOffFixture(c.(filter := c.filter.(groupIndex := g)));
  }
}

=== FILE: model/cpp_ints.dfy ===
/**
 * The C++ integer semantics the engine relies on: the conversion of a
 * signed `int` to `size_t` in a mixed comparison, and division and
 * remainder that truncate toward zero.
 */
module CppInts {

  const INT32_MIN: int := -0x8000_0000
  const INT32_MAX: int := 0x7fff_ffff
  const SIZE_T_MODULUS: int := 0x1_0000_0000_0000_0000

  predicate IsInt32(i: int) { INT32_MIN <= i <= INT32_MAX }

  /**
   * The value an `int` takes when the usual arithmetic conversions turn it
   * into a 64-bit `size_t`, as in `vec.size() < index`.
   */
  function ToSizeT(i: int): (r: nat)
    requires IsInt32(i)
    ensures r < SIZE_T_MODULUS
    ensures 0 <= i ==> r == i
    ensures i < 0 ==> r > INT32_MAX
  {
    if i < 0 then i + SIZE_T_MODULUS else i
  }

  /** What a division or remainder by zero is: undefined behaviour. */
  const DivideByZero: string := "integer division by zero"

  function Abs(a: int): nat { if a < 0 then -a else a }

  /** C++ `a / b` on integers: the quotient truncated toward zero. */
  function Div(a: int, b: int): int
    requires b != 0
  {
    var q := Abs(a) / Abs(b);
    if (a < 0) != (b < 0) then -q else q
  }

  /** C++ `a % b` on integers: the remainder takes the sign of `a`. */
  function Mod(a: int, b: int): int
    requires b != 0
  {
    a - b * Div(a, b)
  }

  /**
   * C++ truncating division and remainder satisfy the division identity
   * with a remainder smaller than the divisor and of the dividend's sign.
   */
  lemma DivModSpec(a: int, b: int)
    requires b != 0
    ensures Div(a, b) * b + Mod(a, b) == a
    ensures Abs(Mod(a, b)) < Abs(b)
    ensures a >= 0 ==> Mod(a, b) >= 0
    ensures a <= 0 ==> Mod(a, b) <= 0
  {
    ModMagnitude(a, b);
  }

  /** The C++ remainder is the Euclidean remainder of the magnitudes, with the dividend's sign. */
  lemma ModMagnitude(a: int, b: int)
    requires b != 0
    ensures Mod(a, b) == if a < 0 then -(Abs(a) % Abs(b)) else Abs(a) % Abs(b)
  {
    var q := Abs(a) / Abs(b);
    var m := Abs(a) % Abs(b);
    assert Abs(a) == q * Abs(b) + m;
    if a >= 0 && b > 0 {
    } else if a >= 0 && b < 0 {
      assert Mod(a, b) == a - b * (-q);
    } else if a < 0 && b > 0 {
      assert Mod(a, b) == a - b * (-q);
    } else {
      assert Mod(a, b) == a - b * q;
    }
  }

  /**
   * On a non-negative dividend and a positive divisor the C++ operators
   * agree with Dafny's Euclidean ones.
   */
  lemma DivModNonNegative(a: int, b: int)
    requires a >= 0 && b > 0
    ensures Div(a, b) == a / b
    ensures Mod(a, b) == a % b
  {
  }
}

=== FILE: model/debug.dfy ===
/**
 * The engine's `Debug` class: debug-draw flags kept in one byte, the log
 * file and its path, assertions that log before they abort, the queue of
 * debug lines drawn once per frame, and the spacing of the world grid.
 * The log file is a map from path to contents; the console is the list
 * of lines printed to it.
 */
module Debug {
  import opened Wrappers
  import opened Structs
  import opened CppInts
  import opened BitFlags

  // ---------------------------------------------------------------------
  // Flags

  /** The members of `DEBUG_FLAGS`. */
  datatype DebugFlag = DrawPhysicsBounds | DrawSpriteBounds | DrawWorldGrid

  /**
   * The bits of each flag, with the world grid on a bit of its own
   * (`1 << 2`), as the flags were meant to be. The flag operations below
   * without the `AsWritten` suffix use these intended bits.
   */
  function FlagBits(f: DebugFlag): (r: bv8)
    ensures r != 0
  {
    match f
    case DrawPhysicsBounds => 1
    case DrawSpriteBounds => 2
    case DrawWorldGrid => 4
  }

  /** The bits of each flag as written: `DRAW_WORLD_GRID = 3 << 1`, which is 6 and holds the sprite-bounds bit. */
  function FlagBitsAsWritten(f: DebugFlag): (r: bv8)
    ensures f != DrawWorldGrid ==> r == FlagBits(f)
    ensures f == DrawWorldGrid ==> r == FlagBits(DrawSpriteBounds) | FlagBits(DrawWorldGrid)
  {
    match f
    case DrawPhysicsBounds => 1
    case DrawSpriteBounds => 2
    case DrawWorldGrid => 3 << 1
  }

  /** `SetDebugFlag(f)`: `debugFlags |= f`, over the intended bits. */
  function SetDebugFlag(flags: bv8, f: DebugFlag): (r: bv8)
    ensures IsDebugFlagSet(r, f)
    ensures forall g :: g != f ==> (IsDebugFlagSet(r, g) <==> IsDebugFlagSet(flags, g))
  {
    SetFlag(flags, FlagBits(f))
  }

  /** `UnsetDebugFlag(f)`: `debugFlags &= ~f`, over the intended bits. */
  function UnsetDebugFlag(flags: bv8, f: DebugFlag): (r: bv8)
    ensures !IsDebugFlagSet(r, f)
    ensures forall g :: g != f ==> (IsDebugFlagSet(r, g) <==> IsDebugFlagSet(flags, g))
  {
    UnsetFlag(flags, FlagBits(f))
  }

  /** `IsDebugFlagSet(f)`: every bit of `f` is set, over the intended bits. */
  predicate IsDebugFlagSet(flags: bv8, f: DebugFlag)
  {
    IsFlagSet(flags, FlagBits(f))
  }

  /** `SetDebugFlag(f)` as written, over the enumerator values of debug.h. */
  function SetDebugFlagAsWritten(flags: bv8, f: DebugFlag): (r: bv8)
    ensures IsDebugFlagSetAsWritten(r, f)
    ensures forall g :: FlagBitsAsWritten(f) & FlagBitsAsWritten(g) == 0 ==>
              (IsDebugFlagSetAsWritten(r, g) <==> IsDebugFlagSetAsWritten(flags, g))
    ensures f == DrawWorldGrid ==> IsDebugFlagSetAsWritten(r, DrawSpriteBounds)
  {
    var r := SetFlag(flags, FlagBitsAsWritten(f));
    forall g | FlagBitsAsWritten(f) & FlagBitsAsWritten(g) == 0
      ensures IsDebugFlagSetAsWritten(r, g) <==> IsDebugFlagSetAsWritten(flags, g)
    {
      SetLeavesDisjointFlag(flags, FlagBitsAsWritten(f), FlagBitsAsWritten(g));
    }
    r
  }

  /** `UnsetDebugFlag(f)` as written, over the enumerator values of debug.h. */
  function UnsetDebugFlagAsWritten(flags: bv8, f: DebugFlag): (r: bv8)
    ensures !IsDebugFlagSetAsWritten(r, f)
    ensures forall g :: FlagBitsAsWritten(f) & FlagBitsAsWritten(g) == 0 ==>
              (IsDebugFlagSetAsWritten(r, g) <==> IsDebugFlagSetAsWritten(flags, g))
    ensures f == DrawWorldGrid ==> !IsDebugFlagSetAsWritten(r, DrawSpriteBounds)
    ensures f == DrawSpriteBounds ==> !IsDebugFlagSetAsWritten(r, DrawWorldGrid)
  {
    var r := UnsetFlag(flags, FlagBitsAsWritten(f));
    forall g | FlagBitsAsWritten(f) & FlagBitsAsWritten(g) == 0
      ensures IsDebugFlagSetAsWritten(r, g) <==> IsDebugFlagSetAsWritten(flags, g)
    {
      SetLeavesDisjointFlag(flags, FlagBitsAsWritten(f), FlagBitsAsWritten(g));
    }
    r
  }

  /** `IsDebugFlagSet(f)` as written: every bit of the enumerator value is set. */
  predicate IsDebugFlagSetAsWritten(flags: bv8, f: DebugFlag)
  {
    IsFlagSet(flags, FlagBitsAsWritten(f))
  }

  /**
   * The as-written and the intended flag operations agree on the physics
   * and sprite-bounds flags; only the world grid differs, and there only in
   * the sprite-bounds bit it drags along.
   */
  lemma DebugFlagsAgreeOffWorldGrid(flags: bv8, f: DebugFlag)
    requires f != DrawWorldGrid
    ensures SetDebugFlagAsWritten(flags, f) == SetDebugFlag(flags, f)
    ensures UnsetDebugFlagAsWritten(flags, f) == UnsetDebugFlag(flags, f)
    ensures IsDebugFlagSetAsWritten(flags, f) == IsDebugFlagSet(flags, f)
    ensures SetDebugFlagAsWritten(flags, DrawWorldGrid) == SetDebugFlag(SetDebugFlag(flags, DrawWorldGrid), DrawSpriteBounds)
  {
  }

  /**
   * With a bit per flag, each flag reads back as it was last set or
   * unset, whatever happens to the others: flags start clear, and setting
   * or clearing one leaves the others' answers alone.
   */
  lemma FlagsIndependent(flags: bv8, f: DebugFlag, g: DebugFlag)
    requires f != g
    ensures FlagBits(f) & FlagBits(g) == 0
    ensures IsDebugFlagSet(SetDebugFlag(flags, f), g) <==> IsDebugFlagSet(flags, g)
    ensures IsDebugFlagSet(UnsetDebugFlag(flags, f), g) <==> IsDebugFlagSet(flags, g)
    ensures !IsDebugFlagSet(0, f)
  {
    SetLeavesDisjointFlag(flags, FlagBits(f), FlagBits(g));
  }

  /**
   * As written, setting the world-grid flag makes the sprite-bounds flag
   * read as set, and clearing the sprite-bounds flag makes the world-grid
   * flag read as clear, though neither was touched.
   */
  lemma WorldGridOverlapsSpriteBounds()
    ensures IsFlagSet(SetFlag(0, FlagBitsAsWritten(DrawWorldGrid)), FlagBitsAsWritten(DrawSpriteBounds))
    ensures var flags := SetFlag(0, FlagBitsAsWritten(DrawWorldGrid));
      IsFlagSet(flags, FlagBitsAsWritten(DrawWorldGrid))
      && !IsFlagSet(UnsetFlag(flags, FlagBitsAsWritten(DrawSpriteBounds)), FlagBitsAsWritten(DrawWorldGrid))
  {
  }

  // ---------------------------------------------------------------------
  // The log

  /**
   * The static state of `Debug`: the flags, the parts of the log path,
   * whether the log file is open, the contents of every log file
   * written, what was printed to the console, and the queued lines.
   * The open file, when there is one, is always the one at the current
   * log path, since every change to the path reopens it.
   */
  datatype DebugState = DebugState(
    debugFlags: bv8,
    fileName: string,
    pathToLog: string,
    isOpen: bool,
    files: map<string, string>,
    console: seq<string>,
    lines: seq<LineData>)

  const FileExtension: string := ".txt"

  /** The static initialisers: no flags, "debug_log" in the working directory, no file open yet, no lines. */
  const InitialDebug: DebugState := DebugState(0, "debug_log", "", false, map[], [], [])

  /** `GetLogPath()`. */
  function GetLogPath(s: DebugState): (r: string)
    ensures |r| == |s.pathToLog| + |s.fileName| + |FileExtension|
    ensures r[..|s.pathToLog|] == s.pathToLog
    ensures r[|s.pathToLog|..|s.pathToLog| + |s.fileName|] == s.fileName
    ensures r[|r| - |FileExtension|..] == FileExtension
  {
    s.pathToLog + s.fileName + FileExtension
  }

  /** Before any change the log goes to "debug_log.txt" in the working directory. */
  lemma DefaultLogPath()
    ensures GetLogPath(InitialDebug) == "debug_log.txt"
  {
  }

  /** `outputFile.open(GetLogPath())`: an output stream opened without a mode starts the file empty. */
  function Open(s: DebugState): (r: DebugState)
    ensures r.isOpen && GetLogPath(r) == GetLogPath(s)
    ensures GetLogPath(r) in r.files && r.files[GetLogPath(r)] == ""
    ensures forall p :: p in s.files && p != GetLogPath(s) ==> p in r.files && r.files[p] == s.files[p]
  {
    s.(isOpen := true, files := s.files[GetLogPath(s) := ""])
  }

  /** `SetFileName(n)`: close the open file, if any, and open the file of the new name. */
  function SetFileName(s: DebugState, newFileName: string): (r: DebugState)
    ensures r.isOpen && r.fileName == newFileName && r.pathToLog == s.pathToLog
    ensures GetLogPath(r) in r.files && r.files[GetLogPath(r)] == ""
    ensures forall p :: p in s.files && p != GetLogPath(r) ==> p in r.files && r.files[p] == s.files[p]
    ensures r.debugFlags == s.debugFlags && r.lines == s.lines && r.console == s.console
  {
    Open(s.(isOpen := false, fileName := newFileName))
  }

  /** `SetFileLocation(l)`: close the open file, if any, and open the file in the new directory. */
  function SetFileLocation(s: DebugState, newFileLocation: string): (r: DebugState)
    ensures r.isOpen && r.pathToLog == newFileLocation && r.fileName == s.fileName
    ensures GetLogPath(r) in r.files && r.files[GetLogPath(r)] == ""
    ensures forall p :: p in s.files && p != GetLogPath(r) ==> p in r.files && r.files[p] == s.files[p]
    ensures r.debugFlags == s.debugFlags && r.lines == s.lines && r.console == s.console
  {
    Open(s.(isOpen := false, pathToLog := newFileLocation))
  }

  /**
   * `str.c_str()` read as a C string: the characters before the first
   * `'\0'`, or all of them when there is none.
   */
  function CString(str: string): string
    decreases |str|
  {
    if str == [] || str[0] == '\0' then [] else [str[0]] + CString(str[1..])
  }

  /**
   * The C string is the longest NUL-free prefix: it stops at the first
   * `'\0'`, and a string without one is read whole.
   */
  lemma {:induction false} CStringFacts(str: string)
    ensures CString(str) <= str && '\0' !in CString(str)
    ensures |CString(str)| < |str| ==> str[|CString(str)|] == '\0'
    ensures '\0' !in str ==> CString(str) == str
    decreases |str|
  {
    if str != [] && str[0] != '\0' {
      CStringFacts(str[1..]);
      assert '\0' !in str ==> '\0' !in str[1..];
      assert str == [str[0]] + str[1..];
    }
  }

  /** A NUL-free head passes through `c_str()` whole, and the cut happens in the rest. */
  lemma {:induction false} CStringAppend(a: string, b: string)
    requires '\0' !in a
    ensures CString(a + b) == a + CString(b)
    decreases |a|
  {
    if a != [] {
      assert (a + b)[0] == a[0] != '\0';
      assert (a + b)[1..] == a[1..] + b;
      assert '\0' !in a[1..] by {
        forall j | 0 <= j < |a[1..]| ensures a[1..][j] != '\0' {
          assert a[1..][j] == a[j + 1];
        }
      }
      CStringAppend(a[1..], b);
      assert CString(a + b) == [a[0]] + CString(a[1..] + b);
      assert a == [a[0]] + a[1..];
    } else {
      assert a + b == b;
    }
  }

  /** A `'\0'` in the head ends the C string inside the head. */
  lemma {:induction false} CStringCut(a: string, b: string)
    requires '\0' in a
    ensures CString(a + b) == CString(a) && |CString(a)| < |a|
    decreases |a|
  {
    assert (a + b)[0] == a[0];
    if a[0] != '\0' {
      assert (a + b)[1..] == a[1..] + b;
      assert '\0' in a[1..] by {
        var j :| 0 <= j < |a| && a[j] == '\0';
        assert j > 0 && a[1..][j - 1] == '\0';
      }
      CStringCut(a[1..], b);
    }
  }

  /**
   * `Log(item)`: open the file if it is not open, print the item to the
   * console, and write it and a newline to the file. The file receives
   * `(item + '\n').c_str()`; the console receives the whole item.
   */
  function Log(s: DebugState, newLogItem: string): (r: DebugState)
    ensures r.isOpen && GetLogPath(r) == GetLogPath(s) && GetLogPath(r) in r.files
    ensures r.console == s.console + [newLogItem]
    ensures s.isOpen && GetLogPath(s) in s.files ==> r.files[GetLogPath(r)] == s.files[GetLogPath(s)] + CString(newLogItem + "\n")
    ensures !s.isOpen ==> r.files[GetLogPath(r)] == CString(newLogItem + "\n")
    ensures forall p :: p in s.files && p != GetLogPath(s) ==> p in r.files && r.files[p] == s.files[p]
    ensures r.debugFlags == s.debugFlags && r.lines == s.lines
  {
    var s1 := if !s.isOpen then Open(s) else s;
    var path := GetLogPath(s1);
    var before := if path in s1.files then s1.files[path] else "";
    s1.(console := s1.console + [newLogItem], files := s1.files[path := before + CString(newLogItem + "\n")])
  }

  /**
   * What one `Log` adds to an open file: a NUL-free item and its newline
   * whole; an item holding a `'\0'` only up to that character, with no
   * newline.
   */
  lemma LogLine(s: DebugState, newLogItem: string)
    requires s.isOpen && GetLogPath(s) in s.files
    ensures '\0' !in newLogItem ==>
              Log(s, newLogItem).files[GetLogPath(s)] == s.files[GetLogPath(s)] + newLogItem + "\n"
    ensures '\0' in newLogItem ==>
              var cut := CString(newLogItem);
              && Log(s, newLogItem).files[GetLogPath(s)] == s.files[GetLogPath(s)] + cut
              && |cut| < |newLogItem| && newLogItem[..|cut|] == cut && newLogItem[|cut|] == '\0'
  {
    if '\0' in newLogItem {
      CStringCut(newLogItem, "\n");
      CStringFacts(newLogItem);
    } else {
      NulFreeTail(newLogItem, "\n");
      CStringFacts(newLogItem + "\n");
    }
  }

  /**
   * An open log holds exactly what was logged since it was opened, each
   * item as `c_str()` cuts it, in order; without a `'\0'` in any item that
   * is one item per line.
   */
  lemma LogAccumulates(s: DebugState, items: seq<string>)
    requires s.isOpen && GetLogPath(s) in s.files
    ensures var r := LogAll(s, items);
      GetLogPath(r) == GetLogPath(s) && GetLogPath(r) in r.files
      && r.files[GetLogPath(r)] == s.files[GetLogPath(s)] + FileText(items)
      && r.console == s.console + items
    ensures (forall i :: 0 <= i < |items| ==> '\0' !in items[i]) ==>
      LogAll(s, items).files[GetLogPath(s)] == s.files[GetLogPath(s)] + Lines(items)
  {
    LogAllText(s, items);
    FileTextWithoutNul(items);
  }

  /** The file text and the console lines `LogAll` leaves on an open log. */
  lemma {:induction false} LogAllText(s: DebugState, items: seq<string>)
    requires s.isOpen && GetLogPath(s) in s.files
    ensures var r := LogAll(s, items);
      GetLogPath(r) == GetLogPath(s) && GetLogPath(r) in r.files
      && r.files[GetLogPath(r)] == s.files[GetLogPath(s)] + FileText(items)
      && r.console == s.console + items
    decreases |items|
  {
    if items != [] {
      var path := GetLogPath(s);
      var s1 := Log(s, items[0]);
      assert GetLogPath(s1) == path && path in s1.files;
      assert s1.files[path] == s.files[path] + CString(items[0] + "\n");
      LogAllText(s1, items[1..]);
      assert FileText(items) == CString(items[0] + "\n") + FileText(items[1..]);
      assert s.console + items == s.console + [items[0]] + items[1..];
    }
  }

  /** `Log` of each item in turn. */
  function LogAll(s: DebugState, items: seq<string>): DebugState
    decreases |items|
  {
    if items == [] then s else LogAll(Log(s, items[0]), items[1..])
  }

  /** The items, each followed by a newline. */
  function Lines(items: seq<string>): string
    decreases |items|
  {
    if items == [] then "" else items[0] + "\n" + Lines(items[1..])
  }

  /** What the file receives for the items: each `(item + '\n').c_str()` in turn. */
  function FileText(items: seq<string>): string
    decreases |items|
  {
    if items == [] then "" else CString(items[0] + "\n") + FileText(items[1..])
  }

  /** Without a `'\0'` in any item, the file receives one item per line. */
  lemma {:induction false} FileTextWithoutNul(items: seq<string>)
    ensures (forall i :: 0 <= i < |items| ==> '\0' !in items[i]) ==> FileText(items) == Lines(items)
    decreases |items|
  {
    if items != [] && forall i :: 0 <= i < |items| ==> '\0' !in items[i] {
      NulFreeTail(items[0], "\n");
      CStringFacts(items[0] + "\n");
      FileTextWithoutNul(items[1..]);
      assert forall i :: 0 <= i < |items[1..]| ==> '\0' !in items[1..][i] by {
        forall i | 0 <= i < |items[1..]| ensures '\0' !in items[1..][i] {
          assert items[1..][i] == items[i + 1];
        }
      }
    }
  }

  const AssertPrefix: string := "**ASSERT TRIGGERED: "
  const AssertSuffix: string := " **"

  /**
   * `Assert(c, m)`: nothing when `c` holds; otherwise the message is
   * logged between markers and, in a debug build, `assert` aborts the
   * program. A release build defines `NDEBUG`, so there it only logs.
   */
  function Assert(s: DebugState, condition: bool, failureMessage: string, debugBuild: bool): (r: (DebugState, bool))
    ensures condition ==> r == (s, false)
    ensures !condition ==> r.0 == Log(s, AssertPrefix + failureMessage + AssertSuffix)
    ensures r.1 <==> !condition && debugBuild
  {
    if condition then (s, false)
    else (Log(s, AssertPrefix + failureMessage + AssertSuffix), debugBuild)
  }

  /**
   * A failed assertion's message is the last line of the log, and the
   * earlier contents of an open log are kept in front of it. A `'\0'` in
   * the message cuts the file's copy there, while the console keeps all of it.
   */
  lemma FailedAssertIsLogged(s: DebugState, failureMessage: string, debugBuild: bool)
    requires s.isOpen && GetLogPath(s) in s.files
    ensures var r := Assert(s, false, failureMessage, debugBuild);
      && ('\0' !in failureMessage ==>
            r.0.files[GetLogPath(s)] == s.files[GetLogPath(s)] + "**ASSERT TRIGGERED: " + failureMessage + " **\n")
      && r.0.files[GetLogPath(s)] == s.files[GetLogPath(s)] + "**ASSERT TRIGGERED: " + CString(failureMessage + " **\n")
      && r.0.console[|r.0.console| - 1] == "**ASSERT TRIGGERED: " + failureMessage + " **"
  {
    var path := GetLogPath(s);
    AssertFileLine(s, failureMessage, debugBuild);
    if '\0' !in failureMessage {
      var tail := failureMessage + " **\n";
      NulFreeTail(failureMessage, " **\n");
      CStringFacts(tail);
      ConcatAssoc(s.files[path] + AssertPrefix, failureMessage, " **\n");
    }
  }

  /** The file line of a failed assertion: the prefix, then the C string of the rest. */
  lemma AssertFileLine(s: DebugState, failureMessage: string, debugBuild: bool)
    requires s.isOpen && GetLogPath(s) in s.files
    ensures Assert(s, false, failureMessage, debugBuild).0.files[GetLogPath(s)]
              == s.files[GetLogPath(s)] + AssertPrefix + CString(failureMessage + " **\n")
  {
    var item := AssertPrefix + failureMessage + AssertSuffix;
    var tail := failureMessage + " **\n";
    var path := GetLogPath(s);
    var r := Log(s, item);
    assert r.files[path] == s.files[path] + CString(item + "\n");
    assert item + "\n" == AssertPrefix + tail;
    CStringAppend(AssertPrefix, tail);
    ConcatAssoc(s.files[path], AssertPrefix, CString(tail));
  }

  /** String concatenation regrouped, stated over variables so that no literal is unfolded. */
  lemma ConcatAssoc(a: string, b: string, c: string)
    ensures a + (b + c) == a + b + c
  {
  }

  /** Appending a NUL-free suffix keeps a string NUL-free. */
  lemma NulFreeTail(a: string, b: string)
    requires '\0' !in a && '\0' !in b
    ensures '\0' !in a + b
  {
    forall j | 0 <= j < |a + b| ensures (a + b)[j] != '\0' {
      if j < |a| { assert (a + b)[j] == a[j]; } else { assert (a + b)[j] == b[j - |a|]; }
    }
  }

  // ---------------------------------------------------------------------
  // Debug lines

  /** `DrawLine(l)`: queue a line for the next `DrawDebugShapes`. */
  function DrawLine(s: DebugState, line: LineData): (r: DebugState)
    ensures r.lines == s.lines + [line]
    ensures r.(lines := s.lines) == s
  {
    s.(lines := s.lines + [line])
  }

  /** `DrawDebugShapes()`: the queued lines, in order, are drawn; the queue is emptied. */
  function DrawDebugShapes(s: DebugState): (r: (seq<LineData>, DebugState))
    ensures r.0 == s.lines
    ensures r.1.lines == []
    ensures r.1.(lines := s.lines) == s
  {
    (s.lines, s.(lines := []))
  }

  /**
   * Lines queued during a frame are drawn once, in the order they were
   * queued; the next frame starts with none.
   */
  lemma LinesDrawnOnceInOrder(s: DebugState, queued: seq<LineData>)
    requires s.lines == []
    ensures var (drawn, s1) := DrawDebugShapes(DrawLines(s, queued));
      drawn == queued && DrawDebugShapes(s1).0 == []
  {
    DrawLinesQueues(s, queued);
  }

  /** `DrawLine` of each line in turn. */
  function DrawLines(s: DebugState, ls: seq<LineData>): DebugState
    decreases |ls|
  {
    if ls == [] then s else DrawLines(DrawLine(s, ls[0]), ls[1..])
  }

  /** Queuing lines one by one appends them in order. */
  lemma {:induction false} DrawLinesQueues(s: DebugState, ls: seq<LineData>)
    ensures DrawLines(s, ls).lines == s.lines + ls
    decreases |ls|
  {
    if ls != [] {
      DrawLinesQueues(DrawLine(s, ls[0]), ls[1..]);
      assert s.lines + [ls[0]] + ls[1..] == s.lines + ls;
    }
  }

  // ---------------------------------------------------------------------
  // World grid

  /** The position of grid line `i`: `step * i - screen / 2.0 + snap`, with the product taken in `int`. */
  function GridLinePosition(screen: int, step: int, snap: real, i: int): real
  {
    (step * i) as real - screen as real / 2.0 + snap
  }

  /** Consecutive grid lines are one step apart. */
  lemma GridLineSpacing(screen: int, step: int, snap: real, i: int)
    ensures GridLinePosition(screen, step, snap, i + 1) == GridLinePosition(screen, step, snap, i) + step as real
  {
    assert step * (i + 1) == step * i + step;
  }

  /** Lines at positions `-1, 0, 1, …` are one step apart. */
  lemma GridSpacing(screen: int, step: int, snap: real, positions: seq<real>)
    requires forall k :: 0 <= k < |positions| ==> positions[k] == GridLinePosition(screen, step, snap, k - 1)
    ensures forall k :: 0 <= k < |positions| - 1 ==> positions[k + 1] == positions[k] + step as real
  {
    forall k | 0 <= k < |positions| - 1
      ensures positions[k + 1] == positions[k] + step as real
    {
      GridLineSpacing(screen, step, snap, k - 1);
    }
  }

  /** For a positive step the last line, `i = screen / step`, lies within one step left of the screen's right edge. */
  lemma GridReachesScreenEdge(screen: int, step: int, snap: real)
    requires step > 0 && screen >= 0
    ensures var x := GridLinePosition(screen, step, snap, Div(screen, step));
      x <= snap + screen as real / 2.0 < x + step as real
  {
    DivModNonNegative(screen, step);
    var q := screen / step;
    assert step * q <= screen < step * q + step;
    assert (step * q) as real <= screen as real < (step * q) as real + step as real;
  }

  /**
   * One axis of `DrawWorldGrid(xStep, yStep, worldPos)`: lines for `i`
   * from -1 up to `screen / step` (truncating), `step` apart, shifted by
   * `snap`, the world position less its remainder modulo the step (the
   * floating-point `fmod` is taken as given). A zero step divides by
   * zero.
   */
  method GridLines(screen: int, step: int, snap: real) returns (r: Result<seq<real>>)
    ensures r.Crash? <==> step == 0
    ensures !r.Throw?
    ensures r.Ok? ==> |r.value| == (if Div(screen, step) >= -2 then Div(screen, step) + 2 else 0)
    ensures r.Ok? && |r.value| > 0 ==> r.value[0] == snap - screen as real / 2.0 - step as real
    ensures r.Ok? ==> forall k :: 0 <= k < |r.value| - 1 ==> r.value[k + 1] == r.value[k] + step as real
    ensures r.Ok? && step > 0 && screen >= 0 ==>
      |r.value| > 0 && r.value[|r.value| - 1] <= snap + screen as real / 2.0 < r.value[|r.value| - 1] + step as real
  {
    if step == 0 {
      return Crash(DivideByZero);
    }
    var last := Div(screen, step);
    var positions := GridLinesUpTo(screen, step, snap, last);
    GridSpacing(screen, step, snap, positions);
    if |positions| > 0 {
      GridFirstLine(screen, step, snap);
    }
    if step > 0 && screen >= 0 {
      GridReachesScreenEdge(screen, step, snap);
    }
    return Ok(positions);
  }

  /** The loop of one axis: the line positions for `i` from -1 up to `last`. */
  method GridLinesUpTo(screen: int, step: int, snap: real, last: int) returns (positions: seq<real>)
    ensures |positions| == (if last >= -2 then last + 2 else 0)
    ensures forall k :: 0 <= k < |positions| ==> positions[k] == GridLinePosition(screen, step, snap, k - 1)
  {
    positions := [];
    var i := -1;
    while i <= last
      invariant -1 <= i <= (if last >= -1 then last + 1 else -1)
      invariant |positions| == i + 1
      invariant forall k :: 0 <= k < |positions| ==> positions[k] == GridLinePosition(screen, step, snap, k - 1)
      decreases last + 1 - i
    {
      positions := positions + [GridLinePosition(screen, step, snap, i)];
      i := i + 1;
    }
  }

  /** The first line, `i = -1`, lies one step left of the screen's left edge. */
  lemma GridFirstLine(screen: int, step: int, snap: real)
    ensures GridLinePosition(screen, step, snap, -1) == snap - screen as real / 2.0 - step as real
  {
  }
}

=== FILE: model/draw_order.dfy ===
/**
 * The order a scene draws in: the two comparators a scene hands to
 * `std::sort`, what makes them strict weak orders, and a sort that
 * produces one of the orders `std::sort` may leave (the standard does not
 * fix the order of equivalent elements, so only "sorted permutation" is
 * promised).
 */
module DrawOrder {

  /** What the comparators read of an entity: the summed draw layer and the local y position. */
  datatype DrawKey = DrawKey(layer: int, y: real)

  /** `SortByLayerIndex(p1, p2)`: the first draws earlier when its layer is smaller. */
  predicate SortByLayerIndex(a: DrawKey, b: DrawKey)
  {
    a.layer < b.layer
  }

  /** `SortByLayerIndexWithYSort(p1, p2)`: on equal layers the smaller y draws earlier. */
  predicate SortByLayerIndexWithYSort(a: DrawKey, b: DrawKey)
  {
    if a.layer == b.layer then a.y < b.y else a.layer < b.layer
  }

  /** The comparator a scene picks from its `ySortEnabled` flag. */
  predicate Before(ySort: bool, a: DrawKey, b: DrawKey)
  {
    if ySort then SortByLayerIndexWithYSort(a, b) else SortByLayerIndex(a, b)
  }

  /** The y-sorting comparator is the lexicographic order on (layer, y). */
  lemma YSortIsLexicographic(a: DrawKey, b: DrawKey)
    ensures SortByLayerIndexWithYSort(a, b) <==> a.layer < b.layer || (a.layer == b.layer && a.y < b.y)
  {
  }

  /** Without y-sorting, two keys on the same layer are equivalent whatever their y. */
  lemma LayerOnlyIgnoresY(a: DrawKey, b: DrawKey)
    requires a.layer == b.layer
    ensures !SortByLayerIndex(a, b) && !SortByLayerIndex(b, a)
  {
  }

  /** The y-sorting comparator refines the layer-only one: it never puts a higher layer first. */
  lemma YSortRefinesLayerOrder(a: DrawKey, b: DrawKey)
    ensures SortByLayerIndex(a, b) ==> SortByLayerIndexWithYSort(a, b)
    ensures SortByLayerIndexWithYSort(a, b) ==> !SortByLayerIndex(b, a)
  {
  }

  /**
   * Both comparators are strict weak orders, as `std::sort` requires:
   * irreflexive, transitive, and with transitive incomparability.
   */
  lemma StrictWeakOrder(ySort: bool, a: DrawKey, b: DrawKey, c: DrawKey)
    ensures !Before(ySort, a, a)
    ensures Before(ySort, a, b) && Before(ySort, b, c) ==> Before(ySort, a, c)
    ensures Before(ySort, a, b) ==> !Before(ySort, b, a)
    ensures !Before(ySort, a, b) && !Before(ySort, b, a) && !Before(ySort, b, c) && !Before(ySort, c, b)
            ==> !Before(ySort, a, c) && !Before(ySort, c, a)
  {
  }

  // ---------------------------------------------------------------------
  // Sorting

  /** No later element goes strictly before an earlier one. */
  predicate SortedBy<T>(ySort: bool, key: T -> DrawKey, s: seq<T>)
  {
    forall i, j :: 0 <= i < j < |s| ==> !Before(ySort, key(s[j]), key(s[i]))
  }

  /** Insert `x` in front of the first element it does not go after. */
  function InsertSorted<T>(ySort: bool, key: T -> DrawKey, x: T, s: seq<T>): (r: seq<T>)
    requires SortedBy(ySort, key, s)
    ensures multiset(r) == multiset(s) + multiset{x}
    ensures SortedBy(ySort, key, r)
  {
    if |s| == 0 then [x]
    else if !Before(ySort, key(s[0]), key(x)) then
      InsertFront(ySort, key, x, s);
      [x] + s
    else
      var rest := InsertSorted(ySort, key, x, s[1..]);
      InsertBehind(ySort, key, x, s, rest);
      [s[0]] + rest
  }

  /** An element that the head of a sorted list does not go before may be put in front of it. */
  lemma InsertFront<T>(ySort: bool, key: T -> DrawKey, x: T, s: seq<T>)
    requires SortedBy(ySort, key, s) && |s| > 0 && !Before(ySort, key(s[0]), key(x))
    ensures SortedBy(ySort, key, [x] + s)
  {
    forall j | 0 <= j < |s|
      ensures !Before(ySort, key(s[j]), key(x))
    {
      StrictWeakOrder(ySort, key(s[j]), key(s[0]), key(x));
      StrictWeakOrder(ySort, key(x), key(s[0]), key(s[j]));
    }
  }

  /** The head of a sorted list that goes before `x` stays in front of the tail with `x` inserted. */
  lemma InsertBehind<T>(ySort: bool, key: T -> DrawKey, x: T, s: seq<T>, rest: seq<T>)
    requires SortedBy(ySort, key, s) && |s| > 0 && Before(ySort, key(s[0]), key(x))
    requires multiset(rest) == multiset(s[1..]) + multiset{x} && SortedBy(ySort, key, rest)
    ensures multiset([s[0]] + rest) == multiset(s) + multiset{x}
    ensures SortedBy(ySort, key, [s[0]] + rest)
  {
    assert s == [s[0]] + s[1..];
    forall j | 0 <= j < |rest|
      ensures !Before(ySort, key(rest[j]), key(s[0]))
    {
      assert rest[j] in multiset(rest);
      StrictWeakOrder(ySort, key(s[0]), key(x), key(x));
      if rest[j] != x {
        assert rest[j] in multiset(s[1..]);
        var k :| 0 <= k < |s[1..]| && s[1..][k] == rest[j];
        assert s[k + 1] == rest[j];
      }
    }
  }

  /** Insertion sort: a permutation of the input in comparator order. */
  function Sort<T>(ySort: bool, key: T -> DrawKey, s: seq<T>): (r: seq<T>)
    ensures multiset(r) == multiset(s)
    ensures SortedBy(ySort, key, r)
  {
    if |s| == 0 then []
    else
      assert s == s[..|s| - 1] + [s[|s| - 1]];
      InsertSorted(ySort, key, s[|s| - 1], Sort(ySort, key, s[..|s| - 1]))
  }

  /** Sorting keeps exactly the elements it was given. */
  lemma SortMembers<T>(ySort: bool, key: T -> DrawKey, s: seq<T>, x: T)
    ensures x in Sort(ySort, key, s) <==> x in s
  {
    var r := Sort(ySort, key, s);
    assert x in r <==> x in multiset(r);
    assert x in s <==> x in multiset(s);
  }

  /** Each element goes strictly before every later one. */
  predicate StrictlyOrdered<T>(ySort: bool, key: T -> DrawKey, s: seq<T>)
  {
    forall i, j :: 0 <= i < j < |s| ==> Before(ySort, key(s[i]), key(s[j]))
  }

  /** A list already in comparator order with no equivalent neighbours is left alone by the sort. */
  lemma {:induction false} SortKeepsStrictlyOrdered<T>(ySort: bool, key: T -> DrawKey, s: seq<T>)
    requires StrictlyOrdered(ySort, key, s)
    ensures Sort(ySort, key, s) == s
    decreases |s|
  {
    if |s| > 0 {
      var init := s[..|s| - 1];
      var x := s[|s| - 1];
      StrictlyOrderedInit(ySort, key, s);
      SortKeepsStrictlyOrdered(ySort, key, init);
      InsertAtEnd(ySort, key, x, init);
      assert init + [x] == s;
    }
  }

  /** Dropping the last element of a strictly ordered list leaves one whose every element precedes it. */
  lemma StrictlyOrderedInit<T>(ySort: bool, key: T -> DrawKey, s: seq<T>)
    requires StrictlyOrdered(ySort, key, s) && |s| > 0
    ensures StrictlyOrdered(ySort, key, s[..|s| - 1])
    ensures forall i :: 0 <= i < |s| - 1 ==> Before(ySort, key(s[i]), key(s[|s| - 1]))
  {
  }

  /** An element that goes strictly after everything is inserted at the end. */
  lemma {:induction false} InsertAtEnd<T>(ySort: bool, key: T -> DrawKey, x: T, s: seq<T>)
    requires SortedBy(ySort, key, s)
    requires forall i :: 0 <= i < |s| ==> Before(ySort, key(s[i]), key(x))
    ensures InsertSorted(ySort, key, x, s) == s + [x]
    decreases |s|
  {
    if |s| > 0 {
      InsertAtEnd(ySort, key, x, s[1..]);
      assert [s[0]] + (s[1..] + [x]) == s + [x];
    }
  }
}

=== FILE: model/entities.dfy ===
/**
 * `Entity2D`, the base of every scene object: its attributes, the static
 * ID counter its constructors draw from, the transform bit flags, and the
 * queries and updates that walk the parent chain or the child lists.
 * A tree is a `Links` map (the shape) beside a map of entity attributes.
 */
module Entities {
  import opened Wrappers
  import opened Structs
  import opened Strings
  import opened BitFlags
  import opened Topology
  import opened CppInts

  /** Decides which scene index an entity is routed to on registration. */
  datatype EntityType = BASE | SPRITE | TILEMAP | LIGHT | CAMERA | PIXELCAMERA | PHYSICAL

  datatype TransformFlag = ROT_UNIQUE | POS_UNIQUE | SCL_UNIQUE

  /** The enumerator values `1 << 0`, `1 << 1`, `1 << 2`. */
  function FlagValue(f: TransformFlag): bv8
  {
    match f
    case ROT_UNIQUE => 1
    case POS_UNIQUE => 2
    case SCL_UNIQUE => 4
  }

  /** The bit a flag occupies. */
  function FlagBit(f: TransformFlag): nat
  {
    match f
    case ROT_UNIQUE => 0
    case POS_UNIQUE => 1
    case SCL_UNIQUE => 2
  }

  datatype Entity = Entity(
    name: string,
    kind: EntityType,
    transform: Transform2D,
    drawLayer: int,
    visible: bool,
    flags: bv8,
    ySortOffset: real)

  datatype Tree = Tree(links: Links, ents: map<Id, Entity>)

  /** Every entity has attributes, and every parent chain ends. */
  predicate Shaped(t: Tree)
  {
    t.links.Keys == t.ents.Keys && Acyclic(t.links)
  }

  /** Shaped, and back-pointers agree with child lists. */
  predicate WellFormed(t: Tree)
  {
    t.links.Keys == t.ents.Keys && Valid(t.links)
  }

  // ---------------------------------------------------------------------
  // Construction and the ID counter

  /** All entities, and the static `entityCount` the next constructor takes its ID from. */
  datatype World = World(tree: Tree, entityCount: nat)

  /** Every existing ID was handed out earlier, so the counter is ahead of all of them. */
  predicate CounterAhead(w: World)
  {
    forall k :: k in w.tree.ents ==> k < w.entityCount
  }

  /** `Entity2D()`: takes `entityCount++` as its ID and is named "Entity2D" followed by that ID. */
  function Construct(w: World): (r: (World, Id))
    ensures r.1 == w.entityCount && r.0.entityCount == w.entityCount + 1
    ensures r.1 in r.0.tree.ents && r.1 in r.0.tree.links
    ensures r.0.tree.ents[r.1].name == "Entity2D" + NatToString(r.1)
    ensures var e := r.0.tree.ents[r.1];
      e.kind == BASE && e.drawLayer == 0 && e.visible && e.flags == 0 && e.transform == DefaultTransform
    ensures r.0.tree.links[r.1] == Link(None, [])
    ensures forall k :: k in w.tree.ents && k != r.1 ==> k in r.0.tree.ents && r.0.tree.ents[k] == w.tree.ents[k]
    ensures forall k :: k in w.tree.links && k != r.1 ==> k in r.0.tree.links && r.0.tree.links[k] == w.tree.links[k]
  {
    var id := w.entityCount;
    var e := Entity("Entity2D" + NatToString(id), BASE, DefaultTransform, 0, true, 0, 0.0);
    (World(Tree(w.tree.links[id := Link(None, [])], w.tree.ents[id := e]), id + 1), id)
  }

  /** `Entity2D(name)`: the default construction, then the given name. */
  function ConstructNamed(w: World, name: string): (r: (World, Id))
    ensures r.1 == w.entityCount && r.0.entityCount == w.entityCount + 1
    ensures r.1 in r.0.tree.ents && r.0.tree.ents[r.1].name == name
    ensures r.0.tree.ents[r.1] == Construct(w).0.tree.ents[r.1].(name := name)
    ensures r.0.tree.links == Construct(w).0.tree.links
  {
    var (w1, id) := Construct(w);
    (w1.(tree := w1.tree.(ents := w1.tree.ents[id := w1.tree.ents[id].(name := name)])), id)
  }

  /** `Entity2D(name, position, scale, rotation)`: the named construction with a placed transform. */
  function ConstructPlaced(w: World, name: string, position: Vec2, scale: Vec2, rotation: real): (r: (World, Id))
    ensures r.1 == w.entityCount && r.0.entityCount == w.entityCount + 1
    ensures r.1 in r.0.tree.ents
    ensures r.0.tree.ents[r.1].transform == Transform2D(position, rotation, scale)
    ensures r.0.tree.ents[r.1] == ConstructNamed(w, name).0.tree.ents[r.1].(transform := r.0.tree.ents[r.1].transform)
  {
    var (w1, id) := ConstructNamed(w, name);
    var e := w1.tree.ents[id];
    (w1.(tree := w1.tree.(ents := w1.tree.ents[id := e.(transform := Transform2D(position, rotation, scale))])), id)
  }

  /** Replace the attributes of entity `id`. */
  function UpdateEntity(w: World, id: Id, e: Entity): (r: World)
    ensures r.tree.links == w.tree.links && r.entityCount == w.entityCount
    ensures r.tree.ents == w.tree.ents[id := e]
  {
    w.(tree := w.tree.(ents := w.tree.ents[id := e]))
  }

  /** A construction adds one fresh root entity and keeps the tree well formed. */
  lemma ConstructFresh(w: World)
    requires WellFormed(w.tree) && CounterAhead(w)
    ensures var (w2, id) := Construct(w);
      id !in w.tree.ents && w2.tree.ents.Keys == w.tree.ents.Keys + {id}
      && WellFormed(w2.tree) && CounterAhead(w2)
  {
    var (w2, id) := Construct(w);
    assert id !in w.tree.links;
    AddRootValid(w.tree.links, id);
  }

  /** Successive constructions hand out strictly increasing IDs and distinct default names. */
  lemma ConstructIdsIncrease(w: World)
    ensures var (w1, a) := Construct(w);
            var (w2, b) := Construct(w1);
      a < b && w1.tree.ents[a].name != w2.tree.ents[b].name
  {
    var (w1, a) := Construct(w);
    var (w2, b) := Construct(w1);
    NatToStringInjective(a, b);
    var pre := "Entity2D";
    assert NatToString(a) == (pre + NatToString(a))[|pre|..];
    assert NatToString(b) == (pre + NatToString(b))[|pre|..];
  }

  // ---------------------------------------------------------------------
  // Transform flags

  predicate IsTransformFlagSet(e: Entity, f: TransformFlag)
  {
    IsFlagSet(e.flags, FlagValue(f))
  }

  /** `transformFlags |= flag`: the flag is set, the other flags and every other field are kept. */
  function SetTransformFlag(e: Entity, f: TransformFlag): (r: Entity)
    ensures r == e.(flags := r.flags)
    ensures IsTransformFlagSet(r, f)
    ensures forall g :: g != f ==> (IsTransformFlagSet(r, g) <==> IsTransformFlagSet(e, g))
  {
    SetThenIsSet(e.flags, FlagValue(f));
    e.(flags := SetFlag(e.flags, FlagValue(f)))
  }

  /** `transformFlags &= ~flag`: the flag is cleared, the other flags and every other field are kept. */
  function UnsetTransformFlag(e: Entity, f: TransformFlag): (r: Entity)
    ensures r == e.(flags := r.flags)
    ensures !IsTransformFlagSet(r, f)
    ensures forall g :: g != f ==> (IsTransformFlagSet(r, g) <==> IsTransformFlagSet(e, g))
  {
    UnsetThenNotSet(e.flags, FlagValue(f));
    e.(flags := UnsetFlag(e.flags, FlagValue(f)))
  }

  /** Each transform flag is the single bit `FlagBit(f)`, so its test is that bit's test. */
  lemma TransformFlagIsOneBit(e: Entity, f: TransformFlag)
    ensures FlagValue(f) == Mask(FlagBit(f))
    ensures IsTransformFlagSet(e, f) <==> HasBit(e.flags, FlagBit(f))
  {
    IsFlagSetIffBits(e.flags, FlagValue(f));
  }

  // ---------------------------------------------------------------------
  // Queries along the parent chain

  /** `GetDrawLayer()`: the own layer plus the parent's, recursively. */
  function GetDrawLayer(t: Tree, id: Id): int
    requires Shaped(t) && id in t.links
    decreases Height(t.links, id)
  {
    match t.links[id].parent
    case None => t.ents[id].drawLayer
    case Some(p) =>
      ParentHeight(t.links, id);
      t.ents[id].drawLayer + GetDrawLayer(t, p)
  }

  /** The sum of the own layers of a list of entities. */
  function LayerSum(t: Tree, ids: seq<Id>): int
    requires forall i :: 0 <= i < |ids| ==> ids[i] in t.ents
  {
    if |ids| == 0 then 0 else LayerSum(t, ids[..|ids| - 1]) + t.ents[ids[|ids| - 1]].drawLayer
  }

  /** The draw layer of an entity is the sum of the own layers of it and all its ancestors. */
  lemma {:induction false} DrawLayerIsLineageSum(t: Tree, id: Id)
    requires Shaped(t) && id in t.links
    ensures GetDrawLayer(t, id) == LayerSum(t, Lineage(t.links, id))
    decreases Height(t.links, id)
  {
    var lin := Lineage(t.links, id);
    match t.links[id].parent
    case None =>
    case Some(p) =>
      ParentHeight(t.links, id);
      DrawLayerIsLineageSum(t, p);
      assert lin[..|lin| - 1] == Lineage(t.links, p);
  }

  /** `GetGlobalRotation()`: the parent's global rotation is added unless the entity has no parent or keeps its own rotation; `wrap` stands for `fmod(·, 2π)`. */
  function GetGlobalRotation(t: Tree, id: Id, wrap: real -> real): (r: real)
    requires Shaped(t) && id in t.links
    ensures t.links[id].parent.None? || IsTransformFlagSet(t.ents[id], ROT_UNIQUE) ==>
              r == t.ents[id].transform.rotation
    decreases Height(t.links, id)
  {
    var e := t.ents[id];
    match t.links[id].parent
    case None => e.transform.rotation
    case Some(p) =>
      if IsTransformFlagSet(e, ROT_UNIQUE) then e.transform.rotation
      else
        ParentHeight(t.links, id);
        wrap(e.transform.rotation + GetGlobalRotation(t, p, wrap))
  }

  /**
   * What a virtual `GetGlobalPosition()` answers for an entity that
   * overrides it: `Some` of the body's position for a PhysicsEntity with a
   * dynamic body, `None` for every entity that uses Entity2D's own formula.
   */
  type Overrides = Id -> Option<Vec2>

  /**
   * `Entity2D::GetGlobalPosition()`: the local position, turned by the
   * parent's global rotation (`rotate` stands for the cos/sin formula) and
   * added to the parent's global position, unless the entity has no parent
   * or keeps its own position. The parent is asked through the virtual
   * call, so a dynamic-body parent answers with its body's position.
   */
  function GetGlobalPosition(t: Tree, id: Id, rotate: (Vec2, real) -> Vec2, wrap: real -> real,
                             overrides: Overrides): (r: Vec2)
    requires Shaped(t) && id in t.links
    ensures t.links[id].parent.None? || IsTransformFlagSet(t.ents[id], POS_UNIQUE) ==>
              r == t.ents[id].transform.position
    ensures t.links[id].parent.Some? && t.links[id].parent.value in t.links
            && !IsTransformFlagSet(t.ents[id], POS_UNIQUE) && overrides(t.links[id].parent.value).Some? ==>
              r == Add(overrides(t.links[id].parent.value).value,
                       rotate(t.ents[id].transform.position, GetGlobalRotation(t, t.links[id].parent.value, wrap)))
    decreases Height(t.links, id), 0
  {
    var e := t.ents[id];
    match t.links[id].parent
    case None => e.transform.position
    case Some(p) =>
      if IsTransformFlagSet(e, POS_UNIQUE) then e.transform.position
      else
        ParentHeight(t.links, id);
        Add(VirtualGlobalPosition(t, p, rotate, wrap, overrides), rotate(e.transform.position, GetGlobalRotation(t, p, wrap)))
  }

  /** The virtual call `entity->GetGlobalPosition()`: the override where there is one. */
  function VirtualGlobalPosition(t: Tree, id: Id, rotate: (Vec2, real) -> Vec2, wrap: real -> real,
                                 overrides: Overrides): (r: Vec2)
    requires Shaped(t) && id in t.links
    ensures overrides(id).Some? ==> r == overrides(id).value
    ensures overrides(id).None? ==> r == GetGlobalPosition(t, id, rotate, wrap, overrides)
    decreases Height(t.links, id), 1
  {
    match overrides(id)
    case Some(v) => v
    case None => GetGlobalPosition(t, id, rotate, wrap, overrides)
  }

  /**
   * A child at local (0,0), not rotated against its parent, sits exactly
   * at the position a dynamic-body parent reports, whatever that parent's
   * own transform says.
   */
  lemma ChildOfDynamicBodyFollowsBody(t: Tree, id: Id, rotate: (Vec2, real) -> Vec2, wrap: real -> real,
                                      overrides: Overrides, body: Vec2)
    requires Shaped(t) && id in t.links
    requires t.links[id].parent.Some? && overrides(t.links[id].parent.value) == Some(body)
    requires !IsTransformFlagSet(t.ents[id], POS_UNIQUE) && t.ents[id].transform.position == Zero
    requires forall a :: rotate(Zero, a) == Zero
    ensures GetGlobalPosition(t, id, rotate, wrap, overrides) == body
  {
    var p := t.links[id].parent.value;
    ParentHeight(t.links, id);
    assert rotate(Zero, GetGlobalRotation(t, p, wrap)) == Zero;
  }

  /** The sum of the local positions of a list of entities. */
  function PositionSum(t: Tree, ids: seq<Id>): Vec2
    requires forall i :: 0 <= i < |ids| ==> ids[i] in t.ents
  {
    if |ids| == 0 then Zero else Add(PositionSum(t, ids[..|ids| - 1]), t.ents[ids[|ids| - 1]].transform.position)
  }

  /** No rotation anywhere on the chain and no entity below the top keeping its own position. */
  predicate TranslationOnly(t: Tree, lin: seq<Id>)
    requires forall i :: 0 <= i < |lin| ==> lin[i] in t.ents
  {
    (forall i :: 0 <= i < |lin| ==> t.ents[lin[i]].transform.rotation == 0.0)
    && (forall i :: 0 < i < |lin| ==> !IsTransformFlagSet(t.ents[lin[i]], POS_UNIQUE))
  }

  /** No strict ancestor on the chain answers the virtual call with a body position. */
  predicate NoOverrideAbove(lin: seq<Id>, overrides: Overrides)
  {
    forall i :: 0 <= i < |lin| - 1 ==> overrides(lin[i]).None?
  }

  /**
   * When nothing on the chain is rotated and no entity below the top keeps
   * its own position, and no ancestor is a dynamic-body PhysicsEntity, the
   * global rotation is 0 and the global position is the sum of the local
   * positions from the topmost ancestor down.
   */
  lemma {:induction false} GlobalPositionTranslates(t: Tree, id: Id, rotate: (Vec2, real) -> Vec2, wrap: real -> real,
                                                    overrides: Overrides)
    requires Shaped(t) && id in t.links
    requires forall v :: rotate(v, 0.0) == v
    requires wrap(0.0) == 0.0
    requires TranslationOnly(t, Lineage(t.links, id))
    requires NoOverrideAbove(Lineage(t.links, id), overrides)
    ensures GetGlobalRotation(t, id, wrap) == 0.0
    ensures GetGlobalPosition(t, id, rotate, wrap, overrides) == PositionSum(t, Lineage(t.links, id))
    decreases Height(t.links, id)
  {
    var lin := Lineage(t.links, id);
    match t.links[id].parent
    case None =>
      assert lin == [id];
      assert PositionSum(t, lin) == Add(Zero, t.ents[id].transform.position);
    case Some(p) =>
      ParentHeight(t.links, id);
      var plin := Lineage(t.links, p);
      assert lin == plin + [id];
      assert lin[..|lin| - 1] == plin;
      assert TranslationOnly(t, plin) by {
        forall i | 0 <= i < |plin|
          ensures t.ents[plin[i]].transform.rotation == 0.0
        {
          assert plin[i] == lin[i];
        }
        forall i | 0 < i < |plin|
          ensures !IsTransformFlagSet(t.ents[plin[i]], POS_UNIQUE)
        {
          assert plin[i] == lin[i];
        }
      }
      assert NoOverrideAbove(plin, overrides) by {
        forall i | 0 <= i < |plin| - 1
          ensures overrides(plin[i]).None?
        {
          assert plin[i] == lin[i];
        }
      }
      assert overrides(p).None? by { assert lin[|plin| - 1] == p; }
      GlobalPositionTranslates(t, p, rotate, wrap, overrides);
      assert lin[|lin| - 1] == id;
  }

  /** `GetBoundRect()` of a plain entity: a zero-sized rectangle at the (virtual) global position. */
  function GetBoundRect(t: Tree, id: Id, rotate: (Vec2, real) -> Vec2, wrap: real -> real, overrides: Overrides): (r: Rect)
    requires Shaped(t) && id in t.links
    ensures r.width == 0.0 && r.height == 0.0
    ensures Vec2(r.x, r.y) == VirtualGlobalPosition(t, id, rotate, wrap, overrides)
  {
    var g := VirtualGlobalPosition(t, id, rotate, wrap, overrides);
    Rect(g.x, g.y, 0.0, 0.0)
  }

  /** The names of a list of entities. */
  function NamesOf(t: Tree, ids: seq<Id>): (r: seq<string>)
    requires forall i :: 0 <= i < |ids| ==> ids[i] in t.ents
    ensures |r| == |ids|
    ensures forall i :: 0 <= i < |ids| ==> r[i] == t.ents[ids[i]].name
  {
    if |ids| == 0 then [] else [t.ents[ids[0]].name] + NamesOf(t, ids[1..])
  }

  /**
   * `GetPath()`: starting from the own name, each ancestor's name and a '/'
   * are put in front until there is no parent; the result is the names of
   * the lineage, topmost first, joined by '/'.
   */
  method GetPath(t: Tree, id: Id) returns (path: string)
    requires Shaped(t) && id in t.links
    ensures path == Join(NamesOf(t, Lineage(t.links, id)))
  {
    path := t.ents[id].name;
    var current := t.links[id].parent;
    ghost var below: seq<Id> := [id];
    LineageStep(t.links, id, []);
    while current.Some?
      invariant PathSoFar(t, id, current, below, path)
      decreases if current.Some? then Height(t.links, current.value) + 1 else 0
    {
      var c := current.value;
      JoinNamesCons(t, c, below);
      LineageStep(t.links, c, below);
      path := t.ents[c].name + "/" + path;
      below := [c] + below;
      current := t.links[c].parent;
    }
  }

  /**
   * The loop state of `GetPath`: `path` joins the names of `below`, and
   * `current`'s lineage followed by `below` is `id`'s lineage.
   */
  ghost predicate PathSoFar(t: Tree, id: Id, current: Option<Id>, below: seq<Id>, path: string)
    requires Shaped(t) && id in t.links
  {
    |below| >= 1 && (forall i :: 0 <= i < |below| ==> below[i] in t.ents)
    && path == Join(NamesOf(t, below))
    && (current.Some? ==> current.value in t.links && Lineage(t.links, id) == Lineage(t.links, current.value) + below)
    && (current.None? ==> Lineage(t.links, id) == below)
  }

  /** Putting an entity in front of a non-empty list puts its name and a '/' in front of the joined names. */
  lemma JoinNamesCons(t: Tree, c: Id, below: seq<Id>)
    requires c in t.ents && |below| >= 1 && forall i :: 0 <= i < |below| ==> below[i] in t.ents
    ensures Join(NamesOf(t, [c] + below)) == t.ents[c].name + "/" + Join(NamesOf(t, below))
  {
    assert ([c] + below)[1..] == below;
  }

  /** One step up the parent chain, stated on lineages. */
  lemma LineageStep(l: Links, c: Id, below: seq<Id>)
    requires Acyclic(l) && c in l
    ensures l[c].parent.None? ==> Lineage(l, c) + below == [c] + below
    ensures l[c].parent.Some? ==> l[c].parent.value in l && Height(l, l[c].parent.value) < Height(l, c)
                                  && Lineage(l, c) + below == Lineage(l, l[c].parent.value) + ([c] + below)
  {
    if l[c].parent.Some? {
      ParentHeight(l, c);
    }
  }

  // ---------------------------------------------------------------------
  // Names

  function GetName(t: Tree, id: Id): string
    requires id in t.ents
  {
    t.ents[id].name
  }

  /** `SetName(n)`: only the name of that one entity changes. */
  function SetName(t: Tree, id: Id, n: string): (r: Tree)
    requires id in t.ents
    ensures r.links == t.links && r.ents.Keys == t.ents.Keys
    ensures forall k :: k in t.ents && k != id ==> r.ents[k] == t.ents[k]
    ensures r.ents[id] == t.ents[id].(name := n)
  {
    t.(ents := t.ents[id := t.ents[id].(name := n)])
  }

  /** Reading the name back after setting it gives the name set. */
  lemma SetNameThenGetName(t: Tree, id: Id, n: string)
    requires id in t.ents
    ensures GetName(SetName(t, id, n), id) == n
  {
  }

  // ---------------------------------------------------------------------
  // Child queries

  /** `GetChildren()`: the child vector, whose entries in a well-formed tree are distinct and point back at `p`. */
  function GetChildren(t: Tree, p: Id): (r: seq<Id>)
    requires p in t.links
    ensures WellFormed(t) ==> NoDup(r)
    ensures WellFormed(t) ==> forall i :: 0 <= i < |r| ==> r[i] in t.links && t.links[r[i]].parent == Some(p)
  {
    t.links[p].children
  }

  /** `GetChildCount()`: the child vector's size. */
  function GetChildCount(t: Tree, p: Id): (n: nat)
    requires p in t.links
    ensures n == |GetChildren(t, p)|
  {
    |t.links[p].children|
  }

  /** `HasChild(c)`: false for a null pointer, otherwise a search of the child vector. */
  predicate HasChild(t: Tree, p: Id, c: Option<Id>)
    requires p in t.links
    ensures WellFormed(t) && c.Some? && c.value in t.links ==> (HasChild(t, p, c) <==> t.links[c.value].parent == Some(p))
  {
    c.Some? && c.value in t.links[p].children
  }

  /** The position of the first entity in `cs` with the given name. */
  function FirstNamed(ents: map<Id, Entity>, cs: seq<Id>, name: string): (r: Option<nat>)
    requires forall i :: 0 <= i < |cs| ==> cs[i] in ents
    ensures r.Some? ==> r.value < |cs| && ents[cs[r.value]].name == name
    ensures r.Some? ==> forall j :: 0 <= j < r.value ==> ents[cs[j]].name != name
    ensures r.None? <==> forall j :: 0 <= j < |cs| ==> ents[cs[j]].name != name
  {
    if |cs| == 0 then None
    else if ents[cs[0]].name == name then Some(0)
    else match FirstNamed(ents, cs[1..], name)
      case None => None
      case Some(i) => Some(i + 1)
  }

  /** `GetChild(name)`: the first child in list order with that name, or null. */
  function GetChild(t: Tree, p: Id, name: string): (r: Option<Id>)
    requires WellFormed(t) && p in t.links
    ensures r.Some? ==> exists i :: 0 <= i < |t.links[p].children| && t.links[p].children[i] == r.value
                          && (forall j :: 0 <= j < i ==> t.ents[t.links[p].children[j]].name != name)
    ensures r.Some? ==> r.value in t.ents && t.ents[r.value].name == name
    ensures r.None? <==> forall c :: c in t.links[p].children ==> t.ents[c].name != name
  {
    var cs := t.links[p].children;
    match FirstNamed(t.ents, cs, name)
    case None => None
    case Some(i) => Some(cs[i])
  }

  const OutOfBoundsMessage: string := "Child index out of bounds"

  /**
   * `GetChildAtIndex(index)` as written: the guard `children->size() < index`
   * compares after converting `index` to `size_t`, and reads the vector only
   * when the index is past its end; every in-range index throws.
   */
  function GetChildAtIndexAsWritten(t: Tree, p: Id, index: int): (r: Result<Id>)
    requires p in t.links && IsInt32(index)
    ensures r.Ok? ==> false
  {
    if |t.links[p].children| < ToSizeT(index) then Crash("read past the end of the child vector")
    else Throw(OutOfBoundsMessage)
  }

  /** No valid index ever yields a child: each `0 <= i <= GetChildCount()` throws, and a negative one reads out of bounds. */
  lemma GetChildAtIndexAsWrittenNeverReturns(t: Tree, p: Id, index: int)
    requires p in t.links && IsInt32(index)
    ensures 0 <= index <= GetChildCount(t, p) ==> GetChildAtIndexAsWritten(t, p, index) == Throw(OutOfBoundsMessage)
    ensures index < 0 && GetChildCount(t, p) <= INT32_MAX ==> GetChildAtIndexAsWritten(t, p, index).Crash?
    ensures |GetChildren(t, p)| > 0 ==> GetChildAtIndexAsWritten(t, p, 0) != Ok(GetChildren(t, p)[0])
  {
  }

  /** The evidently intended `GetChildAtIndex`: the child at an in-range index, an exception otherwise. */
  function GetChildAtIndex(t: Tree, p: Id, index: int): (r: Result<Id>)
    requires p in t.links
    ensures r.Ok? <==> 0 <= index < GetChildCount(t, p)
    ensures r.Ok? ==> r.value == GetChildren(t, p)[index]
    ensures !r.Ok? ==> r == Throw(OutOfBoundsMessage)
  {
    if 0 <= index < |t.links[p].children| then Ok(t.links[p].children[index]) else Throw(OutOfBoundsMessage)
  }

  // ---------------------------------------------------------------------
  // Visibility

  /** `SetVisible(b)`: set the own flag, then recurse into each child in list order. */
  function SetVisible(t: Tree, id: Id, b: bool): (r: Tree)
    requires WellFormed(t) && id in t.links
    ensures r.links == t.links && r.ents.Keys == t.ents.Keys
    decreases |t.links| + 1 - Height(t.links, id), 1
  {
    var t1 := t.(ents := t.ents[id := t.ents[id].(visible := b)]);
    SetVisibleAll(t1, id, t.links[id].children, b)
  }

  function SetVisibleAll(t: Tree, parent: Id, cs: seq<Id>, b: bool): (r: Tree)
    requires WellFormed(t) && parent in t.links
    requires forall i :: 0 <= i < |cs| ==> cs[i] in t.links[parent].children
    ensures r.links == t.links && r.ents.Keys == t.ents.Keys
    decreases |t.links| + 1 - Height(t.links, parent), 0, |cs|
  {
    if |cs| == 0 then t
    else
      ChildHeight(t.links, parent, cs[0]);
      SetVisibleAll(SetVisible(t, cs[0], b), parent, cs[1..], b)
  }

  /** `k` lies in the subtree of one of `cs`. */
  predicate UnderAny(l: Links, cs: seq<Id>, k: Id)
    requires Acyclic(l) && k in l
  {
    exists i :: 0 <= i < |cs| && AncestorOrSelf(l, cs[i], k)
  }

  /** After `SetVisible(b)` exactly the entity and its descendants have visibility `b`; nothing else changes. */
  lemma {:induction false} SetVisibleSubtree(t: Tree, id: Id, b: bool, k: Id)
    requires WellFormed(t) && id in t.links && k in t.ents
    ensures SetVisible(t, id, b).ents[k] ==
              if AncestorOrSelf(t.links, id, k) then t.ents[k].(visible := b) else t.ents[k]
    decreases |t.links| + 1 - Height(t.links, id), 1
  {
    var l := t.links;
    var t1 := t.(ents := t.ents[id := t.ents[id].(visible := b)]);
    SetVisibleAllSubtree(t1, id, l[id].children, b, k);
    if k != id {
      if AncestorOrSelf(l, id, k) {
        DescendantBelowChild(l, id, k);
      }
      if UnderAny(l, l[id].children, k) {
        var i :| 0 <= i < |l[id].children| && AncestorOrSelf(l, l[id].children[i], k);
        ChildSubtreeBelow(l, id, l[id].children[i], k);
      }
    }
  }

  lemma {:induction false} SetVisibleAllSubtree(t: Tree, parent: Id, cs: seq<Id>, b: bool, k: Id)
    requires WellFormed(t) && parent in t.links && k in t.ents
    requires forall i :: 0 <= i < |cs| ==> cs[i] in t.links[parent].children
    ensures SetVisibleAll(t, parent, cs, b).ents[k] ==
              if UnderAny(t.links, cs, k) then t.ents[k].(visible := b) else t.ents[k]
    decreases |t.links| + 1 - Height(t.links, parent), 0, |cs|
  {
    if |cs| > 0 {
      var l := t.links;
      ChildHeight(l, parent, cs[0]);
      var t1 := SetVisible(t, cs[0], b);
      SetVisibleSubtree(t, cs[0], b, k);
      SetVisibleAllSubtree(t1, parent, cs[1..], b, k);
      UnderAnySplit(l, cs, k);
    }
  }

  /** `k` is under one of a non-empty list exactly when it is under the first or under one of the rest. */
  lemma UnderAnySplit(l: Links, cs: seq<Id>, k: Id)
    requires Acyclic(l) && k in l && |cs| > 0
    ensures UnderAny(l, cs, k) <==> AncestorOrSelf(l, cs[0], k) || UnderAny(l, cs[1..], k)
  {
    if UnderAny(l, cs[1..], k) {
      var i :| 0 <= i < |cs[1..]| && AncestorOrSelf(l, cs[1..][i], k);
      assert AncestorOrSelf(l, cs[i + 1], k);
    }
    if UnderAny(l, cs, k) && !AncestorOrSelf(l, cs[0], k) {
      var i :| 0 <= i < |cs| && AncestorOrSelf(l, cs[i], k);
      assert AncestorOrSelf(l, cs[1..][i - 1], k);
    }
  }
}

=== FILE: model/entity_reparent.dfy ===
/**
 * The mutually recursive `AddChild`, `RemoveChild` and `SetParent` of
 * `Entity2D`, modelled call for call. Each call consumes one unit of
 * `fuel`; a run that exhausts it yields `OutOfFuel`, so a call that does
 * not terminate is one that yields `OutOfFuel` for every fuel.
 * Dereferencing an entity that does not exist is a `Fault`.
 */
module EntityReparent {
  import opened Wrappers
  import opened Topology

  /**
   * `RemoveChild(c)`: if `c` is in the child vector, erase its first
   * occurrence and call `c->SetParent(nullptr)`; otherwise do nothing.
   */
  function RemoveChild(l: Links, self: Id, c: Id, fuel: nat): (r: Run)
    ensures r.Done? ==> r.links.Keys == l.Keys
    decreases fuel
  {
    if fuel == 0 then OutOfFuel
    else if self !in l then Fault(Dangling)
    else if c !in l[self].children then Done(l)
    else
      var l1 := l[self := l[self].(children := Erase(l[self].children, c))];
      SetParent(l1, c, None, fuel - 1)
  }

  /**
   * `SetParent(newParent)`: remove this entity from its current parent,
   * then store `newParent`, then, if it is non-null, call
   * `newParent->AddChild(this)`.
   */
  function SetParent(l: Links, self: Id, np: Option<Id>, fuel: nat): (r: Run)
    ensures r.Done? ==> r.links.Keys == l.Keys
    decreases fuel
  {
    if fuel == 0 then OutOfFuel
    else if self !in l then Fault(Dangling)
    else
      var first := match l[self].parent
        case None => Done(l)
        case Some(a) => RemoveChild(l, a, self, fuel - 1);
      match first
      case Done(l1) =>
        var l2 := l1[self := l1[self].(parent := np)];
        (match np
         case None => Done(l2)
         case Some(p) => AddChild(l2, p, Some(self), fuel - 1))
      case _ => first
  }

  /**
   * `AddChild(newChild)`: nothing for a null child; otherwise, if the
   * child's parent is another entity, that parent removes it; then, if the
   * child is not yet listed, it is appended and told `SetParent(this)`.
   */
  function AddChild(l: Links, self: Id, c: Option<Id>, fuel: nat): (r: Run)
    ensures r.Done? ==> r.links.Keys == l.Keys
    decreases fuel
  {
    if fuel == 0 then OutOfFuel
    else if self !in l then Fault(Dangling)
    else match c
      case None => Done(l)
      case Some(x) =>
        if x !in l then Fault(Dangling)
        else
          var first := if l[x].parent.Some? && l[x].parent != Some(self)
            then RemoveChild(l, l[x].parent.value, x, fuel - 1)
            else Done(l);
          match first
          case Done(l1) =>
            if x in l1[self].children then Done(l1)
            else
              var l2 := l1[self := l1[self].(children := l1[self].children + [x])];
              SetParent(l2, x, Some(self), fuel - 1)
          case _ => first
  }

  // ---------------------------------------------------------------------
  // Single steps

  /** Removing a child that is not listed changes nothing. */
  lemma RemoveChildAbsent(l: Links, a: Id, c: Id, fuel: nat)
    requires fuel >= 1 && a in l && c !in l[a].children
    ensures RemoveChild(l, a, c, fuel) == Done(l)
  {
  }

  /**
   * Removing a listed child whose back-pointer names the remover: its first
   * occurrence is erased and its parent cleared, provided three nested
   * calls fit in the fuel.
   */
  lemma RemoveChildListed(l: Links, a: Id, c: Id, fuel: nat)
    requires a in l && c in l && a != c && c in l[a].children && l[c].parent == Some(a)
    requires c !in Erase(l[a].children, c)
    ensures fuel < 3 ==> RemoveChild(l, a, c, fuel) == OutOfFuel
    ensures fuel >= 3 ==> RemoveChild(l, a, c, fuel) == Done(Detached(l, c))
  {
    if fuel >= 1 {
      var l1 := l[a := l[a].(children := Erase(l[a].children, c))];
      assert RemoveChild(l, a, c, fuel) == SetParent(l1, c, None, fuel - 1);
      if fuel == 2 {
        assert RemoveChild(l1, a, c, 0) == OutOfFuel;
      } else if fuel >= 3 {
        RemoveChildAbsent(l1, a, c, fuel - 2);
      }
    }
  }

  /** Telling a detached, already listed child its parent only stores the back-pointer. */
  lemma AttachListed(l: Links, c: Id, p: Id, fuel: nat)
    requires fuel >= 2 && c in l && p in l && p != c
    requires l[c].parent.None? && c in l[p].children
    ensures SetParent(l, c, Some(p), fuel) == Done(l[c := l[c].(parent := Some(p))])
  {
  }

  // ---------------------------------------------------------------------
  // Whole calls on a consistent tree

  /** `AddChild(nullptr)` changes nothing. */
  lemma AddChildNull(l: Links, p: Id, fuel: nat)
    requires fuel >= 1 && p in l
    ensures AddChild(l, p, None, fuel) == Done(l)
  {
  }

  /** Adding a child that is already listed and points back changes nothing. */
  lemma AddChildExisting(l: Links, p: Id, c: Id, fuel: nat)
    requires fuel >= 1 && p in l && c in l && c in l[p].children && l[c].parent == Some(p)
    ensures AddChild(l, p, Some(c), fuel) == Done(l)
  {
  }

  /**
   * `p.AddChild(c)` for a `c` under another parent or under none moves it:
   * it leaves the old parent's list, is appended once to `p`'s, and points
   * at `p`; the tree stays consistent.
   */
  lemma AddChildMoves(l: Links, p: Id, c: Id, fuel: nat)
    requires Valid(l) && p in l && c in l && p != c && l[c].parent != Some(p)
    requires fuel >= 4
    ensures AddChild(l, p, Some(c), fuel) == Done(Reparent(l, c, Some(p)))
    ensures Linked(Reparent(l, c, Some(p)))
  {
    NoSelfParent(l, c);
    ReparentLinked(l, c, Some(p));
    AddChildRun(l, p, c, fuel);
    MovedIsReparent(l, p, c);
  }

  /** The tree a move of `c` under `p` leaves: detached from the old parent, appended to `p`, pointing at `p`. */
  function Moved(l: Links, p: Id, c: Id): (m: Links)
    requires p in l && c in l && p != c
    requires l[c].parent.Some? ==> l[c].parent.value in l && l[c].parent.value != c
    ensures m.Keys == l.Keys
  {
    var l1 := match l[c].parent
      case None => l
      case Some(a) => l[a := l[a].(children := Erase(l[a].children, c))][c := l[c].(parent := None)];
    var l2 := l1[p := l1[p].(children := l1[p].children + [c])];
    l2[c := l2[c].(parent := Some(p))]
  }

  lemma AddChildRun(l: Links, p: Id, c: Id, fuel: nat)
    requires Valid(l) && p in l && c in l && p != c && l[c].parent != Some(p)
    requires fuel >= 4
    ensures l[c].parent.Some? ==> l[c].parent.value in l && l[c].parent.value != c
    ensures AddChild(l, p, Some(c), fuel) == Done(Moved(l, p, c))
  {
    NoSelfParent(l, c);
    var l1 := match l[c].parent
      case None => l
      case Some(a) => l[a := l[a].(children := Erase(l[a].children, c))][c := l[c].(parent := None)];
    if l[c].parent.Some? {
      var a := l[c].parent.value;
      EraseFacts(l[a].children, c);
      RemoveChildListed(l, a, c, fuel - 1);
    }
    var l2 := l1[p := l1[p].(children := l1[p].children + [c])];
    AttachListed(l2, c, p, fuel - 1);
  }

  lemma MovedIsReparent(l: Links, p: Id, c: Id)
    requires ChildrenPointBack(l) && p in l && c in l && p != c && l[c].parent != Some(p)
    requires l[c].parent.Some? ==> l[c].parent.value in l && l[c].parent.value != c
    ensures Moved(l, p, c) == Reparent(l, c, Some(p))
  {
    var m := Moved(l, p, c);
    var r := Reparent(l, c, Some(p));
    forall k | k in l
      ensures m[k] == r[k]
    {
      MovedAt(l, p, c, k);
    }
    assert m == r;
  }

  lemma MovedAt(l: Links, p: Id, c: Id, k: Id)
    requires ChildrenPointBack(l) && p in l && c in l && p != c && l[c].parent != Some(p)
    requires l[c].parent.Some? ==> l[c].parent.value in l && l[c].parent.value != c
    requires k in l
    ensures Moved(l, p, c)[k] == Reparent(l, c, Some(p))[k]
  {
    ReparentEffect(l, c, Some(p), k);
  }

  /** The tree after `c` leaves its parent: erased from the parent's list, back-pointer cleared. */
  function Detached(l: Links, c: Id): (m: Links)
    requires c in l && (l[c].parent.Some? ==> l[c].parent.value in l && l[c].parent.value != c)
    ensures m.Keys == l.Keys
  {
    if l[c].parent.None? then l
    else
      var a := l[c].parent.value;
      var l1 := l[a := l[a].(children := Erase(l[a].children, c))];
      l1[c := l1[c].(parent := None)]
  }

  lemma DetachedIsReparent(l: Links, c: Id)
    requires ChildrenPointBack(l) && c in l
    requires l[c].parent.Some? ==> l[c].parent.value in l && l[c].parent.value != c
    ensures Detached(l, c) == Reparent(l, c, None)
  {
    var m := Detached(l, c);
    var r := Reparent(l, c, None);
    forall k | k in l
      ensures m[k] == r[k]
    {
      ReparentEffect(l, c, None, k);
    }
    assert m == r;
  }

  /** `p.RemoveChild(c)` for a listed child detaches it: the intended re-parenting to nothing. */
  lemma RemoveChildDetaches(l: Links, p: Id, c: Id, fuel: nat)
    requires Valid(l) && p in l && c in l[p].children && fuel >= 3
    ensures RemoveChild(l, p, c, fuel) == Done(Reparent(l, c, None))
  {
    ChildHeight(l, p, c);
    NoSelfParent(l, c);
    EraseFacts(l[p].children, c);
    RemoveChildListed(l, p, c, fuel);
    DetachedIsReparent(l, c);
  }

  /** `SetParent(nullptr)` detaches the entity from its parent, if any. */
  lemma SetParentNullDetaches(l: Links, c: Id, fuel: nat)
    requires Valid(l) && c in l && fuel >= 4
    ensures SetParent(l, c, None, fuel) == Done(Reparent(l, c, None))
  {
    NoSelfParent(l, c);
    DetachedIsReparent(l, c);
    match l[c].parent
    case None =>
      assert l[c := l[c].(parent := None)] == l;
    case Some(a) =>
      EraseFacts(l[a].children, c);
      RemoveChildListed(l, a, c, fuel - 1);
      var l1 := Detached(l, c);
      assert l1[c := l1[c].(parent := None)] == l1;
  }

  // ---------------------------------------------------------------------
  // Divergence of a direct SetParent

  /**
   * The recurring state of a direct `SetParent(p)`: `c` points at `p` but is
   * not in `p`'s list. From here `p.AddChild(c)` appends `c`, whose
   * `SetParent(p)` erases it again, clears and restores the back-pointer and
   * calls `p.AddChild(c)` on the very same tree: no fuel is enough.
   */
  lemma {:induction false} AddChildLoops(l: Links, p: Id, c: Id, fuel: nat)
    requires c in l && p in l && p != c
    requires l[c].parent == Some(p) && c !in l[p].children
    ensures AddChild(l, p, Some(c), fuel) == OutOfFuel
    decreases fuel
  {
    if fuel >= 1 {
      var xs := l[p].children;
      var l1 := l[p := l[p].(children := xs + [c])];
      assert AddChild(l, p, Some(c), fuel) == SetParent(l1, c, Some(p), fuel - 1);
      if fuel >= 2 {
        EraseAppended(xs, c);
        RemoveChildListed(l1, p, c, fuel - 2);
        if fuel - 2 >= 3 {
          var l3 := l1[p := l1[p].(children := xs)][c := l1[c].(parent := None)];
          var l4 := l3[c := l3[c].(parent := Some(p))];
          assert SetParent(l1, c, Some(p), fuel - 1) == AddChild(l4, p, Some(c), fuel - 2);
          assert l4 == l;
          AddChildLoops(l, p, c, fuel - 2);
        }
      }
    }
  }

  /**
   * A direct `c.SetParent(p)` with a non-null `p` never returns: whatever
   * the fuel, the run is cut off.
   */
  lemma SetParentDiverges(l: Links, c: Id, p: Id, fuel: nat)
    requires Valid(l) && c in l && p in l && p != c
    ensures SetParent(l, c, Some(p), fuel) == OutOfFuel
  {
    if fuel >= 1 {
      NoSelfParent(l, c);
      if l[c].parent.Some? {
        var a := l[c].parent.value;
        EraseFacts(l[a].children, c);
        RemoveChildListed(l, a, c, fuel - 1);
      }
      if l[c].parent.None? || fuel - 1 >= 3 {
        var l1 := Detached(l, c);
        assert c !in l1[p].children by {
          if c in l[p].children {
            var i :| 0 <= i < |l[p].children| && l[p].children[i] == c;
          }
        }
        AddChildLoops(l1[c := l1[c].(parent := Some(p))], p, c, fuel - 1);
      }
    }
  }
}

=== FILE: model/input.dfy ===
/**
 * `InputAction` and `InputManager`: named actions bound to keys and
 * gamepad buttons. The keyboard and gamepads are read through raylib;
 * their state at the moment of the query is passed in as `Devices`.
 */
module Input {
  import opened Wrappers
  import opened Structs

  /** An action: its name and its bound events, in the order they were added. */
  datatype InputAction = InputAction(name: string, events: seq<InputEvent>)

  /** `InputAction(name)`: no events yet. */
  function NewInputAction(name: string): (a: InputAction)
    ensures a.name == name && a.events == []
  {
    InputAction(name, [])
  }

  /** `InputAction(name, trigger, controllerId = -1)`: exactly one event. */
  function NewInputActionWithTrigger(name: string, inputTrigger: int, controllerId: int := -1): (a: InputAction)
    ensures a.name == name && |a.events| == 1
    ensures a.events[0].positiveInput == inputTrigger && a.events[0].controllerId == controllerId
  {
    AddInputEvent(NewInputAction(name), NewInputEvent(inputTrigger, controllerId))
  }

  /** `InputAction(name, events)`: exactly those events. */
  function NewInputActionWithEvents(name: string, events: seq<InputEvent>): (a: InputAction)
    ensures a.name == name && a.events == events
  {
    NewInputAction(name).(events := events)
  }

  /** `AddInputEvent(e)`: `e` goes after every event already bound. */
  function AddInputEvent(a: InputAction, e: InputEvent): (r: InputAction)
    ensures r.name == a.name && |r.events| == |a.events| + 1
    ensures r.events[..|a.events|] == a.events && r.events[|a.events|] == e
  {
    a.(events := a.events + [e])
  }

  /** The state of the input devices when a query is made. */
  datatype Devices = Devices(
    keyDown: int -> bool,
    keyPressed: int -> bool,
    gamepadAvailable: int -> bool,
    buttonDown: (int, int) -> bool,
    buttonPressed: (int, int) -> bool)

  /** The input map: each action under its own name. */
  datatype InputManager = InputManager(inputMap: map<string, InputAction>)

  const EmptyInputManager: InputManager := InputManager(map[])

  /** Every action is stored under its own name. */
  predicate Valid(im: InputManager)
  {
    forall n :: n in im.inputMap ==> im.inputMap[n].name == n
  }

  predicate HasAction(im: InputManager, actionName: string)
  {
    actionName in im.inputMap
  }

  /** `AddInputAction(a)`: throws if the name is taken, otherwise stores `a` under its name. */
  function AddInputAction(im: InputManager, a: InputAction): (r: Result<InputManager>)
    ensures HasAction(im, a.name) <==> r.Throw?
    ensures r.Ok? ==> r.value.inputMap == im.inputMap[a.name := a]
    ensures r.Ok? && Valid(im) ==> Valid(r.value)
  {
    if HasAction(im, a.name) then Throw("Action " + a.name + " already exists!")
    else Ok(InputManager(im.inputMap[a.name := a]))
  }

  /** `RemoveInputAction(n)`: throws if there is no such action, otherwise forgets it. */
  function RemoveInputAction(im: InputManager, actionName: string): (r: Result<InputManager>)
    ensures !HasAction(im, actionName) <==> r.Throw?
    ensures r.Ok? ==> !HasAction(r.value, actionName)
    ensures r.Ok? ==> forall n :: n != actionName ==> (HasAction(r.value, n) <==> HasAction(im, n))
    ensures r.Ok? ==> forall n :: n in r.value.inputMap ==> n in im.inputMap && r.value.inputMap[n] == im.inputMap[n]
  {
    if !HasAction(im, actionName) then Throw("Action " + actionName + " does not exist!")
    else Ok(InputManager(im.inputMap - {actionName}))
  }

  /** `GetAction(n)`: the action, or a throw when there is none. */
  function GetAction(im: InputManager, actionName: string): (r: Result<InputAction>)
    ensures !HasAction(im, actionName) <==> r.Throw?
    ensures r.Ok? ==> actionName in im.inputMap && r.value == im.inputMap[actionName]
  {
    if !HasAction(im, actionName) then Throw("Action " + actionName + " does not exist! Cannot retrieve..")
    else Ok(im.inputMap[actionName])
  }

  /** Adding an action and removing it again restores the map. */
  lemma AddThenRemove(im: InputManager, a: InputAction)
    requires !HasAction(im, a.name)
    ensures AddInputAction(im, a).Ok?
    ensures RemoveInputAction(AddInputAction(im, a).value, a.name) == Ok(im)
  {
    assert (im.inputMap[a.name := a]) - {a.name} == im.inputMap;
  }

  /**
   * `AddActionEvent(n, index, controllerId = -1)`: the event is appended
   * to the action `n`, which is first created empty if there is none.
   * The action is shared with the map, so the map sees the event.
   */
  function AddActionEvent(im: InputManager, actionName: string, positiveIndex: int, controllerId: int := -1): (r: InputManager)
    ensures HasAction(r, actionName)
    ensures forall n :: n != actionName ==> (HasAction(r, n) <==> HasAction(im, n))
    ensures forall n :: n != actionName && n in im.inputMap ==> n in r.inputMap && r.inputMap[n] == im.inputMap[n]
    ensures Valid(im) ==> Valid(r)
  {
    var e := NewInputEvent(positiveIndex, controllerId);
    if HasAction(im, actionName) then
      InputManager(im.inputMap[actionName := AddInputEvent(im.inputMap[actionName], e)])
    else
      var added := AddInputAction(im, NewInputAction(actionName));
      InputManager(added.value.inputMap[actionName := AddInputEvent(NewInputAction(actionName), e)])
  }

  /** The events of an action after `AddActionEvent` are its earlier events, if any, then the new one. */
  lemma AddActionEventAppends(im: InputManager, actionName: string, positiveIndex: int, controllerId: int)
    ensures var before := if HasAction(im, actionName) then im.inputMap[actionName].events else [];
      GetAction(AddActionEvent(im, actionName, positiveIndex, controllerId), actionName)
        == Ok(InputAction(if HasAction(im, actionName) then im.inputMap[actionName].name else actionName,
                          before + [InputEvent(controllerId, positiveIndex)]))
  {
  }

  /** Keyboard events have controller -1; any other id is a gamepad. */
  const Keyboard: int := -1

  /**
   * Is one event active: a keyboard event whose key qualifies, or a
   * gamepad event whose gamepad is connected and whose button qualifies.
   */
  predicate EventActive(e: InputEvent, key: int -> bool, available: int -> bool, button: (int, int) -> bool)
  {
    if e.controllerId == Keyboard then key(e.positiveInput)
    else available(e.controllerId) && button(e.controllerId, e.positiveInput)
  }

  /** The loop shared by `IsActionDown` and `IsActionPressed`: true at the first active event. */
  method AnyEventActive(events: seq<InputEvent>, key: int -> bool, available: int -> bool, button: (int, int) -> bool)
    returns (active: bool)
    ensures active <==> exists i :: 0 <= i < |events| && EventActive(events[i], key, available, button)
  {
    var i := 0;
    while i < |events|
      invariant 0 <= i <= |events|
      invariant forall k :: 0 <= k < i ==> !EventActive(events[k], key, available, button)
    {
      if events[i].controllerId == Keyboard {
        if key(events[i].positiveInput) {
          return true;
        }
        i := i + 1;
        continue;
      } else {
        if available(events[i].controllerId) {
          if button(events[i].controllerId, events[i].positiveInput) {
            return true;
          }
        }
      }
      i := i + 1;
    }
    return false;
  }

  /** `IsActionDown(n)`: false for an unknown action, otherwise whether some bound key or button is held. */
  method IsActionDown(im: InputManager, actionName: string, dev: Devices) returns (down: bool)
    ensures down <==> (HasAction(im, actionName)
      && exists i :: 0 <= i < |im.inputMap[actionName].events|
           && EventActive(im.inputMap[actionName].events[i], dev.keyDown, dev.gamepadAvailable, dev.buttonDown))
  {
    if HasAction(im, actionName) {
      var action := GetAction(im, actionName).value;
      down := AnyEventActive(action.events, dev.keyDown, dev.gamepadAvailable, dev.buttonDown);
    } else {
      down := false;
    }
  }

  /** `IsActionPressed(n)`: the same test with the pressed-this-frame predicates. */
  method IsActionPressed(im: InputManager, actionName: string, dev: Devices) returns (pressed: bool)
    ensures pressed <==> (HasAction(im, actionName)
      && exists i :: 0 <= i < |im.inputMap[actionName].events|
           && EventActive(im.inputMap[actionName].events[i], dev.keyPressed, dev.gamepadAvailable, dev.buttonPressed))
  {
    if HasAction(im, actionName) {
      var action := GetAction(im, actionName).value;
      pressed := AnyEventActive(action.events, dev.keyPressed, dev.gamepadAvailable, dev.buttonPressed);
    } else {
      pressed := false;
    }
  }

  /**
   * Binding a held key to an action makes it down; binding more events
   * never releases an action that was down.
   */
  lemma AddActionEventKeepsDown(im: InputManager, actionName: string, positiveIndex: int, controllerId: int, dev: Devices)
    requires HasAction(im, actionName)
    requires exists i :: 0 <= i < |im.inputMap[actionName].events|
               && EventActive(im.inputMap[actionName].events[i], dev.keyDown, dev.gamepadAvailable, dev.buttonDown)
    ensures var r := AddActionEvent(im, actionName, positiveIndex, controllerId);
      exists i :: 0 <= i < |r.inputMap[actionName].events|
        && EventActive(r.inputMap[actionName].events[i], dev.keyDown, dev.gamepadAvailable, dev.buttonDown)
  {
    var i :| 0 <= i < |im.inputMap[actionName].events|
               && EventActive(im.inputMap[actionName].events[i], dev.keyDown, dev.gamepadAvailable, dev.buttonDown);
    var r := AddActionEvent(im, actionName, positiveIndex, controllerId);
    assert r.inputMap[actionName].events[i] == im.inputMap[actionName].events[i];
  }

  const MissingPositiveAxis: string := "Positive action name does not have a defined action"
  const MissingNegativeAxis: string := "Negative action name does not have a defined action"

  /** `GetInputAxis(p, n)`: both actions must exist (a debug assertion); the axis is always (0, 0). */
  function GetInputAxis(im: InputManager, positiveActionName: string, negativeActionName: string): (r: Result<Vec2>)
    ensures r.Ok? <==> HasAction(im, positiveActionName) && HasAction(im, negativeActionName)
    ensures r.Ok? ==> r.value == Zero
    ensures !r.Throw?
  {
    if !HasAction(im, positiveActionName) then Crash(MissingPositiveAxis)
    else if !HasAction(im, negativeActionName) then Crash(MissingNegativeAxis)
    else Ok(Zero)
  }
}

=== FILE: model/nodes.dfy ===
/**
 * The newer `Node` hierarchy. Its `AddChild` appends and then calls
 * `SetParent`; its `RemoveChild` only erases from the vector; its
 * `SetParent` removes the node from its old parent and, when the new parent
 * differs, stores it and calls `AddChild`. Calls are modelled one for one,
 * with the depth bounded by `fuel` as for `Entity2D`.
 */
module Nodes {
  import opened Wrappers
  import opened Topology
  import opened CppInts

  /** All nodes, their names, and the static `NODE_INCREMENTOR`. */
  datatype NodeWorld = NodeWorld(links: Links, names: map<Id, string>, nodeIncrementor: nat)

  predicate CounterAhead(w: NodeWorld)
  {
    forall k :: k in w.links ==> k < w.nodeIncrementor
  }

  /**
   * `Node(name)`: `SetNodeID` takes the incrementor's value and bumps it;
   * the node starts with no parent and no children. `Node()` leaves the
   * name at its default, which is `name == ""` here.
   */
  function NewNode(w: NodeWorld, name: string): (r: (NodeWorld, Id))
    ensures r.1 == w.nodeIncrementor && r.0.nodeIncrementor == w.nodeIncrementor + 1
    ensures r.1 in r.0.links && r.0.links[r.1] == Link(None, [])
    ensures r.1 in r.0.names && r.0.names[r.1] == name
    ensures forall k :: k in w.links && k != r.1 ==> k in r.0.links && r.0.links[k] == w.links[k]
  {
    var id := w.nodeIncrementor;
    (NodeWorld(w.links[id := Link(None, [])], w.names[id := name], id + 1), id)
  }

  /** Node IDs are handed out in increasing order and never reused; the new node is a fresh root. */
  lemma NodeIdsIncrease(w: NodeWorld, n1: string, n2: string)
    requires Valid(w.links) && CounterAhead(w)
    ensures var (w1, a) := NewNode(w, n1);
            var (w2, b) := NewNode(w1, n2);
      a < b && a !in w.links && b !in w1.links && Valid(w2.links) && CounterAhead(w2)
  {
    var (w1, a) := NewNode(w, n1);
    AddRootValid(w.links, a);
    var (w2, b) := NewNode(w1, n2);
    AddRootValid(w1.links, b);
  }

  /** `RemoveChild(c)`: erase the first occurrence of `c`, if any; `c`'s parent pointer is left alone. */
  function RemoveChild(l: Links, self: Id, c: Id): (r: Run)
    ensures r.Done? ==> r.links.Keys == l.Keys
  {
    if self !in l then Fault(Dangling)
    else if c !in l[self].children then Done(l)
    else Done(l[self := l[self].(children := Erase(l[self].children, c))])
  }

  /**
   * `SetParent(newParent)`: the old parent, if any, removes this node;
   * then, when `newParent` differs from the stored parent, it is stored and
   * `newParent->AddChild(this)` is called, through a null pointer when
   * `newParent` is null.
   */
  function SetParent(l: Links, self: Id, np: Option<Id>, fuel: nat): (r: Run)
    ensures r.Done? ==> r.links.Keys == l.Keys
    decreases fuel
  {
    if fuel == 0 then OutOfFuel
    else if self !in l then Fault(Dangling)
    else
      var first := match l[self].parent
        case None => Done(l)
        case Some(a) => RemoveChild(l, a, self);
      match first
      case Done(l1) =>
        if np == l1[self].parent then Done(l1)
        else
          var l2 := l1[self := l1[self].(parent := np)];
          (match np
           case None => Fault(Dangling)
           case Some(p) => AddChild(l2, p, Some(self), fuel - 1))
      case _ => first
  }

  /** `AddChild(newChild)`: nothing if already listed; otherwise append it and call `newChild->SetParent(this)`. */
  function AddChild(l: Links, self: Id, c: Option<Id>, fuel: nat): (r: Run)
    ensures r.Done? ==> r.links.Keys == l.Keys
    decreases fuel
  {
    if fuel == 0 then OutOfFuel
    else if self !in l then Fault(Dangling)
    else match c
      case None => Fault(Dangling)
      case Some(x) =>
        if x in l[self].children then Done(l)
        else if x !in l then Fault(Dangling)
        else
          var l1 := l[self := l[self].(children := l[self].children + [x])];
          SetParent(l1, x, Some(self), fuel - 1)
  }

  /** Adding a node that is already listed changes nothing. */
  lemma AddChildPresent(l: Links, p: Id, c: Id, fuel: nat)
    requires fuel >= 1 && p in l && c in l[p].children
    ensures AddChild(l, p, Some(c), fuel) == Done(l)
  {
  }

  /** The tree after `c`'s parent, if any, erases `c` from its list; the back-pointer stays. */
  function Unlisted(l: Links, c: Id): (m: Links)
    requires c in l && (l[c].parent.Some? ==> l[c].parent.value in l)
    ensures m.Keys == l.Keys
  {
    if l[c].parent.None? || c !in l[l[c].parent.value].children then l
    else
      var a := l[c].parent.value;
      l[a := l[a].(children := Erase(l[a].children, c))]
  }

  /**
   * `p.AddChild(c)` for a `c` under another parent or under none moves it:
   * out of the old parent's list, appended once to `p`'s, pointing at `p`.
   */
  lemma AddChildMoves(l: Links, p: Id, c: Id, fuel: nat)
    requires Valid(l) && p in l && c in l && p != c && l[c].parent != Some(p)
    requires fuel >= 3
    ensures AddChild(l, p, Some(c), fuel) == Done(Reparent(l, c, Some(p)))
  {
    NoSelfParent(l, c);
    assert c !in l[p].children;
    if l[c].parent.Some? {
      ParentHeight(l, c);
      assert c in l[l[c].parent.value].children;
    }
    var l1 := l[p := l[p].(children := l[p].children + [c])];
    AddChildRun(l, p, c, fuel);
    var m := Unlisted(l1, c);
    var m2 := m[c := m[c].(parent := Some(p))];
    var r := Reparent(l, c, Some(p));
    forall k | k in l
      ensures m2[k] == r[k]
    {
      MovedAt(l, p, c, k);
    }
    assert m2 == r;
  }

  lemma MovedAt(l: Links, p: Id, c: Id, k: Id)
    requires ChildrenPointBack(l) && p in l && c in l && p != c && l[c].parent != Some(p) && k in l
    requires l[c].parent.Some? ==> l[c].parent.value in l && l[c].parent.value != c && c in l[l[c].parent.value].children
    ensures var l1 := l[p := l[p].(children := l[p].children + [c])];
            var m := Unlisted(l1, c);
      m[c := m[c].(parent := Some(p))][k] == Reparent(l, c, Some(p))[k]
  {
    ReparentEffect(l, c, Some(p), k);
  }

  /** The run of `p.AddChild(c)` for an unlisted `c`: append, unlist from the old parent, point at `p`. */
  lemma AddChildRun(l: Links, p: Id, c: Id, fuel: nat)
    requires p in l && c in l && p != c && l[c].parent != Some(p) && c !in l[p].children
    requires l[c].parent.Some? ==> l[c].parent.value in l
    requires fuel >= 3
    ensures var l1 := l[p := l[p].(children := l[p].children + [c])];
            var m := Unlisted(l1, c);
      AddChild(l, p, Some(c), fuel) == Done(m[c := m[c].(parent := Some(p))])
  {
    var l1 := l[p := l[p].(children := l[p].children + [c])];
    assert AddChild(l, p, Some(c), fuel) == SetParent(l1, c, Some(p), fuel - 1);
    var m := Unlisted(l1, c);
    var l3 := m[c := m[c].(parent := Some(p))];
    assert SetParent(l1, c, Some(p), fuel - 1) == AddChild(l3, p, Some(c), fuel - 2);
  }

  /** `p.AddChild(c)` when `c` already points at `p` but is not listed: the append is undone by the nested `SetParent(p)`. */
  lemma AddChildToPointing(l: Links, p: Id, c: Id, fuel: nat)
    requires p in l && c in l && p != c && l[c].parent == Some(p) && c !in l[p].children
    requires fuel >= 2
    ensures AddChild(l, p, Some(c), fuel) == Done(l)
  {
    var xs := l[p].children;
    var l1 := l[p := l[p].(children := xs + [c])];
    assert AddChild(l, p, Some(c), fuel) == SetParent(l1, c, Some(p), fuel - 1);
    EraseAppended(xs, c);
    assert l1[p := l1[p].(children := xs)] == l;
  }

  /** `RemoveChild(c)` erases `c` but leaves `c` pointing at the parent that no longer lists it. */
  lemma RemoveChildKeepsParent(l: Links, p: Id, c: Id)
    requires Valid(l) && p in l && c in l[p].children
    ensures var r := RemoveChild(l, p, c);
      r.Done? && c in r.links && r.links[c].parent == Some(p) && c !in r.links[p].children
      && !Linked(r.links)
  {
    EraseFacts(l[p].children, c);
    var r := RemoveChild(l, p, c).links;
    ChildHeight(l, p, c);
    NoSelfParent(l, c);
    assert r[c] == l[c];
    assert !ParentsListed(r) by {
      assert c in r && r[c].parent.Some? && !(c in r[r[c].parent.value].children);
    }
  }

  /**
   * A direct `c.SetParent(p)` to a new non-null parent ends with `c`
   * pointing at `p` while `p`'s list does not hold it: `p.AddChild(c)`
   * appends `c` and the nested `SetParent(p)` erases it again.
   */
  lemma SetParentLeavesUnlisted(l: Links, c: Id, p: Id, fuel: nat)
    requires Valid(l) && c in l && p in l && p != c && l[c].parent != Some(p)
    requires fuel >= 3
    ensures var r := SetParent(l, c, Some(p), fuel);
      r.Done? && r.links[c].parent == Some(p) && c !in r.links[p].children && !Linked(r.links)
  {
    NoSelfParent(l, c);
    if l[c].parent.Some? {
      ParentHeight(l, c);
      EraseFacts(l[l[c].parent.value].children, c);
    }
    var l1 := Unlisted(l, c);
    assert c !in l1[p].children;
    var l2 := l1[c := l1[c].(parent := Some(p))];
    assert SetParent(l, c, Some(p), fuel) == AddChild(l2, p, Some(c), fuel - 1);
    AddChildToPointing(l2, p, c, fuel - 1);
    assert !ParentsListed(l2) by {
      assert c in l2 && l2[c].parent.Some? && !(c in l2[l2[c].parent.value].children);
    }
  }

  /** `c.SetParent(p)` to the parent it already has drops `c` from that parent's list. */
  lemma SetParentSameDropsChild(l: Links, c: Id, p: Id, fuel: nat)
    requires Valid(l) && c in l && l[c].parent == Some(p) && fuel >= 1
    ensures var r := SetParent(l, c, Some(p), fuel);
      r.Done? && r.links[c].parent == Some(p) && c !in r.links[p].children
  {
    ParentHeight(l, c);
    EraseFacts(l[p].children, c);
    NoSelfParent(l, c);
  }

  /** `SetParent(nullptr)` on a node with a parent calls `AddChild` through a null pointer. */
  lemma SetParentNullFaults(l: Links, c: Id, fuel: nat)
    requires ParentsListed(l) && c in l && l[c].parent.Some? && fuel >= 1
    ensures SetParent(l, c, None, fuel).Fault?
  {
  }

  /** A label for the `std::out_of_range` that `vector::at` throws; the standard does not fix its text. */
  const OutOfRange: string := "at: out of range"

  /**
   * `GetChildAtIndex(index)` as written: null for a negative index or one
   * past `children.size()`, otherwise `children.at(index)`, which throws
   * for `index == size()`.
   */
  function GetChildAtIndexAsWritten(l: Links, p: Id, index: int): (r: Result<Option<Id>>)
    requires p in l && IsInt32(index)
    ensures r.Ok? && r.value.Some? ==> 0 <= index < |l[p].children| && r.value.value == l[p].children[index]
  {
    if index < 0 || ToSizeT(index) > |l[p].children| then Ok(None)
    else if index < |l[p].children| then Ok(Some(l[p].children[index]))
    else Throw(OutOfRange)
  }

  /** The three outcomes of the as-written guard: the child in range, an exception exactly at the size, null beyond. */
  lemma GetChildAtIndexAsWrittenCases(l: Links, p: Id, index: int)
    requires p in l && IsInt32(index)
    ensures 0 <= index < |l[p].children| ==> GetChildAtIndexAsWritten(l, p, index) == Ok(Some(l[p].children[index]))
    ensures GetChildAtIndexAsWritten(l, p, index).Throw? <==> index == |l[p].children|
    ensures index < 0 || index > |l[p].children| <==> GetChildAtIndexAsWritten(l, p, index) == Ok(None)
  {
  }

  /** The evidently intended `GetChildAtIndex`: null for every index outside `[0, size)`. */
  function GetChildAtIndex(l: Links, p: Id, index: int): (r: Option<Id>)
    requires p in l
    ensures r.Some? <==> 0 <= index < |l[p].children|
    ensures r.Some? ==> r.value == l[p].children[index]
  {
    if index < 0 || index >= |l[p].children| then None else Some(l[p].children[index])
  }

  /** The corrected lookup agrees with the as-written one wherever the latter does not throw. */
  lemma GetChildAtIndexAgrees(l: Links, p: Id, index: int)
    requires p in l && IsInt32(index)
    ensures index != |l[p].children| ==> GetChildAtIndexAsWritten(l, p, index) == Ok(GetChildAtIndex(l, p, index))
  {
  }
}

=== FILE: model/physics.dfy ===
/**
 * `PhysicsEntity`: an entity with a Box2D body. Its construction maps
 * the engine's body types onto Box2D's, fixtures are buffered until the
 * scene registers the entity and then flushed onto the new body with
 * the entity's collision filter, `FixedUpdate` copies the pose one way
 * or the other depending on the body type, and forces reach Box2D with
 * their sign flipped.
 */
module Physics {
  import opened Wrappers
  import opened Structs
  import opened Topology
  import opened Entities
  import opened Collision

  /** `PHYSICS_TYPE`. */
  datatype PhysicsType = STATIC | DYNAMIC | KINEMATIC

  /** The body kind each physics type asks Box2D for. */
  function BodyKindOf(p: PhysicsType): (k: BodyKind)
    ensures k.StaticBody? <==> p == STATIC
    ensures k.DynamicBody? <==> p == DYNAMIC
    ensures k.KinematicBody? <==> p == KINEMATIC
  {
    match p
    case STATIC => StaticBody
    case DYNAMIC => DynamicBody
    case KINEMATIC => KinematicBody
  }

  /**
   * `PhysicsEntity(bodyType, startPos)`: a fresh entity of type PHYSICAL
   * placed at `startPos`, with a body definition of the matching kind at
   * the same position, no body yet and an empty fixture buffer.
   */
  function NewPhysicsEntity(w: World, bodyType: PhysicsType, startPos: Vec2): (r: (World, Id, Collider))
    ensures r.1 == w.entityCount && r.0.entityCount == w.entityCount + 1 && r.1 in r.0.tree.ents
    ensures r.0.tree.ents[r.1].kind == PHYSICAL && r.0.tree.ents[r.1].transform.position == startPos
    ensures r.2.bodyDef.kind == BodyKindOf(bodyType) && r.2.bodyDef.position == startPos
    ensures r.2.body.None? && r.2.pending == [] && !r.2.added && r.2.filter == DefaultFilter
  {
    var (w1, id) := Construct(w);
    var e := w1.tree.ents[id];
    var placed := e.(kind := PHYSICAL, transform := e.transform.(position := startPos));
    (UpdateEntity(w1, id, placed), id, NewCollider(BodyDef(BodyKindOf(bodyType), startPos, 0.0, None)))
  }

  /**
   * `PhysicsEntity(name, bodyType, position, rotation)` as written: after
   * the delegated construction it calls `SetTransform` on the body, which
   * does not exist until registration, so the call goes through a null
   * pointer.
   */
  function NewNamedPhysicsEntityAsWritten(w: World, name: string, bodyType: PhysicsType, position: Vec2,
                                          rotation: real): (r: Result<(World, Id, Collider)>)
    ensures r == Crash(Dangling)
  {
    var (w1, id, c) := NewPhysicsEntity(w, bodyType, position);
    var w2 := UpdateEntity(w1, id, w1.tree.ents[id].(name := name));
    match SetTransform(c, position, rotation)
    case Ok(c2) => Ok((w2, id, c2))
    case Throw(m) => Throw(m)
    case Crash(m) => Crash(m)
  }

  /** `physicsBody->SetTransform(position, angle)`: undefined while there is no body. */
  function SetTransform(c: Collider, position: Vec2, angle: real): (r: Result<Collider>)
    ensures r.Ok? <==> c.body.Some?
    ensures r.Ok? ==> r.value.body == Some(c.body.value.(position := position, angle := angle))
  {
    match c.body
    case None => Crash(Dangling)
    case Some(b) => Ok(c.(body := Some(b.(position := position, angle := angle))))
  }

  /** Every construction through the named constructor is undefined. */
  lemma NamedConstructorDereferencesNull(w: World, name: string, bodyType: PhysicsType, position: Vec2, rotation: real)
    ensures NewNamedPhysicsEntityAsWritten(w, name, bodyType, position, rotation).Crash?
    ensures NewPhysicsEntity(w, bodyType, position).2.body.None?
  {
  }

  /**
   * The named constructor as intended: the name is set and the starting
   * pose goes into the body definition, so the body is created with it.
   */
  function NewNamedPhysicsEntity(w: World, name: string, bodyType: PhysicsType, position: Vec2,
                                 rotation: real): (r: (World, Id, Collider))
    ensures r.1 in r.0.tree.ents && r.0.tree.ents[r.1].name == name
    ensures r.2.bodyDef == BodyDef(BodyKindOf(bodyType), position, rotation, None)
  {
    var (w1, id, c) := NewPhysicsEntity(w, bodyType, position);
    (UpdateEntity(w1, id, w1.tree.ents[id].(name := name)), id, c.(bodyDef := c.bodyDef.(angle := rotation)))
  }

  /** Once registered, a body made by the intended named constructor starts at the requested pose. */
  lemma NamedBodyStartsAtPose(w: World, name: string, bodyType: PhysicsType, position: Vec2, rotation: real,
                              bodyId: nat)
    ensures var (w1, id, c) := NewNamedPhysicsEntity(w, name, bodyType, position, rotation);
      var b := OnRegister(c, id, name, bodyId).body.value;
      b.position == position && b.angle == rotation && b.kind == BodyKindOf(bodyType)
      && b.userData == Some(PhysicsEntityData(id, name))
  {
  }

  // ---------------------------------------------------------------------
  // Fixtures

  /** The fixture definitions a collider stands for: those on its body, or those still buffered. */
  function Defs(c: Collider): (r: seq<FixtureDef>)
  {
    match c.body
    case Some(b) => seq(|b.fixtures|, i requires 0 <= i < |b.fixtures| => b.fixtures[i].def)
    case None => c.pending
  }

  /**
   * `AddFixtureToBody(def)`: with a body, the fixture is created at once
   * and given the entity's filter; without one, the definition is
   * buffered.
   */
  function AddFixtureToBody(c: Collider, fd: FixtureDef): (r: Collider)
    ensures Defs(r) == Defs(c) + [fd]
    ensures r.bodyDef == c.bodyDef && r.added == c.added && r.filter == c.filter
    ensures c.body.Some? ==> r.body.Some? && r.pending == c.pending
                             && r.body.value == c.body.value.(fixtures := r.body.value.fixtures)
                             && r.body.value.fixtures == c.body.value.fixtures + [Fixture(fd, c.filter)]
    ensures c.body.None? ==> r.body.None? && r.pending == c.pending + [fd]
  {
    match c.body
    case Some(b) => c.(body := Some(b.(fixtures := b.fixtures + [Fixture(fd, c.filter)])))
    case None => c.(pending := c.pending + [fd])
  }

  /** The `AddFixtureToBody` loop of `OnRegister`, over the buffered definitions in order. */
  function FlushFixtures(c: Collider, fds: seq<FixtureDef>): (r: Collider)
    requires c.body.Some?
    ensures r.body.Some? && r.pending == c.pending && r.filter == c.filter && r.added == c.added && r.bodyDef == c.bodyDef
    ensures r.body.value == c.body.value.(fixtures := r.body.value.fixtures)
    ensures |r.body.value.fixtures| == |c.body.value.fixtures| + |fds|
    ensures r.body.value.fixtures[..|c.body.value.fixtures|] == c.body.value.fixtures
    ensures forall i :: 0 <= i < |fds| ==> r.body.value.fixtures[|c.body.value.fixtures| + i] == Fixture(fds[i], c.filter)
    decreases |fds|
  {
    if |fds| == 0 then c
    else FlushFixtures(AddFixtureToBody(c, fds[0]), fds[1..])
  }

  /**
   * `OnRegister(scene)`: the user data `{entityID, name}` goes into the
   * body definition, the physics world creates body `bodyId` from it,
   * every buffered fixture is created on the body in order with the
   * entity's filter, and the buffer is emptied.
   */
  function OnRegister(c: Collider, entityId: int, name: string, bodyId: nat): (r: Collider)
    ensures r.added && r.pending == [] && r.filter == c.filter
    ensures r.bodyDef == c.bodyDef.(userData := Some(PhysicsEntityData(entityId, name)))
    ensures r.body.Some? && r.body.value.bodyId == bodyId && r.body.value.kind == c.bodyDef.kind
    ensures r.body.value.userData == Some(PhysicsEntityData(entityId, name))
    ensures r.body.value.position == c.bodyDef.position && r.body.value.angle == c.bodyDef.angle
    ensures r.body.value.pushes == []
    ensures |r.body.value.fixtures| == |c.pending|
    ensures forall i :: 0 <= i < |c.pending| ==> r.body.value.fixtures[i] == Fixture(c.pending[i], c.filter)
  {
    var def := c.bodyDef.(userData := Some(PhysicsEntityData(entityId, name)));
    var body := Body(bodyId, def.kind, def.userData, def.position, def.angle, [], []);
    var flushed := FlushFixtures(c.(bodyDef := def, body := Some(body), added := true), c.pending);
    flushed.(pending := [])
  }

  /** Registration keeps every fixture definition made before it, in order. */
  lemma OnRegisterKeepsDefs(c: Collider, entityId: int, name: string, bodyId: nat)
    requires c.body.None?
    ensures Defs(OnRegister(c, entityId, name, bodyId)) == Defs(c)
  {
  }

  /**
   * Buffering is invisible: a fixture added before registration ends up
   * where it would have been had it been added right after.
   */
  lemma BufferedFixtureCommutes(c: Collider, fd: FixtureDef, entityId: int, name: string, bodyId: nat)
    requires c.body.None?
    ensures OnRegister(AddFixtureToBody(c, fd), entityId, name, bodyId)
         == AddFixtureToBody(OnRegister(c, entityId, name, bodyId), fd)
  {
    var a := OnRegister(AddFixtureToBody(c, fd), entityId, name, bodyId);
    var b := AddFixtureToBody(OnRegister(c, entityId, name, bodyId), fd);
    assert a.body.value.fixtures == b.body.value.fixtures;
  }

  /** The fixture of a rectangle collider: a box of half the size around `center`. */
  function RectangleFixture(center: Vec2, size: Vec2, rotRads: real, density: real, friction: real,
                            restitution: real): (fd: FixtureDef)
    ensures fd.shape == Box(size.x / 2.0, size.y / 2.0, center, rotRads) && !fd.isSensor
    ensures fd.density == density && fd.friction == friction && fd.restitution == restitution
  {
    FixtureDef(Box(size.x / 2.0, size.y / 2.0, center, rotRads), density, friction, restitution, false)
  }

  /** `CreateRectangleCollider(center, size, rotRads, density, friction, restitution)`. */
  function CreateRectangleCollider(c: Collider, center: Vec2, size: Vec2, rotRads: real, density: real,
                                   friction: real, restitution: real): (r: Collider)
    ensures Defs(r) == Defs(c) + [RectangleFixture(center, size, rotRads, density, friction, restitution)]
  {
    AddFixtureToBody(c, RectangleFixture(center, size, rotRads, density, friction, restitution))
  }

  /** `CreateRectangleCollider(center, size)`: rotation 0, density 0.1, friction 0.1, restitution 0.5. */
  function CreateRectangleColliderDefault(c: Collider, center: Vec2, size: Vec2): (r: Collider)
    ensures |Defs(r)| == |Defs(c)| + 1 && Defs(r)[..|Defs(c)|] == Defs(c)
    ensures var fd := Defs(r)[|Defs(c)|];
      fd.shape == Box(size.x / 2.0, size.y / 2.0, center, 0.0)
      && fd.density == 0.1 && fd.friction == 0.1 && fd.restitution == 0.5
  {
    CreateRectangleCollider(c, center, size, 0.0, 0.1, 0.1, 0.5)
  }

  /** `CreateRectangleCollider(center, size, rotRads)`: density 1, friction 0.1, restitution 0.5. */
  function CreateRectangleColliderRotated(c: Collider, center: Vec2, size: Vec2, rotRads: real): (r: Collider)
    ensures |Defs(r)| == |Defs(c)| + 1 && Defs(r)[..|Defs(c)|] == Defs(c)
    ensures var fd := Defs(r)[|Defs(c)|];
      fd.shape == Box(size.x / 2.0, size.y / 2.0, center, rotRads)
      && fd.density == 1.0 && fd.friction == 0.1 && fd.restitution == 0.5
  {
    CreateRectangleCollider(c, center, size, rotRads, 1.0, 0.1, 0.5)
  }

  /** Points in engine coordinates turned into Box2D's: y is negated, order and count kept. */
  function FlipY(points: seq<Vec2>): (r: seq<Vec2>)
    ensures |r| == |points|
    ensures forall i :: 0 <= i < |points| ==> r[i].x == points[i].x && r[i].y == -points[i].y
  {
    seq(|points|, i requires 0 <= i < |points| => Vec2(points[i].x, -points[i].y))
  }

  /** Flipping twice gives the points back, so no point is lost or moved. */
  lemma FlipYInvolution(points: seq<Vec2>)
    ensures FlipY(FlipY(points)) == points
  {
  }

  /**
   * `CreateConvexPolyCollider(points, rotRads, density, friction,
   * restitution)`: a polygon over the flipped points. `rotRads` is
   * accepted and never read.
   */
  function CreateConvexPolyCollider(c: Collider, points: seq<Vec2>, rotRads: real, density: real,
                                    friction: real, restitution: real): (r: Collider)
    ensures Defs(r) == Defs(c) + [FixtureDef(Polygon(FlipY(points)), density, friction, restitution, false)]
  {
    AddFixtureToBody(c, FixtureDef(Polygon(FlipY(points)), density, friction, restitution, false))
  }

  /** `CreateConvexPolyCollider(points)`: rotation 0, density 1, friction 0.2, restitution 0. */
  function CreateConvexPolyColliderDefault(c: Collider, points: seq<Vec2>): (r: Collider)
    ensures |Defs(r)| == |Defs(c)| + 1
    ensures var fd := Defs(r)[|Defs(c)|];
      fd.shape == Polygon(FlipY(points)) && fd.density == 1.0 && fd.friction == 0.2 && fd.restitution == 0.0
  {
    CreateConvexPolyCollider(c, points, 0.0, 1.0, 0.2, 0.0)
  }

  /** The rotation handed to the polygon collider makes no difference. */
  lemma ConvexPolyIgnoresRotation(c: Collider, points: seq<Vec2>, a: real, b: real, d: real, f: real, r: real)
    ensures CreateConvexPolyCollider(c, points, a, d, f, r) == CreateConvexPolyCollider(c, points, b, d, f, r)
  {
  }

  const NotImplementedMessage: string := "ERROR: Not yet implemented"

  /** `CreateConcavePolyCollider(points)`: a debug assert on `false`. */
  function CreateConcavePolyCollider(c: Collider, points: seq<Vec2>): (r: Result<Collider>)
    ensures r == Crash(NotImplementedMessage)
  {
    Crash(NotImplementedMessage)
  }

  // ---------------------------------------------------------------------
  // Pose synchronisation

  /**
   * `PhysicsEntity::GetGlobalPosition()`: Entity2D's parent chain for
   * static and kinematic bodies, the body's own position for dynamic ones.
   */
  function PhysicsGlobalPosition(t: Tree, id: Id, c: Collider, rotate: (Vec2, real) -> Vec2,
                                 wrap: real -> real, overrides: Overrides): (r: Result<Vec2>)
    requires Shaped(t) && id in t.links
    ensures r.Ok? <==> c.body.Some?
    ensures r.Ok? && c.body.value.kind.DynamicBody? ==> r.value == c.body.value.position
    ensures r.Ok? && !c.body.value.kind.DynamicBody? ==> r.value == GetGlobalPosition(t, id, rotate, wrap, overrides)
  {
    match c.body
    case None => Crash(Dangling)
    case Some(b) =>
      if b.kind.DynamicBody? then Ok(b.position) else Ok(GetGlobalPosition(t, id, rotate, wrap, overrides))
  }

  /** Whether a physics entity answers the virtual position call from its body. */
  predicate IsDynamic(c: Collider)
  {
    c.body.Some? && c.body.value.kind.DynamicBody?
  }

  /**
   * The overrides of `GetGlobalPosition()` a set of registered physics
   * entities brings into the tree: a dynamic body answers with its own
   * position, every other entity with Entity2D's formula.
   */
  function BodyOverrides(cs: map<Id, Collider>): (o: Overrides)
    ensures forall id :: id in cs && IsDynamic(cs[id]) ==> o(id) == Some(cs[id].body.value.position)
    ensures forall id :: !(id in cs && IsDynamic(cs[id])) ==> o(id) == None
  {
    id => if id in cs && IsDynamic(cs[id]) then Some(cs[id].body.value.position) else None
  }

  /**
   * Asking a registered physics entity for its global position through
   * the virtual call gives what `PhysicsEntity::GetGlobalPosition()`
   * computes, for every body kind.
   */
  lemma VirtualCallDispatches(t: Tree, id: Id, cs: map<Id, Collider>, rotate: (Vec2, real) -> Vec2, wrap: real -> real)
    requires Shaped(t) && id in t.links && id in cs && cs[id].body.Some?
    ensures PhysicsGlobalPosition(t, id, cs[id], rotate, wrap, BodyOverrides(cs))
            == Ok(VirtualGlobalPosition(t, id, rotate, wrap, BodyOverrides(cs)))
  {
  }

  /**
   * `FixedUpdate(dt)`: a static or kinematic body is moved to the
   * entity's global position with the negated local rotation; a dynamic
   * body's pose is copied into the transform, whose scale resets to (1,1).
   */
  function FixedUpdate(t: Tree, id: Id, c: Collider, rotate: (Vec2, real) -> Vec2,
                       wrap: real -> real, overrides: Overrides): (r: Result<(Tree, Collider)>)
    requires Shaped(t) && id in t.links
    ensures r.Ok? <==> c.body.Some?
    ensures r.Ok? ==> r.value.0.links == t.links && r.value.0.ents.Keys == t.ents.Keys
    ensures r.Ok? && c.body.value.kind.DynamicBody? ==>
      r.value.1 == c && r.value.0.ents == t.ents[id := t.ents[id].(transform := Transform2D(c.body.value.position, c.body.value.angle, One))]
    ensures r.Ok? && !c.body.value.kind.DynamicBody? ==>
      r.value.0 == t && r.value.1.body.Some?
      && r.value.1 == c.(body := Some(c.body.value.(position := r.value.1.body.value.position, angle := r.value.1.body.value.angle)))
      && r.value.1.body.value.angle == -t.ents[id].transform.rotation
  {
    match c.body
    case None => Crash(Dangling)
    case Some(b) =>
      if b.kind.StaticBody? || b.kind.KinematicBody? then
        var globalPos := GetGlobalPosition(t, id, rotate, wrap, overrides);
        Ok((t, c.(body := Some(b.(position := globalPos, angle := -t.ents[id].transform.rotation)))))
      else
        var e := t.ents[id];
        Ok((t.(ents := t.ents[id := e.(transform := Transform2D(b.position, b.angle, One))]), c))
  }

  /** After a fixed update, the entity's global position and its body's position agree. */
  lemma FixedUpdateAgrees(t: Tree, id: Id, c: Collider, rotate: (Vec2, real) -> Vec2, wrap: real -> real,
                          overrides: Overrides)
    requires Shaped(t) && id in t.links && c.body.Some?
    ensures var r := FixedUpdate(t, id, c, rotate, wrap, overrides);
      r.Ok? && Shaped(r.value.0)
      && PhysicsGlobalPosition(r.value.0, id, r.value.1, rotate, wrap, overrides) == Ok(r.value.1.body.value.position)
  {
  }

  /** A second fixed update with no simulation step in between changes nothing. */
  lemma FixedUpdateIdempotent(t: Tree, id: Id, c: Collider, rotate: (Vec2, real) -> Vec2, wrap: real -> real,
                              overrides: Overrides)
    requires Shaped(t) && id in t.links && c.body.Some?
    ensures var r := FixedUpdate(t, id, c, rotate, wrap, overrides);
      r.Ok? && Shaped(r.value.0) && FixedUpdate(r.value.0, id, r.value.1, rotate, wrap, overrides) == r
  {
    var r := FixedUpdate(t, id, c, rotate, wrap, overrides);
    var b := c.body.value;
    if b.kind.DynamicBody? {
      var e := t.ents[id].(transform := Transform2D(b.position, b.angle, One));
      assert r.value.0.ents[id] == e;
      assert r.value.0.ents[id := e.(transform := Transform2D(b.position, b.angle, One))] == r.value.0.ents;
    }
  }

  // ---------------------------------------------------------------------
  // Forces

  /** Hand `p` to the body; with no body the call goes through a null pointer. */
  function Pushed(c: Collider, p: Push): (r: Result<Collider>)
    ensures r.Ok? <==> c.body.Some?
    ensures r.Ok? ==> r.value == c.(body := Some(c.body.value.(pushes := c.body.value.pushes + [p])))
  {
    match c.body
    case None => Crash(Dangling)
    case Some(b) => Ok(c.(body := Some(b.(pushes := b.pushes + [p]))))
  }

  /** A push as the engine's caller meant it: Box2D's vectors and torque negated back. */
  function EngineView(p: Push): (q: Push)
  {
    match p
    case Force(f, at) => Force(Neg(f), at)
    case Impulse(i, at) => Impulse(Neg(i), at)
    case Torque(tq) => Torque(-tq)
  }

  /** `AddForce(force)`: the negated force at the body's centre. */
  function AddForce(c: Collider, force: Vec2): (r: Result<Collider>)
    ensures r.Ok? <==> c.body.Some?
    ensures r.Ok? ==> r.value.body.Some? && |r.value.body.value.pushes| == |c.body.value.pushes| + 1
  {
    Pushed(c, Force(Neg(force), None))
  }

  /** `AddForceAtPoint(force, point)`: the negated force at `point`, which is passed as given. */
  function AddForceAtPoint(c: Collider, force: Vec2, point: Vec2): (r: Result<Collider>)
    ensures r.Ok? <==> c.body.Some?
    ensures r.Ok? ==> r.value.body.Some? && |r.value.body.value.pushes| == |c.body.value.pushes| + 1
  {
    Pushed(c, Force(Neg(force), Some(point)))
  }

  /** `ApplyTorque(torque)`: the negated torque. */
  function ApplyTorque(c: Collider, torque: real): (r: Result<Collider>)
    ensures r.Ok? <==> c.body.Some?
    ensures r.Ok? ==> r.value.body.Some? && |r.value.body.value.pushes| == |c.body.value.pushes| + 1
  {
    Pushed(c, Torque(-torque))
  }

  /** `ApplyImpulse(force)`: the negated impulse at the body's centre. */
  function ApplyImpulse(c: Collider, force: Vec2): (r: Result<Collider>)
    ensures r.Ok? <==> c.body.Some?
    ensures r.Ok? ==> r.value.body.Some? && |r.value.body.value.pushes| == |c.body.value.pushes| + 1
  {
    Pushed(c, Impulse(Neg(force), None))
  }

  /** `ApplyImpulseAtPoint(force, point)`: the negated impulse at `point`. */
  function ApplyImpulseAtPoint(c: Collider, force: Vec2, point: Vec2): (r: Result<Collider>)
    ensures r.Ok? <==> c.body.Some?
    ensures r.Ok? ==> r.value.body.Some? && |r.value.body.value.pushes| == |c.body.value.pushes| + 1
  {
    Pushed(c, Impulse(Neg(force), Some(point)))
  }

  /** The last push of a body that has one. */
  function LastPush(c: Collider): Push
    requires c.body.Some? && |c.body.value.pushes| > 0
  {
    c.body.value.pushes[|c.body.value.pushes| - 1]
  }

  /**
   * Every manipulation reaches the body as exactly what the caller asked
   * for, once the sign flip into Box2D's coordinates is undone; the
   * application point is not flipped.
   */
  lemma PushesAreNegated(c: Collider, v: Vec2, point: Vec2, torque: real)
    requires c.body.Some?
    ensures EngineView(LastPush(AddForce(c, v).value)) == Force(v, None)
    ensures EngineView(LastPush(AddForceAtPoint(c, v, point).value)) == Force(v, Some(point))
    ensures EngineView(LastPush(ApplyTorque(c, torque).value)) == Torque(torque)
    ensures EngineView(LastPush(ApplyImpulse(c, v).value)) == Impulse(v, None)
    ensures EngineView(LastPush(ApplyImpulseAtPoint(c, v, point).value)) == Impulse(v, Some(point))
  {
  }
}

=== FILE: model/raycast.dfy ===
/**
 * `Raycast`: the ray-cast callback. Box2D reports the fixtures the ray
 * crosses, one at a time and in no promised order; the callback's return
 * value filters a fixture out (-1), ends the query (0) or clips the ray
 * to a fraction. The world's query is modelled by the sequence of
 * candidate hits it would report.
 */
module Raycast {
  import opened Wrappers
  import opened Structs
  import opened CppInts
  import opened Topology

  /** A C++ `int`. */
  type Int32 = i: int | IsInt32(i)

  /** A fixture the ray crosses: its category bits, its body's user data, and where along the ray. */
  datatype Hit = Hit(categoryBits: bv16, userData: Option<PhysicsEntityData>, point: Vec2, normal: Vec2, fraction: real)

  /** `RaycastInfo`: the point and normal, and the entity the body belongs to. */
  datatype RaycastInfo = RaycastInfo(colPoint: Vec2, colNormal: Vec2, entityID: int, entityName: string)

  /** The callback object: the mask, the collision limit, and the results so far. */
  datatype Raycaster = Raycaster(collisionFilter: bv16, maxCollisions: Int32, results: seq<RaycastInfo>)

  /** `Raycast()`: mask 0x0000, at most one collision, no results. */
  const NewRaycaster: Raycaster := Raycaster(0x0000, 1, [])

  /** The mask lets the fixture's category through. */
  predicate Accepted(mask: bv16, h: Hit)
  {
    mask & h.categoryBits != 0
  }

  /** `RaycastInfo(point, normal, *bodyData)`. */
  function InfoOf(h: Hit, d: PhysicsEntityData): (info: RaycastInfo)
    ensures info.entityID == d.entityID && info.entityName == d.entityName
    ensures info.colPoint == h.point && info.colNormal == h.normal
  {
    RaycastInfo(h.point, h.normal, d.entityID, d.entityName)
  }

  /**
   * `ReportFixture` as written: a filtered-out fixture gives -1; an
   * accepted one whose body has no user data is dereferenced through
   * null; otherwise one result is appended, and the query ends as soon as
   * `maxCollisions`, converted to `size_t`, is at least the new result
   * count.
   */
  function ReportFixtureAsWritten(rc: Raycaster, h: Hit): (r: Result<(Raycaster, real)>)
    ensures !Accepted(rc.collisionFilter, h) ==> r == Ok((rc, -1.0))
    ensures Accepted(rc.collisionFilter, h) && h.userData.None? ==> r.Crash?
    ensures Accepted(rc.collisionFilter, h) && h.userData.Some? ==> r.Ok? && Appended(rc, h, r.value.0)
  {
    if !Accepted(rc.collisionFilter, h) then Ok((rc, -1.0))
    else match h.userData
      case None => Crash(Dangling)
      case Some(d) =>
        var rc2 := rc.(results := rc.results + [InfoOf(h, d)]);
        if ToSizeT(rc.maxCollisions) >= |rc2.results| then Ok((rc2, 0.0)) else Ok((rc2, h.fraction))
  }

  /** `ReportFixture` as intended: the query ends once the result count reaches `maxCollisions`. */
  function ReportFixture(rc: Raycaster, h: Hit): (r: Result<(Raycaster, real)>)
    ensures !Accepted(rc.collisionFilter, h) ==> r == Ok((rc, -1.0))
    ensures Accepted(rc.collisionFilter, h) && h.userData.None? ==> r.Crash?
    ensures Accepted(rc.collisionFilter, h) && h.userData.Some? ==> r.Ok? && Appended(rc, h, r.value.0)
  {
    if !Accepted(rc.collisionFilter, h) then Ok((rc, -1.0))
    else match h.userData
      case None => Crash(Dangling)
      case Some(d) =>
        var rc2 := rc.(results := rc.results + [InfoOf(h, d)]);
        if |rc2.results| >= rc.maxCollisions then Ok((rc2, 0.0)) else Ok((rc2, h.fraction))
  }

  /** `after` is `before` with the result for hit `h` appended. */
  predicate Appended(before: Raycaster, h: Hit, after: Raycaster)
    requires h.userData.Some?
  {
    after == before.(results := before.results + [InfoOf(h, h.userData.value)])
  }

  /**
   * When an accepted hit ends the query: as written, when the limit read
   * as a `size_t` reaches the new count (so any nonzero limit ends it at
   * once, a negative one turning into a huge count); as intended, when
   * the new count reaches the limit.
   */
  lemma ReportStops(rc: Raycaster, h: Hit)
    requires Accepted(rc.collisionFilter, h) && h.userData.Some? && h.fraction != 0.0
    ensures ReportFixtureAsWritten(rc, h).value.1 == 0.0 <==> ToSizeT(rc.maxCollisions) >= |rc.results| + 1
    ensures ReportFixture(rc, h).value.1 == 0.0 <==> |rc.results| + 1 >= rc.maxCollisions
    ensures ReportFixtureAsWritten(rc, h).value.1 != 0.0 ==> ReportFixtureAsWritten(rc, h).value.1 == h.fraction
    ensures ReportFixture(rc, h).value.1 != 0.0 ==> ReportFixture(rc, h).value.1 == h.fraction
  {
  }

  /** The report in effect: as written, or as intended. */
  function Report(rc: Raycaster, h: Hit, intended: bool): Result<(Raycaster, real)>
  {
    if intended then ReportFixture(rc, h) else ReportFixtureAsWritten(rc, h)
  }

  /**
   * The world's ray query over the candidate hits: a hit beyond the
   * current clip is not reported; a report of 0 ends the query, a
   * negative one leaves the clip as it is, and a positive one becomes the
   * new clip.
   */
  function Query(rc: Raycaster, hits: seq<Hit>, clip: real, intended: bool): (r: Result<Raycaster>)
    ensures r.Ok? ==> r.value.collisionFilter == rc.collisionFilter && r.value.maxCollisions == rc.maxCollisions
    ensures r.Ok? ==> |rc.results| <= |r.value.results| && r.value.results[..|rc.results|] == rc.results
    decreases |hits|
  {
    if |hits| == 0 then Ok(rc)
    else if hits[0].fraction > clip then Query(rc, hits[1..], clip, intended)
    else match Report(rc, hits[0], intended)
      case Ok((rc2, v)) =>
        if v == 0.0 then Ok(rc2)
        else if v < 0.0 then Query(rc2, hits[1..], clip, intended)
        else Query(rc2, hits[1..], v, intended)
      case Throw(m) => Throw(m)
      case Crash(m) => Crash(m)
  }

  /** `FireRayCast(world, start, end, mask)`: store the mask, clear the results, run the query over the whole ray. */
  function FireRayCast(rc: Raycaster, hits: seq<Hit>, mask: bv16, intended: bool): (r: Result<Raycaster>)
    ensures r.Ok? ==> r.value.collisionFilter == mask && r.value.maxCollisions == rc.maxCollisions
    ensures r.Ok? ==> forall x :: x in r.value.results ==> x in Sources(mask, hits)
    ensures r.Ok? && intended ==> |r.value.results| <= Limit(rc)
    ensures r.Ok? && !intended && rc.maxCollisions != 0 ==> |r.value.results| <= 1
    ensures mask == 0x0000 ==> r == Ok(rc.(collisionFilter := mask, results := []))
  {
    CastFacts(rc.(collisionFilter := mask, results := []), hits, intended);
    Query(rc.(collisionFilter := mask, results := []), hits, 1.0, intended)
  }

  /** What a query over the whole ray from an empty result list can give. */
  lemma CastFacts(rc: Raycaster, hits: seq<Hit>, intended: bool)
    requires rc.results == []
    ensures var r := Query(rc, hits, 1.0, intended);
      && (r.Ok? ==> forall x :: x in r.value.results ==> x in Sources(rc.collisionFilter, hits))
      && (r.Ok? && intended ==> |r.value.results| <= Limit(rc))
      && (r.Ok? && !intended && rc.maxCollisions != 0 ==> |r.value.results| <= 1)
      && (rc.collisionFilter == 0x0000 ==> r == Ok(rc))
  {
    var r := Query(rc, hits, 1.0, intended);
    QueryResultsAccepted(rc, hits, 1.0, intended);
    if r.Ok? {
      forall x | x in r.value.results
        ensures x in Sources(rc.collisionFilter, hits)
      {
        var i :| 0 <= i < |r.value.results| && r.value.results[i] == x;
      }
    }
    if intended {
      QueryWithinLimit(rc, hits, 1.0);
    } else if rc.maxCollisions != 0 {
      AsWrittenKeepsOne(rc, hits, 1.0);
    }
    if rc.collisionFilter == 0x0000 {
      DefaultMaskFindsNothing(rc, hits, 1.0, intended);
    }
  }

  /** The results the hits can give under a mask: one per accepted hit whose body has user data. */
  function Sources(mask: bv16, hits: seq<Hit>): set<RaycastInfo>
  {
    set h | h in hits && Accepted(mask, h) && h.userData.Some? :: InfoOf(h, h.userData.value)
  }

  /** Every result the query adds comes from an accepted hit. */
  lemma {:induction false} QueryResultsAccepted(rc: Raycaster, hits: seq<Hit>, clip: real, intended: bool)
    ensures AddedFrom(Query(rc, hits, clip, intended), |rc.results|, Sources(rc.collisionFilter, hits))
    decreases |hits|
  {
    if |hits| > 0 {
      var tail := hits[1..];
      SourcesOfTail(rc.collisionFilter, hits);
      if hits[0].fraction > clip {
        assert Query(rc, hits, clip, intended) == Query(rc, tail, clip, intended);
        QueryResultsAccepted(rc, tail, clip, intended);
        LiftSources(Query(rc, tail, clip, intended), |rc.results|, Sources(rc.collisionFilter, tail), Sources(rc.collisionFilter, hits));
      } else {
        var s := Report(rc, hits[0], intended);
        if s.Ok? {
          var rc2 := s.value.0;
          if Accepted(rc.collisionFilter, hits[0]) {
            assert InfoOf(hits[0], hits[0].userData.value) in Sources(rc.collisionFilter, hits);
          }
          if s.value.1 != 0.0 {
            var clip2 := if s.value.1 < 0.0 then clip else s.value.1;
            assert Query(rc, hits, clip, intended) == Query(rc2, tail, clip2, intended);
            QueryResultsAccepted(rc2, tail, clip2, intended);
            LiftSources(Query(rc2, tail, clip2, intended), |rc2.results|, Sources(rc.collisionFilter, tail), Sources(rc.collisionFilter, hits));
          }
        }
      }
    }
  }

  /** Results drawn from a smaller set of sources are drawn from a larger one. */
  lemma LiftSources(r: Result<Raycaster>, from: nat, a: set<RaycastInfo>, b: set<RaycastInfo>)
    requires a <= b && AddedFrom(r, from, a)
    ensures AddedFrom(r, from, b)
  {
  }

  /** Every result from index `from` on is in `src`. */
  predicate AddedFrom(r: Result<Raycaster>, from: nat, src: set<RaycastInfo>)
  {
    r.Ok? ==> forall i :: from <= i < |r.value.results| ==> r.value.results[i] in src
  }

  /** Dropping the first hit can only lose sources. */
  lemma SourcesOfTail(mask: bv16, hits: seq<Hit>)
    requires |hits| > 0
    ensures Sources(mask, hits[1..]) <= Sources(mask, hits)
  {
    forall x | x in Sources(mask, hits[1..])
      ensures x in Sources(mask, hits)
    {
      var h :| h in hits[1..] && Accepted(mask, h) && h.userData.Some? && x == InfoOf(h, h.userData.value);
      assert h in hits;
    }
  }

  /** With the default mask 0x0000 every fixture is filtered out, so the result list is empty. */
  lemma {:induction false} DefaultMaskFindsNothing(rc: Raycaster, hits: seq<Hit>, clip: real, intended: bool)
    requires rc.collisionFilter == 0x0000
    ensures Query(rc, hits, clip, intended) == Ok(rc)
    decreases |hits|
  {
    if |hits| > 0 {
      assert !Accepted(rc.collisionFilter, hits[0]);
      DefaultMaskFindsNothing(rc, hits[1..], clip, intended);
    }
  }

  /** The greater of 1 and the collision limit: a query always takes at least one result before it can stop. */
  function Limit(rc: Raycaster): (n: int)
    ensures n >= 1 && n >= rc.maxCollisions
  {
    if rc.maxCollisions < 1 then 1 else rc.maxCollisions
  }

  /** As intended, a query never keeps more results than the limit. */
  lemma {:induction false} QueryWithinLimit(rc: Raycaster, hits: seq<Hit>, clip: real)
    requires |rc.results| < Limit(rc)
    ensures Query(rc, hits, clip, true).Ok? ==> |Query(rc, hits, clip, true).value.results| <= Limit(rc)
    decreases |hits|
  {
    if |hits| > 0 && hits[0].fraction <= clip {
      var s := ReportFixture(rc, hits[0]);
      if s.Ok? && s.value.1 != 0.0 {
        var rc2 := s.value.0;
        QueryWithinLimit(rc2, hits[1..], if s.value.1 < 0.0 then clip else s.value.1);
      }
    } else if |hits| > 0 {
      QueryWithinLimit(rc, hits[1..], clip);
    }
  }

  /** As written, any nonzero limit stops the query at its first accepted hit. */
  lemma {:induction false} AsWrittenKeepsOne(rc: Raycaster, hits: seq<Hit>, clip: real)
    requires rc.maxCollisions != 0 && rc.results == []
    ensures Query(rc, hits, clip, false).Ok? ==> |Query(rc, hits, clip, false).value.results| <= 1
    decreases |hits|
  {
    if |hits| > 0 && hits[0].fraction <= clip {
      var s := ReportFixtureAsWritten(rc, hits[0]);
      if s.Ok? && s.value.1 != 0.0 {
        assert s.value.0 == rc;
        AsWrittenKeepsOne(rc, hits[1..], if s.value.1 < 0.0 then clip else s.value.1);
      }
    } else if |hits| > 0 {
      AsWrittenKeepsOne(rc, hits[1..], clip);
    }
  }

  /**
   * A limit of two with two accepted hits, the second nearer than the
   * first: the query as written stops after one result, the intended one
   * keeps both.
   */
  lemma TwoHitsWithLimitTwo(d1: PhysicsEntityData, d2: PhysicsEntityData, p: Vec2, n: Vec2)
    ensures var rc := NewRaycaster.(maxCollisions := 2);
      var h1 := Hit(0x0001, Some(d1), p, n, 0.5);
      var h2 := Hit(0x0001, Some(d2), p, n, 0.25);
      FireRayCast(rc, [h1, h2], 0x0001, false) == Ok(rc.(collisionFilter := 0x0001, results := [InfoOf(h1, d1)]))
      && FireRayCast(rc, [h1, h2], 0x0001, true) == Ok(rc.(collisionFilter := 0x0001, results := [InfoOf(h1, d1), InfoOf(h2, d2)]))
  {
    var rc := NewRaycaster.(maxCollisions := 2);
    var h1 := Hit(0x0001, Some(d1), p, n, 0.5);
    var h2 := Hit(0x0001, Some(d2), p, n, 0.25);
    var start := rc.(collisionFilter := 0x0001, results := []);
    assert Accepted(0x0001, h1) && Accepted(0x0001, h2);
    assert [h1, h2][1..] == [h2];
    var one := start.(results := [InfoOf(h1, d1)]);
    assert start.results + [InfoOf(h1, d1)] == [InfoOf(h1, d1)];
    assert one.results + [InfoOf(h2, d2)] == [InfoOf(h1, d1), InfoOf(h2, d2)];
    assert ReportFixtureAsWritten(start, h1) == Ok((one, 0.0));
    assert FireRayCast(rc, [h1, h2], 0x0001, false) == Ok(one);
    assert ReportFixture(start, h1) == Ok((one, 0.5));
    assert FireRayCast(rc, [h1, h2], 0x0001, true) == Query(one, [h2], 0.5, true);
    assert ReportFixture(one, h2) == Ok((one.(results := [InfoOf(h1, d1), InfoOf(h2, d2)]), 0.0));
  }
}

=== FILE: model/scenes.dfy ===
/**
 * A scene: the indices it keeps over the entity tree (by name, by ID,
 * drawables, lights, the collision tracker), the registration walk that
 * fills them, path lookup, the insert-once resource locator, which
 * entities the per-frame hooks reach, and the draw list.
 *
 * The entity tree itself is read-only to every operation here; an entity
 * is its ID, and `entityIDMap` (whose values are the entities with those
 * IDs) is the set of registered IDs.
 */
module Scenes {
  import opened Wrappers
  import opened Strings
  import opened Topology
  import opened Entities
  import opened Collision
  import opened DrawOrder

  /** A scene resource: an opaque `void*` handle. */
  type Resource = nat

  datatype Scene = Scene(
    sceneName: string,
    root: Id,
    entities: map<string, Id>,
    ids: set<Id>,
    drawables: map<string, Id>,
    lights: map<string, Id>,
    tracker: Tracker,
    resources: map<string, Resource>,
    resizeObservers: seq<Id>,
    watched: set<Id>,
    registered: seq<Id>,
    ySortEnabled: bool,
    isPaused: bool,
    currentCamera: Option<Id>)

  /**
   * `Scene()`: empty indices, y-sorting on, not paused, no camera, and a
   * root entity named `sceneName + "_root"` while the name is still "".
   * The root is constructed but not registered.
   */
  function NewScene(w: World): (r: (World, Scene))
    ensures r.1.ySortEnabled && !r.1.isPaused && r.1.currentCamera.None?
    ensures r.1.entities == map[] && r.1.ids == {} && r.1.drawables == map[] && r.1.lights == map[]
    ensures r.1.tracker == map[] && r.1.resources == map[] && r.1.registered == []
    ensures r.1.root == w.entityCount && r.1.root in r.0.tree.ents && r.0.tree.ents[r.1.root].name == "_root"
  {
    var (w1, root) := ConstructNamed(w, "" + "_root");
    (w1, Scene("", root, map[], {}, map[], map[], map[], map[], [], {}, [], true, false, None))
  }

  /** `std::map::insert`: adds the pair only when the key is absent. */
  function InsertIfAbsent<K, V>(m: map<K, V>, k: K, v: V): (r: map<K, V>)
    ensures r.Keys == m.Keys + {k}
    ensures forall j :: j in m ==> r[j] == m[j]
    ensures k !in m ==> r[k] == v
  {
    if k in m then m else m[k := v]
  }

  /** Every entity an index points at exists in the tree. */
  predicate Live(sc: Scene, t: Tree)
  {
    (forall n :: n in sc.entities ==> sc.entities[n] in t.links)
    && (forall n :: n in sc.drawables ==> sc.drawables[n] in t.links)
  }

  /** `b` is `a` with registrations added: no existing index entry is replaced or removed. */
  predicate Extends(a: Scene, b: Scene)
  {
    a.ids <= b.ids
    && (forall n :: n in a.entities ==> n in b.entities && b.entities[n] == a.entities[n])
    && (forall n :: n in a.drawables ==> n in b.drawables && b.drawables[n] == a.drawables[n])
    && (forall n :: n in a.lights ==> n in b.lights && b.lights[n] == a.lights[n])
    && (forall k :: k in a.tracker ==> k in b.tracker && b.tracker[k] == a.tracker[k])
    && |a.registered| <= |b.registered| && b.registered[..|a.registered|] == a.registered
    && b.resources == a.resources && b.currentCamera == a.currentCamera
    && b.ySortEnabled == a.ySortEnabled && b.isPaused == a.isPaused
    && b.sceneName == a.sceneName && b.root == a.root
  }

  /** Registration indices only grow, so one extension after another is an extension. */
  lemma ExtendsTransitive(a: Scene, b: Scene, c: Scene)
    requires Extends(a, b) && Extends(b, c)
    ensures Extends(a, c)
  {
    assert c.registered[..|b.registered|][..|a.registered|] == c.registered[..|a.registered|];
  }

  // ---------------------------------------------------------------------
  // Registration

  /**
   * The insertion at the end of `RegisterEntity`: the name and ID indices,
   * then the type routing. Sprites and tilemaps become drawable, lights
   * go to the light index, physical entities to the collision tracker,
   * and only a `CAMERA` (not a `PIXELCAMERA`) is subscribed to window
   * resizes. Every entity is watched for deletion.
   */
  function Insert(sc: Scene, t: Tree, id: Id): (r: Scene)
    requires id in t.ents
    ensures r.ids == sc.ids + {id}
    ensures var name := t.ents[id].name; var kind := t.ents[id].kind;
      && r.entities == InsertIfAbsent(sc.entities, name, id)
      && r.drawables == (if kind == SPRITE || kind == TILEMAP then InsertIfAbsent(sc.drawables, name, id) else sc.drawables)
      && r.lights == (if kind == LIGHT then InsertIfAbsent(sc.lights, name, id) else sc.lights)
      && r.tracker == (if kind == PHYSICAL then AddTrackedEntity(sc.tracker, id, id) else sc.tracker)
      && r.resizeObservers == sc.resizeObservers + (if kind == CAMERA then [id] else [])
    ensures r.watched == sc.watched + {id} && r.registered == sc.registered
    ensures Extends(sc, r)
  {
    var e := t.ents[id];
    sc.(
      entities := InsertIfAbsent(sc.entities, e.name, id),
      ids := sc.ids + {id},
      drawables := if e.kind == SPRITE || e.kind == TILEMAP then InsertIfAbsent(sc.drawables, e.name, id) else sc.drawables,
      lights := if e.kind == LIGHT then InsertIfAbsent(sc.lights, e.name, id) else sc.lights,
      tracker := if e.kind == PHYSICAL then AddTrackedEntity(sc.tracker, id, id) else sc.tracker,
      resizeObservers := sc.resizeObservers + (if e.kind == CAMERA then [id] else []),
      watched := sc.watched + {id})
  }

  /**
   * `RegisterEntity(e)`: false at once when the ID is registered.
   * Otherwise `OnRegister` runs (recorded in `registered`), each child of
   * the child list as it is now is registered, and then, if the ID is
   * still absent, the entity is inserted and the call returns true.
   */
  function RegisterEntity(sc: Scene, t: Tree, id: Id): (r: (Scene, bool))
    requires WellFormed(t) && id in t.links
    ensures id in sc.ids ==> r == (sc, false)
    ensures sc.ids <= r.0.ids && id in r.0.ids
    ensures r.1 ==> id !in sc.ids
    decreases |t.links| + 1 - Height(t.links, id), 1
  {
    if id in sc.ids then (sc, false)
    else
      var s1 := sc.(registered := sc.registered + [id]);
      var s2 := RegisterChildren(s1, t, id, t.links[id].children);
      if id in s2.ids then (s2, false)
      else (Insert(s2, t, id), true)
  }

  /** The loop over the child snapshot; the results of the nested calls are ignored. */
  function RegisterChildren(sc: Scene, t: Tree, parent: Id, cs: seq<Id>): (r: Scene)
    requires WellFormed(t) && parent in t.links
    requires forall i :: 0 <= i < |cs| ==> cs[i] in t.links[parent].children
    ensures sc.ids <= r.ids
    decreases |t.links| + 1 - Height(t.links, parent), 0, |cs|
  {
    if |cs| == 0 then sc
    else
      ChildHeight(t.links, parent, cs[0]);
      RegisterChildren(RegisterEntity(sc, t, cs[0]).0, t, parent, cs[1..])
  }

  /** Registration only adds: no index entry it finds is replaced or removed. */
  lemma {:induction false} RegisterExtends(sc: Scene, t: Tree, id: Id)
    requires WellFormed(t) && id in t.links
    ensures Extends(sc, RegisterEntity(sc, t, id).0)
    decreases |t.links| + 1 - Height(t.links, id), 1
  {
    if id !in sc.ids {
      var s1 := sc.(registered := sc.registered + [id]);
      RegisterChildrenExtends(s1, t, id, t.links[id].children);
      var s2 := RegisterChildren(s1, t, id, t.links[id].children);
      ExtendsTransitive(sc, s1, s2);
      if id !in s2.ids {
        ExtendsTransitive(sc, s2, Insert(s2, t, id));
      }
    }
  }

  /** The list form of `RegisterExtends`. */
  lemma {:induction false} RegisterChildrenExtends(sc: Scene, t: Tree, parent: Id, cs: seq<Id>)
    requires WellFormed(t) && parent in t.links
    requires forall i :: 0 <= i < |cs| ==> cs[i] in t.links[parent].children
    ensures Extends(sc, RegisterChildren(sc, t, parent, cs))
    decreases |t.links| + 1 - Height(t.links, parent), 0, |cs|
  {
    if |cs| > 0 {
      ChildHeight(t.links, parent, cs[0]);
      var s1 := RegisterEntity(sc, t, cs[0]).0;
      RegisterExtends(sc, t, cs[0]);
      RegisterChildrenExtends(s1, t, parent, cs[1..]);
      ExtendsTransitive(sc, s1, RegisterChildren(s1, t, parent, cs[1..]));
    }
  }

  /** The entities of the subtree rooted at `id`. */
  function Subtree(l: Links, id: Id): (r: set<Id>)
    requires Acyclic(l)
    ensures forall k :: k in r <==> k in l && AncestorOrSelf(l, id, k)
  {
    set k | k in l && AncestorOrSelf(l, id, k)
  }

  /** The entities of the subtrees rooted at `cs`. */
  function SubtreesOf(l: Links, cs: seq<Id>): (r: set<Id>)
    requires Acyclic(l)
    ensures forall k :: k in r <==> k in l && UnderAny(l, cs, k)
  {
    set k | k in l && UnderAny(l, cs, k)
  }

  /** Nothing in the subtree of `id` is registered yet. */
  predicate Unregistered(sc: Scene, t: Tree, id: Id)
    requires Shaped(t)
  {
    forall k :: k in t.links && AncestorOrSelf(t.links, id, k) ==> k !in sc.ids
  }

  /** Nothing in the subtrees of `cs` is registered yet. */
  predicate SubtreesUnregistered(sc: Scene, t: Tree, cs: seq<Id>)
    requires Shaped(t)
  {
    forall k :: k in t.links && UnderAny(t.links, cs, k) ==> k !in sc.ids
  }

  /** One step of `RegisterEntity` on an entity that is not registered before or after its children. */
  lemma RegisterEntityUnfold(sc: Scene, t: Tree, id: Id)
    requires WellFormed(t) && id in t.links && id !in sc.ids
    requires id !in RegisterChildren(sc.(registered := sc.registered + [id]), t, id, t.links[id].children).ids
    ensures RegisterEntity(sc, t, id)
         == (Insert(RegisterChildren(sc.(registered := sc.registered + [id]), t, id, t.links[id].children), t, id), true)
  {
  }

  /** One step of the child loop. */
  lemma RegisterChildrenUnfold(sc: Scene, t: Tree, parent: Id, cs: seq<Id>)
    requires WellFormed(t) && parent in t.links && |cs| > 0
    requires forall i :: 0 <= i < |cs| ==> cs[i] in t.links[parent].children
    ensures cs[0] in t.links
    ensures RegisterChildren(sc, t, parent, cs) == RegisterChildren(RegisterEntity(sc, t, cs[0]).0, t, parent, cs[1..])
  {
    ChildHeight(t.links, parent, cs[0]);
  }

  /** A subtree is its root and the subtrees of the root's children. */
  lemma SubtreeSplit(l: Links, id: Id)
    requires Valid(l) && id in l
    ensures Subtree(l, id) == {id} + SubtreesOf(l, l[id].children)
    ensures id !in SubtreesOf(l, l[id].children)
  {
    var cs := l[id].children;
    if UnderAny(l, cs, id) {
      var i :| 0 <= i < |cs| && AncestorOrSelf(l, cs[i], id);
      ChildHeight(l, id, cs[i]);
      AncestorHeight(l, cs[i], id);
    }
    forall k | k in l
      ensures AncestorOrSelf(l, id, k) <==> k == id || UnderAny(l, cs, k)
    {
      if k != id && AncestorOrSelf(l, id, k) {
        DescendantBelowChild(l, id, k);
      }
      if UnderAny(l, cs, k) {
        var i :| 0 <= i < |cs| && AncestorOrSelf(l, cs[i], k);
        ChildSubtreeBelow(l, id, cs[i], k);
      }
    }
  }

  /** The subtrees of a list are those of its head and those of its tail. */
  lemma SubtreesOfCons(l: Links, cs: seq<Id>)
    requires Acyclic(l) && |cs| > 0
    ensures SubtreesOf(l, cs) == Subtree(l, cs[0]) + SubtreesOf(l, cs[1..])
  {
    forall k | k in l
      ensures UnderAny(l, cs, k) <==> AncestorOrSelf(l, cs[0], k) || UnderAny(l, cs[1..], k)
    {
      if UnderAny(l, cs, k) && !AncestorOrSelf(l, cs[0], k) {
        var i :| 0 <= i < |cs| && AncestorOrSelf(l, cs[i], k);
        assert cs[1..][i - 1] == cs[i];
      }
      if UnderAny(l, cs[1..], k) {
        var i :| 0 <= i < |cs| - 1 && AncestorOrSelf(l, cs[1..][i], k);
        assert cs[i + 1] == cs[1..][i];
      }
    }
  }

  /** The subtrees of later siblings are disjoint from that of an earlier one. */
  lemma LaterSiblingsDisjoint(l: Links, parent: Id, cs: seq<Id>, k: Id)
    requires Valid(l) && parent in l && |cs| > 0 && |cs| <= |l[parent].children|
    requires cs == l[parent].children[|l[parent].children| - |cs|..]
    requires k in l && UnderAny(l, cs[1..], k)
    ensures !AncestorOrSelf(l, cs[0], k)
  {
    var all := l[parent].children;
    var m := |all| - |cs|;
    var rest := cs[1..];
    var i :| 0 <= i < |rest| && AncestorOrSelf(l, rest[i], k);
    assert rest[i] == all[m + 1 + i] by {
      assert rest[i] == cs[1 + i];
    }
    assert cs[0] == all[m];
    SiblingSubtreesDisjoint(l, parent, m, m + 1 + i, k);
  }

  /**
   * Registering an entity none of whose subtree is registered yet
   * succeeds, registers exactly its subtree, and calls `OnRegister` on
   * the subtree in pre-order: parent first, then each child's subtree in
   * child-list order.
   */
  lemma {:induction false} RegisterSubtree(sc: Scene, t: Tree, id: Id)
    requires WellFormed(t) && id in t.links && Unregistered(sc, t, id)
    ensures RegisterEntity(sc, t, id).1
    ensures RegisterEntity(sc, t, id).0.ids == sc.ids + Subtree(t.links, id)
    ensures RegisterEntity(sc, t, id).0.registered == sc.registered + PreOrder(t.links, id)
    decreases |t.links| + 1 - Height(t.links, id), 1
  {
    var cs := t.links[id].children;
    ChildrenUnregistered(sc, t, id);
    assert cs == cs[|cs| - |cs|..];
    RegisterChildrenSubtrees(sc.(registered := sc.registered + [id]), t, id, cs);
    SubtreeSplit(t.links, id);
    SubtreeStep(sc, t, id, SubtreesOf(t.links, cs), PreOrderAll(t.links, id, cs));
  }

  /** The list form of `RegisterSubtree`, for a suffix of a child list. */
  lemma {:induction false} RegisterChildrenSubtrees(sc: Scene, t: Tree, parent: Id, cs: seq<Id>)
    requires WellFormed(t) && parent in t.links
    requires |cs| <= |t.links[parent].children|
    requires cs == t.links[parent].children[|t.links[parent].children| - |cs|..]
    requires SubtreesUnregistered(sc, t, cs)
    ensures forall i :: 0 <= i < |cs| ==> cs[i] in t.links[parent].children
    ensures RegisterChildren(sc, t, parent, cs).ids == sc.ids + SubtreesOf(t.links, cs)
    ensures RegisterChildren(sc, t, parent, cs).registered == sc.registered + PreOrderAll(t.links, parent, cs)
    decreases |t.links| + 1 - Height(t.links, parent), 0, |cs|
  {
    SuffixInChildren(t.links, parent, cs);
    if |cs| > 0 {
      ChildHeight(t.links, parent, cs[0]);
      HeadUnregistered(sc, t, cs);
      RegisterSubtree(sc, t, cs[0]);
      var s1 := RegisterEntity(sc, t, cs[0]).0;
      TailUnregistered(sc, s1, t, parent, cs);
      RegisterChildrenSubtrees(s1, t, parent, cs[1..]);
      ChildrenStep(sc, t, parent, cs, Subtree(t.links, cs[0]), SubtreesOf(t.links, cs[1..]),
                   PreOrder(t.links, cs[0]), PreOrderAll(t.links, parent, cs[1..]));
      SubtreesOfCons(t.links, cs);
    }
  }

  /** A suffix of a child list is a child list, and so is its tail. */
  lemma SuffixInChildren(l: Links, parent: Id, cs: seq<Id>)
    requires parent in l && |cs| <= |l[parent].children|
    requires cs == l[parent].children[|l[parent].children| - |cs|..]
    ensures forall i :: 0 <= i < |cs| ==> cs[i] in l[parent].children
    ensures |cs| > 0 ==> cs[1..] == l[parent].children[|l[parent].children| - |cs[1..]|..]
  {
    var all := l[parent].children;
    assert forall i :: 0 <= i < |cs| ==> cs[i] == all[|all| - |cs| + i];
  }

  /** The children of an unregistered subtree's root have unregistered subtrees. */
  lemma ChildrenUnregistered(sc: Scene, t: Tree, id: Id)
    requires WellFormed(t) && id in t.links && Unregistered(sc, t, id)
    ensures SubtreesUnregistered(sc, t, t.links[id].children)
  {
    var l := t.links;
    var cs := l[id].children;
    forall k | k in l && UnderAny(l, cs, k)
      ensures k !in sc.ids
    {
      var i :| 0 <= i < |cs| && AncestorOrSelf(l, cs[i], k);
      ChildSubtreeBelow(l, id, cs[i], k);
    }
  }

  /**
   * The step of `RegisterSubtree`, over the children's registered set
   * `below` and call order `order`.
   */
  lemma SubtreeStep(sc: Scene, t: Tree, id: Id, below: set<Id>, order: seq<Id>)
    requires WellFormed(t) && id in t.links && id !in sc.ids && id !in below
    requires var s2 := RegisterChildren(sc.(registered := sc.registered + [id]), t, id, t.links[id].children);
      s2.ids == sc.ids + below && s2.registered == sc.registered + [id] + order
    ensures RegisterEntity(sc, t, id).1
    ensures RegisterEntity(sc, t, id).0.ids == sc.ids + ({id} + below)
    ensures RegisterEntity(sc, t, id).0.registered == sc.registered + ([id] + order)
  {
    RegisterEntityUnfold(sc, t, id);
    AppendAssoc(sc.registered, [id], order);
  }

  /**
   * The step of `RegisterChildrenSubtrees`, over the head's and the tail's
   * registered sets and call orders.
   */
  lemma ChildrenStep(sc: Scene, t: Tree, parent: Id, cs: seq<Id>, a: set<Id>, b: set<Id>, p: seq<Id>, q: seq<Id>)
    requires WellFormed(t) && parent in t.links && |cs| > 0
    requires forall i :: 0 <= i < |cs| ==> cs[i] in t.links[parent].children
    requires cs[0] in t.links
    requires var s1 := RegisterEntity(sc, t, cs[0]).0;
      s1.ids == sc.ids + a && s1.registered == sc.registered + p
      && RegisterChildren(s1, t, parent, cs[1..]).ids == s1.ids + b
      && RegisterChildren(s1, t, parent, cs[1..]).registered == s1.registered + q
    ensures RegisterChildren(sc, t, parent, cs).ids == sc.ids + (a + b)
    ensures RegisterChildren(sc, t, parent, cs).registered == sc.registered + (p + q)
  {
    RegisterChildrenUnfold(sc, t, parent, cs);
    var s1 := RegisterEntity(sc, t, cs[0]).0;
    var r := RegisterChildren(s1, t, parent, cs[1..]);
    assert RegisterChildren(sc, t, parent, cs) == r;
    AppendAssoc(sc.registered, p, q);
  }

  lemma AppendAssoc<T>(a: seq<T>, b: seq<T>, c: seq<T>)
    ensures a + b + c == a + (b + c)
  {
  }

  /** An unregistered list of subtrees has an unregistered first subtree. */
  lemma HeadUnregistered(sc: Scene, t: Tree, cs: seq<Id>)
    requires Shaped(t) && |cs| > 0 && cs[0] in t.links
    requires SubtreesUnregistered(sc, t, cs)
    ensures Unregistered(sc, t, cs[0])
  {
    forall k | k in t.links && AncestorOrSelf(t.links, cs[0], k)
      ensures k !in sc.ids
    {
      assert UnderAny(t.links, cs, k);
    }
  }

  /** After the first subtree is registered, the later siblings' subtrees are still unregistered. */
  lemma TailUnregistered(sc: Scene, s1: Scene, t: Tree, parent: Id, cs: seq<Id>)
    requires WellFormed(t) && parent in t.links && 0 < |cs| <= |t.links[parent].children|
    requires cs == t.links[parent].children[|t.links[parent].children| - |cs|..]
    requires SubtreesUnregistered(sc, t, cs)
    requires s1.ids == sc.ids + Subtree(t.links, cs[0])
    ensures SubtreesUnregistered(s1, t, cs[1..])
  {
    forall k | k in t.links && UnderAny(t.links, cs[1..], k)
      ensures k !in s1.ids
    {
      LaterSiblingsDisjoint(t.links, parent, cs, k);
      UnderAnySplit(t.links, cs, k);
      assert k !in sc.ids;
      assert k !in Subtree(t.links, cs[0]);
    }
  }

  /**
   * `map::insert` does not overwrite: when a newly registered entity's
   * name is already indexed, the name still finds the earlier entity
   * while the ID index gains the new one.
   */
  lemma NameCollisionKeepsEarlier(sc: Scene, t: Tree, id: Id)
    requires WellFormed(t) && id in t.links && id !in sc.ids && NamesRegistered(sc)
    requires t.ents[id].name in sc.entities
    ensures var r := RegisterEntity(sc, t, id).0;
      FindEntityByName(r, t.ents[id].name) == FindEntityByName(sc, t.ents[id].name)
      && FindEntityByName(r, t.ents[id].name) != Some(id)
      && GetEntityById(r, id) == Some(id)
  {
    RegisterExtends(sc, t, id);
  }

  /** Every entity the name index holds is registered by ID. */
  predicate NamesRegistered(sc: Scene)
  {
    forall n :: n in sc.entities ==> sc.entities[n] in sc.ids
  }

  /**
   * Children are inserted before their parent, so when a parent and its
   * only child share a name the name index ends up holding the child.
   */
  lemma ChildTakesSharedName(sc: Scene, t: Tree, p: Id, c: Id)
    requires WellFormed(t) && p in t.links && t.links[p].children == [c]
    requires c in t.links && t.links[c].children == []
    requires t.ents[c].name == t.ents[p].name && t.ents[p].name !in sc.entities
    requires p !in sc.ids && c !in sc.ids
    ensures FindEntityByName(RegisterEntity(sc, t, p).0, t.ents[p].name) == Some(c)
  {
    var name := t.ents[p].name;
    var s1 := sc.(registered := sc.registered + [p]);
    RegisterChildrenUnfold(s1, t, p, [c]);
    var s2 := s1.(registered := s1.registered + [c]);
    assert RegisterChildren(s2, t, c, []) == s2;
    RegisterEntityUnfold(s1, t, c);
    var r1 := Insert(s2, t, c);
    assert r1.entities[name] == c;
    assert RegisterChildren(r1, t, p, []) == r1;
    RegisterEntityUnfold(sc, t, p);
  }

  // ---------------------------------------------------------------------
  // Removal and deletion

  /**
   * `UnRegisterEntity(name)`: false with no change when the name is not
   * indexed; otherwise the name leaves the drawable and name indices and
   * the entity it named leaves the ID index. Lights, the tracker and the
   * entity's children are untouched.
   */
  function UnRegisterEntity(sc: Scene, name: string): (r: (Scene, bool))
    ensures r.1 <==> name in sc.entities
    ensures !r.1 ==> r.0 == sc
    ensures r.1 ==> r.0.entities == sc.entities - {name} && r.0.drawables == sc.drawables - {name}
                    && r.0.ids == sc.ids - {sc.entities[name]}
    ensures r.0.lights == sc.lights && r.0.tracker == sc.tracker && r.0.resources == sc.resources
    ensures r.0.registered == sc.registered && r.0.watched == sc.watched
  {
    if name in sc.entities then
      var id := sc.entities[name];
      (sc.(drawables := sc.drawables - {name}, ids := sc.ids - {id}, entities := sc.entities - {name}), true)
    else (sc, false)
  }

  /** Unregistering a parent leaves its registered children registered and findable by name. */
  lemma UnRegisterDoesNotCascade(sc: Scene, name: string, child: string)
    requires name in sc.entities && child in sc.entities && child != name
    requires sc.entities[child] != sc.entities[name]
    ensures var r := UnRegisterEntity(sc, name).0;
      FindEntityByName(r, child) == Some(sc.entities[child])
      && (sc.entities[child] in sc.ids ==> sc.entities[child] in r.ids)
      && (child in sc.drawables ==> child in r.drawables)
  {
  }

  /** The two event names the scene reacts to. */
  const EntityDeletedEvent: string := "entityDeleted"
  const WindowResizedEvent: string := "windowResized"

  /**
   * `OnNotify(signaler, eventName)`: the name is compared with the two
   * events the scene knows. A deleted entity is unregistered by its name;
   * a window resize is passed on as "onWindowResized" to the subscribed
   * cameras, returned here as the list of receivers; any other name is
   * ignored. Only the deletion branch reads the signaler as an entity.
   */
  function OnNotify(sc: Scene, t: Tree, entity: Id, eventName: string): (r: (Scene, seq<Id>))
    requires eventName == EntityDeletedEvent ==> entity in t.ents
    ensures eventName == EntityDeletedEvent ==> r == (UnRegisterEntity(sc, t.ents[entity].name).0, [])
    ensures eventName == WindowResizedEvent ==> r == (sc, sc.resizeObservers)
    ensures eventName != EntityDeletedEvent && eventName != WindowResizedEvent ==> r == (sc, [])
  {
    if eventName == EntityDeletedEvent then (UnRegisterEntity(sc, t.ents[entity].name).0, [])
    else if eventName == WindowResizedEvent then (sc, sc.resizeObservers)
    else (sc, [])
  }

  /**
   * Deletion goes by name: deleting an entity whose name is indexed for
   * another entity unregisters that other, still living, entity and
   * leaves the deleted one in the ID index.
   */
  lemma DeleteUnregistersNamesake(sc: Scene, t: Tree, gone: Id, other: Id)
    requires gone in t.ents && gone in sc.ids
    requires t.ents[gone].name in sc.entities && sc.entities[t.ents[gone].name] == other && other != gone
    ensures var r := OnNotify(sc, t, gone, EntityDeletedEvent).0;
      GetEntityById(r, gone) == Some(gone) && GetEntityById(r, other) == None
      && FindEntityByName(r, t.ents[gone].name) == None
  {
  }

  // ---------------------------------------------------------------------
  // Lookup

  /** `GetEntityById(id)`: the registered entity with that ID, or null. */
  function GetEntityById(sc: Scene, entityId: int): (r: Option<Id>)
    ensures r.Some? <==> entityId >= 0 && entityId as nat in sc.ids
    ensures r.Some? ==> r.value == entityId
  {
    if entityId >= 0 && entityId as nat in sc.ids then Some(entityId as nat) else None
  }

  /** `FindEntityByName(name)`: the name index. */
  function FindEntityByName(sc: Scene, name: string): (r: Option<Id>)
    ensures r.Some? <==> name in sc.entities
    ensures r.Some? ==> r.value == sc.entities[name]
  {
    if name in sc.entities then Some(sc.entities[name]) else None
  }

  /** First-match `GetChild` down a list of names; null at the first miss. */
  function Walk(t: Tree, current: Id, names: seq<string>): (r: Option<Id>)
    requires WellFormed(t) && current in t.links
    ensures r.Some? ==> r.value in t.links
    ensures r.Some? && |names| > 0 ==> t.ents[r.value].name == names[|names| - 1]
    ensures |names| == 0 ==> r == Some(current)
    decreases |names|
  {
    if |names| == 0 then Some(current)
    else match GetChild(t, current, names[0])
      case None => None
      case Some(c) => Walk(t, c, names[1..])
  }

  const EmptyPathReason: string := "split[0] read from an empty vector"

  /**
   * `GetEntity(path)`: split on '/' dropping empty segments, look the
   * first segment up in the name index, then follow first-match
   * `GetChild` for each later segment. A path of nothing but '/' leaves
   * the split empty, and reading its first element is undefined.
   */
  function GetEntity(sc: Scene, t: Tree, path: string): (r: Result<Option<Id>>)
    requires WellFormed(t) && Live(sc, t)
    ensures r.Crash? <==> forall i :: 0 <= i < |path| ==> path[i] == '/'
    ensures !r.Throw?
    ensures r.Ok? ==> |SplitPath(path)| > 0
    ensures r.Ok? && r.value.Some? ==> r.value.value in t.links
    ensures r.Ok? && r.value.Some? && |SplitPath(path)| > 1 ==>
      t.ents[r.value.value].name == SplitPath(path)[|SplitPath(path)| - 1]
    ensures r.Ok? && SplitPath(path)[0] !in sc.entities ==> r == Ok(None)
  {
    var split := SplitPath(path);
    if |split| == 0 then
      if exists i :: 0 <= i < |path| && path[i] != '/' then
        SplitFromNonEmpty(path, "", []);
        assert false;
        Crash(EmptyPathReason)
      else Crash(EmptyPathReason)
    else if split[0] !in sc.entities then
      SlashesSplitEmpty(path);
      Ok(None)
    else
      SlashesSplitEmpty(path);
      var top := sc.entities[split[0]];
      var found := Walk(t, top, split[1..]);
      assert found.Some? && |split| > 1 ==> t.ents[found.value].name == split[1..][|split| - 2];
      Ok(found)
  }

  /** A path of nothing but '/' splits into nothing. */
  lemma SlashesSplitEmpty(path: string)
    ensures (forall i :: 0 <= i < |path| ==> path[i] == '/') ==> SplitPath(path) == []
  {
    if forall i :: 0 <= i < |path| ==> path[i] == '/' {
      SlashesFrom(path, []);
    }
  }

  lemma {:induction false} SlashesFrom(path: string, acc: seq<string>)
    requires forall i :: 0 <= i < |acc| ==> IsSegment(acc[i])
    requires forall i :: 0 <= i < |path| ==> path[i] == '/'
    ensures SplitFrom(path, "", acc) == acc
    decreases |path|
  {
    if |path| > 0 {
      SlashesFrom(path[1..], acc);
    }
  }

  /** Each entity of the chain is the first child of the one before with its name. */
  predicate FirstOfItsName(t: Tree, chain: seq<Id>)
    requires WellFormed(t)
  {
    (forall i :: 0 <= i < |chain| ==> chain[i] in t.links)
    && forall i :: 1 <= i < |chain| ==> GetChild(t, chain[i - 1], t.ents[chain[i]].name) == Some(chain[i])
  }

  /** Walking the names of such a chain from its head ends at its last entity. */
  lemma {:induction false} WalkChain(t: Tree, chain: seq<Id>)
    requires WellFormed(t) && |chain| >= 1 && FirstOfItsName(t, chain)
    ensures Walk(t, chain[0], NamesOf(t, chain)[1..]) == Some(chain[|chain| - 1])
    decreases |chain|
  {
    if |chain| > 1 {
      var names := NamesOf(t, chain);
      var tail := chain[1..];
      assert FirstOfItsName(t, tail) by {
        forall i | 1 <= i < |tail|
          ensures GetChild(t, tail[i - 1], t.ents[tail[i]].name) == Some(tail[i])
        {
          assert tail[i - 1] == chain[i] && tail[i] == chain[i + 1];
        }
      }
      WalkChain(t, tail);
      assert NamesOf(t, tail)[1..] == names[1..][1..];
      assert names[1..][0] == t.ents[chain[1]].name;
    }
  }

  /**
   * Path lookup finds an entity by its own path, when its topmost ancestor
   * holds its own name in the name index, every name on the way is a
   * path segment, and each entity on the way is the first child of its
   * parent with its name.
   */
  lemma GetEntityFindsPath(sc: Scene, t: Tree, id: Id)
    requires WellFormed(t) && Live(sc, t) && id in t.links
    requires var lin := Lineage(t.links, id);
      (forall i :: 0 <= i < |lin| ==> IsSegment(t.ents[lin[i]].name))
      && t.ents[lin[0]].name in sc.entities && sc.entities[t.ents[lin[0]].name] == lin[0]
      && FirstOfItsName(t, lin)
    ensures GetEntity(sc, t, Join(NamesOf(t, Lineage(t.links, id)))) == Ok(Some(id))
  {
    var lin := Lineage(t.links, id);
    var names := NamesOf(t, lin);
    SplitJoin(names);
    WalkChain(t, lin);
    var path := Join(names);
    assert SplitPath(path) == names;
    assert names[0] in sc.entities;
    assert exists i :: 0 <= i < |path| && path[i] != '/' by {
      if forall i :: 0 <= i < |path| ==> path[i] == '/' {
        SlashesSplitEmpty(path);
      }
    }
  }

  // ---------------------------------------------------------------------
  // Resources

  const ResourceExists: string := "Resource already exists in the scene!"

  /**
   * `RegisterResource(name, resource)` as written: insert when the name is
   * absent; otherwise assert that the name is present, which it is, so
   * the assert never fires and the second handle is dropped silently.
   */
  function RegisterResourceAsWritten(sc: Scene, name: string, res: Resource): (r: Result<Scene>)
    ensures r.Ok?
    ensures r.value.resources == InsertIfAbsent(sc.resources, name, res)
  {
    if name !in sc.resources then Ok(sc.(resources := sc.resources[name := res]))
    else if !(name in sc.resources) then Crash(ResourceExists)
    else Ok(sc)
  }

  /** Re-registering a name is never reported: the call succeeds and the first handle stays. */
  lemma ReRegisterIsSilent(sc: Scene, name: string, a: Resource, b: Resource)
    ensures var s1 := RegisterResourceAsWritten(sc, name, a).value;
      RegisterResourceAsWritten(s1, name, b) == Ok(s1)
      && GetResource(s1, name) == (if name in sc.resources then Some(sc.resources[name]) else Some(a))
  {
  }

  /** The evidently intended `RegisterResource`: re-registering a name fails the debug assert. */
  function RegisterResource(sc: Scene, name: string, res: Resource): (r: Result<Scene>)
    ensures r.Ok? <==> name !in sc.resources
    ensures r.Ok? ==> r.value == sc.(resources := sc.resources[name := res])
    ensures !r.Ok? ==> r == Crash(ResourceExists)
  {
    if name !in sc.resources then Ok(sc.(resources := sc.resources[name := res]))
    else Crash(ResourceExists)
  }

  /** A registered resource is found under its name, and a second registration of it is flagged. */
  lemma RegisterThenGet(sc: Scene, name: string, a: Resource, b: Resource)
    requires name !in sc.resources
    ensures RegisterResource(sc, name, a).Ok?
    ensures GetResource(RegisterResource(sc, name, a).value, name) == Some(a)
    ensures HasResource(RegisterResource(sc, name, a).value, name)
    ensures RegisterResource(RegisterResource(sc, name, a).value, name, b).Crash?
  {
  }

  predicate HasResource(sc: Scene, name: string)
  {
    name in sc.resources
  }

  /** `GetResource(name)`: the handle, or null when the name is unknown. */
  function GetResource(sc: Scene, name: string): (r: Option<Resource>)
    ensures r.Some? <==> HasResource(sc, name)
    ensures r.Some? ==> r.value == sc.resources[name]
  {
    if HasResource(sc, name) then Some(sc.resources[name]) else None
  }

  // ---------------------------------------------------------------------
  // Camera

  /** `SetCurrentCamera(cam)`: try to register the camera (with its subtree), then make it current. */
  function SetCurrentCamera(sc: Scene, t: Tree, cam: Id): (r: Scene)
    requires WellFormed(t) && cam in t.links
    ensures r.currentCamera == Some(cam) && cam in r.ids
    ensures sc.ids <= r.ids
    ensures cam in sc.ids ==> r == sc.(currentCamera := Some(cam))
  {
    RegisterEntity(sc, t, cam).0.(currentCamera := Some(cam))
  }

  // ---------------------------------------------------------------------
  // Per-frame hooks

  /** The entities of the name index in key order: the iteration order of `entities`. */
  ghost function ByName(sc: Scene): (r: seq<Id>)
    ensures |r| == |sc.entities|
    ensures forall x :: x in r <==> x in sc.entities.Values
  {
    var keys := SortedKeys(sc.entities.Keys);
    assert ListsAll(keys, sc.entities.Keys);
    ValuesAt(sc.entities, keys)
  }

  /** The values of `m` under `keys`, in the order of `keys`. */
  ghost function ValuesAt(m: map<string, Id>, keys: seq<string>): (r: seq<Id>)
    requires ListsAll(keys, m.Keys)
    ensures |r| == |keys|
    ensures forall x :: x in r <==> x in m.Values
  {
    var r := seq(|keys|, i requires 0 <= i < |keys| => m[keys[i]]);
    assert forall x :: x in m.Values ==> x in r by {
      forall x | x in m.Values
        ensures x in r
      {
        var n :| n in m && m[n] == x;
        var i :| 0 <= i < |keys| && keys[i] == n;
        assert r[i] == x;
      }
    }
    r
  }

  /** `Update(dt)` reaches nobody while paused, otherwise the name index in key order. */
  ghost function UpdateTargets(sc: Scene): seq<Id>
  {
    if sc.isPaused then [] else ByName(sc)
  }

  /** `LateUpdate(dt)` ignores the pause flag. */
  ghost function LateUpdateTargets(sc: Scene): seq<Id>
  {
    ByName(sc)
  }

  /** `FixedUpdate(dt)` ignores the pause flag too. */
  ghost function FixedUpdateTargets(sc: Scene): seq<Id>
  {
    ByName(sc)
  }

  /**
   * The hooks reach an entity only through the name index: a registered
   * entity whose name went to another entity gets no `Update`, and a
   * paused scene still runs `LateUpdate` and `FixedUpdate`.
   */
  lemma HooksFollowNameIndex(sc: Scene, id: Id)
    ensures id !in sc.entities.Values ==> id !in UpdateTargets(sc) && id !in FixedUpdateTargets(sc)
    ensures id in sc.entities.Values ==> id in LateUpdateTargets(sc) && id in FixedUpdateTargets(sc)
    ensures id in sc.entities.Values ==> (id in UpdateTargets(sc) <==> !sc.isPaused)
  {
  }

  // ---------------------------------------------------------------------
  // Drawing

  /** The comparator key of an entity: summed draw layer, then the LOCAL y position. */
  function KeyOf(t: Tree, id: Id): (k: DrawKey)
    requires Shaped(t)
    ensures id in t.links ==> k.layer == GetDrawLayer(t, id) && k.y == t.ents[id].transform.position.y
  {
    if id in t.links then DrawKey(GetDrawLayer(t, id), t.ents[id].transform.position.y) else DrawKey(0, 0.0)
  }

  /**
   * The loop of `Draw` over drawable entries: an invisible entity is
   * skipped; a visible non-tilemap is kept when on screen; a visible
   * tilemap is replaced by all of its layers, on screen or not.
   */
  function Collect(sc: Scene, t: Tree, names: seq<string>, onScreen: Id -> bool, layersOf: Id -> seq<Id>): (r: seq<Id>)
    requires Shaped(t) && Live(sc, t)
    requires forall i :: 0 <= i < |names| ==> names[i] in sc.drawables
  {
    if |names| == 0 then []
    else
      var e := sc.drawables[names[0]];
      var here :=
        if !t.ents[e].visible then []
        else if onScreen(e) && t.ents[e].kind != TILEMAP then [e]
        else if t.ents[e].kind == TILEMAP then layersOf(e)
        else [];
      here + Collect(sc, t, names[1..], onScreen, layersOf)
  }

  /** An entity is on the collected list exactly when one of the listed drawables contributes it. */
  lemma {:induction false} CollectMembers(sc: Scene, t: Tree, names: seq<string>, onScreen: Id -> bool,
                                          layersOf: Id -> seq<Id>, x: Id)
    requires Shaped(t) && Live(sc, t)
    requires forall i :: 0 <= i < |names| ==> names[i] in sc.drawables
    ensures x in Collect(sc, t, names, onScreen, layersOf) <==>
      exists i :: 0 <= i < |names| && Contributes(sc, t, sc.drawables[names[i]], onScreen, layersOf, x)
    decreases |names|
  {
    if |names| > 0 {
      CollectMembers(sc, t, names[1..], onScreen, layersOf, x);
      if exists i :: 0 <= i < |names| && Contributes(sc, t, sc.drawables[names[i]], onScreen, layersOf, x) {
        var i :| 0 <= i < |names| && Contributes(sc, t, sc.drawables[names[i]], onScreen, layersOf, x);
        if i > 0 {
          assert names[1..][i - 1] == names[i];
        }
      }
    }
  }

  /** Drawable `e` puts `x` on the draw list. */
  predicate Contributes(sc: Scene, t: Tree, e: Id, onScreen: Id -> bool, layersOf: Id -> seq<Id>, x: Id)
    requires Shaped(t) && e in t.links
  {
    t.ents[e].visible
    && ((t.ents[e].kind != TILEMAP && onScreen(e) && x == e)
        || (t.ents[e].kind == TILEMAP && x in layersOf(e)))
  }

  const NoCameraReason: string := "Draw reads the zoom of a null current camera"

  /**
   * The draw list of `Draw(dt)`: the drawables in key order through the
   * filter, then sorted by the comparator `ySortEnabled` selects. The
   * current camera is read first, so drawing without one is undefined.
   */
  ghost function DrawList(sc: Scene, t: Tree, onScreen: Id -> bool, layersOf: Id -> seq<Id>): (r: Result<seq<Id>>)
    requires Shaped(t) && Live(sc, t)
    ensures sc.currentCamera.None? <==> r.Crash?
    ensures !r.Throw?
    ensures r.Ok? ==> SortedBy(sc.ySortEnabled, (x: Id) => KeyOf(t, x), r.value)
  {
    if sc.currentCamera.None? then Crash(NoCameraReason)
    else
      var found := Collect(sc, t, SortedKeys(sc.drawables.Keys), onScreen, layersOf);
      Ok(Sort(sc.ySortEnabled, (x: Id) => KeyOf(t, x), found))
  }

  /**
   * With a camera, an entity is drawn exactly when some drawable
   * contributes it: a visible on-screen non-tilemap itself, or a layer of
   * a visible tilemap.
   */
  lemma DrawListMembers(sc: Scene, t: Tree, onScreen: Id -> bool, layersOf: Id -> seq<Id>, x: Id)
    requires Shaped(t) && Live(sc, t) && sc.currentCamera.Some?
    ensures DrawList(sc, t, onScreen, layersOf).Ok?
    ensures x in DrawList(sc, t, onScreen, layersOf).value <==>
      exists n :: n in sc.drawables && Contributes(sc, t, sc.drawables[n], onScreen, layersOf, x)
  {
    var found := Collect(sc, t, SortedKeys(sc.drawables.Keys), onScreen, layersOf);
    SortMembers(sc.ySortEnabled, (x: Id) => KeyOf(t, x), found, x);
    CollectAllMembers(sc, t, onScreen, layersOf, x);
  }

  /** Over all drawables, in key order, an entity is collected exactly when some drawable contributes it. */
  lemma CollectAllMembers(sc: Scene, t: Tree, onScreen: Id -> bool, layersOf: Id -> seq<Id>, x: Id)
    requires Shaped(t) && Live(sc, t)
    ensures x in Collect(sc, t, SortedKeys(sc.drawables.Keys), onScreen, layersOf) <==>
      exists n :: n in sc.drawables && Contributes(sc, t, sc.drawables[n], onScreen, layersOf, x)
  {
    var names := SortedKeys(sc.drawables.Keys);
    assert ListsAll(names, sc.drawables.Keys);
    CollectListedMembers(sc, t, names, onScreen, layersOf, x);
  }

  /** `names` lists exactly the members of `keys`. */
  predicate ListsAll(names: seq<string>, keys: set<string>)
  {
    && (forall i :: 0 <= i < |names| ==> names[i] in keys)
    && (forall k :: k in keys ==> k in names)
  }

  /** Over a list of all drawables, an entity is collected exactly when some drawable contributes it. */
  lemma CollectListedMembers(sc: Scene, t: Tree, names: seq<string>, onScreen: Id -> bool, layersOf: Id -> seq<Id>, x: Id)
    requires Shaped(t) && Live(sc, t) && ListsAll(names, sc.drawables.Keys)
    ensures x in Collect(sc, t, names, onScreen, layersOf) <==>
      exists n :: n in sc.drawables && Contributes(sc, t, sc.drawables[n], onScreen, layersOf, x)
  {
    CollectMembers(sc, t, names, onScreen, layersOf, x);
    if exists n :: n in sc.drawables && Contributes(sc, t, sc.drawables[n], onScreen, layersOf, x) {
      var n :| n in sc.drawables && Contributes(sc, t, sc.drawables[n], onScreen, layersOf, x);
      var i :| 0 <= i < |names| && names[i] == n;
      assert Contributes(sc, t, sc.drawables[names[i]], onScreen, layersOf, x);
    }
  }
}

=== FILE: model/shapes.dfy ===
/**
 * `ShapeEntity`: an entity that owns line and circle shapes under
 * integer ids, each with a type, its data and a visibility flag.
 */
module Shapes {
  import opened Wrappers
  import opened Structs
  import opened Topology
  import opened Entities

  /** `SHAPE_TYPE`. */
  datatype ShapeType = CIRCLE | RR_OUTLINE | ROUNDED_RECT | RECT | LINE

  /** The `std::variant<LineData, CircleData>` of a shape. */
  datatype ShapeData = LineShape(line: LineData) | CircleShape(circle: CircleData)

  /** The three maps keyed by shape id, and the next id to hand out. */
  datatype ShapeStore = ShapeStore(
    data: map<int, ShapeData>,
    shapeIdMap: map<int, ShapeType>,
    visibilityFlags: map<int, bool>,
    shapeCount: int)

  const EmptyStore: ShapeStore := ShapeStore(map[], map[], map[], 0)

  /** The type a shape's data has. */
  function TypeOf(d: ShapeData): ShapeType
  {
    if d.LineShape? then LINE else CIRCLE
  }

  /**
   * The three maps share their keys, every id was handed out already,
   * and each type agrees with its data.
   */
  predicate Valid(s: ShapeStore)
  {
    s.shapeCount >= 0
    && s.data.Keys == s.shapeIdMap.Keys == s.visibilityFlags.Keys
    && (forall id :: id in s.shapeIdMap ==> 0 <= id < s.shapeCount)
    && (forall id :: id in s.data ==> s.shapeIdMap[id] == TypeOf(s.data[id]))
  }

  /** `ShapeEntity()`: a fresh entity of type SPRITE, so a scene draws it, with no shapes. */
  function NewShapeEntity(w: World): (r: (World, Id, ShapeStore))
    ensures r.1 == w.entityCount && r.1 in r.0.tree.ents && r.0.tree.ents[r.1].kind == SPRITE
    ensures Valid(r.2) && r.2.shapeIdMap == map[] && r.2.shapeCount == 0
  {
    var (w1, id) := Construct(w);
    (UpdateEntity(w1, id, w1.tree.ents[id].(kind := SPRITE)), id, EmptyStore)
  }

  /**
   * Hand out the current count as the id of a new visible shape. Each
   * map uses `insert`, which keeps an entry that is already there.
   */
  function AddShape(s: ShapeStore, d: ShapeData): (r: (ShapeStore, int))
    ensures r.1 == s.shapeCount && r.0.shapeCount == s.shapeCount + 1
    ensures Valid(s) ==> Valid(r.0) && r.1 !in s.shapeIdMap
    ensures Valid(s) ==> (r.0.data == s.data[r.1 := d] && r.0.shapeIdMap == s.shapeIdMap[r.1 := TypeOf(d)]
      && r.0.visibilityFlags == s.visibilityFlags[r.1 := true])
  {
    var id := s.shapeCount;
    var s1 := s.(shapeCount := s.shapeCount + 1);
    var s2 := s1.(shapeIdMap := if id in s1.shapeIdMap then s1.shapeIdMap else s1.shapeIdMap[id := TypeOf(d)]);
    var s3 := s2.(data := if id in s2.data then s2.data else s2.data[id := d]);
    var s4 := s3.(visibilityFlags := if id in s3.visibilityFlags then s3.visibilityFlags else s3.visibilityFlags[id := true]);
    (s4, id)
  }

  /** `AddLine(start, end, width, color)`. */
  function AddLine(s: ShapeStore, startPos: Vec2, endPos: Vec2, width: real): (r: (ShapeStore, int))
    ensures r.1 == s.shapeCount && r.0.shapeCount == s.shapeCount + 1
    ensures Valid(s) ==> Valid(r.0) && GetLine(r.0, r.1) == Ok(Some(LineData(startPos, endPos, width)))
    ensures Valid(s) ==> r.0.visibilityFlags[r.1]
  {
    AddShape(s, LineShape(LineData(startPos, endPos, width)))
  }

  /** `AddCircle(center, radius, color)`. */
  function AddCircle(s: ShapeStore, center: Vec2, radius: real): (r: (ShapeStore, int))
    ensures r.1 == s.shapeCount && r.0.shapeCount == s.shapeCount + 1
    ensures Valid(s) ==> Valid(r.0) && GetCircle(r.0, r.1) == Ok(Some(CircleData(center, radius)))
    ensures Valid(s) ==> r.0.visibilityFlags[r.1]
  {
    AddShape(s, CircleShape(CircleData(center, radius)))
  }

  /** Shapes added one after another get the ids 0, 1, 2, … in order, and none is reused after a delete. */
  lemma AddedIdsAreFresh(s: ShapeStore, d: ShapeData, e: ShapeData, del: int)
    requires Valid(s)
    ensures var (s1, a) := AddShape(s, d);
      var (s2, b) := AddShape(DeleteShape(s1, del), e);
      b == a + 1 && b !in s1.shapeIdMap
  {
  }

  /** `DeleteShape(id)`: the id leaves all three maps; an unknown id changes nothing. */
  function DeleteShape(s: ShapeStore, id: int): (r: ShapeStore)
    ensures id !in s.shapeIdMap ==> r == s
    ensures id !in r.shapeIdMap
    ensures Valid(s) ==> id !in r.data && id !in r.visibilityFlags
    ensures r.shapeCount == s.shapeCount
    ensures forall k :: k != id && k in s.shapeIdMap ==> k in r.shapeIdMap && r.shapeIdMap[k] == s.shapeIdMap[k]
    ensures Valid(s) ==> Valid(r)
  {
    if id in s.shapeIdMap then
      s.(data := s.data - {id}, shapeIdMap := s.shapeIdMap - {id}, visibilityFlags := s.visibilityFlags - {id})
    else s
  }

  /** Deleting a shape just added gives back the store with only the counter moved on. */
  lemma AddThenDelete(s: ShapeStore, d: ShapeData)
    requires Valid(s)
    ensures var (s1, id) := AddShape(s, d);
      DeleteShape(s1, id) == s.(shapeCount := s.shapeCount + 1)
  {
    var (s1, id) := AddShape(s, d);
    assert s1.data - {id} == s.data;
    assert s1.shapeIdMap - {id} == s.shapeIdMap;
    assert s1.visibilityFlags - {id} == s.visibilityFlags;
  }

  /** `SetShapeVisibility(id, b)`: an unknown id changes nothing; otherwise the flag becomes `b`. */
  function SetShapeVisibility(s: ShapeStore, id: int, isVisible: bool): (r: ShapeStore)
    ensures id !in s.shapeIdMap ==> r == s
    ensures Valid(s) && id in s.shapeIdMap ==> r == s.(visibilityFlags := s.visibilityFlags[id := isVisible])
    ensures Valid(s) ==> Valid(r)
  {
    if id !in s.shapeIdMap then s
    else if id in s.visibilityFlags then s.(visibilityFlags := s.visibilityFlags[id := isVisible])
    else s
  }

  /** `GetShape(id)`: the data, or a failed debug assertion for an unknown id. */
  function GetShape(s: ShapeStore, id: int): (r: Result<ShapeData>)
    ensures r.Ok? <==> id in s.data
    ensures r.Ok? ==> r.value == s.data[id]
    ensures !r.Throw?
  {
    if id in s.data then Ok(s.data[id]) else Crash(NoSuchShapeMessage)
  }

  const NoSuchShapeMessage: string := "Shape entity does not contain this id!"
  const NotALineMessage: string := "Shape is not a line!"
  const NotImplementedMessage: string := "Not yet Implemented"

  /** `AddRoundedRectOutline()`: a failed debug assertion; the shape is not implemented. */
  function AddRoundedRectOutline(s: ShapeStore): (r: Result<(ShapeStore, int)>)
    ensures r.Crash? && r.reason == NotImplementedMessage
  {
    Crash(NotImplementedMessage)
  }

  /** `shapeIdMap[id]`: reading an absent key inserts and yields the first enumerator. */
  function TypeAt(s: ShapeStore, id: int): ShapeType
  {
    if id in s.shapeIdMap then s.shapeIdMap[id] else CIRCLE
  }

  /**
   * `GetLine(id)`: none for an unknown id; for a shape of another type
   * the debug assertion that it is a line fails.
   */
  function GetLine(s: ShapeStore, id: int): (r: Result<Option<LineData>>)
    ensures id !in s.data ==> r == Ok(None)
    ensures Valid(s) && id in s.data ==> (r.Ok? <==> s.data[id].LineShape?)
    ensures r.Ok? && r.value.Some? ==> id in s.data && s.data[id] == LineShape(r.value.value)
  {
    if id !in s.data then Ok(None)
    else if TypeAt(s, id) != LINE then Crash(NotALineMessage)
    else if s.data[id].LineShape? then Ok(Some(s.data[id].line))
    else Throw(BadVariantAccess)
  }

  /** What `std::get` throws on the wrong alternative; it is out of reach in a valid store. */
  const BadVariantAccess: string := "bad_variant_access"

  /**
   * `GetCircle(id)` as written: the debug assertion for a shape of the
   * wrong type checks for LINE, so asking for a circle under a line's id
   * passes it and quietly yields none.
   */
  function GetCircleAsWritten(s: ShapeStore, id: int): (r: Result<Option<CircleData>>)
    ensures id !in s.data ==> r == Ok(None)
    ensures r.Ok? && r.value.Some? ==> id in s.data && s.data[id] == CircleShape(r.value.value)
  {
    if id !in s.data then Ok(None)
    else if TypeAt(s, id) != CIRCLE then
      (if TypeAt(s, id) == LINE then Ok(None) else Crash(NotALineMessage))
    else if s.data[id].CircleShape? then Ok(Some(s.data[id].circle))
    else Throw(BadVariantAccess)
  }

  /** A line asked for as a circle gets none from `GetCircle`, yet a circle asked for as a line fails `GetLine`'s assertion. */
  lemma GetCircleOnLineIsSilent(s: ShapeStore, line: LineData, circle: CircleData)
    requires Valid(s)
    ensures var (s1, l) := AddShape(s, LineShape(line));
      GetCircleAsWritten(s1, l) == Ok(None)
    ensures var (s2, c) := AddShape(s, CircleShape(circle));
      GetLine(s2, c).Crash?
  {
  }

  /** `GetCircle(id)` as intended: the mirror image of `GetLine`. */
  function GetCircle(s: ShapeStore, id: int): (r: Result<Option<CircleData>>)
    ensures id !in s.data ==> r == Ok(None)
    ensures Valid(s) && id in s.data ==> (r.Ok? <==> s.data[id].CircleShape?)
    ensures r.Ok? && r.value.Some? ==> id in s.data && s.data[id] == CircleShape(r.value.value)
  {
    if id !in s.data then Ok(None)
    else if TypeAt(s, id) != CIRCLE then Crash(NotACircleMessage)
    else if s.data[id].CircleShape? then Ok(Some(s.data[id].circle))
    else Throw(BadVariantAccess)
  }

  const NotACircleMessage: string := "Shape is not a circle!"

  /** Each typed getter returns exactly the shapes of its type and rejects the other. */
  lemma TypedGettersAgree(s: ShapeStore, id: int)
    requires Valid(s) && id in s.data
    ensures GetLine(s, id).Ok? <==> GetCircle(s, id).Crash?
    ensures GetLine(s, id).Ok? ==> GetLine(s, id).value == Some(s.data[id].line)
    ensures GetCircle(s, id).Ok? ==> GetCircle(s, id).value == Some(s.data[id].circle)
  {
  }

  /**
   * The shapes `Draw` visits, in ascending id order from `from`: those
   * whose visibility flag is set (`visibilityFlags[id]` reads false for a
   * missing flag).
   */
  function DrawnFrom(s: ShapeStore, from: int): (r: seq<int>)
    requires from >= 0
    ensures forall i :: 0 <= i < |r| ==> from <= r[i] < s.shapeCount && r[i] in s.shapeIdMap
    ensures forall i, j :: 0 <= i < j < |r| ==> r[i] < r[j]
    decreases s.shapeCount - from
  {
    if from >= s.shapeCount then []
    else
      var rest := DrawnFrom(s, from + 1);
      if from in s.shapeIdMap && from in s.visibilityFlags && s.visibilityFlags[from] then [from] + rest else rest
  }

  /** `Draw`: every shape whose flag is set, in id order. */
  function DrawnShapes(s: ShapeStore): (r: seq<int>)
    ensures forall i, j :: 0 <= i < j < |r| ==> r[i] < r[j]
  {
    DrawnFrom(s, 0)
  }

  /** In a valid store a shape is drawn exactly when it exists and is visible. */
  lemma {:induction false} DrawnFromMembers(s: ShapeStore, from: int, id: int)
    requires Valid(s) && from >= 0
    ensures id in DrawnFrom(s, from) <==> from <= id && id in s.shapeIdMap && s.visibilityFlags[id]
    decreases s.shapeCount - from
  {
    if from < s.shapeCount {
      DrawnFromMembers(s, from + 1, id);
    }
  }

  /** Hiding a shape removes it from the drawn shapes and leaves the others as they were. */
  lemma HiddenShapeIsNotDrawn(s: ShapeStore, id: int, k: int)
    requires Valid(s) && id in s.shapeIdMap && k != id
    ensures id !in DrawnShapes(SetShapeVisibility(s, id, false))
    ensures k in DrawnShapes(SetShapeVisibility(s, id, false)) <==> k in DrawnShapes(s)
  {
    var s1 := SetShapeVisibility(s, id, false);
    DrawnFromMembers(s1, 0, id);
    DrawnFromMembers(s1, 0, k);
    DrawnFromMembers(s, 0, k);
  }
}

=== FILE: model/sprites.dfy ===
/**
 * `SpriteEntity`'s flip state and default construction, and
 * `StackedSpriteEntity`'s choice between its own perspective setting and
 * the one shared by all stacked sprites.
 */
module Sprites {
  import opened Structs
  import opened Strings
  import opened Topology
  import opened Entities

  /**
   * `spriteFlip`: each axis is 1 (drawn as is) or -1 (mirrored). The
   * engine keeps it as a float vector but only ever stores 1 or -1 in it.
   */
  datatype Flip = Flip(x: int, y: int)

  const Unflipped: Flip := Flip(1, 1)

  predicate IsFlippedH(f: Flip) { f.x == -1 }

  predicate IsFlippedV(f: Flip) { f.y == -1 }

  /** Each axis is 1 or -1. */
  predicate UnitFlip(f: Flip)
  {
    (f.x == 1 || f.x == -1) && (f.y == 1 || f.y == -1)
  }

  /** `SetFlipped(h, v)`. */
  function SetFlipped(hFlipped: bool, vFlipped: bool): (r: Flip)
    ensures IsFlippedH(r) == hFlipped && IsFlippedV(r) == vFlipped
    ensures UnitFlip(r)
  {
    Flip(if hFlipped then -1 else 1, if vFlipped then -1 else 1)
  }

  /** `FlipH()`: negate the horizontal factor. */
  function FlipH(f: Flip): (r: Flip)
    ensures r.y == f.y
    ensures UnitFlip(f) ==> UnitFlip(r) && (IsFlippedH(r) <==> !IsFlippedH(f))
  {
    f.(x := f.x * -1)
  }

  /** `FlipV()`: negate the vertical factor. */
  function FlipV(f: Flip): (r: Flip)
    ensures r.x == f.x
    ensures UnitFlip(f) ==> UnitFlip(r) && (IsFlippedV(r) <==> !IsFlippedV(f))
  {
    f.(y := f.y * -1)
  }

  /** Flipping twice on the same axis is the identity, and the two axes are independent. */
  lemma FlipsAreInvolutions(f: Flip)
    ensures FlipH(FlipH(f)) == f && FlipV(FlipV(f)) == f
    ensures FlipH(FlipV(f)) == FlipV(FlipH(f))
    ensures IsFlippedV(FlipH(f)) == IsFlippedV(f) && IsFlippedH(FlipV(f)) == IsFlippedH(f)
  {
  }

  /** `SpriteEntity()`: a fresh entity of type SPRITE named "SpriteEntity" and its id, drawn unflipped. */
  function NewSpriteEntity(w: World): (r: (World, Id, Flip))
    ensures r.1 == w.entityCount && r.0.entityCount == w.entityCount + 1 && r.1 in r.0.tree.ents
    ensures r.0.tree.ents[r.1].kind == SPRITE && r.0.tree.ents[r.1].name == "SpriteEntity" + NatToString(r.1)
    ensures !IsFlippedH(r.2) && !IsFlippedV(r.2)
  {
    var (w1, id) := Construct(w);
    var e := w1.tree.ents[id];
    (UpdateEntity(w1, id, e.(kind := SPRITE, name := "SpriteEntity" + NatToString(id))), id, Unflipped)
  }

  // ---------------------------------------------------------------------
  // Stacked sprites

  /** A stacked sprite's own perspective setting: whether it overrides the shared one, and with what. */
  datatype StackedSprite = StackedSprite(isOverridingPerspective: bool, perspectiveShiftVal: bool)

  /** No override. */
  const DefaultStackedSprite: StackedSprite := StackedSprite(false, false)

  /** `globalUsePerspectiveShift` starts false. */
  const DefaultGlobalShift: bool := false

  /** `IsUsingPerspectiveShift()`: the sprite's own value while it overrides, else the shared one. */
  function IsUsingPerspectiveShift(s: StackedSprite, globalUsePerspectiveShift: bool): (r: bool)
    ensures s.isOverridingPerspective ==> r == s.perspectiveShiftVal
    ensures !s.isOverridingPerspective ==> r == globalUsePerspectiveShift
  {
    if s.isOverridingPerspective then s.perspectiveShiftVal else globalUsePerspectiveShift
  }

  /** `SetUsePerspectiveShiftOverride(o, v)`. */
  function SetUsePerspectiveShiftOverride(s: StackedSprite, isOverriding: bool, usePerspectiveShift: bool): (r: StackedSprite)
    ensures r.isOverridingPerspective == isOverriding && r.perspectiveShiftVal == usePerspectiveShift
    ensures isOverriding ==> forall g :: IsUsingPerspectiveShift(r, g) == usePerspectiveShift
  {
    s.(isOverridingPerspective := isOverriding, perspectiveShiftVal := usePerspectiveShift)
  }

  /**
   * Changing the shared setting changes the answer of exactly the
   * sprites that do not override it; a default sprite follows it and so
   * starts without perspective shift.
   */
  lemma GlobalShiftReachesNonOverriding(s: StackedSprite, g1: bool, g2: bool)
    requires g1 != g2
    ensures IsUsingPerspectiveShift(s, g1) != IsUsingPerspectiveShift(s, g2) <==> !s.isOverridingPerspective
    ensures !IsUsingPerspectiveShift(DefaultStackedSprite, DefaultGlobalShift)
  {
  }
}

=== FILE: model/strings.dfy ===
/**
 * The string operations the engine builds names and paths with:
 * `std::to_string` on non-negative integers, the '/'-joined entity paths,
 * the splitting loop of scene path lookup, and the byte-wise ordering
 * `std::map<std::string, …>` iterates in.
 */
module Strings {

  // ---------------------------------------------------------------------
  // Decimal rendering of non-negative integers

  predicate IsDigit(c: char) { '0' <= c <= '9' }

  predicate AllDigits(s: string) { forall i :: 0 <= i < |s| ==> IsDigit(s[i]) }

  function DigitChar(d: nat): (c: char)
    requires d < 10
    ensures IsDigit(c)
  {
    ('0' as int + d) as char
  }

  function DigitValue(c: char): (d: nat)
    requires IsDigit(c)
    ensures d < 10
  {
    c as int - '0' as int
  }

  /** `std::to_string(n)` for a non-negative `n`: its decimal digits. */
  function NatToString(n: nat): (s: string)
    ensures |s| >= 1
    ensures AllDigits(s)
  {
    if n < 10 then [DigitChar(n)] else NatToString(n / 10) + [DigitChar(n % 10)]
  }

  /** The number a string of decimal digits denotes. */
  function ParseNat(s: string): nat
    requires AllDigits(s)
  {
    if |s| == 0 then 0 else ParseNat(s[..|s| - 1]) * 10 + DigitValue(s[|s| - 1])
  }

  /** Reading back a rendered number gives the number. */
  lemma {:induction false} ParseNatToString(n: nat)
    ensures ParseNat(NatToString(n)) == n
  {
    var s := NatToString(n);
    if n >= 10 {
      ParseNatToString(n / 10);
      assert s[..|s| - 1] == NatToString(n / 10);
    }
  }

  /** Distinct numbers render as distinct strings. */
  lemma NatToStringInjective(a: nat, b: nat)
    ensures NatToString(a) == NatToString(b) ==> a == b
  {
    ParseNatToString(a);
    ParseNatToString(b);
  }

  // ---------------------------------------------------------------------
  // Entity paths

  predicate IsSegment(s: string) { |s| > 0 && '/' !in s }

  /** The names of a path joined by '/', first name first. */
  function Join(names: seq<string>): (r: string)
    ensures |names| == 1 ==> r == names[0]
  {
    if |names| == 0 then ""
    else if |names| == 1 then names[0]
    else names[0] + "/" + Join(names[1..])
  }

  /**
   * The splitting loop of path lookup: characters other than '/'
   * accumulate into `cur`; a '/' closes a non-empty `cur` into the result;
   * the end of the input closes a non-empty `cur`. Empty segments are
   * dropped.
   */
  function SplitFrom(path: string, cur: string, acc: seq<string>): (r: seq<string>)
    requires '/' !in cur
    requires forall i :: 0 <= i < |acc| ==> IsSegment(acc[i])
    ensures forall i :: 0 <= i < |r| ==> IsSegment(r[i])
    ensures |acc| <= |r| && r[..|acc|] == acc
    decreases |path|
  {
    if |path| == 0 then
      if cur != "" then acc + [cur] else acc
    else if path[0] != '/' then
      SplitFrom(path[1..], cur + [path[0]], acc)
    else if cur != "" then
      SplitFrom(path[1..], "", acc + [cur])
    else
      SplitFrom(path[1..], "", acc)
  }

  function SplitPath(path: string): (r: seq<string>)
    ensures forall i :: 0 <= i < |r| ==> IsSegment(r[i])
  {
    SplitFrom(path, "", [])
  }

  /** A run of non-separator characters extends the segment being built. */
  lemma {:induction false} SplitFromWord(w: string, rest: string, cur: string, acc: seq<string>)
    requires '/' !in w && '/' !in cur
    requires forall i :: 0 <= i < |acc| ==> IsSegment(acc[i])
    ensures SplitFrom(w + rest, cur, acc) == SplitFrom(rest, cur + w, acc)
    decreases |w|
  {
    if |w| > 0 {
      assert (w + rest)[0] == w[0];
      assert (w + rest)[1..] == w[1..] + rest;
      assert cur + [w[0]] + w[1..] == cur + w;
      SplitFromWord(w[1..], rest, cur + [w[0]], acc);
    } else {
      assert w + rest == rest;
      assert cur + w == cur;
    }
  }

  /** Splitting a joined path gives the joined names back. */
  lemma {:induction false} SplitJoinFrom(names: seq<string>, acc: seq<string>)
    requires |names| > 0
    requires forall i :: 0 <= i < |names| ==> IsSegment(names[i])
    requires forall i :: 0 <= i < |acc| ==> IsSegment(acc[i])
    ensures SplitFrom(Join(names), "", acc) == acc + names
    decreases |names|
  {
    var n := names[0];
    if |names| == 1 {
      SplitFromWord(n, "", "", acc);
      assert n + "" == n;
      assert "" + n == n;
    } else {
      var rest := "/" + Join(names[1..]);
      assert Join(names) == n + rest;
      SplitFromWord(n, rest, "", acc);
      assert "" + n == n;
      assert rest[0] == '/' && rest[1..] == Join(names[1..]);
      SplitJoinFrom(names[1..], acc + [n]);
      assert acc + [n] + names[1..] == acc + names;
    }
  }

  /** `SplitPath` inverts `Join` on non-empty, separator-free names. */
  lemma SplitJoin(names: seq<string>)
    requires |names| > 0
    requires forall i :: 0 <= i < |names| ==> IsSegment(names[i])
    ensures SplitPath(Join(names)) == names
  {
    SplitJoinFrom(names, []);
  }

  /** A path holding a character other than '/' has at least one segment. */
  lemma {:induction false} SplitFromNonEmpty(path: string, cur: string, acc: seq<string>)
    requires '/' !in cur
    requires forall i :: 0 <= i < |acc| ==> IsSegment(acc[i])
    requires cur != "" || exists i :: 0 <= i < |path| && path[i] != '/'
    ensures |SplitFrom(path, cur, acc)| > |acc|
    decreases |path|
  {
    if |path| == 0 {
    } else if path[0] != '/' {
      SplitFromNonEmpty(path[1..], cur + [path[0]], acc);
    } else if cur != "" {
    } else {
      var i :| 0 <= i < |path| && path[i] != '/';
      assert path[1..][i - 1] == path[i];
      SplitFromNonEmpty(path[1..], "", acc);
    }
  }

  // ---------------------------------------------------------------------
  // Key order of std::map<std::string, …>

  /** Lexicographic order by character code, as `std::string::compare`. */
  predicate StrLt(a: string, b: string)
  {
    if |a| == 0 then |b| > 0
    else if |b| == 0 then false
    else if a[0] != b[0] then a[0] < b[0]
    else StrLt(a[1..], b[1..])
  }

  lemma {:induction false} StrLtIrreflexive(a: string)
    ensures !StrLt(a, a)
  {
    if |a| > 0 {
      StrLtIrreflexive(a[1..]);
    }
  }

  lemma {:induction false} StrLtTransitive(a: string, b: string, c: string)
    requires StrLt(a, b) && StrLt(b, c)
    ensures StrLt(a, c)
  {
    if |a| > 0 && |b| > 0 && |c| > 0 && a[0] == b[0] && b[0] == c[0] {
      StrLtTransitive(a[1..], b[1..], c[1..]);
    }
  }

  lemma {:induction false} StrLtTotal(a: string, b: string)
    ensures a == b || StrLt(a, b) || StrLt(b, a)
  {
    if |a| > 0 && |b| > 0 && a[0] == b[0] {
      StrLtTotal(a[1..], b[1..]);
      if a[1..] == b[1..] {
        assert a == [a[0]] + a[1..] && b == [b[0]] + b[1..];
      }
    }
  }

  predicate IsLeast(m: string, keys: set<string>)
  {
    m in keys && forall k :: k in keys ==> !StrLt(k, m)
  }

  /** Every non-empty finite set of strings has a least element. */
  lemma {:induction false} LeastExists(keys: set<string>)
    requires keys != {}
    ensures exists m :: IsLeast(m, keys)
    decreases |keys|
  {
    var x :| x in keys;
    var rest := keys - {x};
    StrLtIrreflexive(x);
    if rest == {} {
      assert keys == {x};
      assert IsLeast(x, keys);
    } else {
      LeastExists(rest);
      var m :| IsLeast(m, rest);
      if StrLt(x, m) {
        forall k | k in keys
          ensures !StrLt(k, x)
        {
          if k != x && StrLt(k, x) {
            StrLtTransitive(k, x, m);
          }
        }
        assert IsLeast(x, keys);
      } else {
        assert IsLeast(m, keys);
      }
    }
  }

  /** The least element is unique. */
  lemma LeastUnique(m1: string, m2: string, keys: set<string>)
    requires IsLeast(m1, keys) && IsLeast(m2, keys)
    ensures m1 == m2
  {
    StrLtTotal(m1, m2);
  }

  /** The least key of a non-empty set. */
  ghost function Least(keys: set<string>): (m: string)
    requires keys != {}
    ensures IsLeast(m, keys)
  {
    LeastExists(keys);
    var m :| IsLeast(m, keys);
    m
  }

  /** The keys of a set in ascending order: the iteration order of a std::map. */
  ghost function SortedKeys(keys: set<string>): (r: seq<string>)
    ensures |r| == |keys|
    ensures forall i :: 0 <= i < |r| ==> r[i] in keys
    ensures forall k :: k in keys ==> k in r
    ensures forall i, j :: 0 <= i < j < |r| ==> StrLt(r[i], r[j])
    decreases |keys|
  {
    if keys == {} then []
    else
      var m := Least(keys);
      var tail := SortedKeys(keys - {m});
      assert forall j :: 0 <= j < |tail| ==> StrLt(m, tail[j]) by {
        forall j | 0 <= j < |tail|
          ensures StrLt(m, tail[j])
        {
          StrLtTotal(m, tail[j]);
        }
      }
      [m] + tail
  }
}

=== FILE: model/structs.dfy ===
/**
 * The plain value types of the engine: 2D vectors, transforms, input
 * events, the user data attached to physics bodies and sprite animation
 * descriptors. `float` is modelled as `real` (no rounding, no NaN).
 */
module Structs {
  import opened Wrappers

  datatype Vec2 = Vec2(x: real, y: real)

  const Zero: Vec2 := Vec2(0.0, 0.0)
  const One: Vec2 := Vec2(1.0, 1.0)

  function Add(a: Vec2, b: Vec2): Vec2 { Vec2(a.x + b.x, a.y + b.y) }

  function Neg(a: Vec2): Vec2 { Vec2(-a.x, -a.y) }

  /** Local position, rotation in radians, and local scale of an entity. */
  datatype Transform2D = Transform2D(position: Vec2, rotation: real, scale: Vec2)

  /** `Transform2D()`: the identity placement. */
  const DefaultTransform: Transform2D := Transform2D(Zero, 0.0, One)

  /** `MoveGlobal(m)`: translate by `m`; rotation and scale stay. */
  function MoveGlobal(t: Transform2D, m: Vec2): (r: Transform2D)
    ensures r.rotation == t.rotation && r.scale == t.scale
    ensures r.position.x - t.position.x == m.x && r.position.y - t.position.y == m.y
  {
    t.(position := Vec2(t.position.x + m.x, t.position.y + m.y))
  }

  /** `Rotate(d)`: add `d` radians, with no normalisation. */
  function Rotate(t: Transform2D, d: real): (r: Transform2D)
    ensures r.position == t.position && r.scale == t.scale
    ensures r.rotation - t.rotation == d
  {
    t.(rotation := t.rotation + d)
  }

  /** `Scale(s)`: multiply the scale componentwise. */
  function Scale(t: Transform2D, s: Vec2): (r: Transform2D)
    ensures r.position == t.position && r.rotation == t.rotation
    ensures r.scale.x == t.scale.x * s.x && r.scale.y == t.scale.y * s.y
  {
    t.(scale := Vec2(t.scale.x * s.x, t.scale.y * s.y))
  }

  /** Two translations compose into one by the sum of their vectors, and undo each other when opposite. */
  lemma MoveGlobalComposes(t: Transform2D, a: Vec2, b: Vec2)
    ensures MoveGlobal(MoveGlobal(t, a), b) == MoveGlobal(t, Add(a, b))
    ensures MoveGlobal(MoveGlobal(t, a), Neg(a)) == t
  {
  }

  /** Rotations add up, and the unnormalised sum can leave [0, 2π). */
  lemma RotateComposes(t: Transform2D, a: real, b: real)
    ensures Rotate(Rotate(t, a), b) == Rotate(t, a + b)
    ensures Rotate(Rotate(t, a), -a) == t
  {
  }

  /** Scaling by (1,1) changes nothing, and scalings multiply. */
  lemma ScaleComposes(t: Transform2D, a: Vec2, b: Vec2)
    ensures Scale(t, One) == t
    ensures Scale(Scale(t, a), b) == Scale(t, Vec2(a.x * b.x, a.y * b.y))
  {
  }

  /** Scaling by a vector with no zero component is undone by scaling by its reciprocals. */
  lemma ScaleInverse(t: Transform2D, s: Vec2)
    requires s.x != 0.0 && s.y != 0.0
    ensures Scale(Scale(t, s), Vec2(1.0 / s.x, 1.0 / s.y)) == t
  {
    ScaleComposes(t, s, Vec2(1.0 / s.x, 1.0 / s.y));
    assert Vec2(s.x * (1.0 / s.x), s.y * (1.0 / s.y)) == One;
  }

  /** One keyboard key or gamepad button bound to an input action; controller -1 is the keyboard. */
  datatype InputEvent = InputEvent(controllerId: int, positiveInput: int)

  /** `InputEvent(inputIndex, actionControllerId = -1)`. */
  function NewInputEvent(inputIndex: int, actionControllerId: int := -1): (e: InputEvent)
    ensures e.positiveInput == inputIndex && e.controllerId == actionControllerId
  {
    InputEvent(actionControllerId, inputIndex)
  }

  /** The user data the engine attaches to a Box2D body. */
  datatype PhysicsEntityData = PhysicsEntityData(entityID: int, entityName: string)
  {
    function GetEntityId(): int { entityID }
    function GetEntityName(): string { entityName }
  }

  /** The getters give back what the constructor was handed. */
  lemma PhysicsEntityDataGetters(id: int, name: string)
    ensures PhysicsEntityData(id, name).GetEntityId() == id
    ensures PhysicsEntityData(id, name).GetEntityName() == name
  {
  }

  /** A texture handle; the pixels belong to the graphics library. */
  type TextureHandle = nat

  /** One row-major strip of frames on a sprite sheet. */
  datatype SpriteAnimation = SpriteAnimation(
    texture: Option<TextureHandle>,
    frameMax: int,
    currentFrame: int,
    animFPS: int,
    framesWide: int,
    origin: Vec2,
    frameSize: Vec2,
    startPos: Vec2)

  /** `SpriteAnimation()`: no frames, starting at frame 1, 10 fps, one frame wide. */
  const DefaultSpriteAnimation: SpriteAnimation :=
    SpriteAnimation(None, 0, 1, 10, 1, Zero, Zero, Zero)

  /** The parameterised constructor: it starts at frame 0 at the sheet's top left. */
  function NewSpriteAnimation(sprite: TextureHandle, frameCount: int, fps: int, framesWide: int,
                              origin: Vec2, frameSize: Vec2): (a: SpriteAnimation)
    ensures a.currentFrame == 0 && a.startPos == Zero
    ensures a.frameMax == frameCount && a.animFPS == fps && a.framesWide == framesWide
    ensures a.texture == Some(sprite) && a.origin == origin && a.frameSize == frameSize
  {
    SpriteAnimation(Some(sprite), frameCount, 0, fps, framesWide, origin, frameSize, Zero)
  }

  /** The default and the parameterised constructors start on different frames. */
  lemma AnimationStartFrames(sprite: TextureHandle, n: int, fps: int, w: int, o: Vec2, s: Vec2)
    ensures DefaultSpriteAnimation.currentFrame == 1
    ensures NewSpriteAnimation(sprite, n, fps, w, o, s).currentFrame == 0
  {
  }

  /** An axis-aligned rectangle: top-left corner and size. */
  datatype Rect = Rect(x: real, y: real, width: real, height: real)

  /** A debug or shape line. */
  datatype LineData = LineData(startPos: Vec2, endPos: Vec2, width: real)

  /** A debug or shape circle. */
  datatype CircleData = CircleData(center: Vec2, radius: real)
}

=== FILE: model/textures.dfy ===
/**
 * `TextureManager`: textures loaded once per path and reference counted.
 * Loading a file is the only foreign call; it is passed in as `load`,
 * from the full path to the texture raylib would return.
 */
module Textures {
  import opened Wrappers
  import opened Strings

  /** A raylib `Texture2D`, seen through its GPU id. */
  datatype Texture = Texture(id: nat)

  /** The loaded textures and their reference counts, both keyed by path, and the asset root. */
  datatype TextureManager = TextureManager(textures: map<string, Texture>, references: map<string, int>, rootLoadFolder: string)

  /** A fresh manager: no textures, and the asset root is the working directory. */
  function NewTextureManager(workingDirectory: string): (m: TextureManager)
    ensures Valid(m) && m.textures == map[] && m.rootLoadFolder == workingDirectory
  {
    TextureManager(map[], map[], workingDirectory)
  }

  /** Every loaded texture has a count of at least one, and only loaded textures have counts. */
  predicate Valid(m: TextureManager)
  {
    m.textures.Keys == m.references.Keys && forall p :: p in m.references ==> m.references[p] >= 1
  }

  /** `(*textureReferences)[path]`: reading an absent key inserts and yields 0. */
  function RefCount(m: TextureManager, path: string): int
  {
    if path in m.references then m.references[path] else 0
  }

  /**
   * `GetTexture(path)`: a path not yet loaded is loaded from the asset
   * root and counted once; a loaded one has its count raised and the same
   * texture is returned.
   */
  function GetTexture(m: TextureManager, path: string, load: string -> Texture): (r: (TextureManager, Texture))
    ensures path !in m.textures ==> r.1 == load(m.rootLoadFolder + path)
    ensures path in m.textures ==> r.1 == m.textures[path]
    ensures r.0.textures.Keys == m.textures.Keys + {path} && r.0.textures[path] == r.1
    ensures r.0.rootLoadFolder == m.rootLoadFolder
    ensures forall q :: q != path ==> RefCount(r.0, q) == RefCount(m, q)
    ensures forall q :: q in m.textures && q != path ==> r.0.textures[q] == m.textures[q]
    ensures Valid(m) ==> Valid(r.0) && RefCount(r.0, path) == RefCount(m, path) + 1
  {
    if path !in m.textures then
      var t := load(m.rootLoadFolder + path);
      var refs := if path in m.references then m.references else m.references[path := 1];
      (m.(textures := m.textures[path := t], references := refs), t)
    else
      (m.(references := m.references[path := RefCount(m, path) + 1]), m.textures[path])
  }

  /** `GetTextureAbsolute(p)`: the texture at the working directory, a slash and `p`. */
  function GetTextureAbsolute(m: TextureManager, absolutePath: string, workingDirectory: string, load: string -> Texture): (r: (TextureManager, Texture))
    ensures r.0.textures.Keys == m.textures.Keys + {workingDirectory + "/" + absolutePath}
    ensures workingDirectory + "/" + absolutePath in r.0.textures
  {
    GetTexture(m, workingDirectory + "/" + absolutePath, load)
  }

  /**
   * `UnloadTexture(path)`: an unloaded path changes nothing; otherwise the
   * count drops by one, and at or below zero both the texture and its
   * count are forgotten.
   */
  function UnloadTexture(m: TextureManager, path: string): (r: TextureManager)
    ensures path !in m.textures ==> r == m
    ensures path in m.textures && RefCount(m, path) <= 1 ==> path !in r.textures && path !in r.references
    ensures path in m.textures && RefCount(m, path) > 1 ==> r.textures == m.textures && RefCount(r, path) == RefCount(m, path) - 1
    ensures forall q :: q != path ==> RefCount(r, q) == RefCount(m, q) && (q in r.textures <==> q in m.textures)
    ensures forall q :: q in r.textures ==> q in m.textures && r.textures[q] == m.textures[q]
    ensures r.rootLoadFolder == m.rootLoadFolder
    ensures Valid(m) ==> Valid(r)
  {
    if path !in m.textures then m
    else
      var count := RefCount(m, path) - 1;
      if count <= 0 then m.(textures := m.textures - {path}, references := m.references - {path})
      else m.(references := m.references[path := count])
  }

  /** `n` calls of `GetTexture(path)`. */
  function GetTimes(m: TextureManager, path: string, n: nat, load: string -> Texture): TextureManager
    decreases n
  {
    if n == 0 then m else GetTimes(GetTexture(m, path, load).0, path, n - 1, load)
  }

  /** `n` calls of `UnloadTexture(path)`. */
  function UnloadTimes(m: TextureManager, path: string, n: nat): TextureManager
    decreases n
  {
    if n == 0 then m else UnloadTimes(UnloadTexture(m, path), path, n - 1)
  }

  /** `n` gets of a path already counted `k` times leave it counted `k + n` times, holding the same texture. */
  lemma {:induction false} GetTimesCounts(m: TextureManager, path: string, n: nat, load: string -> Texture)
    requires Valid(m) && path in m.textures
    ensures var r := GetTimes(m, path, n, load);
      Valid(r) && path in r.textures && r.textures[path] == m.textures[path] && RefCount(r, path) == RefCount(m, path) + n
    decreases n
  {
    if n > 0 {
      GetTimesCounts(GetTexture(m, path, load).0, path, n - 1, load);
    }
  }

  /** `j` unloads of a path counted `k >= j` times leave `k - j` references, and none at all when `j == k`. */
  lemma {:induction false} UnloadTimesCounts(m: TextureManager, path: string, j: nat)
    requires Valid(m) && path in m.textures && j <= RefCount(m, path)
    ensures var r := UnloadTimes(m, path, j);
      Valid(r) && (j < RefCount(m, path) ==> path in r.textures && RefCount(r, path) == RefCount(m, path) - j)
      && (j == RefCount(m, path) ==> path !in r.textures)
    decreases j
  {
    if j > 0 {
      var m1 := UnloadTexture(m, path);
      if j < RefCount(m, path) || RefCount(m, path) > 1 {
        UnloadTimesCounts(m1, path, j - 1);
      } else {
        assert UnloadTimes(m1, path, 0) == m1;
      }
    }
  }

  /**
   * After `n` gets of an unloaded path, `n` unloads forget it, and one
   * fewer leaves it loaded with a single reference.
   */
  lemma BalancedGetAndUnload(m: TextureManager, path: string, n: nat, load: string -> Texture)
    requires Valid(m) && path !in m.textures && n >= 1
    ensures path !in UnloadTimes(GetTimes(m, path, n, load), path, n).textures
    ensures var r := UnloadTimes(GetTimes(m, path, n, load), path, n - 1);
      path in r.textures && RefCount(r, path) == 1
  {
    var m1 := GetTexture(m, path, load).0;
    GetTimesCounts(m1, path, n - 1, load);
    var mn := GetTimes(m, path, n, load);
    UnloadTimesCounts(mn, path, n);
    UnloadTimesCounts(mn, path, n - 1);
  }

  /** The path names a loaded texture with this id. */
  predicate HoldsId(m: TextureManager, path: string, id: nat)
  {
    path in m.textures && m.textures[path].id == id
  }

  /**
   * `GetTexturePath(texture)`: the first path, in the map's key order,
   * whose texture has the same id, or "" when there is none.
   */
  ghost function GetTexturePath(m: TextureManager, texture: Texture): (r: string)
    ensures (exists p :: HoldsId(m, p, texture.id)) ==> IsFirstHolder(m, r, texture.id)
    ensures (forall p :: !HoldsId(m, p, texture.id)) ==> r == ""
  {
    var keys := SortedKeys(m.textures.Keys);
    FirstHolderFound(m, keys, texture.id);
    FirstHolder(m, keys, texture.id)
  }

  /** No path before `p` in key order holds the id. */
  ghost predicate IsFirstHolder(m: TextureManager, p: string, id: nat)
  {
    HoldsId(m, p, id) && forall q :: HoldsId(m, q, id) ==> !StrLt(q, p)
  }

  /** At most one path is the first holder of an id. */
  lemma FirstHolderUnique(m: TextureManager, p: string, q: string, id: nat)
    requires IsFirstHolder(m, p, id) && IsFirstHolder(m, q, id)
    ensures p == q
  {
    if p != q {
      StrLtTotal(p, q);
    }
  }

  /** The scan of `GetTexturePath` over the keys in order. */
  function FirstHolder(m: TextureManager, keys: seq<string>, id: nat): string
  {
    if |keys| == 0 then ""
    else if HoldsId(m, keys[0], id) then keys[0]
    else FirstHolder(m, keys[1..], id)
  }

  /** Scanning ascending keys that include every holder finds the least holder. */
  lemma {:induction false} FirstHolderFound(m: TextureManager, keys: seq<string>, id: nat)
    requires forall i, j :: 0 <= i < j < |keys| ==> StrLt(keys[i], keys[j])
    requires forall p :: HoldsId(m, p, id) ==> p in keys
    ensures (exists p :: HoldsId(m, p, id)) ==> IsFirstHolder(m, FirstHolder(m, keys, id), id)
    ensures (forall p :: !HoldsId(m, p, id)) ==> FirstHolder(m, keys, id) == ""
  {
    if |keys| > 0 {
      if HoldsId(m, keys[0], id) {
        forall q | HoldsId(m, q, id)
          ensures !StrLt(q, keys[0])
        {
          var k :| 0 <= k < |keys| && keys[k] == q;
          if k == 0 {
            StrLtIrreflexive(q);
          } else if StrLt(q, keys[0]) {
            StrLtTransitive(q, keys[0], q);
            StrLtIrreflexive(q);
          }
        }
      } else {
        forall p | HoldsId(m, p, id)
          ensures p in keys[1..]
        {
          var k :| 0 <= k < |keys| && keys[k] == p;
          assert keys[1..][k - 1] == p;
        }
        FirstHolderFound(m, keys[1..], id);
      }
    }
  }

  /** `SetBaseAssetDir(dir)`: `dir`, with a slash appended unless it ends in one; an empty `dir` throws from `at`. */
  function SetBaseAssetDir(m: TextureManager, dir: string): (r: Result<TextureManager>)
    ensures dir == [] <==> r.Throw?
    ensures r.Ok? ==> r.value == m.(rootLoadFolder := r.value.rootLoadFolder)
    ensures r.Ok? ==> EndsWithSlash(r.value.rootLoadFolder)
    ensures r.Ok? ==> r.value.rootLoadFolder == dir || r.value.rootLoadFolder == dir + "/"
    ensures r.Ok? && EndsWithSlash(dir) ==> r.value.rootLoadFolder == dir
  {
    if dir == [] then Throw(OutOfRangeMessage)
    else if dir[|dir| - 1] != '/' then Ok(m.(rootLoadFolder := dir + "/"))
    else Ok(m.(rootLoadFolder := dir))
  }

  /** A label for the `std::out_of_range` that `std::string::at` throws; the standard does not fix its text. */
  const OutOfRangeMessage: string := "at: out of range"

  predicate EndsWithSlash(s: string)
  {
    |s| > 0 && s[|s| - 1] == '/'
  }

  /** Setting the asset root to what it already is changes nothing. */
  lemma SetBaseAssetDirIdempotent(m: TextureManager, dir: string)
    requires dir != []
    ensures var r := SetBaseAssetDir(m, dir).value;
      SetBaseAssetDir(r, r.rootLoadFolder) == Ok(r)
  {
    var r := SetBaseAssetDir(m, dir).value;
    assert EndsWithSlash(r.rootLoadFolder);
  }

  /** `UnloadTexture(texture)`: unload the texture's path, unless no path holds it. */
  ghost function UnloadTextureHandle(m: TextureManager, texture: Texture): (r: TextureManager)
    ensures (forall p :: !HoldsId(m, p, texture.id)) ==> r == m
    ensures forall p :: IsFirstHolder(m, p, texture.id) ==> r == (if p != "" then UnloadTexture(m, p) else m)
  {
    var path := GetTexturePath(m, texture);
    forall p | IsFirstHolder(m, p, texture.id)
      ensures p == path
    {
      FirstHolderUnique(m, p, path, texture.id);
    }
    if path != "" then UnloadTexture(m, path) else m
  }

  /**
   * Loading a new path whose texture id no other path shares, then
   * unloading that texture by handle, gives back the manager as it was.
   */
  lemma UnloadHandleUndoesGet(m: TextureManager, path: string, load: string -> Texture)
    requires Valid(m) && path !in m.textures && path != ""
    requires forall q :: q in m.textures ==> m.textures[q].id != load(m.rootLoadFolder + path).id
    ensures var (m1, t) := GetTexture(m, path, load);
      UnloadTextureHandle(m1, t) == m
  {
    var (m1, t) := GetTexture(m, path, load);
    assert IsFirstHolder(m1, path, t.id) by {
      StrLtIrreflexive(path);
    }
    assert m1.textures - {path} == m.textures;
    assert m1.references - {path} == m.references;
  }
}

=== FILE: model/tile_atlas.dfy ===
/**
 * The arithmetic of `TileMap::LoadDataTMX` once tmxlite has read the
 * file: the tile layers numbered from 0, the tiles of every tileset under
 * their global ids, and the packing of those tiles side by side into one
 * horizontal atlas texture with three pixels between neighbours.
 */
module TileAtlas {
  import opened Structs

  /** A tile of a tileset as tmxlite gives it: its image size in pixels and its image path. */
  datatype TmxTile = TmxTile(width: nat, height: nat, imagePath: string)

  /** A tileset: the global id of its first tile, and each tile with its local id. */
  datatype Tileset = Tileset(firstGid: int, tiles: seq<(int, TmxTile)>)

  /** A layer of the file: a tile layer holds one tile id per cell, row by row. */
  datatype TmxLayer = TileLayer(ids: seq<int>) | OtherLayer

  /** `StaticTileMin`: a tile's size and where it sits in the atlas. */
  datatype StaticTile = StaticTile(imageSize: Vec2, imagePos: Vec2)

  /** The pixels left between two neighbouring tiles of the atlas. */
  const Gap: int := 3

  // ---------------------------------------------------------------------
  // Ascending keys: the iteration order of a std::map<int, …>

  predicate IsLeastInt(m: int, s: set<int>)
  {
    m in s && forall k :: k in s ==> m <= k
  }

  /** Every non-empty finite set of integers has a least element. */
  lemma {:induction false} LeastIntExists(s: set<int>)
    requires s != {}
    ensures exists m :: IsLeastInt(m, s)
    decreases |s|
  {
    if forall k :: k !in s {
      assert false;
    }
    var x :| x in s;
    var rest := s - {x};
    if rest == {} {
      assert s == {x};
      assert IsLeastInt(x, s);
    } else {
      LeastIntExists(rest);
      var m :| IsLeastInt(m, rest);
      var least := if x < m then x else m;
      forall k | k in s
        ensures least <= k
      {
        if k != x {
          assert k in rest;
        }
      }
      assert IsLeastInt(least, s);
    }
  }

  /** The keys of a set in ascending order. */
  ghost function AscendingKeys(s: set<int>): (r: seq<int>)
    ensures |r| == |s|
    ensures forall i :: 0 <= i < |r| ==> r[i] in s
    ensures forall k :: k in s ==> k in r
    ensures forall i, j :: 0 <= i < j < |r| ==> r[i] < r[j]
    decreases |s|
  {
    if s == {} then []
    else
      LeastIntExists(s);
      var m :| IsLeastInt(m, s);
      [m] + AscendingKeys(s - {m})
  }

  /** An ascending sequence whose values are at least `lo` has `r[i] >= lo + i`. */
  lemma {:induction false} AscendingFrom(r: seq<int>, lo: int, i: nat)
    requires i < |r|
    requires forall k :: 0 <= k < |r| ==> lo <= r[k]
    requires forall a, b :: 0 <= a < b < |r| ==> r[a] < r[b]
    ensures r[i] >= lo + i
    decreases i
  {
    if i > 0 {
      AscendingFrom(r, lo, i - 1);
    }
  }

  /** An ascending sequence whose values are below `hi` has `r[i] < hi - (|r| - 1 - i)`. */
  lemma {:induction false} AscendingTo(r: seq<int>, hi: int, i: nat)
    requires i < |r|
    requires forall k :: 0 <= k < |r| ==> r[k] < hi
    requires forall a, b :: 0 <= a < b < |r| ==> r[a] < r[b]
    ensures r[i] < hi - (|r| - 1 - i)
    decreases |r| - i
  {
    if i < |r| - 1 {
      AscendingTo(r, hi, i + 1);
    }
  }

  /** `{0, …, n-1}`. */
  function Range(n: nat): (r: set<int>)
    ensures forall k :: k in r <==> 0 <= k < n
    ensures |r| == n
  {
    if n == 0 then {} else Range(n - 1) + {n - 1}
  }

  /** `r` is `0, 1, …, |r| - 1`. */
  predicate CountsUp(r: seq<int>)
  {
    forall i :: 0 <= i < |r| ==> r[i] == i
  }

  /** `r` ascends strictly with every value in `[lo, hi)`. */
  predicate AscendingWithin(r: seq<int>, lo: int, hi: int)
  {
    && (forall k :: 0 <= k < |r| ==> lo <= r[k] < hi)
    && (forall a, b :: 0 <= a < b < |r| ==> r[a] < r[b])
  }

  /** `n` ascending values in `[0, n)` are `0, …, n-1`. */
  lemma AscendingFills(r: seq<int>)
    requires AscendingWithin(r, 0, |r|)
    ensures CountsUp(r)
  {
    forall i | 0 <= i < |r|
      ensures r[i] == i
    {
      AscendingFrom(r, 0, i);
      AscendingTo(r, |r|, i);
    }
  }

  /** The ascending keys of `{0, …, n-1}` are `0, …, n-1`. */
  lemma AscendingRange(n: nat)
    ensures |AscendingKeys(Range(n))| == n && CountsUp(AscendingKeys(Range(n)))
  {
    var r := AscendingKeys(Range(n));
    assert AscendingWithin(r, 0, n);
    AscendingFills(r);
  }

  // ---------------------------------------------------------------------
  // Layers

  /** The tile layers of the file, in file order. */
  function TileLayersOf(ls: seq<TmxLayer>): (r: seq<seq<int>>)
    ensures |r| <= |ls|
  {
    if ls == [] then []
    else match ls[0]
      case TileLayer(ids) => [ids] + TileLayersOf(ls[1..])
      case OtherLayer => TileLayersOf(ls[1..])
  }

  /** The layer loop of `LoadDataTMX`: each tile layer's ids stored under the running counter. */
  function LoadLayers(layers: map<int, seq<int>>, ls: seq<TmxLayer>, next: int): map<int, seq<int>>
    decreases |ls|
  {
    if ls == [] then layers
    else match ls[0]
      case TileLayer(ids) => LoadLayers(layers[next := ids], ls[1..], next + 1)
      case OtherLayer => LoadLayers(layers, ls[1..], next)
  }

  /**
   * `r` holds the keys of `layers` and `next, next + 1, …` for the
   * layers of `t`: the `i`-th of `t` under `next + i`, every other key
   * with its value in `layers`.
   */
  ghost predicate NumberedOver(r: map<int, seq<int>>, layers: map<int, seq<int>>, t: seq<seq<int>>, next: int)
  {
    && (forall k :: k in r <==> k in layers || next <= k < next + |t|)
    && (forall i :: 0 <= i < |t| ==> next + i in r && r[next + i] == t[i])
    && (forall k :: k in layers && !(next <= k < next + |t|) ==> k in r && r[k] == layers[k])
  }

  /**
   * The `i`-th tile layer of the file is stored under `next + i`;
   * other keys keep their old values.
   */
  lemma {:induction false} LoadLayersNumbered(layers: map<int, seq<int>>, ls: seq<TmxLayer>, next: int)
    ensures NumberedOver(LoadLayers(layers, ls, next), layers, TileLayersOf(ls), next)
    decreases |ls|
  {
    if ls != [] {
      match ls[0]
      case TileLayer(ids) =>
        var layers1 := layers[next := ids];
        LoadLayersNumbered(layers1, ls[1..], next + 1);
        var r := LoadLayers(layers, ls, next);
        var t := TileLayersOf(ls);
        var t1 := TileLayersOf(ls[1..]);
        assert r == LoadLayers(layers1, ls[1..], next + 1);
        assert t == [ids] + t1;
        assert NumberedOver(r, layers1, t1, next + 1);
        forall k
          ensures k in r <==> k in layers || next <= k < next + |t|
        {
          assert k in layers1 <==> k in layers || k == next;
        }
        forall i | 0 <= i < |t|
          ensures next + i in r && r[next + i] == t[i]
        {
          if i > 0 {
            assert r[(next + 1) + (i - 1)] == t1[i - 1];
          } else {
            assert next in layers1 && r[next] == layers1[next];
          }
        }
        forall k | k in layers && !(next <= k < next + |t|)
          ensures k in r && r[k] == layers[k]
        {
          assert k in layers1 && layers1[k] == layers[k];
        }
      case OtherLayer =>
        LoadLayersNumbered(layers, ls[1..], next);
        assert LoadLayers(layers, ls, next) == LoadLayers(layers, ls[1..], next);
        assert TileLayersOf(ls) == TileLayersOf(ls[1..]);
    }
  }

  // ---------------------------------------------------------------------
  // Tiles

  /** The tiles of one tileset under their global ids: the first gid plus the local id. */
  function Globalise(ts: Tileset): (r: seq<(int, TmxTile)>)
    ensures |r| == |ts.tiles|
    ensures forall i :: 0 <= i < |r| ==> r[i] == (ts.tiles[i].0 + ts.firstGid, ts.tiles[i].1)
  {
    seq(|ts.tiles|, i requires 0 <= i < |ts.tiles| => (ts.tiles[i].0 + ts.firstGid, ts.tiles[i].1))
  }

  /** The tiles of every tileset under their global ids, in file order. */
  function GlobalTiles(sets: seq<Tileset>): seq<(int, TmxTile)>
  {
    if sets == [] then [] else Globalise(sets[0]) + GlobalTiles(sets[1..])
  }

  /** The global ids that occur among the entries. */
  function Gids(entries: seq<(int, TmxTile)>): (r: set<int>)
    ensures forall i :: 0 <= i < |entries| ==> entries[i].0 in r
  {
    if entries == [] then {} else {entries[0].0} + Gids(entries[1..])
  }

  /** The tile of the first entry with id `k`. */
  function FirstTile(entries: seq<(int, TmxTile)>, k: int): TmxTile
    requires k in Gids(entries)
  {
    if entries[0].0 == k then entries[0].1 else FirstTile(entries[1..], k)
  }

  /**
   * The tileset loop of `LoadDataTMX`: each global id not yet known is
   * stored with its tile, and the largest image width and height seen are
   * kept.
   */
  function CollectTiles(mapTiles: map<int, TmxTile>, maxW: int, maxH: int, entries: seq<(int, TmxTile)>): (r: (map<int, TmxTile>, int, int))
    ensures maxW <= r.1 && maxH <= r.2
    ensures forall i :: 0 <= i < |entries| ==> entries[i].1.width <= r.1 && entries[i].1.height <= r.2
    decreases |entries|
  {
    if entries == [] then (mapTiles, maxW, maxH)
    else
      var (gid, tile) := entries[0];
      var m := if gid !in mapTiles then mapTiles[gid := tile] else mapTiles;
      var r := CollectTiles(m, if tile.width > maxW then tile.width else maxW,
                            if tile.height > maxH then tile.height else maxH, entries[1..]);
      assert forall i :: 1 <= i < |entries| ==> entries[i] == entries[1..][i - 1];
      r
  }

  /**
   * The collected map holds the old ids and every id of the entries; an
   * old id keeps its tile, and a new one holds the first tile listed with
   * it.
   */
  lemma {:induction false} CollectedTiles(mapTiles: map<int, TmxTile>, maxW: int, maxH: int, entries: seq<(int, TmxTile)>)
    ensures var r := CollectTiles(mapTiles, maxW, maxH, entries);
      && r.0.Keys == mapTiles.Keys + Gids(entries)
      && (forall k :: k in mapTiles ==> r.0[k] == mapTiles[k])
      && (forall k :: k in r.0 && k !in mapTiles ==> r.0[k] == FirstTile(entries, k))
    decreases |entries|
  {
    if entries != [] {
      var (gid, tile) := entries[0];
      var m := if gid !in mapTiles then mapTiles[gid := tile] else mapTiles;
      CollectedTiles(m, if tile.width > maxW then tile.width else maxW,
                     if tile.height > maxH then tile.height else maxH, entries[1..]);
    }
  }

  /** Every tile of the map is no wider than `maxW` and no taller than `maxH`. */
  predicate SizesBounded(mapTiles: map<int, TmxTile>, maxW: int, maxH: int)
  {
    forall k :: k in mapTiles ==> mapTiles[k].width <= maxW && mapTiles[k].height <= maxH
  }

  /** Every collected tile is no wider and no taller than the collected maxima. */
  lemma CollectedSizesBounded(mapTiles: map<int, TmxTile>, maxW: int, maxH: int, entries: seq<(int, TmxTile)>)
    requires SizesBounded(mapTiles, maxW, maxH)
    ensures var r := CollectTiles(mapTiles, maxW, maxH, entries); SizesBounded(r.0, r.1, r.2)
  {
    var r := CollectTiles(mapTiles, maxW, maxH, entries);
    CollectedTiles(mapTiles, maxW, maxH, entries);
    forall k | k in r.0
      ensures r.0[k].width <= r.1 && r.0[k].height <= r.2
    {
      if k !in mapTiles {
        FirstTileListed(entries, k);
      }
    }
  }

  /** The first tile with an id is one of the entries. */
  lemma {:induction false} FirstTileListed(entries: seq<(int, TmxTile)>, k: int)
    requires k in Gids(entries)
    ensures exists i :: 0 <= i < |entries| && entries[i] == (k, FirstTile(entries, k))
  {
    if entries[0].0 != k {
      FirstTileListed(entries[1..], k);
      var i :| 0 <= i < |entries[1..]| && entries[1..][i] == (k, FirstTile(entries[1..], k));
      assert entries[i + 1] == entries[1..][i];
    } else {
      assert entries[0] == (k, FirstTile(entries, k));
    }
  }

  // ---------------------------------------------------------------------
  // Packing

  /** The keys are tiles of the map. */
  predicate KeysKnown(mapTiles: map<int, TmxTile>, keys: seq<int>)
  {
    forall i :: 0 <= i < |keys| ==> keys[i] in mapTiles
  }

  /** How far right of the cursor the `i`-th tile of `keys` starts: the widths of the tiles before it, each with its gap. */
  function Start(mapTiles: map<int, TmxTile>, keys: seq<int>, i: nat): int
    requires KeysKnown(mapTiles, keys) && i <= |keys|
  {
    if i == 0 then 0 else mapTiles[keys[0]].width + Gap + Start(mapTiles, keys[1..], i - 1)
  }

  /** The atlas entry of a tile placed at `x`. */
  function Placed(t: TmxTile, x: int): StaticTile
  {
    StaticTile(Vec2(t.width as real, t.height as real), Vec2(x as real, 0.0))
  }

  /**
   * The atlas loop of `LoadDataTMX`: in key order, a tile already in the
   * atlas is skipped; any other is placed at the cursor, which then moves
   * past it and the gap.
   */
  function Pack(mapTiles: map<int, TmxTile>, keys: seq<int>, placed: map<int, StaticTile>, newX: int): (r: (map<int, StaticTile>, int))
    requires KeysKnown(mapTiles, keys)
    decreases |keys|
  {
    if keys == [] then (placed, newX)
    else if keys[0] in placed then Pack(mapTiles, keys[1..], placed, newX)
    else
      var t := mapTiles[keys[0]];
      Pack(mapTiles, keys[1..], placed[keys[0] := Placed(t, newX)], newX + t.width + Gap)
  }

  /** `atlas` holds exactly the entries of `placed` and the keys, and keeps every entry of `placed`. */
  ghost predicate PackedOver(atlas: map<int, StaticTile>, placed: map<int, StaticTile>, keys: seq<int>)
  {
    && (forall k :: k in atlas <==> k in placed || k in keys)
    && (forall k :: k in placed ==> k in atlas && atlas[k] == placed[k])
  }

  /** Packing adds exactly the keys to the atlas and keeps every earlier entry. */
  lemma {:induction false} PackKeeps(mapTiles: map<int, TmxTile>, keys: seq<int>, placed: map<int, StaticTile>, newX: int)
    requires KeysKnown(mapTiles, keys)
    ensures PackedOver(Pack(mapTiles, keys, placed, newX).0, placed, keys)
    decreases |keys|
  {
    if keys != [] {
      var k0 := keys[0];
      var rest := keys[1..];
      assert forall k :: k in keys <==> k == k0 || k in rest by {
        assert keys == [k0] + rest;
      }
      if k0 in placed {
        PackKeeps(mapTiles, rest, placed, newX);
        assert Pack(mapTiles, keys, placed, newX) == Pack(mapTiles, rest, placed, newX);
      } else {
        var t := mapTiles[k0];
        var placed1 := placed[k0 := Placed(t, newX)];
        var newX1 := newX + t.width + Gap;
        PackKeeps(mapTiles, rest, placed1, newX1);
        var atlas := Pack(mapTiles, rest, placed1, newX1).0;
        assert Pack(mapTiles, keys, placed, newX).0 == atlas;
        assert PackedOver(atlas, placed1, rest);
        forall k | k in placed
          ensures k in atlas && atlas[k] == placed[k]
        {
          assert k in placed1 && placed1[k] == placed[k];
        }
      }
    }
  }

  /** Distinct keys, none placed yet. */
  predicate Fresh(keys: seq<int>, placed: map<int, StaticTile>)
  {
    (forall i, j :: 0 <= i < j < |keys| ==> keys[i] != keys[j])
    && forall i :: 0 <= i < |keys| ==> keys[i] !in placed
  }

  /**
   * Packing fresh tiles puts the `i`-th at the cursor plus the room the
   * ones before it take, and leaves the cursor past them all.
   */
  lemma {:induction false} PackLayout(mapTiles: map<int, TmxTile>, keys: seq<int>, placed: map<int, StaticTile>, newX: int)
    requires KeysKnown(mapTiles, keys) && Fresh(keys, placed)
    ensures var r := Pack(mapTiles, keys, placed, newX);
      LaidAt(r.0, mapTiles, keys, newX) && r.1 == newX + Start(mapTiles, keys, |keys|)
    decreases |keys|
  {
    PackKeeps(mapTiles, keys, placed, newX);
    if keys != [] {
      var k0 := keys[0];
      var t := mapTiles[k0];
      var rest := keys[1..];
      var placed1 := placed[k0 := Placed(t, newX)];
      FreshTail(keys, placed, Placed(t, newX));
      var newX1 := newX + t.width + Gap;
      PackLayout(mapTiles, rest, placed1, newX1);
      PackKeeps(mapTiles, rest, placed1, newX1);
      var r := Pack(mapTiles, keys, placed, newX);
      assert r == Pack(mapTiles, rest, placed1, newX1);
      LaidAtCons(r.0, mapTiles, keys, newX);
    }
  }

  /** Every key `keys[i]` holds its tile placed at `newX` plus the room of the keys before it. */
  predicate LaidAt(atlas: map<int, StaticTile>, mapTiles: map<int, TmxTile>, keys: seq<int>, newX: int)
    requires KeysKnown(mapTiles, keys)
  {
    forall i :: 0 <= i < |keys| ==>
      keys[i] in atlas && atlas[keys[i]] == Placed(mapTiles[keys[i]], newX + Start(mapTiles, keys, i))
  }

  /** Laid out from `newX`: the first key at `newX` and the rest from past it and the gap. */
  lemma LaidAtCons(atlas: map<int, StaticTile>, mapTiles: map<int, TmxTile>, keys: seq<int>, newX: int)
    requires KeysKnown(mapTiles, keys) && |keys| > 0
    requires keys[0] in atlas && atlas[keys[0]] == Placed(mapTiles[keys[0]], newX)
    requires LaidAt(atlas, mapTiles, keys[1..], newX + mapTiles[keys[0]].width + Gap)
    ensures LaidAt(atlas, mapTiles, keys, newX)
  {
    forall i | 0 <= i < |keys|
      ensures keys[i] in atlas && atlas[keys[i]] == Placed(mapTiles[keys[i]], newX + Start(mapTiles, keys, i))
    {
      if i > 0 {
        assert keys[i] == keys[1..][i - 1];
      }
    }
  }

  /** The tail of fresh keys is fresh after the head is placed. */
  lemma FreshTail(keys: seq<int>, placed: map<int, StaticTile>, s: StaticTile)
    requires Fresh(keys, placed) && |keys| > 0
    ensures Fresh(keys[1..], placed[keys[0] := s])
  {
    forall i | 0 <= i < |keys| - 1
      ensures keys[1..][i] !in placed[keys[0] := s]
    {
      assert keys[1..][i] == keys[i + 1];
    }
  }

  /** A later tile starts past an earlier one and its gap. */
  lemma {:induction false} StartGrows(mapTiles: map<int, TmxTile>, keys: seq<int>, i: nat, j: nat)
    requires KeysKnown(mapTiles, keys) && i < j <= |keys|
    ensures Start(mapTiles, keys, i) + mapTiles[keys[i]].width + Gap <= Start(mapTiles, keys, j)
    decreases i
  {
    if i == 0 {
      StartNonNegative(mapTiles, keys[1..], j - 1);
    } else {
      StartGrows(mapTiles, keys[1..], i - 1, j - 1);
    }
  }

  /** Widths are natural numbers, so no tile starts left of the cursor. */
  lemma {:induction false} StartNonNegative(mapTiles: map<int, TmxTile>, keys: seq<int>, i: nat)
    requires KeysKnown(mapTiles, keys) && i <= |keys|
    ensures Start(mapTiles, keys, i) >= 0
  {
    if i > 0 {
      StartNonNegative(mapTiles, keys[1..], i - 1);
    }
  }

  /** Tiles no wider than `maxW` take at most `maxW + Gap` each. */
  lemma {:induction false} StartBound(mapTiles: map<int, TmxTile>, keys: seq<int>, i: nat, maxW: int)
    requires KeysKnown(mapTiles, keys) && i <= |keys|
    requires forall k :: k in mapTiles ==> mapTiles[k].width <= maxW
    ensures Start(mapTiles, keys, i) <= i * (maxW + Gap)
  {
    if i > 0 {
      StartBound(mapTiles, keys[1..], i - 1, maxW);
    }
  }

  /** `maxTileWidth * mapTiles.size() + 3 * mapTiles.size()`: the atlas width. */
  function AtlasWidth(maxW: int, count: nat): int
  {
    maxW * count + Gap * count
  }

  /** Every tile of the map packed in ascending id order, skipping those already in the atlas. */
  ghost function PackAtlas(mapTiles: map<int, TmxTile>, placed: map<int, StaticTile>): map<int, StaticTile>
  {
    Pack(mapTiles, AscendingKeys(mapTiles.Keys), placed, 0).0
  }

  /** Atlas entry `s` sits in the top row, at or right of the origin, and ends by `width`. */
  predicate FitsWithin(s: StaticTile, width: real)
  {
    0.0 <= s.imagePos.x && s.imagePos.x + s.imageSize.x <= width && s.imagePos.y == 0.0
  }

  /** The `i`-th fresh tile packed from the origin has its own size and fits in the atlas. */
  lemma PackedEntryFits(mapTiles: map<int, TmxTile>, keys: seq<int>, maxW: int, i: nat)
    requires KeysKnown(mapTiles, keys) && Fresh(keys, map[]) && i < |keys|
    requires forall k :: k in mapTiles ==> mapTiles[k].width <= maxW
    ensures var atlas := Pack(mapTiles, keys, map[], 0).0;
      keys[i] in atlas && atlas[keys[i]] == Placed(mapTiles[keys[i]], Start(mapTiles, keys, i))
      && FitsWithin(atlas[keys[i]], AtlasWidth(maxW, |keys|) as real)
  {
    PackLayout(mapTiles, keys, map[], 0);
    StartBound(mapTiles, keys, |keys|, maxW);
    StartGrows(mapTiles, keys, i, |keys|);
    StartNonNegative(mapTiles, keys, i);
    assert |keys| * (maxW + Gap) == AtlasWidth(maxW, |keys|);
  }

  /** Of two fresh tiles packed from the origin, the earlier ends a gap before the later starts. */
  lemma PackedEntriesApart(mapTiles: map<int, TmxTile>, keys: seq<int>, i: nat, j: nat)
    requires KeysKnown(mapTiles, keys) && Fresh(keys, map[]) && i < j < |keys|
    ensures var atlas := Pack(mapTiles, keys, map[], 0).0;
      keys[i] in atlas && keys[j] in atlas
      && atlas[keys[i]].imagePos.x + atlas[keys[i]].imageSize.x + Gap as real <= atlas[keys[j]].imagePos.x
  {
    PackLayout(mapTiles, keys, map[], 0);
    StartGrows(mapTiles, keys, i, j);
  }

  /** `keys` lists the ids of `mapTiles` in ascending order. */
  predicate InKeyOrder(mapTiles: map<int, TmxTile>, keys: seq<int>)
  {
    && (forall i :: 0 <= i < |keys| ==> keys[i] in mapTiles)
    && (forall k :: k in mapTiles ==> k in keys)
    && (forall i, j :: 0 <= i < j < |keys| ==> keys[i] < keys[j])
  }

  /** One tile of the atlas packed in key order: its own size, inside the atlas width. */
  lemma AtlasEntryFits(mapTiles: map<int, TmxTile>, keys: seq<int>, maxW: int, k: int)
    requires InKeyOrder(mapTiles, keys) && |keys| == |mapTiles|
    requires forall k :: k in mapTiles ==> mapTiles[k].width <= maxW
    requires k in mapTiles
    ensures var atlas := Pack(mapTiles, keys, map[], 0).0;
      k in atlas && atlas[k].imageSize == Vec2(mapTiles[k].width as real, mapTiles[k].height as real)
      && FitsWithin(atlas[k], AtlasWidth(maxW, |mapTiles|) as real)
  {
    assert Fresh(keys, map[]);
    var i :| 0 <= i < |keys| && keys[i] == k;
    PackedEntryFits(mapTiles, keys, maxW, i);
  }

  /** Two tiles of the atlas packed in key order: the one with the smaller id ends a gap before the other starts. */
  lemma AtlasPairApart(mapTiles: map<int, TmxTile>, keys: seq<int>, a: int, b: int)
    requires InKeyOrder(mapTiles, keys)
    requires a in mapTiles && b in mapTiles && a < b
    ensures var atlas := Pack(mapTiles, keys, map[], 0).0;
      a in atlas && b in atlas && atlas[a].imagePos.x + atlas[a].imageSize.x + Gap as real <= atlas[b].imagePos.x
  {
    assert Fresh(keys, map[]);
    var i :| 0 <= i < |keys| && keys[i] == a;
    var j :| 0 <= j < |keys| && keys[j] == b;
    if i < j {
      PackedEntriesApart(mapTiles, keys, i, j);
    }
  }

  /**
   * Packing into an empty atlas places every tile of the map, each with
   * its own size, inside the atlas width; and a tile with a smaller id
   * ends at least a gap before one with a larger id starts, so no two
   * overlap.
   */
  lemma AtlasLayout(mapTiles: map<int, TmxTile>, maxW: int)
    requires forall k :: k in mapTiles ==> mapTiles[k].width <= maxW
    ensures var atlas := PackAtlas(mapTiles, map[]);
      && atlas.Keys == mapTiles.Keys
      && (forall k :: k in atlas ==> atlas[k].imageSize == Vec2(mapTiles[k].width as real, mapTiles[k].height as real))
      && (forall k :: k in atlas ==> FitsWithin(atlas[k], AtlasWidth(maxW, |mapTiles|) as real))
      && (forall a, b :: a in atlas && b in atlas && a < b ==>
            atlas[a].imagePos.x + atlas[a].imageSize.x + Gap as real <= atlas[b].imagePos.x)
  {
    var keys := AscendingKeys(mapTiles.Keys);
    assert InKeyOrder(mapTiles, keys);
    AtlasLayoutFor(mapTiles, keys, maxW);
  }

  /** `AtlasLayout` for any listing of the ids in ascending order. */
  lemma AtlasLayoutFor(mapTiles: map<int, TmxTile>, keys: seq<int>, maxW: int)
    requires InKeyOrder(mapTiles, keys) && |keys| == |mapTiles|
    requires forall k :: k in mapTiles ==> mapTiles[k].width <= maxW
    ensures var atlas := Pack(mapTiles, keys, map[], 0).0;
      && atlas.Keys == mapTiles.Keys
      && (forall k :: k in atlas ==> atlas[k].imageSize == Vec2(mapTiles[k].width as real, mapTiles[k].height as real))
      && (forall k :: k in atlas ==> FitsWithin(atlas[k], AtlasWidth(maxW, |mapTiles|) as real))
      && (forall a, b :: a in atlas && b in atlas && a < b ==>
            atlas[a].imagePos.x + atlas[a].imageSize.x + Gap as real <= atlas[b].imagePos.x)
  {
    PackKeeps(mapTiles, keys, map[], 0);
    var atlas := Pack(mapTiles, keys, map[], 0).0;
    assert atlas.Keys == mapTiles.Keys by {
      forall k
        ensures k in atlas <==> k in mapTiles
      {
        if k in keys {
          var i :| 0 <= i < |keys| && keys[i] == k;
        }
      }
    }
    forall k | k in mapTiles {
      AtlasEntryFits(mapTiles, keys, maxW, k);
    }
    forall a, b | a in mapTiles && b in mapTiles && a < b {
      AtlasPairApart(mapTiles, keys, a, b);
    }
  }
}

=== FILE: model/tilemaps.dfy ===
/**
 * `TileMap` and `TileMapLayer`: a map loaded from a TMX file, one
 * drawable entity per tile layer, and where each tile of a layer is
 * drawn. Drawing goes to raylib; the model returns the tiles that would
 * be drawn, with their grid cells, instead of drawing them.
 */
module Tilemaps {
  import opened Wrappers
  import opened Structs
  import opened Strings
  import opened CppInts
  import opened Topology
  import opened Entities
  import opened TileAtlas

  /** `baseDrawLayer`: a tilemap is drawn below entities on the default layer. */
  const BaseDrawLayer: int := -100

  /** The map's size in tiles, as the `(int)` casts of `mapSize` read it. */
  datatype GridSize = GridSize(columns: int, rows: int)

  /** A `TileMapLayer`: its entity and the tile id of every cell, row by row; 0 is an empty cell. */
  datatype MapLayer = MapLayer(entity: Id, tileIndexes: seq<int>)

  /**
   * The state of a `TileMap` beyond its entity: the layers read from the
   * file under their numbers, the layer entities made from them, the tiles
   * of the tilesets under their global ids, the atlas entry of each tile
   * and the atlas size, and the map and tile sizes.
   */
  datatype TileMap = TileMap(
    layers: map<int, seq<int>>,
    tileLayers: seq<MapLayer>,
    mapTiles: map<int, TmxTile>,
    staticMapTiles: map<int, StaticTile>,
    atlasSize: (int, int),
    mapSize: GridSize,
    tileSize: Vec2)

  /** A map with nothing loaded. The sizes are uninitialised in the engine; they read as zero here. */
  const EmptyTileMap: TileMap := TileMap(map[], [], map[], map[], (0, 0), GridSize(0, 0), Zero)

  /**
   * `TileMap()` and `TileMap(name)`: a fresh root entity of type TILEMAP
   * on the base draw layer, named `name` or, when that is empty,
   * "TileMap" and its id; nothing is loaded yet.
   */
  function NewTileMap(w: World, name: string := ""): (r: (World, Id, TileMap))
    ensures r.1 == w.entityCount && r.0.entityCount == w.entityCount + 1
    ensures r.1 in r.0.tree.ents && r.1 in r.0.tree.links && r.0.tree.links[r.1] == Link(None, [])
    ensures var e := r.0.tree.ents[r.1];
      && e.kind == TILEMAP && e.drawLayer == BaseDrawLayer
      && e.name == (if name != "" then name else "TileMap" + NatToString(r.1))
    ensures r.2 == EmptyTileMap
    ensures forall k :: k in w.tree.ents && k != r.1 ==> k in r.0.tree.ents && r.0.tree.ents[k] == w.tree.ents[k]
  {
    var (w1, id) := Construct(w);
    var e := w1.tree.ents[id];
    var n := if name != "" then name else "TileMap" + NatToString(id);
    (UpdateEntity(w1, id, e.(kind := TILEMAP, name := n, drawLayer := BaseDrawLayer)), id, EmptyTileMap)
  }

  // ---------------------------------------------------------------------
  // Layer entities

  /**
   * The loop of `SetupLayers` over `keys`: each layer becomes a new
   * `TileMapLayer`, a plain default-constructed entity that is not a
   * child of the map, appended to `tileLayers`.
   */
  function AddLayers(w: World, tileLayers: seq<MapLayer>, layers: map<int, seq<int>>, keys: seq<int>): (r: (World, seq<MapLayer>))
    requires forall i :: 0 <= i < |keys| ==> keys[i] in layers
    ensures r.0.entityCount == w.entityCount + |keys|
    ensures |r.1| == |tileLayers| + |keys| && r.1[..|tileLayers|] == tileLayers
    ensures forall i :: 0 <= i < |keys| ==> r.1[|tileLayers| + i] == MapLayer(w.entityCount + i, layers[keys[i]])
    decreases |keys|
  {
    if keys == [] then (w, tileLayers)
    else
      var (w1, id) := Construct(w);
      var r := AddLayers(w1, tileLayers + [MapLayer(id, layers[keys[0]])], layers, keys[1..]);
      assert forall i :: 1 <= i < |keys| ==> keys[i] == keys[1..][i - 1];
      r
  }

  /** Setting up layers creates one new root entity per layer, with the next free ids. */
  lemma {:induction false} AddLayersEntities(w: World, tileLayers: seq<MapLayer>, layers: map<int, seq<int>>, keys: seq<int>)
    requires forall i :: 0 <= i < |keys| ==> keys[i] in layers
    ensures NewLayersFrom(AddLayers(w, tileLayers, layers, keys).0, w.entityCount, |keys|)
    decreases |keys|
  {
    if keys != [] {
      var (w1, id) := Construct(w);
      var tileLayers1 := tileLayers + [MapLayer(id, layers[keys[0]])];
      var r := AddLayers(w1, tileLayers1, layers, keys[1..]);
      assert AddLayers(w, tileLayers, layers, keys) == r;
      AddLayersEntities(w1, tileLayers1, layers, keys[1..]);
      AddLayersKeeps(w1, tileLayers1, layers, keys[1..]);
      assert NewLayerEntity(w1, id);
      assert NewLayerEntity(r.0, id);
    }
  }

  /** `w1` holds every entity of `w` with an id below `bound`, unchanged. */
  predicate KeepsBelow(w: World, w1: World, bound: int)
  {
    && (forall k :: k in w.tree.ents && k < bound ==> k in w1.tree.ents && w1.tree.ents[k] == w.tree.ents[k])
    && (forall k :: k in w.tree.links && k < bound ==> k in w1.tree.links && w1.tree.links[k] == w.tree.links[k])
  }

  /** Setting up layers leaves every entity that is not one of the new layers as it was. */
  lemma {:induction false} AddLayersKeeps(w: World, tileLayers: seq<MapLayer>, layers: map<int, seq<int>>, keys: seq<int>)
    requires forall i :: 0 <= i < |keys| ==> keys[i] in layers
    ensures KeepsBelow(w, AddLayers(w, tileLayers, layers, keys).0, w.entityCount)
    decreases |keys|
  {
    if keys != [] {
      var (w1, id) := Construct(w);
      var tileLayers1 := tileLayers + [MapLayer(id, layers[keys[0]])];
      AddLayersKeeps(w1, tileLayers1, layers, keys[1..]);
      assert AddLayers(w, tileLayers, layers, keys) == AddLayers(w1, tileLayers1, layers, keys[1..]);
    }
  }

  /** A layer entity as `SetupLayers` leaves it: a root of type BASE on draw layer 0. */
  predicate NewLayerEntity(w: World, id: Id)
  {
    && id in w.tree.ents && id in w.tree.links
    && w.tree.links[id] == Link(None, [])
    && w.tree.ents[id].kind == BASE && w.tree.ents[id].drawLayer == 0
  }

  /** The `n` entities from id `from` on are layer entities as `SetupLayers` leaves them. */
  predicate NewLayersFrom(w: World, from: nat, n: nat)
  {
    forall id :: from <= id < from + n ==> NewLayerEntity(w, id)
  }

  /** `SetupLayers()`: one new layer entity for each layer, in ascending layer number. */
  ghost function SetupLayers(w: World, tm: TileMap): (r: (World, TileMap))
  {
    var keys := AscendingKeys(tm.layers.Keys);
    var (w1, tileLayers) := AddLayers(w, tm.tileLayers, tm.layers, keys);
    (w1, tm.(tileLayers := tileLayers))
  }

  const LayerIndexOutOfBounds: string := " Layer index is out of bounds"

  /**
   * `SetDrawLayerForMapLayer(i, d)`: a debug assertion that `i` is below
   * the number of layers, compared as `size_t` so that a negative `i`
   * fails too; then the layer's own draw layer becomes `d`.
   */
  function SetDrawLayerForMapLayer(w: World, tm: TileMap, layerIndex: int, newLayerDrawIndex: int): (r: Result<World>)
    requires IsInt32(layerIndex)
    ensures r.Ok? <==> ToSizeT(layerIndex) < |tm.tileLayers| && tm.tileLayers[ToSizeT(layerIndex)].entity in w.tree.ents
    ensures 0 <= layerIndex < |tm.tileLayers| && tm.tileLayers[layerIndex].entity in w.tree.ents ==> r.Ok?
    ensures layerIndex < 0 && |tm.tileLayers| <= INT32_MAX ==> r.Crash?
    ensures !r.Throw?
    ensures r.Ok? ==> var id := tm.tileLayers[ToSizeT(layerIndex)].entity;
      && r.value.tree.links == w.tree.links && r.value.entityCount == w.entityCount
      && id in r.value.tree.ents && r.value.tree.ents[id].drawLayer == newLayerDrawIndex
      && r.value.tree.ents == w.tree.ents[id := w.tree.ents[id].(drawLayer := newLayerDrawIndex)]
  {
    if ToSizeT(layerIndex) >= |tm.tileLayers| then Crash(LayerIndexOutOfBounds)
    else
      var id := tm.tileLayers[ToSizeT(layerIndex)].entity;
      if id !in w.tree.ents then Crash(Dangling)
      else Ok(UpdateEntity(w, id, w.tree.ents[id].(drawLayer := newLayerDrawIndex)))
  }

  /**
   * A layer is not a child of its map, so the draw layer it is sorted by
   * is exactly the one set for it, whatever the map's own draw layer.
   */
  lemma LayerDrawLayerIsOwn(w: World, tm: TileMap, layerIndex: int, newLayerDrawIndex: int)
    requires IsInt32(layerIndex) && 0 <= layerIndex < |tm.tileLayers|
    requires Shaped(w.tree)
    requires var id := tm.tileLayers[layerIndex].entity; id in w.tree.links && w.tree.links[id].parent.None?
    ensures var r := SetDrawLayerForMapLayer(w, tm, layerIndex, newLayerDrawIndex);
      r.Ok? && Shaped(r.value.tree) && GetDrawLayer(r.value.tree, tm.tileLayers[layerIndex].entity) == newLayerDrawIndex
  {
    var r := SetDrawLayerForMapLayer(w, tm, layerIndex, newLayerDrawIndex);
    assert r.value.tree.links == w.tree.links;
    assert r.value.tree.ents.Keys == w.tree.ents.Keys;
  }

  /**
   * Layer `i` is a new root entity with the `i`-th id free in `w`,
   * holding the ids of layer `keys[i]`.
   */
  predicate LaidOut(w: World, w1: World, tileLayers: seq<MapLayer>, layers: map<int, seq<int>>, keys: seq<int>)
  {
    && |tileLayers| == |keys|
    && (forall i :: 0 <= i < |keys| ==> keys[i] in layers && tileLayers[i] == MapLayer(w.entityCount + i, layers[keys[i]]))
    && NewLayersFrom(w1, w.entityCount, |keys|)
  }

  /**
   * After `SetupLayers` on a map with no layer entities yet, layer `i` is
   * a fresh root entity with the `i`-th free id, holding the ids of the
   * `i`-th layer in ascending layer number.
   */
  lemma SetupLayersLayout(w: World, tm: TileMap)
    requires tm.tileLayers == []
    ensures var r := SetupLayers(w, tm);
      r.1.layers == tm.layers && LaidOut(w, r.0, r.1.tileLayers, tm.layers, AscendingKeys(tm.layers.Keys))
  {
    var keys := AscendingKeys(tm.layers.Keys);
    AddLayersLayout(w, tm.layers, keys);
  }

  /** `AddLayers` from no layer entities lays out the layers of `keys` in order. */
  lemma AddLayersLayout(w: World, layers: map<int, seq<int>>, keys: seq<int>)
    requires forall i :: 0 <= i < |keys| ==> keys[i] in layers
    ensures var a := AddLayers(w, [], layers, keys); LaidOut(w, a.0, a.1, layers, keys)
  {
    var a := AddLayers(w, [], layers, keys);
    AddLayersEntities(w, [], layers, keys);
    assert forall i :: 0 <= i < |keys| ==> a.1[0 + i] == MapLayer(w.entityCount + i, layers[keys[i]]);
  }

  /** Every layer `SetupLayers` made can be given a draw layer. */
  lemma SetupLayersThenSetDrawLayer(w: World, tm: TileMap, layerIndex: int, d: int)
    requires tm.tileLayers == []
    requires IsInt32(layerIndex) && 0 <= layerIndex < |tm.layers|
    ensures var r := SetupLayers(w, tm); SetDrawLayerForMapLayer(r.0, r.1, layerIndex, d).Ok?
  {
    SetupLayersLayout(w, tm);
    var r := SetupLayers(w, tm);
    LaidOutLayerLive(w, r.0, r.1.tileLayers, tm.layers, AscendingKeys(tm.layers.Keys), layerIndex);
  }

  /** Every laid-out layer's entity is live. */
  lemma LaidOutLayerLive(w: World, w1: World, tileLayers: seq<MapLayer>, layers: map<int, seq<int>>, keys: seq<int>, i: int)
    requires LaidOut(w, w1, tileLayers, layers, keys) && 0 <= i < |keys|
    ensures i < |tileLayers| && tileLayers[i].entity in w1.tree.ents
  {
    assert NewLayerEntity(w1, w.entityCount + i);
  }

  // ---------------------------------------------------------------------
  // Loading

  /** What tmxlite reads from a file: the size in tiles, the tile size, the layers and the tilesets. */
  datatype TmxMap = TmxMap(columns: int, rows: int, tileWidth: nat, tileHeight: nat, layers: seq<TmxLayer>, tilesets: seq<Tileset>)

  /**
   * `LoadDataTMX(path)` from what the file holds: the tile layers are
   * numbered from 0, the tiles of the tilesets are collected, every tile
   * not yet in the atlas is packed into it in ascending id order, the
   * atlas is as wide as the widest tile times the tile count plus a gap
   * per tile and as tall as the tallest tile, and the layer entities are
   * set up.
   */
  ghost function LoadDataTMX(w: World, tm: TileMap, data: TmxMap): (r: (World, TileMap))
  {
    var layers := LoadLayers(tm.layers, data.layers, 0);
    var (mapTiles, maxW, maxH) := CollectTiles(tm.mapTiles, 0, 0, GlobalTiles(data.tilesets));
    var tm1 := tm.(layers := layers, mapTiles := mapTiles, staticMapTiles := PackAtlas(mapTiles, tm.staticMapTiles),
                   atlasSize := (AtlasWidth(maxW, |mapTiles|), maxH),
                   mapSize := GridSize(data.columns, data.rows),
                   tileSize := Vec2(data.tileWidth as real, data.tileHeight as real));
    SetupLayers(w, tm1)
  }

  /** Loaded into no layers, the tile layers of a file are numbered 0, 1, … in file order. */
  lemma LoadedLayerNumbers(ls: seq<TmxLayer>)
    ensures LoadLayers(map[], ls, 0).Keys == Range(|TileLayersOf(ls)|)
    ensures NumberedFrom(LoadLayers(map[], ls, 0), TileLayersOf(ls))
  {
    LoadLayersNumbered(map[], ls, 0);
    NumberedFromZero(LoadLayers(map[], ls, 0), TileLayersOf(ls));
  }

  /** Numbered from 0 over no earlier layers: the keys are `0 … |t| - 1` and key `i` holds `t[i]`. */
  lemma NumberedFromZero(layers: map<int, seq<int>>, t: seq<seq<int>>)
    requires NumberedOver(layers, map[], t, 0)
    ensures layers.Keys == Range(|t|) && NumberedFrom(layers, t)
  {
    forall k
      ensures k in layers.Keys <==> k in Range(|t|)
    {
      assert k in layers <==> 0 <= k < |t|;
    }
    forall i | 0 <= i < |t|
      ensures i in layers && layers[i] == t[i]
    {
      assert layers[0 + i] == t[i];
    }
  }

  /** Layer `i` is a new root entity with the `i`-th id free in `w`, holding the ids of the `i`-th tile layer of a file. */
  predicate FileLaidOut(w: World, w1: World, tileLayers: seq<MapLayer>, t: seq<seq<int>>)
  {
    && |tileLayers| == |t|
    && (forall i :: 0 <= i < |t| ==> tileLayers[i] == MapLayer(w.entityCount + i, t[i]))
    && NewLayersFrom(w1, w.entityCount, |t|)
  }

  /**
   * Loading a file into a fresh map gives one layer entity per tile
   * layer of the file, in file order, each holding that layer's ids.
   */
  lemma LoadedMapLayers(w: World, data: TmxMap)
    ensures var r := LoadDataTMX(w, EmptyTileMap, data); FileLaidOut(w, r.0, r.1.tileLayers, TileLayersOf(data.layers))
  {
    var t := TileLayersOf(data.layers);
    var layers := LoadLayers(map[], data.layers, 0);
    var (mapTiles, maxW, maxH) := CollectTiles(map[], 0, 0, GlobalTiles(data.tilesets));
    var tm1 := EmptyTileMap.(layers := layers, mapTiles := mapTiles, staticMapTiles := PackAtlas(mapTiles, map[]),
                   atlasSize := (AtlasWidth(maxW, |mapTiles|), maxH),
                   mapSize := GridSize(data.columns, data.rows),
                   tileSize := Vec2(data.tileWidth as real, data.tileHeight as real));
    assert LoadDataTMX(w, EmptyTileMap, data) == SetupLayers(w, tm1);
    SetupLayersLayout(w, tm1);
    LoadedLayersInOrder(data.layers);
    var r := SetupLayers(w, tm1);
    LaidOutInOrder(w, r.0, r.1.tileLayers, layers, AscendingKeys(layers.Keys), t);
  }

  /** The layer numbers of a file, taken in ascending order, are `0, 1, …`, one per tile layer. */
  lemma LoadedLayersInOrder(ls: seq<TmxLayer>)
    ensures LayersInOrder(LoadLayers(map[], ls, 0), TileLayersOf(ls))
  {
    LoadedLayerNumbers(ls);
    RangeInOrder(LoadLayers(map[], ls, 0), TileLayersOf(ls));
  }

  /** Layers keyed by `0 … |t| - 1` and numbered from `t` are in order. */
  lemma RangeInOrder(layers: map<int, seq<int>>, t: seq<seq<int>>)
    requires layers.Keys == Range(|t|) && NumberedFrom(layers, t)
    ensures LayersInOrder(layers, t)
  {
    AscendingRange(|t|);
  }

  /** Ascending, the keys of `layers` are `0, 1, …`, one per layer of `t`, and each holds its layer of `t`. */
  ghost predicate LayersInOrder(layers: map<int, seq<int>>, t: seq<seq<int>>)
  {
    CountsUp(AscendingKeys(layers.Keys)) && |AscendingKeys(layers.Keys)| == |t| && NumberedFrom(layers, t)
  }

  /** Layer `i` of the map is the `i`-th of `t`. */
  predicate NumberedFrom(layers: map<int, seq<int>>, t: seq<seq<int>>)
  {
    forall i :: 0 <= i < |t| ==> i in layers && layers[i] == t[i]
  }

  /** Layers laid out under the keys `0, 1, …` are laid out in the order of the list they were numbered from. */
  lemma LaidOutInOrder(w: World, w1: World, tileLayers: seq<MapLayer>, layers: map<int, seq<int>>, keys: seq<int>, t: seq<seq<int>>)
    requires LaidOut(w, w1, tileLayers, layers, keys)
    requires CountsUp(keys) && |keys| == |t|
    requires NumberedFrom(layers, t)
    ensures FileLaidOut(w, w1, tileLayers, t)
  {
    forall i | 0 <= i < |t|
      ensures tileLayers[i] == MapLayer(w.entityCount + i, t[i])
    {
      assert keys[i] == i;
    }
  }

  /**
   * Loading a file into a fresh map puts every tile of its tilesets in
   * the atlas, each inside the atlas width and height, and each clear of
   * the next by the gap.
   */
  lemma LoadedMapAtlas(w: World, data: TmxMap)
    ensures var (w1, tm) := LoadDataTMX(w, EmptyTileMap, data);
      && tm.staticMapTiles.Keys == tm.mapTiles.Keys
      && (forall k :: k in tm.staticMapTiles ==> FitsWithin(tm.staticMapTiles[k], tm.atlasSize.0 as real))
      && (forall k :: k in tm.staticMapTiles ==> tm.staticMapTiles[k].imageSize.y <= tm.atlasSize.1 as real)
      && (forall a, b :: a in tm.staticMapTiles && b in tm.staticMapTiles && a < b ==>
            tm.staticMapTiles[a].imagePos.x + tm.staticMapTiles[a].imageSize.x + Gap as real <= tm.staticMapTiles[b].imagePos.x)
  {
    var entries := GlobalTiles(data.tilesets);
    var c := CollectTiles(map[], 0, 0, entries);
    var mapTiles, maxW, maxH := c.0, c.1, c.2;
    CollectedSizesBounded(map[], 0, 0, entries);
    AtlasLayout(mapTiles, maxW);
    var (w1, tm) := LoadDataTMX(w, EmptyTileMap, data);
    assert tm.staticMapTiles == PackAtlas(mapTiles, map[]) && tm.mapTiles == mapTiles;
    assert tm.atlasSize == (AtlasWidth(maxW, |mapTiles|), maxH);
  }

  // ---------------------------------------------------------------------
  // Where tiles are drawn

  /** A tile that is drawn: its position in the layer, its id, and its grid cell. */
  datatype PlacedTile = PlacedTile(position: nat, id: int, column: int, row: int)

  /** A label for the `std::out_of_range` that `std::map::at` throws for a missing key; the standard does not fix its text. */
  const MapAtMessage: string := "at: out of range"

  /** The cell of flat position `i`: column `i % columns`, row `i / rowDivisor`, both truncating. */
  function CellOf(i: nat, columns: int, rowDivisor: int): (int, int)
    requires columns != 0 && rowDivisor != 0
  {
    (Mod(i, columns), Div(i, rowDivisor))
  }

  /**
   * With the row taken as position divided by the number of columns,
   * the cell lies in the grid and reading it row by row gives the
   * position back, so no two positions share a cell.
   */
  lemma CellRoundTrip(i: nat, j: nat, columns: int)
    requires columns > 0
    ensures var (c, r) := CellOf(i, columns, columns);
      0 <= c < columns && 0 <= r && r * columns + c == i
    ensures CellOf(i, columns, columns) == CellOf(j, columns, columns) ==> i == j
  {
    CellDecodes(i, columns);
    CellDecodes(j, columns);
  }

  /** Truncating division and remainder of a position by a positive column count. */
  lemma CellDecodes(i: nat, columns: int)
    requires columns > 0
    ensures 0 <= Mod(i, columns) < columns && 0 <= Div(i, columns)
    ensures Div(i, columns) * columns + Mod(i, columns) == i
  {
    DivModSpec(i, columns);
    DivModNonNegative(i, columns);
  }

  /**
   * `TileMapLayer::Draw` takes the row as position divided by the number
   * of rows: in a map one column wide and two rows tall, the tiles at
   * positions 0 and 1 are both drawn in cell (0, 0).
   */
  lemma RowByRowsCollides()
    ensures CellOf(0, 1, 2) == CellOf(1, 1, 2) == (0, 0)
  {
  }

  /** The divisor of the row: the number of rows as written in `TileMapLayer::Draw`, the number of columns as intended. */
  function RowDivisor(grid: GridSize, intended: bool): int
  {
    if intended then grid.columns else grid.rows
  }

  /** The camera of a draw: where the layer is, the world-to-screen mapping, the zoom and the screen size. */
  datatype View = View(globalPos: Vec2, toScreen: Vec2 -> Vec2, zoom: real, screenSize: Vec2)

  /** The screen rectangle of a tile drawn in a cell. */
  function TileRect(view: View, tileSize: Vec2, column: int, row: int, tile: StaticTile): Rect
  {
    var world := Vec2(column as real * tileSize.x + view.globalPos.x, row as real * tileSize.y + view.globalPos.y);
    var s := view.toScreen(world);
    Rect(s.x, s.y, tile.imageSize.x * view.zoom, tile.imageSize.y * view.zoom)
  }

  /** The culling test of `TileMapLayer::Draw`. */
  predicate OnScreen(r: Rect, screenSize: Vec2)
  {
    r.x + r.width > 0.0 && r.x < screenSize.x && r.y + r.height > 0.0 && r.y < screenSize.y
  }

  /** The point lies strictly inside the rectangle. */
  predicate Inside(r: Rect, px: real, py: real)
  {
    r.x < px < r.x + r.width && r.y < py < r.y + r.height
  }

  /** For rectangles of positive size, the culling test keeps exactly those that share a point with the screen. */
  lemma OnScreenIffOverlaps(r: Rect, screenSize: Vec2)
    requires r.width > 0.0 && r.height > 0.0 && screenSize.x > 0.0 && screenSize.y > 0.0
    ensures OnScreen(r, screenSize) <==>
      exists px, py :: Inside(r, px, py) && Inside(Rect(0.0, 0.0, screenSize.x, screenSize.y), px, py)
  {
    if OnScreen(r, screenSize) {
      var lox := if r.x > 0.0 then r.x else 0.0;
      var hix := if r.x + r.width < screenSize.x then r.x + r.width else screenSize.x;
      var loy := if r.y > 0.0 then r.y else 0.0;
      var hiy := if r.y + r.height < screenSize.y then r.y + r.height else screenSize.y;
      var px := (lox + hix) / 2.0;
      var py := (loy + hiy) / 2.0;
      assert Inside(r, px, py) && Inside(Rect(0.0, 0.0, screenSize.x, screenSize.y), px, py);
    }
  }

  /** Position `i` ends a draw: a nonzero id missing from the tile table, or a zero divisor. */
  predicate FailsAt(indexes: seq<int>, info: map<int, StaticTile>, grid: GridSize, intended: bool, i: nat)
    requires i < |indexes|
  {
    indexes[i] != 0 && (indexes[i] !in info || grid.columns == 0 || RowDivisor(grid, intended) == 0)
  }

  /** Position `i` is the first that ends a draw. */
  predicate FirstFailure(indexes: seq<int>, info: map<int, StaticTile>, grid: GridSize, intended: bool, i: nat)
  {
    && i < |indexes| && FailsAt(indexes, info, grid, intended, i)
    && forall j :: 0 <= j < i ==> !FailsAt(indexes, info, grid, intended, j)
  }

  /** `t` is drawn: a nonzero id of the layer, in its cell, on screen. */
  predicate DrawnAt(indexes: seq<int>, info: map<int, StaticTile>, grid: GridSize, tileSize: Vec2, view: View, intended: bool, t: PlacedTile)
  {
    && t.position < |indexes| && t.id == indexes[t.position] && t.id != 0 && t.id in info
    && grid.columns != 0 && RowDivisor(grid, intended) != 0
    && (t.column, t.row) == CellOf(t.position, grid.columns, RowDivisor(grid, intended))
    && OnScreen(TileRect(view, tileSize, t.column, t.row, info[t.id]), view.screenSize)
  }

  /**
   * `TileMapLayer::Draw`: empty cells are skipped; a missing id throws
   * from `at`; a zero column or row count divides by zero; a tile whose
   * screen rectangle misses the screen is culled; every other tile is
   * drawn. The cursor moves on at every position. With `intended` the
   * row is computed from the number of columns.
   */
  method DrawLayer(layer: MapLayer, info: map<int, StaticTile>, grid: GridSize, tileSize: Vec2, view: View, intended: bool)
    returns (r: Result<seq<PlacedTile>>)
    ensures r.Ok? <==> forall i :: 0 <= i < |layer.tileIndexes| ==> !FailsAt(layer.tileIndexes, info, grid, intended, i)
    ensures !r.Ok? ==> exists i: nat :: FirstFailure(layer.tileIndexes, info, grid, intended, i) && (r.Throw? <==> layer.tileIndexes[i] !in info)
    ensures r.Ok? ==> forall t :: t in r.value <==> DrawnAt(layer.tileIndexes, info, grid, tileSize, view, intended, t)
    ensures r.Ok? ==> forall a, b :: 0 <= a < b < |r.value| ==> r.value[a].position < r.value[b].position
  {
    var indexes := layer.tileIndexes;
    var drawn: seq<PlacedTile> := [];
    var k := 0;
    var cursor: nat := 0;
    while k < |indexes|
      invariant 0 <= k <= |indexes| && cursor == k
      invariant forall j :: 0 <= j < k ==> !FailsAt(indexes, info, grid, intended, j)
      invariant forall t :: t in drawn <==> DrawnAt(indexes, info, grid, tileSize, view, intended, t) && t.position < k
      invariant forall a, b :: 0 <= a < b < |drawn| ==> drawn[a].position < drawn[b].position
      invariant forall a :: 0 <= a < |drawn| ==> drawn[a].position < k
    {
      var id := indexes[k];
      if id == 0 {
        cursor := cursor + 1;
        k := k + 1;
        continue;
      }
      if id !in info {
        assert FirstFailure(indexes, info, grid, intended, k);
        return Throw(MapAtMessage);
      }
      var tileInfo := info[id];
      if grid.columns == 0 || RowDivisor(grid, intended) == 0 {
        assert FirstFailure(indexes, info, grid, intended, k);
        return Crash(DivideByZero);
      }
      var (x, y) := CellOf(cursor, grid.columns, RowDivisor(grid, intended));
      if !OnScreen(TileRect(view, tileSize, x, y, tileInfo), view.screenSize) {
        cursor := cursor + 1;
        k := k + 1;
        continue;
      }
      drawn := drawn + [PlacedTile(cursor, id, x, y)];
      cursor := cursor + 1;
      k := k + 1;
    }
    return Ok(drawn);
  }

  /**
   * With the intended row, each drawn tile of a map with a positive
   * column count sits in the cell its position names, read row by row,
   * and no two drawn positions share a cell.
   */
  lemma IntendedDrawKeepsCellsApart(indexes: seq<int>, info: map<int, StaticTile>, grid: GridSize, tileSize: Vec2, view: View, t1: PlacedTile, t2: PlacedTile)
    requires grid.columns > 0
    requires DrawnAt(indexes, info, grid, tileSize, view, true, t1) && DrawnAt(indexes, info, grid, tileSize, view, true, t2)
    ensures 0 <= t1.column < grid.columns && t1.row * grid.columns + t1.column == t1.position
    ensures (t1.column, t1.row) == (t2.column, t2.row) ==> t1.position == t2.position
  {
    CellRoundTrip(t1.position, t2.position, grid.columns);
  }

  /** One pixel-sized tile, a camera that maps the world onto the screen as is, and a 10 by 10 screen. */
  const UnitTile: StaticTile := StaticTile(Vec2(1.0, 1.0), Zero)

  function Identity(p: Vec2): Vec2 { p }

  const PlainView: View := View(Zero, Identity, 1.0, Vec2(10.0, 10.0))

  /** The unit tile in cell (0, `row`) under the plain camera covers that cell, so rows 0 and 1 are on screen. */
  lemma UnitTileOnScreen(row: int)
    requires 0 <= row <= 1
    ensures OnScreen(TileRect(PlainView, Vec2(1.0, 1.0), 0, row, UnitTile), PlainView.screenSize)
  {
    assert TileRect(PlainView, Vec2(1.0, 1.0), 0, row, UnitTile) == Rect(0.0, row as real, 1.0, 1.0);
  }

  /**
   * A map one column wide and two rows tall with tile 1 in both cells:
   * as written both tiles are drawn in cell (0, 0).
   */
  lemma TallMapDrawsTwoTilesInOneCell()
    ensures forall position: nat :: position <= 1 ==>
      DrawnAt([1, 1], map[1 := UnitTile], GridSize(1, 2), Vec2(1.0, 1.0), PlainView, false, PlacedTile(position, 1, 0, 0))
  {
    forall position: nat | position <= 1 {
      TallMapDrawnAsWritten(position);
    }
  }

  /** As written, position 0 and position 1 of the tall map each land in cell (0, 0) on screen. */
  lemma TallMapDrawnAsWritten(position: nat)
    requires position <= 1
    ensures DrawnAt([1, 1], map[1 := UnitTile], GridSize(1, 2), Vec2(1.0, 1.0), PlainView, false, PlacedTile(position, 1, 0, 0))
  {
    var indexes: seq<int> := [1, 1];
    assert indexes[position] == 1;
    assert Div(position, 2) == 0;
    assert Mod(position, 1) == 0;
    assert CellOf(position, 1, 2) == (0, 0);
    UnitTileOnScreen(0);
  }

  /** The same map drawn with the intended row: the second tile is in cell (0, 1) and not in (0, 0). */
  lemma TallMapDrawsIntendedCells()
    ensures DrawnAt([1, 1], map[1 := UnitTile], GridSize(1, 2), Vec2(1.0, 1.0), PlainView, true, PlacedTile(1, 1, 0, 1))
    ensures !DrawnAt([1, 1], map[1 := UnitTile], GridSize(1, 2), Vec2(1.0, 1.0), PlainView, true, PlacedTile(1, 1, 0, 0))
  {
    UnitTileOnScreen(1);
    assert CellOf(1, 1, 1) == (0, 1);
  }

  /**
   * `TileMap::RenderLayer`, the map drawing all of a layer itself:
   * empty cells are skipped, the column and the row come from the number
   * of columns, a zero column count divides by zero before the tile is
   * looked up, a missing id throws from `at`, and there is no culling.
   * The table never holds a null entry, so the branch that would skip one
   * without moving the cursor is never taken and the cursor is the
   * position.
   */
  function RenderFrom(indexes: seq<int>, info: map<int, StaticTile>, columns: int, cursor: nat): (r: Result<seq<PlacedTile>>)
    requires cursor <= |indexes|
    decreases |indexes| - cursor
  {
    if cursor == |indexes| then Ok([])
    else
      var id := indexes[cursor];
      if id == 0 then RenderFrom(indexes, info, columns, cursor + 1)
      else if columns == 0 then Crash(DivideByZero)
      else if id !in info then Throw(MapAtMessage)
      else
        var (x, y) := CellOf(cursor, columns, columns);
        match RenderFrom(indexes, info, columns, cursor + 1)
        case Ok(rest) => Ok([PlacedTile(cursor, id, x, y)] + rest)
        case Throw(m) => Throw(m)
        case Crash(m) => Crash(m)
  }

  /** `t` is rendered by `RenderLayer` from position `from` on. */
  predicate RenderedAt(indexes: seq<int>, columns: int, from: nat, t: PlacedTile)
  {
    && from <= t.position < |indexes| && t.id == indexes[t.position] && t.id != 0
    && columns != 0 && (t.column, t.row) == CellOf(t.position, columns, columns)
  }

  /**
   * `RenderLayer` succeeds exactly when every nonzero id is in the table
   * and the column count is not zero (or the layer is empty of tiles); it
   * then renders every nonzero tile once, in its own cell, in order.
   */
  lemma {:induction false} RenderedTiles(indexes: seq<int>, info: map<int, StaticTile>, columns: int, from: nat)
    requires from <= |indexes|
    ensures var r := RenderFrom(indexes, info, columns, from);
      && (r.Ok? <==> forall i :: from <= i < |indexes| && indexes[i] != 0 ==> columns != 0 && indexes[i] in info)
      && (r.Ok? ==> forall t :: t in r.value <==> RenderedAt(indexes, columns, from, t))
      && (r.Ok? ==> forall a, b :: 0 <= a < b < |r.value| ==> r.value[a].position < r.value[b].position)
      && (r.Ok? ==> forall a :: 0 <= a < |r.value| ==> from <= r.value[a].position)
    decreases |indexes| - from
  {
    if from < |indexes| {
      RenderedTiles(indexes, info, columns, from + 1);
      var r := RenderFrom(indexes, info, columns, from);
      var rest := RenderFrom(indexes, info, columns, from + 1);
      if r.Ok? && indexes[from] != 0 {
        var t0 := PlacedTile(from, indexes[from], CellOf(from, columns, columns).0, CellOf(from, columns, columns).1);
        assert r.value == [t0] + rest.value;
        forall t
          ensures t in r.value <==> RenderedAt(indexes, columns, from, t)
        {
          if t.position == from {
            assert RenderedAt(indexes, columns, from, t) ==> t == t0;
          }
        }
      }
    }
  }

  /**
   * Culling aside, the layer's own draw with the intended row agrees with
   * the map's render: every tile `TileMapLayer::Draw` draws is one
   * `TileMap::RenderLayer` renders, in the same cell.
   */
  lemma DrawnTilesAreRendered(indexes: seq<int>, info: map<int, StaticTile>, grid: GridSize, tileSize: Vec2, view: View, t: PlacedTile)
    requires DrawnAt(indexes, info, grid, tileSize, view, true, t)
    ensures RenderFrom(indexes, info, grid.columns, 0).Ok? ==> t in RenderFrom(indexes, info, grid.columns, 0).value
  {
    RenderedTiles(indexes, info, grid.columns, 0);
  }
}

=== FILE: model/topology.dfy ===
/**
 * The shape of an entity tree: every entity has an optional parent and an
 * ordered child list. Both the `Entity2D` hierarchy and the newer `Node`
 * hierarchy keep this shape in two places (the child's back-pointer and
 * the parent's vector), so this module defines what it means for the two
 * to agree, what acyclicity means, and the intended effect of re-parenting.
 */
module Topology {
  import opened Wrappers

  /** An entity ID; the pointer to an entity is represented by its ID. */
  type Id = nat

  datatype Link = Link(parent: Option<Id>, children: seq<Id>)

  type Links = map<Id, Link>

  /**
   * The outcome of running one of the mutually recursive re-parenting
   * routines with a bound on the call depth: the resulting links, the bound
   * exhausted, or undefined behaviour.
   */
  datatype Run = Done(links: Links) | OutOfFuel | Fault(reason: string)

  const Dangling: string := "dereference of a dangling or null entity pointer"

  predicate NoDup(s: seq<Id>)
  {
    forall i, j :: 0 <= i < j < |s| ==> s[i] != s[j]
  }

  /** `vec.erase(std::find(vec.begin(), vec.end(), x))` when `x` is present: drop its first occurrence. */
  function Erase(s: seq<Id>, x: Id): (r: seq<Id>)
    ensures multiset(r) == multiset(s) - multiset{x}
    ensures x !in s ==> r == s
  {
    if |s| == 0 then s
    else
      assert s == [s[0]] + s[1..];
      if s[0] == x then s[1..]
      else [s[0]] + Erase(s[1..], x)
  }

  /** Erasing an element just appended to a list without it gives the list back. */
  lemma {:induction false} EraseAppended(s: seq<Id>, x: Id)
    requires x !in s
    ensures Erase(s + [x], x) == s
  {
    if |s| > 0 {
      assert (s + [x])[1..] == s[1..] + [x];
      EraseAppended(s[1..], x);
    }
  }

  /** Erasing `x` keeps every other element and, in a list without duplicates, removes `x` entirely. */
  lemma EraseFacts(s: seq<Id>, x: Id)
    ensures forall k :: k != x ==> (k in Erase(s, x) <==> k in s)
    ensures NoDup(s) ==> NoDup(Erase(s, x)) && x !in Erase(s, x)
  {
    var r := Erase(s, x);
    forall k | k != x
      ensures k in r <==> k in s
    {
      assert multiset(r)[k] == multiset(s)[k];
    }
    if NoDup(s) {
      EraseNoDup(s, x);
    }
  }

  /** In a list without duplicates, erasing `x` leaves no `x` and no duplicates. */
  lemma {:induction false} EraseNoDup(s: seq<Id>, x: Id)
    requires NoDup(s)
    ensures NoDup(Erase(s, x)) && x !in Erase(s, x)
  {
    if |s| > 0 {
      var tail := s[1..];
      NoDupTail(s);
      if s[0] != x {
        EraseNoDup(tail, x);
        var rest := Erase(tail, x);
        assert s[0] !in rest by {
          assert multiset(rest) == multiset(tail) - multiset{x};
          assert s[0] !in tail;
          assert multiset(tail)[s[0]] == 0;
          assert multiset(rest)[s[0]] == 0;
          assert s[0] !in multiset(rest);
        }
        NoDupCons(s[0], rest);
      } else {
        assert x !in tail;
      }
    }
  }

  /** The tail of a list without duplicates has none and does not hold the head. */
  lemma NoDupTail(s: seq<Id>)
    requires NoDup(s) && |s| > 0
    ensures NoDup(s[1..]) && s[0] !in s[1..]
  {
    forall i, j | 0 <= i < j < |s| - 1
      ensures s[1..][i] != s[1..][j]
    {
      assert s[1..][i] == s[i + 1] && s[1..][j] == s[j + 1];
    }
  }

  /** An element not in a list without duplicates can go in front of it. */
  lemma NoDupCons(a: Id, s: seq<Id>)
    requires NoDup(s) && a !in s
    ensures NoDup([a] + s)
  {
    forall i, j | 0 <= i < j < |s| + 1
      ensures ([a] + s)[i] != ([a] + s)[j]
    {
      assert ([a] + s)[j] == s[j - 1];
      if i > 0 {
        assert ([a] + s)[i] == s[i - 1];
      }
    }
  }

  // ---------------------------------------------------------------------
  // Agreement of back-pointers and child lists

  /** Every parent exists and lists its child. */
  predicate ParentsListed(l: Links)
  {
    forall k {:trigger l[k].parent} :: k in l && l[k].parent.Some? ==>
      l[k].parent.value in l && k in l[l[k].parent.value].children
  }

  /** Every listed child exists and points back at its parent. */
  predicate ChildrenPointBack(l: Links)
  {
    forall k, i :: k in l && 0 <= i < |l[k].children| ==>
      l[k].children[i] in l && l[l[k].children[i]].parent == Some(k)
  }

  predicate ChildListsDistinct(l: Links)
  {
    forall k :: k in l ==> NoDup(l[k].children)
  }

  /** Back-pointers and child lists describe the same edges, each once. */
  predicate Linked(l: Links)
  {
    ParentsListed(l) && ChildrenPointBack(l) && ChildListsDistinct(l)
  }

  // ---------------------------------------------------------------------
  // Acyclicity: every parent chain reaches a root

  /** The length of `id`'s parent chain, if it reaches a root within `fuel` steps. */
  function HeightFuel(l: Links, id: Id, fuel: nat): Option<nat>
    decreases fuel
  {
    if id !in l then None
    else match l[id].parent
      case None => Some(0)
      case Some(p) =>
        if fuel == 0 then None
        else match HeightFuel(l, p, fuel - 1)
          case None => None
          case Some(h) => Some(h + 1)
  }

  predicate Acyclic(l: Links)
  {
    forall id {:trigger HeightFuel(l, id, |l|)} :: id in l ==> HeightFuel(l, id, |l|).Some?
  }

  predicate Valid(l: Links)
  {
    Linked(l) && Acyclic(l)
  }

  lemma {:induction false} HeightFuelMonotone(l: Links, id: Id, f: nat, g: nat)
    requires f <= g && HeightFuel(l, id, f).Some?
    ensures HeightFuel(l, id, g) == HeightFuel(l, id, f)
    decreases f
  {
    match l[id].parent
    case None =>
    case Some(p) =>
      HeightFuelMonotone(l, p, f - 1, g - 1);
  }

  lemma {:induction false} HeightFuelBound(l: Links, id: Id, f: nat)
    requires HeightFuel(l, id, f).Some?
    ensures HeightFuel(l, id, f).value <= f
    decreases f
  {
    match l[id].parent
    case None =>
    case Some(p) =>
      HeightFuelBound(l, p, f - 1);
  }

  /** The number of ancestors of `id`. */
  function Height(l: Links, id: Id): (h: nat)
    requires Acyclic(l) && id in l
    ensures h <= |l|
  {
    HeightFuelBound(l, id, |l|);
    HeightFuel(l, id, |l|).value
  }

  /** A parent exists and sits one level nearer the root. */
  lemma ParentHeight(l: Links, id: Id)
    requires Acyclic(l) && id in l && l[id].parent.Some?
    ensures l[id].parent.value in l
    ensures Height(l, l[id].parent.value) + 1 == Height(l, id)
  {
    var p := l[id].parent.value;
    assert HeightFuel(l, id, |l|).Some?;
    HeightFuelMonotone(l, p, |l| - 1, |l|);
  }

  /** A listed child sits one level further from the root. */
  lemma ChildHeight(l: Links, id: Id, c: Id)
    requires Valid(l) && id in l && c in l[id].children
    ensures c in l && l[c].parent == Some(id)
    ensures Height(l, c) == Height(l, id) + 1
  {
    ParentHeight(l, c);
  }

  /** `a` is `k` or one of `k`'s ancestors. */
  predicate AncestorOrSelf(l: Links, a: Id, k: Id)
    requires Acyclic(l) && k in l
    decreases Height(l, k)
  {
    if k == a then true
    else match l[k].parent
      case None => false
      case Some(p) =>
        ParentHeight(l, k);
        AncestorOrSelf(l, a, p)
  }

  /** Ancestors are nearer the root, and the only ancestor at the same height is oneself. */
  lemma {:induction false} AncestorHeight(l: Links, a: Id, k: Id)
    requires Acyclic(l) && k in l && AncestorOrSelf(l, a, k)
    ensures a in l && Height(l, a) <= Height(l, k)
    ensures Height(l, a) == Height(l, k) ==> a == k
    decreases Height(l, k)
  {
    if k != a {
      var p := l[k].parent.value;
      ParentHeight(l, k);
      AncestorHeight(l, a, p);
    }
  }

  lemma {:induction false} AncestorTransitive(l: Links, a: Id, b: Id, k: Id)
    requires Acyclic(l) && k in l && AncestorOrSelf(l, b, k)
    requires b in l && AncestorOrSelf(l, a, b)
    ensures AncestorOrSelf(l, a, k)
    decreases Height(l, k)
  {
    if k != b {
      var p := l[k].parent.value;
      ParentHeight(l, k);
      AncestorTransitive(l, a, b, p);
    }
  }

  /** The ancestors of one entity form a chain. */
  lemma {:induction false} AncestorsComparable(l: Links, a: Id, b: Id, k: Id)
    requires Acyclic(l) && k in l && AncestorOrSelf(l, a, k) && AncestorOrSelf(l, b, k)
    ensures a in l && b in l
    ensures AncestorOrSelf(l, a, b) || AncestorOrSelf(l, b, a)
    decreases Height(l, k)
  {
    AncestorHeight(l, a, k);
    AncestorHeight(l, b, k);
    if k != a && k != b {
      var p := l[k].parent.value;
      ParentHeight(l, k);
      AncestorsComparable(l, a, b, p);
    }
  }

  /** A proper descendant of `a` lies below exactly one of `a`'s children. */
  lemma {:induction false} DescendantBelowChild(l: Links, a: Id, k: Id)
    requires Valid(l) && k in l && AncestorOrSelf(l, a, k) && k != a
    ensures a in l
    ensures exists i :: 0 <= i < |l[a].children| && AncestorOrSelf(l, l[a].children[i], k)
    decreases Height(l, k)
  {
    AncestorHeight(l, a, k);
    var p := l[k].parent.value;
    ParentHeight(l, k);
    assert k in l[p].children;
    if p == a {
      var i :| 0 <= i < |l[a].children| && l[a].children[i] == k;
      assert AncestorOrSelf(l, l[a].children[i], k);
    } else {
      DescendantBelowChild(l, a, p);
      var i :| 0 <= i < |l[a].children| && AncestorOrSelf(l, l[a].children[i], p);
      ChildHeight(l, a, l[a].children[i]);
      assert AncestorOrSelf(l, p, k);
      AncestorTransitive(l, l[a].children[i], p, k);
    }
  }

  /** Everything below a child of `a` is below `a`. */
  lemma ChildSubtreeBelow(l: Links, a: Id, c: Id, k: Id)
    requires Valid(l) && a in l && c in l[a].children && k in l && AncestorOrSelf(l, c, k)
    ensures AncestorOrSelf(l, a, k)
  {
    ChildHeight(l, a, c);
    assert AncestorOrSelf(l, a, c);
    AncestorTransitive(l, a, c, k);
  }

  /** Distinct children of one parent have disjoint subtrees. */
  lemma SiblingSubtreesDisjoint(l: Links, a: Id, i: nat, j: nat, k: Id)
    requires Valid(l) && a in l && i < j < |l[a].children| && k in l
    ensures !(AncestorOrSelf(l, l[a].children[i], k) && AncestorOrSelf(l, l[a].children[j], k))
  {
    var ci, cj := l[a].children[i], l[a].children[j];
    if AncestorOrSelf(l, ci, k) && AncestorOrSelf(l, cj, k) {
      ChildHeight(l, a, ci);
      ChildHeight(l, a, cj);
      AncestorsComparable(l, ci, cj, k);
      if AncestorOrSelf(l, ci, cj) {
        AncestorHeight(l, ci, cj);
      } else {
        AncestorHeight(l, cj, ci);
      }
      assert false;
    }
  }

  /** Heights computed in a tree stay the same when unrelated entries are added. */
  lemma {:induction false} HeightFuelExtend(l: Links, l2: Links, id: Id, f: nat)
    requires forall k :: k in l ==> k in l2 && l2[k] == l[k]
    requires HeightFuel(l, id, f).Some?
    ensures HeightFuel(l2, id, f) == HeightFuel(l, id, f)
    decreases f
  {
    match l[id].parent
    case None =>
    case Some(p) =>
      HeightFuelExtend(l, l2, p, f - 1);
  }

  /** A new entity with no parent and no children joins a valid tree as a root, leaving every height unchanged. */
  lemma AddRootValid(l: Links, id: Id)
    requires Valid(l) && id !in l
    ensures Valid(l[id := Link(None, [])])
    ensures forall k :: k in l ==> Height(l[id := Link(None, [])], k) == Height(l, k)
  {
    var l2 := l[id := Link(None, [])];
    forall k | k in l
      ensures HeightFuel(l2, k, |l2|) == HeightFuel(l, k, |l|)
    {
      assert HeightFuel(l, k, |l|).Some?;
      HeightFuelExtend(l, l2, k, |l|);
      HeightFuelMonotone(l2, k, |l|, |l2|);
    }
    assert HeightFuel(l2, id, |l2|) == Some(0);
    assert ParentsListed(l2) by {
      forall k | k in l2 && l2[k].parent.Some?
        ensures l2[k].parent.value in l2 && k in l2[l2[k].parent.value].children
      {
        assert l2[k] == l[k];
      }
    }
  }

  /** In an acyclic tree no entity is its own parent. */
  lemma NoSelfParent(l: Links, k: Id)
    requires Acyclic(l) && k in l
    ensures l[k].parent != Some(k)
  {
    if l[k].parent == Some(k) {
      ParentHeight(l, k);
    }
  }

  /** The chain from the topmost ancestor down to `id`, `id` last. */
  function Lineage(l: Links, id: Id): (r: seq<Id>)
    requires Acyclic(l) && id in l
    ensures |r| == Height(l, id) + 1 && r[|r| - 1] == id
    ensures forall i :: 0 <= i < |r| ==> r[i] in l
    decreases Height(l, id)
  {
    match l[id].parent
    case None => [id]
    case Some(p) =>
      ParentHeight(l, id);
      Lineage(l, p) + [id]
  }

  /** The subtree rooted at `id`, in pre-order: the entity, then each child's subtree in list order. */
  function PreOrder(l: Links, id: Id): (r: seq<Id>)
    requires Valid(l) && id in l
    ensures |r| >= 1 && r[0] == id
    decreases |l| + 1 - Height(l, id), 1
  {
    [id] + PreOrderAll(l, id, l[id].children)
  }

  function PreOrderAll(l: Links, parent: Id, cs: seq<Id>): seq<Id>
    requires Valid(l) && parent in l
    requires forall i :: 0 <= i < |cs| ==> cs[i] in l[parent].children
    decreases |l| + 1 - Height(l, parent), 0, |cs|
  {
    if |cs| == 0 then []
    else
      ChildHeight(l, parent, cs[0]);
      PreOrder(l, cs[0]) + PreOrderAll(l, parent, cs[1..])
  }

  // ---------------------------------------------------------------------
  // Intended re-parenting

  /**
   * Move `c` under `np` (or detach it when `np` is None): `c` leaves its old
   * parent's list, is appended once at the end of the new parent's list,
   * and its back-pointer becomes `np`.
   */
  function Reparent(l: Links, c: Id, np: Option<Id>): (r: Links)
    requires c in l && (np.Some? ==> np.value in l)
    ensures r.Keys == l.Keys
    ensures r[c].parent == np
  {
    map k | k in l :: Relinked(l, c, np, k)
  }

  /** The link of entity `k` after `c` moves under `np`. */
  function Relinked(l: Links, c: Id, np: Option<Id>, k: Id): Link
    requires k in l && c in l
  {
    var kept := if Some(k) == l[c].parent then Erase(l[k].children, c) else l[k].children;
    Link(if k == c then np else l[k].parent, if Some(k) == np then kept + [c] else kept)
  }

  /** What re-parenting does to each entity, stated entity by entity. */
  lemma ReparentEffect(l: Links, c: Id, np: Option<Id>, k: Id)
    requires ChildrenPointBack(l) && c in l && (np.Some? ==> np.value in l && np.value != c)
    requires l[c].parent != Some(c) && k in l
    ensures k != c && Some(k) != l[c].parent && Some(k) != np ==> Reparent(l, c, np)[k] == l[k]
    ensures Some(k) == l[c].parent && Some(k) != np ==>
              Reparent(l, c, np)[k] == l[k].(children := Erase(l[k].children, c))
    ensures Some(k) == np ==>
              Reparent(l, c, np)[k] == l[k].(children := Erase(l[k].children, c) + [c])
  {
    assert Reparent(l, c, np)[k] == Relinked(l, c, np, k);
    if Some(k) == np && Some(k) != l[c].parent {
      assert c !in l[k].children;
    }
  }

  lemma ReparentParentListed(l: Links, c: Id, np: Option<Id>, k: Id)
    requires ParentsListed(l) && c in l && (np.Some? ==> np.value in l && np.value != c)
    requires l[c].parent != Some(c)
    requires k in l && Reparent(l, c, np)[k].parent.Some?
    ensures var r := Reparent(l, c, np);
      r[k].parent.value in r && k in r[r[k].parent.value].children
  {
    var r := Reparent(l, c, np);
    assert r[k] == Relinked(l, c, np, k);
    if k != c {
      var q := l[k].parent.value;
      assert r[k].parent == l[k].parent;
      assert k in l[q].children;
      EraseFacts(l[q].children, c);
      assert r[q] == Relinked(l, c, np, q);
    } else {
      assert r[np.value] == Relinked(l, c, np, np.value);
    }
  }

  lemma ReparentChildPointsBack(l: Links, c: Id, np: Option<Id>, k: Id, x: Id)
    requires ChildrenPointBack(l) && ChildListsDistinct(l) && c in l && (np.Some? ==> np.value in l && np.value != c)
    requires l[c].parent != Some(c)
    requires k in l && x in Reparent(l, c, np)[k].children
    ensures var r := Reparent(l, c, np);
      x in r && r[x].parent == Some(k)
  {
    var r := Reparent(l, c, np);
    var kept := if Some(k) == l[c].parent then Erase(l[k].children, c) else l[k].children;
    assert r[k] == Relinked(l, c, np, k);
    assert r[k].children == if Some(k) == np then kept + [c] else kept;
    EraseFacts(l[k].children, c);
    if x != c {
      assert x in kept;
      assert x in l[k].children;
      assert l[x].parent == Some(k);
      assert r[x] == Relinked(l, c, np, x);
    }
  }

  lemma ReparentChildListDistinct(l: Links, c: Id, np: Option<Id>, k: Id)
    requires Linked(l) && c in l && (np.Some? ==> np.value in l && np.value != c)
    requires l[c].parent != Some(c)
    requires k in l
    ensures NoDup(Reparent(l, c, np)[k].children)
  {
    assert Reparent(l, c, np)[k] == Relinked(l, c, np, k);
    assert NoDup(l[k].children);
    EraseFacts(l[k].children, c);
    var kept := if Some(k) == l[c].parent then Erase(l[k].children, c) else l[k].children;
    if Some(k) == np {
      NoDupAppend(kept, c);
    }
  }

  /** Appending an element not yet listed keeps a list free of duplicates. */
  lemma NoDupAppend(s: seq<Id>, x: Id)
    requires NoDup(s) && x !in s
    ensures NoDup(s + [x])
  {
  }

  /** Re-parenting keeps back-pointers and child lists in agreement. */
  lemma ReparentLinked(l: Links, c: Id, np: Option<Id>)
    requires Linked(l) && c in l && (np.Some? ==> np.value in l && np.value != c)
    requires l[c].parent != Some(c)
    ensures Linked(Reparent(l, c, np))
  {
    var r := Reparent(l, c, np);
    assert ParentsListed(r) by {
      forall k | k in r && r[k].parent.Some?
        ensures r[k].parent.value in r && k in r[r[k].parent.value].children
      {
        ReparentParentListed(l, c, np, k);
      }
    }
    assert ChildrenPointBack(r) by {
      forall k, i | k in r && 0 <= i < |r[k].children|
        ensures r[k].children[i] in r && r[r[k].children[i]].parent == Some(k)
      {
        ReparentChildPointsBack(l, c, np, k, r[k].children[i]);
      }
    }
    assert ChildListsDistinct(r) by {
      forall k | k in r
        ensures NoDup(r[k].children)
      {
        ReparentChildListDistinct(l, c, np, k);
      }
    }
  }
}

=== FILE: model/triggers.dfy ===
/**
 * `Trigger2D`: a kinematic sensor body that keeps, by entity name, the
 * bodies currently overlapping it. Contacts reach it through the
 * collision entity's forwarders; a plain `PhysicsEntity` ignores them.
 */
module Triggers {
  import opened Wrappers
  import opened Structs
  import opened Topology
  import opened Collision

  /** A trigger: its collision state and `bodiesInTrigger`, entity name to the overlapping body. */
  datatype Trigger = Trigger(col: Collider, inArea: map<string, nat>)

  /** `InitBody(position)`: a kinematic body definition at `position`. */
  function InitBody(position: Vec2): (d: BodyDef)
    ensures d.kind == KinematicBody && d.position == position && d.userData.None?
  {
    BodyDef(KinematicBody, position, 0.0, None)
  }

  /** A fresh `b2FixtureDef` (density 0, friction 0.2, restitution 0) on `shape`, marked as a sensor. */
  function SensorFixture(shape: Shape): (fd: FixtureDef)
    ensures fd.isSensor && fd.shape == shape
  {
    FixtureDef(shape, 0.0, 0.2, 0.0, true)
  }

  /**
   * `Trigger2D::AddFixtureToBody`: created at once when there is a body,
   * otherwise buffered. Unlike `PhysicsEntity`, no filter is applied, so
   * a new fixture keeps Box2D's default filter.
   */
  function AddFixtureToBody(c: Collider, fd: FixtureDef): (r: Collider)
    ensures r.bodyDef == c.bodyDef && r.added == c.added && r.filter == c.filter
    ensures c.body.Some? ==> r.body == Some(c.body.value.(fixtures := c.body.value.fixtures + [Fixture(fd, DefaultFilter)]))
                             && r.pending == c.pending
    ensures c.body.None? ==> r.body.None? && r.pending == c.pending + [fd]
  {
    match c.body
    case Some(b) => c.(body := Some(b.(fixtures := b.fixtures + [Fixture(fd, DefaultFilter)])))
    case None => c.(pending := c.pending + [fd])
  }

  /** `Trigger2D(position, triggerOrigin, triggerSize)`: one buffered box sensor. */
  function NewRectTrigger(position: Vec2, origin: Vec2, size: Vec2): (tr: Trigger)
    ensures tr.col.bodyDef == InitBody(position) && tr.col.body.None? && tr.inArea == map[]
    ensures tr.col.pending == [SensorFixture(Box(size.x / 2.0, size.y / 2.0, origin, 0.0))]
  {
    Trigger(AddFixtureToBody(NewCollider(InitBody(position)), SensorFixture(Box(size.x / 2.0, size.y / 2.0, origin, 0.0))), map[])
  }

  /** `Trigger2D(position, triggerOrigin, radius)`: one buffered circle sensor. */
  function NewCircleTrigger(position: Vec2, origin: Vec2, radius: real): (tr: Trigger)
    ensures tr.col.bodyDef == InitBody(position) && tr.col.body.None? && tr.inArea == map[]
    ensures tr.col.pending == [SensorFixture(Circle(origin, radius))]
  {
    Trigger(AddFixtureToBody(NewCollider(InitBody(position)), SensorFixture(Circle(origin, radius))), map[])
  }

  /** `Trigger2D(position, triggerShape)`: the fixture definition it makes is never added, so the shape is unused. */
  function NewCustomTrigger(position: Vec2, shape: Shape): (tr: Trigger)
    ensures tr.col.bodyDef == InitBody(position) && tr.col.body.None? && tr.inArea == map[]
    ensures tr.col.pending == []
  {
    Trigger(NewCollider(InitBody(position)), map[])
  }

  /** The `AddFixtureToBody` loop of `OnRegister`. */
  function FlushFixtures(c: Collider, fds: seq<FixtureDef>): (r: Collider)
    requires c.body.Some?
    ensures r.body.Some? && r.pending == c.pending && r.filter == c.filter && r.added == c.added && r.bodyDef == c.bodyDef
    ensures r.body.value == c.body.value.(fixtures := r.body.value.fixtures)
    ensures r.body.value.fixtures == c.body.value.fixtures + seq(|fds|, i requires 0 <= i < |fds| => Fixture(fds[i], DefaultFilter))
    decreases |fds|
  {
    if |fds| == 0 then c
    else
      var r := FlushFixtures(AddFixtureToBody(c, fds[0]), fds[1..]);
      assert [Fixture(fds[0], DefaultFilter)] + seq(|fds| - 1, i requires 0 <= i < |fds| - 1 => Fixture(fds[1..][i], DefaultFilter))
          == seq(|fds|, i requires 0 <= i < |fds| => Fixture(fds[i], DefaultFilter));
      r
  }

  /**
   * `OnRegister(scene)`: user data `{entityID, name}`, body `bodyId`
   * created from the definition, buffered fixtures flushed in order, and
   * the buffer cleared.
   */
  function OnRegister(tr: Trigger, entityId: int, name: string, bodyId: nat): (r: Trigger)
    ensures r.inArea == tr.inArea && r.col.added && r.col.pending == [] && r.col.filter == tr.col.filter
    ensures r.col.body.Some? && r.col.body.value.bodyId == bodyId && r.col.body.value.kind == tr.col.bodyDef.kind
    ensures r.col.body.value.userData == Some(PhysicsEntityData(entityId, name))
    ensures |r.col.body.value.fixtures| == |tr.col.pending|
    ensures forall i :: 0 <= i < |tr.col.pending| ==>
      r.col.body.value.fixtures[i] == Fixture(tr.col.pending[i], DefaultFilter)
  {
    var def := tr.col.bodyDef.(userData := Some(PhysicsEntityData(entityId, name)));
    var body := Body(bodyId, def.kind, def.userData, def.position, def.angle, [], []);
    var flushed := FlushFixtures(tr.col.(bodyDef := def, body := Some(body), added := true), tr.col.pending);
    tr.(col := flushed.(pending := []))
  }

  /** The box and circle triggers are registered with exactly one sensor fixture, and the custom one with none. */
  lemma RegisteredSensors(position: Vec2, origin: Vec2, size: Vec2, radius: real, shape: Shape,
                          entityId: int, name: string, bodyId: nat)
    ensures var b := OnRegister(NewRectTrigger(position, origin, size), entityId, name, bodyId).col.body.value;
      b.kind == KinematicBody && |b.fixtures| == 1 && b.fixtures[0].def.isSensor
    ensures var b := OnRegister(NewCircleTrigger(position, origin, radius), entityId, name, bodyId).col.body.value;
      b.kind == KinematicBody && |b.fixtures| == 1 && b.fixtures[0].def.isSensor
    ensures var b := OnRegister(NewCustomTrigger(position, shape), entityId, name, bodyId).col.body.value;
      b.kind == KinematicBody && b.fixtures == []
  {
  }

  /** Trigger fixtures ignore the entity's filter until a filter setter runs. */
  lemma TriggerFixturesUnfiltered(tr: Trigger, entityId: int, name: string, bodyId: nat)
    ensures var r := OnRegister(tr, entityId, name, bodyId);
      forall i :: 0 <= i < |r.col.body.value.fixtures| ==> r.col.body.value.fixtures[i].filter == DefaultFilter
  {
  }

  // ---------------------------------------------------------------------
  // Overlaps

  /** `IsBodyInArea(name)`. */
  predicate IsBodyInArea(tr: Trigger, name: string)
  {
    name in tr.inArea
  }

  /** The identity of a contact side or of the trigger's own body; None stands for a null pointer. */
  function BodyIdOf(b: Option<Body>): Option<nat>
  {
    match b
    case Some(x) => Some(x.bodyId)
    case None => None
  }

  /** The contact side that is not the trigger's body: B when A is the trigger's, else A. */
  function OtherBody(tr: Trigger, c: Contact): Option<Body>
  {
    if BodyIdOf(c.bodyA) == BodyIdOf(tr.col.body) then c.bodyB else c.bodyA
  }

  /** The trigger's body is one of the contact's two. */
  predicate Participates(tr: Trigger, c: Contact)
  {
    BodyIdOf(c.bodyA) == BodyIdOf(tr.col.body) || BodyIdOf(c.bodyB) == BodyIdOf(tr.col.body)
  }

  const BodyEntered: string := "bodyEntered"
  const BodyExited: string := "bodyExited"

  /**
   * `BeginContact(contact)`: nothing when the trigger does not take
   * part. Otherwise the other body's entity name is added when it has
   * user data and is not present yet, and "bodyEntered" is sent either
   * way. Reading the user data of a null other body is undefined.
   */
  function BeginContact(tr: Trigger, c: Contact): (r: Result<(Trigger, seq<string>)>)
    ensures !Participates(tr, c) ==> r == Ok((tr, []))
    ensures Participates(tr, c) && OtherBody(tr, c).Some? ==> r.Ok? && r.value.1 == [BodyEntered]
    ensures r.Ok? ==> r.value.0.col == tr.col && tr.inArea.Keys <= r.value.0.inArea.Keys
    ensures r.Ok? ==> forall n :: n in tr.inArea ==> r.value.0.inArea[n] == tr.inArea[n]
    ensures r.Ok? ==> forall n :: n in r.value.0.inArea && n !in tr.inArea ==>
      Participates(tr, c) && OtherBody(tr, c).Some? && OtherBody(tr, c).value.userData.Some?
      && OtherBody(tr, c).value.userData.value.entityName == n && r.value.0.inArea[n] == OtherBody(tr, c).value.bodyId
  {
    if !Participates(tr, c) then Ok((tr, []))
    else match OtherBody(tr, c)
      case None => Crash(Dangling)
      case Some(other) =>
        match other.userData
        case Some(d) =>
          if d.entityName !in tr.inArea then Ok((tr.(inArea := tr.inArea[d.entityName := other.bodyId]), [BodyEntered]))
          else Ok((tr, [BodyEntered]))
        case None => Ok((tr, [BodyEntered]))
  }

  /**
   * `EndContact(contact)`: the other body's entity name is removed when it
   * has user data and is present, and "bodyExited" is sent. Whether the
   * trigger takes part is not checked.
   */
  function EndContact(tr: Trigger, c: Contact): (r: Result<(Trigger, seq<string>)>)
    ensures r.Ok? <==> OtherBody(tr, c).Some?
    ensures r.Ok? ==> r.value.1 == [BodyExited] && r.value.0.col == tr.col
    ensures r.Ok? ==> r.value.0.inArea == (match OtherBody(tr, c).value.userData
                                            case Some(d) => tr.inArea - {d.entityName}
                                            case None => tr.inArea)
  {
    match OtherBody(tr, c)
    case None => Crash(Dangling)
    case Some(other) =>
      match other.userData
      case Some(d) =>
        if d.entityName in tr.inArea then Ok((tr.(inArea := tr.inArea - {d.entityName}), [BodyExited]))
        else Ok((tr, [BodyExited]))
      case None => Ok((tr, [BodyExited]))
  }

  /** A body with user data that enters and then leaves a registered trigger is no longer in its area. */
  lemma EnterThenExit(tr: Trigger, me: Body, other: Body, d: PhysicsEntityData)
    requires tr.col.body == Some(me) && other.bodyId != me.bodyId && other.userData == Some(d)
    ensures var c := Contact(Some(other), Some(me));
      var b := BeginContact(tr, c);
      b.Ok? && IsBodyInArea(b.value.0, d.entityName)
      && EndContact(b.value.0, c).Ok? && !IsBodyInArea(EndContact(b.value.0, c).value.0, d.entityName)
  {
  }

  /**
   * Because `EndContact` does not check participation, a contact between
   * two other bodies still removes the name of its A side.
   */
  lemma EndContactIgnoresParticipation(tr: Trigger, me: Body, a: Body, b: Body, d: PhysicsEntityData)
    requires tr.col.body == Some(me) && a.bodyId != me.bodyId && b.bodyId != me.bodyId
    requires a.userData == Some(d) && d.entityName in tr.inArea
    ensures var c := Contact(Some(a), Some(b));
      !Participates(tr, c) && BeginContact(tr, c) == Ok((tr, []))
      && EndContact(tr, c).Ok? && !IsBodyInArea(EndContact(tr, c).value.0, d.entityName)
  {
  }

  // ---------------------------------------------------------------------
  // Forwarding

  /** The collision entities contacts are forwarded to. */
  datatype Listener = PhysicsListener(collider: Collider) | TriggerListener(trigger: Trigger)

  /** `CollisionStart(contact)`: the virtual `BeginContact`, empty for a physics entity. */
  function CollisionStart(l: Listener, c: Contact): (r: Result<(Listener, seq<string>)>)
    ensures l.PhysicsListener? ==> r == Ok((l, []))
    ensures l.TriggerListener? ==> r.Ok? == BeginContact(l.trigger, c).Ok?
    ensures l.TriggerListener? && r.Ok? ==> r.value == (TriggerListener(BeginContact(l.trigger, c).value.0), BeginContact(l.trigger, c).value.1)
  {
    match l
    case PhysicsListener(_) => Ok((l, []))
    case TriggerListener(tr) =>
      match BeginContact(tr, c)
      case Ok((t2, ev)) => Ok((TriggerListener(t2), ev))
      case Throw(m) => Throw(m)
      case Crash(m) => Crash(m)
  }

  /** `CollisionEnd(contact)`: the virtual `EndContact`, empty for a physics entity. */
  function CollisionEnd(l: Listener, c: Contact): (r: Result<(Listener, seq<string>)>)
    ensures l.PhysicsListener? ==> r == Ok((l, []))
    ensures l.TriggerListener? ==> r.Ok? == EndContact(l.trigger, c).Ok?
    ensures l.TriggerListener? && r.Ok? ==> r.value == (TriggerListener(EndContact(l.trigger, c).value.0), EndContact(l.trigger, c).value.1)
  {
    match l
    case PhysicsListener(_) => Ok((l, []))
    case TriggerListener(tr) =>
      match EndContact(tr, c)
      case Ok((t2, ev)) => Ok((TriggerListener(t2), ev))
      case Throw(m) => Throw(m)
      case Crash(m) => Crash(m)
  }

  /**
   * Delivering one contact start to every listener the tracker dispatches
   * to, in dispatch order; `listeners` maps each tracked entity to its
   * listener.
   */
  function DeliverStart(listeners: map<Id, Listener>, targets: seq<Id>, c: Contact): (r: Result<(map<Id, Listener>, seq<string>)>)
    ensures r.Ok? ==> r.value.0.Keys == listeners.Keys
    ensures r.Ok? ==> forall k :: k in listeners && k !in targets ==> r.value.0[k] == listeners[k]
    decreases |targets|
  {
    if |targets| == 0 then Ok((listeners, []))
    else
      var id := targets[0];
      if id !in listeners then Crash(Dangling)
      else match CollisionStart(listeners[id], c)
        case Ok((l2, ev)) =>
          (match DeliverStart(listeners[id := l2], targets[1..], c)
           case Ok((m, evs)) => Ok((m, ev + evs))
           case Throw(m) => Throw(m)
           case Crash(m) => Crash(m))
        case Throw(m) => Throw(m)
        case Crash(m) => Crash(m)
  }

  /** Physics entities are unaffected by contact delivery, whoever else is notified. */
  lemma {:induction false} DeliverStartSkipsPhysics(listeners: map<Id, Listener>, targets: seq<Id>, c: Contact, k: Id)
    requires k in listeners && listeners[k].PhysicsListener?
    ensures DeliverStart(listeners, targets, c).Ok? ==> DeliverStart(listeners, targets, c).value.0[k] == listeners[k]
    decreases |targets|
  {
    if |targets| > 0 && targets[0] in listeners {
      var id := targets[0];
      var s := CollisionStart(listeners[id], c);
      if s.Ok? {
        DeliverStartSkipsPhysics(listeners[id := s.value.0], targets[1..], c, k);
      }
    }
  }
}

=== FILE: model/wrappers.dfy ===
/** Failure-carrying values shared by every module of the model. */
module Wrappers {

  /** A pointer that may be null, or a lookup that may miss. */
  datatype Option<+T> = None | Some(value: T)
  {
    /** The value, or `default` when there is none. */
    function GetOr(default: T): (r: T)
      ensures this.Some? ==> r == value
      ensures this.None? ==> r == default
    {
      match this
      case Some(v) => v
      case None => default
    }
  }

  /**
   * The outcome of a C++ operation that may throw or may leave defined
   * behaviour.  `Throw` is a C++ exception the caller can catch; `Crash`
   * is undefined behaviour (a null dereference, an out-of-range read) or a
   * failed assertion in a debug build: after it the program is lost.
   */
  datatype Result<+T> =
    | Ok(value: T)
    | Throw(message: string)
    | Crash(reason: string)
}
